=== FILE: README.md ===
# convencao_coletiva — a verified model of the backend core

The system collects Brazilian collective labour agreements ("convenções
coletivas") from the Ministry of Labour's public registry (Mediador), stores
them, links each one to the companies of the users it concerns (same CNAE
activity code, same municipality, or a CNPJ mentioned in the text), and
notifies those users. A daily task warns users when an agreement they are
linked to is about to expire without a successor, the moment when a labour
dispute ("dissídio") may start.

This project models that backend core in Dafny, one module per source file:

- `Scraper` (the registry scraper: three discovery strategies for document
  ids, detail metadata, download), `MediadorApi` (the Mediador client: result
  table parsing, the text repair, paging), `DocumentProcessor` (text
  extraction from HTML and PDF, with the OCR fallback);
- `CollectorTask` and `CollectorEndpoint` (the two copies of the ingestion
  loop), `Intake` (the ingestion step they share), `Relevance` (the company
  association and notification rules they share);
- `DissidioAlerts` (the expiry sweep and its alerts), `Notifications`,
  `Companies`, `Convencoes`, `Dashboard`, `MediadorSearch` (the HTTP endpoints
  on the stored data);
- `Security` (bcrypt's 72-byte limit and password hashing), `Schemas`
  (CNPJ, CNAE and password validation), `Config` (the CORS origin list);
- shared support: `Common` (Option, HTTP-like responses), `Text` (the Python
  string operations used: strip, split, lower, digits), `Scan`, `Utf8`
  (UTF-8 encoding and decoding), `Sorting` (newest-first ordering and
  paging), `Store` (the database tables as a class whose fields the
  operations update).

Database tables are sequences in the `Store.Database` class; operations that
write to them are methods with `modifies` clauses proved against
specification functions of the old state. Everything the code gets from
outside (HTTP answers, parsed pages, the browser, PDF and OCR libraries,
date parsing, the clock, bcrypt) is a parameter: a function or a datatype of
the possible outcomes.

## Model

| member | source | states |
|---|---|---|
| Common.Take | backend/app/api/v1/endpoints/mediador_search.py:156-158 | the first `min(n, len)` elements of a list, i.e. Python's `xs[:n]`: exactly that many, and a prefix of the input |
| Text.Digits | backend/app/schemas/company.py:17 | `filter(str.isdigit, v)` over the ASCII digits: only digits remain, never longer than the input, a digit string is unchanged |
| Text.DigitsKeeps | backend/app/schemas/company.py:17 | every digit of the input is kept, in order: the digits of a string are those before any position, then the character there if it is a digit, then those after it |
| Text.RemoveChars | backend/app/services/mediador_api.py:80-83 | chained `.replace(c, '')`: none of the removed characters remains, never longer, unchanged when none occurs |
| Text.Lower | backend/app/api/v1/endpoints/convencoes.py:72-90 | `ilike`'s case folding: each character becomes its lower case (ASCII and Latin-1 capitals), one for one, so the length is kept |
| Text.Upper | backend/app/services/mediador_api.py:78 | `str.upper()` on ASCII and Latin-1: at least as long as the input and at most twice as long, exactly as long when the input has no `ß` (which becomes `SS`) |
| Text.UpperAppend | backend/app/services/mediador_api.py:78 | upper-casing works character by character: it distributes over concatenation |
| Text.UpperOfFixed | backend/app/services/mediador_api.py:78 | the upper case of one character (`SS` for `ß`, `Ÿ` for `ÿ`, `Μ` for `µ`) is already upper case |
| Text.UpperIdempotent | backend/app/services/mediador_api.py:75 | upper-casing twice equals upper-casing once |
| Text.RStrip | backend/app/core/config.py:28 | the result is a prefix ending in a non-space and only whitespace was removed |
| Text.LStrip | backend/app/core/config.py:28 | the result is a suffix starting with a non-space and only whitespace was removed |
| Text.Strip | backend/app/core/config.py:28 | `str.strip()`: the result has no whitespace at either end |
| Text.StripIsSlice | backend/app/core/config.py:28 | the stripped string is a contiguous slice of the input with only whitespace cut away on both sides |
| Text.StripIdempotent | backend/app/core/config.py:28 | stripping twice equals stripping once |
| Text.StripNoEdgeSpace | backend/app/core/config.py:28 | a string without whitespace at its ends is its own strip |
| Text.IndexOf | backend/app/services/scraper.py:181-184 | `str.find`: the first occurrence of the substring, or none iff it occurs nowhere |
| Text.SplitOn | backend/app/core/config.py:28 | `str.split(sep)`: joining the pieces with the separator gives the input back, and no piece contains the separator |
| Text.Lines | backend/app/services/document_processor.py:74 | `splitlines()`: no piece contains a line break and their concatenation is the input without its line breaks |
| Text.NatToString | backend/app/api/v1/endpoints/collector.py:206 | `str(n)` is a non-empty digit string |
| Text.NatToStringRoundTrip | backend/app/api/v1/endpoints/collector.py:206 | parsing `str(n)` gives n back, so the decimal rendering is injective |
| Text.LowerIdempotent | backend/app/api/v1/endpoints/convencoes.py:72-90 | lower-casing twice equals lower-casing once |
| Scan.FirstAt | backend/app/services/mediador_api.py:395 | the leftmost position satisfying a test, or none iff no position in the range does |
| Scan.RunLength | backend/app/services/mediador_api.py:395 | the maximal run of digits starting at a position |
| Scan.IdStart | backend/app/services/mediador_api.py:395 | the leftmost position where a digit run of at least four follows the required mark, or none iff there is none |
| Scan.SearchId | backend/app/services/mediador_api.py:395 | `re.search` of an id pattern: found iff a start exists, and the id is a run of at least four digits |
| Store.CompanyIndex | backend/app/api/v1/endpoints/companies.py:64-73 | the position of the company with the given id, or none iff no row has that id |
| Store.OwnedCompanyIndex | backend/app/api/v1/endpoints/companies.py:64-73 | the company with the given id AND the given owner, or none iff no such row exists (the owner filter behind each 404) |
| Store.UserCompanyIds | backend/app/api/v1/endpoints/dashboard.py:25-26 | exactly the ids of the companies the user owns |
| Store.AsVarchar | backend/alembic/versions/001_initial_migration.py:40-44 | PostgreSQL's `VARCHAR(n)` assignment: only a string whose characters past `n` are spaces is stored, cut to `min(len, n)` characters, a prefix, having dropped only spaces |
| Store.AsVarcharIdempotent | backend/alembic/versions/001_initial_migration.py:40-44 | a stored value fits again and is stored unchanged |
| Store.AsColumn | backend/alembic/versions/001_initial_migration.py:41-44 | a nullable column stores NULL as NULL and a fitting string as `VARCHAR(n)` does |
| Store.StoredCompany | backend/alembic/versions/001_initial_migration.py:40-44 | the row read back after the commit is within every column width, with the same id and owner, and a row already within them is unchanged |
| Utf8.Encode | backend/app/schemas/user.py:16 | `str.encode('utf-8')` is at least as long as the string |
| Utf8.Decode | backend/app/core/security.py:120-127 | `bytes.decode('utf-8')`: a successful decode is a string whose encoding is exactly the bytes |
| Utf8.DecodeFirstOfEncoding | backend/app/core/security.py:120-127 | decoding the encoding of a character followed by anything yields that character and its width |
| Utf8.EncodeCharInjective | backend/app/schemas/user.py:16 | different characters have different encodings |
| Utf8.DecodeEncode | backend/app/core/security.py:120-127 | decode after encode is the identity |
| Utf8.EncodeAppend | backend/app/schemas/user.py:16 | encoding distributes over concatenation |
| Utf8.EncodePrefix | backend/app/core/security.py:111-131 | a string whose encoding is a prefix of another's encoding is a character prefix of it |
| Utf8.PrefixEncoding | backend/app/core/security.py:111-131 | the encoding of a character prefix is a byte prefix of the encoding |
| Utf8.TruncateFits | backend/app/core/security.py:111-131 | the longest character prefix within n bytes fits in n bytes and one more character would not |
| Utf8.NoLongerDecodes | backend/app/core/security.py:120-127 | a byte prefix longer than that fitting character prefix but at most n bytes does not decode |
| Utf8.TruncateDecodes | backend/app/core/security.py:120-127 | the byte prefix of exactly that length decodes to the truncated string |
| Utf8.TruncateGap | backend/app/core/security.py:111-127 | cutting to n bytes and dropping trailing bytes stops within 3 bytes of n |
| Config.NonBlank | backend/app/core/config.py:28 | the comprehension's `if origin.strip()` filter never adds entries and keeps no empty one |
| Config.NonBlankSound | backend/app/core/config.py:28 | every kept entry is the cleaned form of some piece and non-empty, and every non-empty cleaned piece is kept |
| Config.CorsOriginsList | backend/app/core/config.py:19-28 | empty setting gives the default `http://localhost:3000`; valid JSON gives the parsed list |
| Config.FallbackOriginsClean | backend/app/core/config.py:26-28 | in the comma fallback every entry is non-empty, stripped and comma-free, and every non-blank stripped piece appears |
| Config.SingleOrigin | backend/app/core/config.py:26-28 | a single origin without commas yields exactly its stripped self |
| Config.StrippedPieceHasNoComma | backend/app/core/config.py:28 | a piece of a split on ',' has no comma even after stripping |
| Schemas.ValidateCnpj | backend/app/schemas/company.py:14-20 | accepted iff the input has exactly 14 digits, and then the value is those digits |
| Schemas.ValidateCnae | backend/app/schemas/company.py:22-30 | an empty or missing CNAE passes unchanged; otherwise accepted iff it has exactly 7 digits, and then the value is those digits |
| Schemas.DigitsIdempotent | backend/app/schemas/company.py:17 | keeping only digits twice equals once (likewise at line 26) |
| Schemas.CnpjNormalForm | backend/app/schemas/company.py:14-20 | validation depends only on the digits, and an accepted CNPJ validates to itself |
| Schemas.CnaeNormalForm | backend/app/schemas/company.py:22-30 | an accepted CNAE validates to itself |
| Schemas.FormattedCnae | backend/app/schemas/company.py:22-30 | the formatted CNAE `6201-5/01` is accepted as `6201501` |
| Schemas.ValidatePassword | backend/app/schemas/user.py:11-19 | accepted iff at least 8 characters and at most 72 UTF-8 bytes, and then unchanged |
| Schemas.AcceptedPasswordUntruncated | backend/app/schemas/user.py:11-19 | an accepted password reaches bcrypt unchanged (no truncation happens at hashing) |
| Schemas.EncodeRepeated | backend/app/schemas/user.py:15-17 | n copies of a character encode to n times its width |
| Schemas.MultiByteCharactersCountPerByte | backend/app/schemas/user.py:15-17 | 19 four-byte characters (76 bytes, 19 characters) are rejected: the bound counts bytes, not characters |
| Schemas.ValidateCompanyCreate | backend/app/schemas/company.py:7-30 | a company body is accepted iff both validators accept, and then carries their normalised values |
| Security.TruncatedIsLongestFittingPrefix | backend/app/core/security.py:100-131 | the password passed on is a character prefix of the original within 72 bytes, the original itself when it fits, one character more would not fit, and its bytes decode back to it |
| Security.ExtensionIgnored | backend/app/core/security.py:108-131 | a password of exactly 72 bytes reaches bcrypt identically however it is extended: everything past the limit is ignored |
| Security.CharsWithinFull | backend/app/core/security.py:108-131 | a prefix of exactly n bytes is exactly what fits in n bytes |
| Security.DecodeTruncated | backend/app/core/security.py:111-127 | the cut-to-72-then-drop-trailing-bytes loop always decodes, within 3 attempts, to the longest fitting character prefix |
| Security.DropTrailingChars | backend/app/core/security.py:137-146 | the drop-last-character loop ends with the longest character prefix within 72 bytes |
| Security.PrepareForHash | backend/app/core/security.py:99-178 | the whole truncation pipeline (including the fallback and emergency branches) yields the longest fitting prefix and at most 72 bytes for bcrypt |
| Security.GetPasswordHash | backend/app/core/security.py:94-195 | bcrypt hashes the truncated bytes; on a bcrypt failure passlib hashes the truncated string; with neither the call fails |
| Security.VerifyPassword | backend/app/core/security.py:32-91 | checkpw receives the same truncation as hashing; on failure passlib decides, and otherwise the answer is False, never an exception |
| Sorting.InsertPermutes | backend/app/api/v1/endpoints/convencoes.py:97 | inserting into a newest-first list keeps every element (multiset) |
| Sorting.InsertBound | backend/app/api/v1/endpoints/convencoes.py:97 | insertion keeps a common lower bound on the keys |
| Sorting.InsertSorted | backend/app/api/v1/endpoints/convencoes.py:97 | insertion keeps the list newest first |
| Sorting.SortNewestFirstCorrect | backend/app/api/v1/endpoints/convencoes.py:97 | `order_by(data_publicacao.desc())`: the result is newest first (missing dates first, as PostgreSQL orders NULLs in a descending sort) and a permutation of the input |
| Sorting.Page | backend/app/api/v1/endpoints/convencoes.py:96-97 | `offset(o).limit(n)`: exactly `min(n, len - min(o, len))` rows, the k-th being row `o + k` |
| Sorting.TopNewest | backend/app/api/v1/endpoints/notifications.py:29 | `order_by(desc).limit(n)`: newest first, `min(n, len)` rows drawn from the input, and any row left out means the limit was reached with rows no older than it |
| Sorting.SortedPage | backend/app/api/v1/endpoints/convencoes.py:95-97 | a sorted page is newest first, has the page length and holds only input rows |
| Sorting.Where | backend/app/api/v1/endpoints/notifications.py:21-27 | a `filter` keeps exactly the rows satisfying the condition, never more rows |
| Sorting.WhereNone | backend/app/api/v1/endpoints/convencoes.py:52-66 | a condition no row meets selects no row |
| Sorting.WhereSame | backend/app/api/v1/endpoints/convencoes.py:29-92 | conditions that agree on every row select the same rows |
| Sorting.PageOf | backend/app/api/v1/endpoints/convencoes.py:96 | every row position lies on exactly one page of `page_size` rows: at or after the page's offset and before the next |
| Sorting.PageHolding | backend/app/api/v1/endpoints/convencoes.py:96-97 | a page whose offset is at most `page_size` rows before a row holds that row |
| Sorting.WhereCount | backend/app/api/v1/endpoints/dashboard.py:46-49 | a filtered `count()` is the number of rows meeting the condition |
| Sorting.WhereStronger | backend/app/api/v1/endpoints/dashboard.py:46-64 | a stronger filter never counts more rows |
| Sorting.WhereUpdate | backend/app/api/v1/endpoints/notifications.py:77 | changing one row changes a filtered count by at most that row's membership change |
| Relevance.Score | backend/app/tasks/collector.py:169-179 | `calculate_relevancia_score` is 0, 50 or 100: 100 iff cnae, municipio and uf all agree, 0 iff neither the cnae nor the (municipio, uf) pair agrees |
| Relevance.CandidatesAgree | backend/app/api/v1/endpoints/companies.py:133-149 | the document-side query (tasks/collector.py:135-148) and the company-side query find the same pairs, and every candidate pair scores at least 50 |
| Relevance.DocumentLinks | backend/app/tasks/collector.py:132-166 | every link planned for a document points at it with score 50 or 100, and every candidate company (same cnae, or same municipio and uf) gets one |
| Relevance.DocumentLinksSound | backend/app/tasks/collector.py:134-163 | conversely, every link planned for a document is for one of its candidate companies and carries `calculate_relevancia_score` of that pair |
| Relevance.CompanyLinks | backend/app/api/v1/endpoints/companies.py:133-167 | every link planned for a company points at it with score 50 or 100, and every candidate document gets one |
| Relevance.CompanyLinksSound | backend/app/api/v1/endpoints/companies.py:135-165 | conversely, every link planned for a company is for one of its candidate documents and carries that pair's score |
| Relevance.AddMissingSound | backend/app/tasks/collector.py:151-164 | inserting after the existence check only appends planned links, keeps links unique, and afterwards every planned pair is linked |
| Relevance.HasLinkGrows | backend/app/tasks/collector.py:151-164 | a pair linked before appending stays linked |
| Relevance.AddMissingNoop | backend/app/tasks/collector.py:152-157 | when every planned pair is already linked nothing is inserted |
| Relevance.AddMissingIdempotent | backend/app/api/v1/endpoints/collector.py:42-55 | associating twice equals associating once: the second call adds nothing |
| Relevance.AddMissingScores | backend/app/api/v1/endpoints/companies.py:157-165 | every stored link keeps a score of 50 or 100 |
| Relevance.InsertMissingLinks | backend/app/tasks/collector.py:151-166 | the insertion loop leaves exactly the old links plus the missing planned ones, nothing else changes |
| Relevance.AssociateConvencaoToCompanies | backend/app/tasks/collector.py:132-166 | `associate_convencao_to_companies` (both copies) adds exactly the missing links of the document's candidates and keeps the store well formed |
| Relevance.AssociateConvencoesToCompany | backend/app/api/v1/endpoints/companies.py:133-167 | `associate_convencoes_to_company` adds exactly the missing links of the company's candidate documents and keeps the store well formed |
| Relevance.OwnersFromCorrect | backend/app/tasks/collector.py:189-193 | the owners collected from a document's links are distinct and are exactly the owners of its linked companies |
| Relevance.RowsArePositions | backend/app/tasks/collector.py:196-204 | appended notification rows continue the id numbering |
| Relevance.RowsShape | backend/app/tasks/collector.py:196-204 | the k-th new row is an unread NOVA_CONVENCAO for the k-th user about the document |
| Relevance.OneNotificationPerOwner | backend/app/tasks/collector.py:182-206 | one unread NOVA_CONVENCAO row per distinct owner of a linked company, never one per company |
| Relevance.CollectOwners | backend/app/api/v1/endpoints/collector.py:80-84 | the `user_ids` set-building loop yields the distinct linked owners |
| Relevance.GenerateNotifications | backend/app/api/v1/endpoints/collector.py:73-97 | `generate_notifications` appends exactly one row per distinct linked owner and changes nothing else |
| Intake.CappedText | backend/app/tasks/collector.py:95 | `texto[:1000000] if texto else None`: present iff the text is non-empty, a prefix of at most 1,000,000 characters, the whole text when it fits |
| Intake.RunAppends | backend/app/tasks/collector.py:44-119 | the id loop only appends records, each built for one of the ids, numbered in order and stamped with the time; companies and preferences are untouched |
| Intake.RunSettles | backend/app/tasks/collector.py:44-53 | after the loop every id is stored or is one the builder cannot build |
| Intake.RunOverSettled | backend/app/tasks/collector.py:47-53 | a loop over ids that are all stored (or unbuildable) writes nothing |
| Intake.RunIdempotent | backend/app/tasks/collector.py:44-119 | running the collection twice with the same sources equals running it once |
| Intake.StoredAfterRun | backend/app/tasks/collector.py:44-119 | every stored id was stored before or is a buildable id of the run |
| Intake.AppendKeepsWellFormed | backend/app/tasks/collector.py:100-102 | appending a record with a fresh id and fresh instrumento keeps ids positional and instrumento ids unique |
| Intake.AdmitDocument | backend/app/tasks/collector.py:100-108 | storing a record then associating and notifying updates exactly documents, links and notifications as specified |
| CollectorTask.TaskRecordRules | backend/app/tasks/collector.py:55-98 | a record is built only with metadata, a document URL and a download, and only when every date sent is one PostgreSQL reads (no date is silently dropped); type is CCT; the text is capped; status PROCESSADO iff text, else ERRO |
| CollectorTask.TaskBuilderKeyed | backend/app/tasks/collector.py:81-98 | every built record carries the id it was built for |
| CollectorTask.CollectConvencoesTask | backend/app/tasks/collector.py:27-129 | `collect_convencoes_task` leaves the store the id loop specifies and `new_count` is the number of records added |
| CollectorTask.TaskIdempotent | backend/app/tasks/collector.py:44-53 | a second run over the same ids adds nothing |
| CollectorTask.TaskAddsRecords | backend/app/tasks/collector.py:44-119 | old records are kept; each new record is for a listed id, type CCT, with URL and path, status tied to the text |
| CollectorEndpoint.Limited | backend/app/api/v1/endpoints/collector.py:154-155 | a truthy limit keeps `ids[:limit]` (Python slice semantics, including negative limits); None or 0 keeps all |
| CollectorEndpoint.EndpointBuilderKeyed | backend/app/api/v1/endpoints/collector.py:228-245 | every built record carries the id it was built for |
| CollectorEndpoint.ErrorsCount | backend/app/api/v1/endpoints/collector.py:162-264 | `error_count` counts exactly the ids that failed, and new plus errors never exceeds the ids processed |
| CollectorEndpoint.RunCollectionTask | backend/app/api/v1/endpoints/collector.py:136-275 | `run_collection_task` processes the limited ids as the shared loop specifies; `new_count` is the records added, `error_count` the failures, and at most one per id |
| CollectorEndpoint.CollectionIdempotent | backend/app/api/v1/endpoints/collector.py:165-171 | a second run over the same ids adds nothing |
| CollectorEndpoint.EndpointRecordRules | backend/app/api/v1/endpoints/collector.py:177-245 | a record needs metadata; titulo defaults to `Convenção {id}`, tipo to CCT; without a URL path, text and format are absent; status PROCESSADO iff text, else PROCESSANDO; dates come from the day-first parser |
| Companies.ListCompanies | backend/app/api/v1/endpoints/companies.py:47-54 | exactly the user's companies |
| Companies.GetCompany | backend/app/api/v1/endpoints/companies.py:57-75 | 500 when the path id is not a UUID (the reading of the id is the parameter `uuidOf`); otherwise the company iff the user owns one with that id, else 404 |
| Companies.OwnedCompany | backend/app/api/v1/endpoints/companies.py:64-73 | the owner-filtered query: a company iff the user owns one with that id, and it is that row; else 404 |
| Companies.CreateCompany | backend/app/api/v1/endpoints/companies.py:14-44 | 422 on an invalid body, 400 and no write when the user already has the CNPJ, 500 and no write exactly when a value does not fit its column; else the company is appended as the table stores it and linked to its candidate documents; nothing else changes |
| Companies.CreateFailsOnFreeText | backend/alembic/versions/001_initial_migration.py:40-44 | a validated CNPJ and CNAE always fit, so a creation fails only on razao_social, municipio or uf; `SPX` is refused as a uf and `SP  ` is stored as `SP` |
| Companies.NewCompanyKeepsWellFormed | backend/app/api/v1/endpoints/companies.py:33-39 | appending a company with the next id keeps ids unique |
| Companies.OnlyCompanyWithId | backend/app/api/v1/endpoints/companies.py:64-75 | with unique ids, the owner gets exactly that company back |
| Companies.SetField | backend/app/api/v1/endpoints/companies.py:97-98 | `setattr` changes exactly the named field |
| Companies.ApplyUpdate | backend/app/api/v1/endpoints/companies.py:97-98 | the setattr loop: each field is the last value sent for it, or unchanged when not sent; id, owner and CNPJ never change |
| Companies.UpdateCompany | backend/app/api/v1/endpoints/companies.py:78-107 | 500 and no write when the path id is not a UUID; 404 and no write unless owned; 500 and no write when a field after the update does not fit its column; else only the sent fields change (as the table stores them), and re-association happens iff a truthy cnae or municipio was sent |
| Companies.UpdateOwned | backend/app/api/v1/endpoints/companies.py:97-105 | the update of an owned row: 500 and no write when a field after the update does not fit its column; else the row as the table stores it (id, owner and cnpj kept, every field its column's value of the new value), and the links gain the company's new links iff a truthy cnae or municipio was sent |
| Companies.FitsByField | backend/alembic/versions/001_initial_migration.py:40-44 | a row with a stored CNPJ fits the table exactly when each updatable field fits its width |
| Companies.SameIdsKeepWellFormed | backend/app/api/v1/endpoints/companies.py:97-101 | an update that keeps the id keeps the table well formed |
| Companies.UpdateRefusesFormatting | backend/app/schemas/company.py:33-37 | CompanyUpdate does not normalise: a formatted CNAE does not fit `VARCHAR(7)`, so the update fails, though CompanyCreate would store its digits |
| Companies.LinksWithoutCompany | backend/app/api/v1/endpoints/companies.py:128-129 | deleting a company removes exactly its links |
| Companies.LinksWithoutCompanyValid | backend/app/api/v1/endpoints/companies.py:128-129 | removing links keeps them unique and positively scored |
| Companies.DeleteCompany | backend/app/api/v1/endpoints/companies.py:110-130 | 500 and no write when the path id is not a UUID; 404 and no write unless owned; else the company and its links are gone and a later get answers 404 |
| Companies.RemoveAtWellFormed | backend/app/api/v1/endpoints/companies.py:128-129 | removing a company keeps ids unique and leaves no row with its id |
| Dashboard.LinkedDocIdsCorrect | backend/app/api/v1/endpoints/dashboard.py:31-34 | the `distinct()` linked ids are distinct and exactly the documents linked to the given companies |
| Dashboard.DashboardStatsMeaning | backend/app/api/v1/endpoints/dashboard.py:15-72 | total_companies is the user's company count; total_convencoes the distinct linked documents (0 with no companies); novas_convencoes the number of linked documents created at or after `now - 7 days`, at most the total; unread_notifications the number of the user's unread rows; dissidio_alerts_count the number of the user's unread rows of the six expiry types, at most the unread count |
| Dashboard.NovasMeaning | backend/app/api/v1/endpoints/dashboard.py:38-43 | the count of new documents is the number of distinct documents linked to the companies and created at or after the cutoff |
| Dashboard.DistinctCard | backend/app/api/v1/endpoints/dashboard.py:31-36 | a `distinct()` id list is as long as the set of its ids |
| Dashboard.RecentConvencoesCorrect | backend/app/api/v1/endpoints/dashboard.py:75-97 | [] with no companies; else at most `limit` linked documents, newest first, any omitted one no newer than those shown |
| Convencoes.CompaniesWithCnpj | backend/app/api/v1/endpoints/convencoes.py:54-57 | exactly the user's companies with that CNPJ |
| Convencoes.SearchConvencoes | backend/app/api/v1/endpoints/convencoes.py:15-99 | 422 iff page or page_size is out of range |
| Convencoes.SearchConvencoesPage | backend/app/api/v1/endpoints/convencoes.py:94-99 | a valid search answers the page at `(page-1)*page_size` of a newest-first permutation of all matches, the early `[]` for a CNPJ without company included |
| Convencoes.MatchesIgnorePage | backend/app/api/v1/endpoints/convencoes.py:29-92 | the filters do not depend on the page number |
| Convencoes.MatchOnSomePage | backend/app/api/v1/endpoints/convencoes.py:96-97 | every match lies on some page of the ordered matches |
| Convencoes.OnPage | backend/app/api/v1/endpoints/convencoes.py:94-99 | what lies on the page of the ordered matches is in the answer |
| Convencoes.SearchFindsEveryMatch | backend/app/api/v1/endpoints/convencoes.py:15-99 | no match is lost: every document passing the filters is returned on some page |
| Convencoes.Matches | backend/app/api/v1/endpoints/convencoes.py:29-92 | a document is matched iff it is stored and satisfies the composed filters |
| Convencoes.LikeAnyRun | backend/app/api/v1/endpoints/convencoes.py:72 | the pattern `%` matches every string |
| Convencoes.LikePrefix | backend/app/api/v1/endpoints/convencoes.py:72 | text without wildcards followed by `%` matches exactly the strings it starts |
| Convencoes.LikeSomewhere | backend/app/api/v1/endpoints/convencoes.py:72 | a pattern opened by `%` matches exactly when its rest matches some suffix |
| Convencoes.LiteralMatchesContaining | backend/app/api/v1/endpoints/convencoes.py:72 | for text without wildcards, `%text%` matches exactly the strings containing it |
| Convencoes.ILikeLiteral | backend/app/api/v1/endpoints/convencoes.py:72-90 | without `%`, `_` or `\` in the user's text, `ilike(f"%{x}%")` is a case-insensitive substring test, both ways |
| Convencoes.WildcardInFilter | backend/app/api/v1/endpoints/convencoes.py:72 | `_` keeps its wildcard meaning: the city filter `S_o` selects `São Paulo`, which does not contain `s_o` |
| Convencoes.SearchSelects | backend/app/api/v1/endpoints/convencoes.py:94-97 | results are newest first and all satisfy the composed filters |
| Convencoes.SearchConvencoesCorrect | backend/app/api/v1/endpoints/convencoes.py:68-92 | cnae exact, uf upper-cased exact, municipio, keyword and q matched by `ILIKE '%x%'` with its `%`, `_` and `\` wildcards |
| Convencoes.SearchRestrictedToCompanies | backend/app/api/v1/endpoints/convencoes.py:37-48 | with no filter and some linked documents, only documents linked to the user's companies are returned |
| Convencoes.LinkedDocIdsEmpty | backend/app/api/v1/endpoints/convencoes.py:39-48 | no companies means no linked ids, so no restriction |
| Convencoes.SearchByCnpj | backend/app/api/v1/endpoints/convencoes.py:52-66 | a cnpj filter returns only documents linked to the user's company with that cleaned CNPJ (none when there is none) |
| Convencoes.GetConvencao | backend/app/api/v1/endpoints/convencoes.py:102-134 | a returned document is the stored one with the id the path spells; 500 when the path id is not a UUID |
| Convencoes.GetConvencaoAccess | backend/app/api/v1/endpoints/convencoes.py:113-134 | 500 iff the path id is not a UUID; 404 for a missing id; otherwise allowed iff the user has no companies or one of them is linked, and 403 when refused |
| Convencoes.GetCompanyConvencoesCorrect | backend/app/api/v1/endpoints/convencoes.py:137-166 | 500 iff the path id is not a UUID; 404 iff the company is not owned; else exactly its linked documents, newest first |
| Notifications.ListNotificationsCorrect | backend/app/api/v1/endpoints/notifications.py:13-30 | at most 50 of the user's rows matching lida/tipo, newest first; a row left out means 50 no older rows were returned |
| Notifications.ListDissidioAlertsCorrect | backend/app/api/v1/endpoints/notifications.py:33-59 | at most 50 of the user's rows of the six alert types, newest first, with the same completeness |
| Notifications.MarkAsRead | backend/app/api/v1/endpoints/notifications.py:62-81 | 500 and no write when the path id is not a UUID; 404 and no write unless the row is the user's; else exactly that row gets `lida = True` and nothing else changes |
| Notifications.MarkAsReadCount | backend/app/api/v1/endpoints/notifications.py:77 | marking lowers the unread count by one exactly when the row was unread, and marking twice equals marking once |
| Notifications.PreferenceIndex | backend/app/api/v1/endpoints/notifications.py:90-92 | the user's preference row, or none iff the user has none |
| Notifications.AppendKeepsUnique | backend/app/api/v1/endpoints/notifications.py:94-101 | adding a row for a user without one keeps one row per user |
| Notifications.GetPreferences | backend/app/api/v1/endpoints/notifications.py:84-103 | returns the existing row unchanged, or creates exactly one default row; afterwards the user has exactly that row |
| Notifications.PreferenceFound | backend/app/api/v1/endpoints/notifications.py:90-92 | with one row per user the lookup finds that row |
| Notifications.LastFor | backend/app/api/v1/endpoints/notifications.py:121-122 | the last value sent for a column, or none iff none was sent |
| Notifications.Applied | backend/app/api/v1/endpoints/notifications.py:121-122 | each column is the last value sent for it, or unchanged |
| Notifications.WithDefaults | backend/app/models/notification.py:31-33 | a new row takes the value sent for each setting, or its default when null or not sent |
| Notifications.StoredPreference | backend/alembic/versions/001_initial_migration.py:126-128 | a committed row has its three settings non-null and `frequencia` within 20 characters; the settings are kept and `frequencia` loses only trailing spaces |
| Notifications.RowToCommit | backend/app/api/v1/endpoints/notifications.py:113-122 | the row committed belongs to the user: the existing row with the values sent, or a new row with the defaults for the settings left null |
| Notifications.UpdatePreferences | backend/app/api/v1/endpoints/notifications.py:106-127 | 500 and no write when the row does not fit the table (a null setting on an existing row, a `frequencia` over 20 characters); else the committed row replaces the user's row or is added as its only row; other tables untouched |
| Notifications.NullSettings | backend/app/api/v1/endpoints/notifications.py:121-124 | a null setting fails the commit on an existing row but leaves the default on a new one; a 21-character `frequencia` never fits |
| Notifications.EmptyUpdateKeepsRow | backend/app/api/v1/endpoints/notifications.py:121-124 | sending nothing commits the user's stored row unchanged |
| Notifications.UpdateIdempotent | backend/app/api/v1/endpoints/notifications.py:121-122 | an empty update changes nothing and repeating an update changes nothing more |
| DissidioAlerts.TierFor | backend/app/tasks/dissidio_alerts.py:54-70 | no alert iff more than 90 days remain; otherwise the most urgent tier whose inclusive bound (7, 15, 30, 60, 90) covers the days and whose predecessor's does not; each range pinned to its type and priority: up to 7 `VENCIMENTO_URGENTE_7`/`URGENTE`, 8-15 `VENCIMENTO_URGENTE_15`/`URGENTE`, 16-30 `VENCIMENTO_PROXIMO_30`/`ALTA`, 31-60 `VENCIMENTO_PROXIMO_60`/`MEDIA`, 61-90 `VENCIMENTO_PROXIMO_90`/`BAIXA` |
| DissidioAlerts.TierMonotone | backend/app/tasks/dissidio_alerts.py:55-71 | fewer days remaining never gives a less urgent tier |
| DissidioAlerts.TierBoundaries | backend/app/tasks/dissidio_alerts.py:55-71 | the exact boundaries: 7 is URGENTE_7, 8 and 15 URGENTE_15, 16 and 30 PROXIMO_30, 31 and 60 PROXIMO_60, 61 and 90 PROXIMO_90, 91 none; with priorities URGENTE, ALTA, MEDIA, BAIXA |
| DissidioAlerts.AlertMessage | backend/app/tasks/dissidio_alerts.py:189-226 | every message opens with the document's title, defaulting to `Convenção Coletiva` |
| DissidioAlerts.KindsOfAlertTypes | backend/app/tasks/dissidio_alerts.py:199-220 | the prefix and substring tests of `get_alert_message` send each of the six alert types to its own branch |
| DissidioAlerts.DateShown | backend/app/tasks/dissidio_alerts.py:197-220 | every known alert type shows the formatted end date (or `N/A`) in parentheses |
| DissidioAlerts.ExpiredShowsAbsoluteDays | backend/app/tasks/dissidio_alerts.py:218-220 | the VENCIDO message uses `abs(days)`: a negated count gives the same message |
| DissidioAlerts.GenericForUnknownType | backend/app/tasks/dissidio_alerts.py:222-224 | an unknown type gets the generic title and text |
| DissidioAlerts.CountSuccessors | backend/app/tasks/dissidio_alerts.py:245-252 | the successor count never exceeds the table |
| DissidioAlerts.CountSuccessorsPositive | backend/app/tasks/dissidio_alerts.py:245-254 | the count is positive iff some other PROCESSADO document has the same cnae, municipio and uf and a strictly later publication date |
| DissidioAlerts.HasNewNegotiationMeans | backend/app/tasks/dissidio_alerts.py:229-254 | false when cnae or municipio is missing, else true iff a successor exists |
| DissidioAlerts.FallbackOwnersCorrect | backend/app/tasks/dissidio_alerts.py:136-142 | the fallback owners are distinct and exactly the owners of companies matching cnae AND municipio AND uf |
| DissidioAlerts.RecipientsCorrect | backend/app/tasks/dissidio_alerts.py:129-147 | recipients are distinct and are exactly the owners of linked companies, or, only when there are no links, exactly the fallback owners; the `if company.user_id` test on a non-null UUID drops no one |
| DissidioAlerts.FindUnread | backend/app/tasks/dissidio_alerts.py:159-164 | the first unread row for (user, document, type), or none iff there is none |
| DissidioAlerts.UpsertOne | backend/app/tasks/dissidio_alerts.py:157-183 | with an unread row nothing is added or counted (its text may be rewritten); otherwise exactly one unread row is appended and counted |
| DissidioAlerts.UpsertAll | backend/app/tasks/dissidio_alerts.py:157-186 | the per-user loop appends only unread rows of this document and type, counts what it appends, and leaves other rows alone |
| DissidioAlerts.ApplyAlert | backend/app/tasks/dissidio_alerts.py:109-186 | `generate_dissidio_alert` appends exactly the rows it counts and touches no row of another document or type |
| DissidioAlerts.ApplyJobs | backend/app/tasks/dissidio_alerts.py:45-96 | the sweep's total is the number of rows it appended |
| DissidioAlerts.UpsertOneSettles | backend/app/tasks/dissidio_alerts.py:157-183 | after the upsert the user has an unread row with the current message |
| DissidioAlerts.UpsertOneNoop | backend/app/tasks/dissidio_alerts.py:166-172 | an existing unread row with the same message means no write and a count of 0 |
| DissidioAlerts.UpsertAllSettles | backend/app/tasks/dissidio_alerts.py:157-186 | afterwards every recipient has an unread row with the current message |
| DissidioAlerts.UpsertAllNoop | backend/app/tasks/dissidio_alerts.py:157-186 | when every recipient is settled the loop writes nothing and counts 0 |
| DissidioAlerts.ApplyAlertSettles | backend/app/tasks/dissidio_alerts.py:109-186 | after one alert call every recipient of it is settled |
| DissidioAlerts.ApplyAlertNoop | backend/app/tasks/dissidio_alerts.py:149-186 | a settled alert call writes nothing and counts 0 |
| DissidioAlerts.ApplyAlertKeepsSettled | backend/app/tasks/dissidio_alerts.py:157-186 | an alert for one document does not unsettle another document's alert |
| DissidioAlerts.ApplyJobsSettles | backend/app/tasks/dissidio_alerts.py:45-96 | after the sweep every alert it made is settled |
| DissidioAlerts.ApplyJobsNoop | backend/app/tasks/dissidio_alerts.py:45-96 | a sweep over settled alerts inserts 0 rows |
| DissidioAlerts.ApplyJobsIdempotent | backend/app/tasks/dissidio_alerts.py:45-96 | re-running the sweep's alert calls on their own result inserts 0 rows |
| DissidioAlerts.UpsertOneUnique | backend/app/tasks/dissidio_alerts.py:157-183 | at most one unread row per (user, document, type) is preserved by an upsert |
| DissidioAlerts.UpsertAllUnique | backend/app/tasks/dissidio_alerts.py:157-186 | the same for the whole recipient loop |
| DissidioAlerts.ApplyJobsUnique | backend/app/tasks/dissidio_alerts.py:45-96 | the same for the whole sweep: no duplicate unread alert is ever created |
| DissidioAlerts.Select | backend/app/tasks/dissidio_alerts.py:38-41 | a query keeps exactly the documents satisfying its filter (likewise at lines 78-81) |
| DissidioAlerts.JobsOfSound | backend/app/tasks/dissidio_alerts.py:45-75 | every alert call of a pass is for a document of the pass with the tier the ladder picked |
| DissidioAlerts.JobsOfComplete | backend/app/tasks/dissidio_alerts.py:45-75 | a pass calls for exactly the documents the ladder alerts |
| DissidioAlerts.CallCorrect | backend/app/tasks/dissidio_alerts.py:38-96 | a document is alerted iff it is active (PROCESSADO, end date ≥ today, within 90 days) or expired without successor within 180 days; active calls have days = end − today ≥ 0, VENCIDO calls −days_expired with ALTA |
| DissidioAlerts.SweepJobsSound | backend/app/tasks/dissidio_alerts.py:38-96 | every call of the sweep is for an alerted document with the right type and days |
| DissidioAlerts.SweepJobsComplete | backend/app/tasks/dissidio_alerts.py:38-96 | the sweep makes a call for exactly the alerted documents |
| DissidioAlerts.SweepJobsDistinct | backend/app/tasks/dissidio_alerts.py:38-96 | no document is called twice (the active and expired passes are disjoint) |
| DissidioAlerts.ActiveNotExpired | backend/app/tasks/dissidio_alerts.py:38-41 | `fim >= hoje` and `fim < hoje` select disjoint documents (likewise at lines 78-81) |
| DissidioAlerts.SweepIdempotent | backend/app/tasks/dissidio_alerts.py:25-103 | a second sweep on the same day with unchanged data and nothing read inserts 0 rows |
| DissidioAlerts.IdsStayPositions | backend/app/tasks/dissidio_alerts.py:175-182 | appended notification ids continue the numbering |
| DissidioAlerts.UpsertRow | backend/app/tasks/dissidio_alerts.py:159-183 | one loop body: the table becomes the upsert's result, the count its count, and nothing else changes |
| DissidioAlerts.UpsertUsers | backend/app/tasks/dissidio_alerts.py:152-186 | the per-user loop leaves the table and count the recipient upsert specifies |
| DissidioAlerts.GenerateDissidioAlert | backend/app/tasks/dissidio_alerts.py:109-186 | `generate_dissidio_alert` leaves the notifications and the count the alert call specifies and nothing else changes |
| DissidioAlerts.ApplyJobsSnoc | backend/app/tasks/dissidio_alerts.py:74-75 | `alertas_gerados += count`: the total is the sum of the per-call counts (likewise at lines 89-96) |
| DissidioAlerts.SweepCall | backend/app/tasks/dissidio_alerts.py:74-75 | one alert call extends the processed calls and the running total |
| DissidioAlerts.CallStep | backend/app/tasks/dissidio_alerts.py:45-96 | one document of a pass: a call that raises at its recipients query writes nothing, otherwise it extends the processed calls |
| DissidioAlerts.SweepLoop | backend/app/tasks/dissidio_alerts.py:45-96 | a pass processes its calls in order and stops at the first that raises (at its recipients query), leaving the writes of the calls before it |
| DissidioAlerts.CheckDissidioAlertsTask | backend/app/tasks/dissidio_alerts.py:25-106 | the sweep applies its alert calls in order; success iff none raised, and then `alertas_gerados` is the total inserted; an exception ends the run with the earlier writes kept |
| MediadorApi.SearchParams | backend/app/services/mediador_api.py:71-83 | only the supplied (truthy) filters become query parameters |
| MediadorApi.SearchParamsNormal | backend/app/services/mediador_api.py:71-83 | municipio is passed as given; uf upper-cased, unchanged by a second upper-casing, as long as given unless it holds a `ß`, and never more than twice as long; cnae without `-` and `/`; cnpj without `.`, `/` and `-` |
| MediadorApi.LongMenuItems | backend/app/services/mediador_api.py:217-259 | text of 30 or more characters (after lower and strip) is menu noise iff it is one of the two long exact phrases: no pattern and no keyword rule applies to it |
| MediadorApi.MenuPatternShort | backend/app/services/mediador_api.py:244-253 | every anchored menu pattern matches only texts of at most 22 characters |
| MediadorApi.LongExactMatches | backend/app/services/mediador_api.py:222-242 | the only exact-list entries of 30 or more characters are the two long phrases |
| MediadorApi.LinkIdCorrect | backend/app/services/mediador_api.py:395 | the id regex chain finds an id iff the href has a run of at least 4 digits; the id is such a run; when a `/`-prefixed run exists that one is taken (likewise at line 522) |
| MediadorApi.FirstDate | backend/app/services/mediador_api.py:410-411 | the first `dd/mm/yyyy` (or `-`) match, or none iff there is none |
| MediadorApi.FirstUf | backend/app/services/mediador_api.py:419-422 | a two-capital word with no such word before it, or none iff there is none |
| MediadorApi.Latin1Chars | backend/app/services/mediador_api.py:377-378 | decoding bytes as Latin-1 maps each byte to the character with that code |
| MediadorApi.Latin1Ignore | backend/app/services/mediador_api.py:377 | `encode('latin-1', errors='ignore')` is byte-per-character on Latin-1 text |
| MediadorApi.Latin1 | backend/app/services/mediador_api.py:377 | strict Latin-1 encoding inverts Latin-1 decoding |
| MediadorApi.RepairAsWritten | backend/app/services/mediador_api.py:376-378 | the repair the parsers apply: text without `Ã` is left alone (any text with one is re-encoded as Latin-1 and decoded as UTF-8, errors ignored) |
| MediadorApi.Repair | backend/app/services/mediador_api.py:376-378 | corrected repair, used by no parser: when it changes the text, the text was the mojibake of the result |
| MediadorApi.DecodeIgnoreEncode | backend/app/services/mediador_api.py:378 | `decode('utf-8', errors='ignore')` of a valid encoding gives the string back |
| MediadorApi.Latin1OfMojibake | backend/app/services/mediador_api.py:377 | re-encoding mojibake as Latin-1 recovers the original UTF-8 bytes |
| MediadorApi.RepairUndoesMojibake | backend/app/services/mediador_api.py:376-378 | for genuine mojibake containing `Ã`, both the code as written and the corrected repair give the original text back |
| MediadorApi.RepairAsWrittenLosesLetters | backend/app/services/mediador_api.py:376-378 | the repair as written turns the correct `SÃO` into `SO`; the corrected repair leaves it alone |
| MediadorApi.RepairAsWrittenDropsTilde | backend/app/services/mediador_api.py:376-378 | for any ASCII `p` and `q`, the repair as written turns `p + "Ã" + q` into `p + q` |
| MediadorApi.TitleLosesLetters | backend/app/services/mediador_api.py:514-517 | a link titled `SÃO PAULO` gives a result titled `SO PAULO` |
| MediadorApi.RowLosesLetters | backend/app/services/mediador_api.py:372-422 | a row whose text is `SÃO PAULO SP` has the text `SO PAULO SP`, and its uf is `SO` |
| MediadorApi.TempId | backend/app/services/mediador_api.py:426 | placeholder ids always start with `TEMP-` (likewise at lines 492, 523) |
| MediadorApi.CellLink | backend/app/services/mediador_api.py:386-407 | the link used in a cell has an id |
| MediadorApi.CellLinkNone | backend/app/services/mediador_api.py:386-407 | a cell yields no link iff none of its anchors has an id |
| MediadorApi.RowLink | backend/app/services/mediador_api.py:386-407 | the link used for a row has an id |
| MediadorApi.RowLinkNone | backend/app/services/mediador_api.py:386-407 | a row yields no link iff no cell does |
| MediadorApi.RowLinkIn | backend/app/services/mediador_api.py:386-407 | the link used for a row is an anchor of one of its cells |
| MediadorApi.CellTexts | backend/app/services/mediador_api.py:372 | the cell texts, one per cell, in order |
| MediadorApi.TableRowCorrect | backend/app/services/mediador_api.py:368-437 | a row is a result iff some anchor has an id; the id is a digit run from such an anchor; uf has 2 letters; text is kept iff the row text, after the repair as written, exceeds 100 characters; the source is `mediador_mte` |
| MediadorApi.ParseTableRow | backend/app/services/mediador_api.py:368-437 | the cell loop computes the row result the table-row specification gives |
| MediadorApi.FindCellLink | backend/app/services/mediador_api.py:391-397 | the inner loop stops at the first link of a cell whose target carries an id, and finds none when no link does |
| MediadorApi.DivResultCorrect | backend/app/services/mediador_api.py:439-500 | a block is a result iff it has at least 10 characters, is not menu noise, and has a link id or more than 20 characters (counted after the repair as written) without an action keyword; the id is the link's or a TEMP id; text at most 500 |
| MediadorApi.LinkResultCorrect | backend/app/services/mediador_api.py:502-531 | a link is a result iff its text has at least 5 characters; the id is the href's digit run, else a TEMP id; the title is the text when it has no `Ã`, else the text re-encoded as Latin-1 and decoded as UTF-8 with errors ignored |
| MediadorApi.RowCandidates | backend/app/services/mediador_api.py:266-270 | one candidate per row, each the row parser's result |
| MediadorApi.BlockCandidates | backend/app/services/mediador_api.py:283-286 | one candidate per block, each the block parser's result |
| MediadorApi.LinkCandidates | backend/app/services/mediador_api.py:323-356 | one candidate per link, each the link parser's result |
| MediadorApi.CollectAppends | backend/app/services/mediador_api.py:266-293 | the limit-bounded builder only appends non-menu candidates, never passes the limit, and with the id check never appends a repeated id (likewise at lines 323-361) |
| MediadorApi.CollectPrefix | backend/app/services/mediador_api.py:266-293 | collected entries are never removed |
| MediadorApi.CollectCompleteIds | backend/app/services/mediador_api.py:281-293 | below the limit every non-menu candidate's id was collected (likewise at lines 358-361) |
| MediadorApi.CollectCompleteAll | backend/app/services/mediador_api.py:266-279 | below the limit every non-menu table candidate was collected |
| MediadorApi.CollectTakes | backend/app/services/mediador_api.py:266-279 | strategy 1 keeps the first `limit` non-menu table rows |
| MediadorApi.SearchResultsBounded | backend/app/services/mediador_api.py:201-366 | never more than `limit` results and never a menu item |
| MediadorApi.LaterStrategies | backend/app/services/mediador_api.py:281 | strategies 2 and 3 add nothing once the limit is reached (likewise at line 296) |
| MediadorApi.SearchResultsTablesFirst | backend/app/services/mediador_api.py:263-279 | the table results come first, and alone when they fill the limit |
| MediadorApi.SearchResultsDistinct | backend/app/services/mediador_api.py:290 | entries added by strategies 2 and 3 never repeat an id already collected (likewise at line 358) |
| MediadorApi.SearchResultsComplete | backend/app/services/mediador_api.py:263-361 | when fewer than `limit` results come back, every non-menu candidate of every strategy is represented |
| MediadorApi.CollectTableRows | backend/app/services/mediador_api.py:263-278 | strategy 1's outer loop over the tables, left once `limit` is reached, collects what the builder specifies |
| MediadorApi.CollectRows | backend/app/services/mediador_api.py:266-276 | strategy 1's inner loop over at most `2 * limit` rows of one table: once `limit` is reached the result is the builder's answer for everything; otherwise the builder continues from the rows collected as it would have from the start |
| MediadorApi.CollectBlocks | backend/app/services/mediador_api.py:281-293 | strategy 2's loop collects what the builder specifies |
| MediadorApi.CollectLinks | backend/app/services/mediador_api.py:296-361 | strategy 3's loop collects what the builder specifies |
| MediadorApi.ParseSearchResults | backend/app/services/mediador_api.py:201-366 | `_parse_search_results` returns the result the three strategies specify |
| MediadorApi.SearchConvencoes | backend/app/services/mediador_api.py:35-198 | no page gives []; otherwise the parsed results of the page fetched with the cleaned parameters, at most `limit` |
| MediadorApi.LastSomeNone | backend/app/services/mediador_api.py:574-595 | a field stays unset iff no label gives a value for it |
| MediadorApi.LastSomeIsLast | backend/app/services/mediador_api.py:574-595 | a set field holds the value of the last label that gives one (later labels overwrite) |
| MediadorApi.LastValueNormal | backend/app/services/mediador_api.py:578-591 | a detail uf is the upper case of at most two characters, so at most 4 characters and unchanged by a second upper-casing; a detail cnae has no `-` or `/` and at most 7 characters |
| MediadorApi.ApplyLabel | backend/app/services/mediador_api.py:574-595 | one pass of the label loop: the field the label names takes the value beside it (a date only when it parses); a label without a parent or naming no field changes nothing |
| MediadorApi.ParseDetailPage | backend/app/services/mediador_api.py:557-605 | the label loop yields the details the field rules specify (value after the first `:`, text kept only above 100 characters and capped at 1,000,000) |
| MediadorApi.GetConvencaoDetails | backend/app/services/mediador_api.py:533-555 | None iff none of the three detail URLs answers; otherwise the parse of the first that does |
| MediadorSearch.LiveAnswerCorrect | backend/app/api/v1/endpoints/mediador_search.py:45-71 | total is the number of results and the source is `mediador_mte_live`; the suggestion `use_local_or_hybrid` appears iff nothing was found; an exception gives total 0, no results and the error text rather than an error status |
| MediadorSearch.SearchLive | backend/app/api/v1/endpoints/mediador_search.py:18-71 | 422 iff the limit is outside 1..100; otherwise at most `limit` results from the live client, shaped as above |
| MediadorSearch.Locals | backend/app/api/v1/endpoints/mediador_search.py:118-131 | one local entry per database row, in order |
| MediadorSearch.NewLiveCorrect | backend/app/api/v1/endpoints/mediador_search.py:146-150 | the appended live results are drawn from the live list, have ids not seen before and pairwise distinct, and every live id ends up seen |
| MediadorSearch.MergeLive | backend/app/api/v1/endpoints/mediador_search.py:146-150 | the `existing_ids` loop yields the local entries followed by exactly the new live ones |
| MediadorSearch.SearchHybrid | backend/app/api/v1/endpoints/mediador_search.py:74-162 | 422 iff page or page_size is out of range; otherwise total is the merged length, results the first page_size merged entries, and has_more iff total > page_size |
| MediadorSearch.HybridLocalFirst | backend/app/api/v1/endpoints/mediador_search.py:96-131 | local results come first, at most page_size, newest first and matching the filters (`ILIKE` with its wildcards, cnae cleaned and cut to 7, offset (page−1)·page_size); has_more iff results were cut (likewise at lines 156-162) |
| MediadorSearch.AppendLiveCorrect | backend/app/api/v1/endpoints/mediador_search.py:146-150 | after the local entries only new, distinct live results are appended and every live id is present |
| MediadorSearch.HybridLiveAdded | backend/app/api/v1/endpoints/mediador_search.py:133-154 | without use_live only local results; with it the local results plus exactly the new live results, deduplicated by instrumento_id |
| DocumentProcessor.Visible | backend/app/services/document_processor.py:74-77 | the non-whitespace characters, the content the cleanup must keep |
| DocumentProcessor.VisibleAppend | backend/app/services/document_processor.py:74-77 | visible content distributes over concatenation |
| DocumentProcessor.VisibleEmpty | backend/app/services/document_processor.py:96 | no visible content iff the text is blank (likewise at line 120) |
| DocumentProcessor.StripEmpty | backend/app/services/document_processor.py:96 | `text.strip()` is empty iff the text is blank (likewise at line 120) |
| DocumentProcessor.StripVisible | backend/app/services/document_processor.py:75-76 | stripping keeps the visible content |
| DocumentProcessor.JoinVisible | backend/app/services/document_processor.py:77 | joining with a blank separator keeps the visible content of the pieces |
| DocumentProcessor.WithoutLineBreaksVisible | backend/app/services/document_processor.py:75 | removing line breaks keeps the visible content |
| DocumentProcessor.PruneCorrect | backend/app/services/document_processor.py:68-69 | after decomposing no script or style element remains, and a tree without them is unchanged |
| DocumentProcessor.PruneNodeCorrect | backend/app/services/document_processor.py:68-69 | the same for one node |
| DocumentProcessor.StripKeeps | backend/app/services/document_processor.py:75-76 | stripping keeps "no double space", "no line break" and the visible content |
| DocumentProcessor.PhrasesGood | backend/app/services/document_processor.py:76-77 | the kept phrases are non-empty, without edge whitespace, double spaces or line breaks |
| DocumentProcessor.PhrasesVisible | backend/app/services/document_processor.py:76-77 | dropping empty phrases after stripping keeps the visible content |
| DocumentProcessor.SplitPiecesClean | backend/app/services/document_processor.py:76 | the pieces of a line split on two spaces contain no double space and no line break |
| DocumentProcessor.ChunksGood | backend/app/services/document_processor.py:75-77 | every kept chunk is non-empty with no edge whitespace, no double space and no line break |
| DocumentProcessor.ChunksVisible | backend/app/services/document_processor.py:75-77 | the chunks together keep the visible content of the lines |
| DocumentProcessor.JoinChunks | backend/app/services/document_processor.py:77 | joining such chunks with one space gives text without edge whitespace, double spaces or line breaks |
| DocumentProcessor.CollapseCorrect | backend/app/services/document_processor.py:74-77 | the whitespace cleanup leaves no leading or trailing whitespace, no `"  "`, no line break, and exactly the visible characters of the input in order |
| DocumentProcessor.HtmlTextCorrect | backend/app/services/document_processor.py:59-83 | None iff the file cannot be read or parsed; otherwise the cleaned text of the page without scripts and styles, with the cleanup guarantees |
| DocumentProcessor.ConcatSnoc | backend/app/services/document_processor.py:94 | `text +=` appends at the end (likewise at line 118) |
| DocumentProcessor.PagesTextVisible | backend/app/services/document_processor.py:91-94 | the accumulated text keeps the visible content of the pages in order and ends with a line break (likewise at lines 109-118) |
| DocumentProcessor.ConcatBlank | backend/app/services/document_processor.py:96 | the pages have no visible content iff every page is blank (likewise at line 120) |
| DocumentProcessor.PagesExtractionCorrect | backend/app/services/document_processor.py:85-124 | None iff every page is blank; otherwise the pages' visible content in order, not blank, ending with a line break |
| DocumentProcessor.ExtractFromPdfDigital | backend/app/services/document_processor.py:85-100 | the page loop skips empty pages, appends each page plus `\n`, and returns None when blank or unreadable |
| DocumentProcessor.ExtractFromPdfScanned | backend/app/services/document_processor.py:102-124 | the OCR loop appends every page plus `\n` and returns None when blank or when conversion fails |
| DocumentProcessor.ExtractText | backend/app/services/document_processor.py:24-57 | `.html` gives the HTML text and HTML; `.pdf` gives the digital text as PDF_DIGITAL only when its stripped length exceeds 100, else the OCR text (possibly None) as PDF_ESCANEADO; anything else (None, UNKNOWN) |
| Scraper.GatherCorrect | backend/app/services/scraper.py:81-83 | collecting candidate ids keeps each non-empty candidate exactly once and nothing else |
| Scraper.DedupCorrect | backend/app/services/scraper.py:215 | removing duplicates yields a list without repetitions holding exactly the same ids, and leaves an already unique list untouched |
| Scraper.FirstNonEmptyCorrect | backend/app/services/scraper.py:85-87 | the strategies and URLs are tried in order and the first non-empty answer wins; nothing is found only when every attempt came back empty |
| Scraper.FirstNonEmptyAppend | backend/app/services/scraper.py:56-212 | trying a list of attempts followed by more is the first one's answer when non-empty, otherwise the rest's answer |
| Scraper.IndexOfPart | backend/app/services/scraper.py:121-122 | the position returned is the first path segment equal to `instrumento`; none exactly when no segment is |
| Scraper.BeforeFirst | backend/app/services/scraper.py:125 | cutting at a character gives the whole text when the character is absent, otherwise the text before its first occurrence |
| Scraper.BeforeHasNo | backend/app/services/scraper.py:125 | the cut piece is a prefix of the text that does not contain the cut character and ends where that character starts |
| Scraper.CutClean | backend/app/services/scraper.py:125 | dropping the query string and then the fragment leaves a prefix of the segment without `?` and `#` |
| Scraper.HrefIdCorrect | backend/app/services/scraper.py:119-128 | an id taken from a link is the start of the segment after the first `instrumento` segment, and contains no `/`, `?` or `#` |
| Scraper.SplitJoin | backend/app/services/scraper.py:121 | splitting a path joined from slash-free segments gives the segments back |
| Scraper.HrefIdRoundTrip | backend/app/services/scraper.py:119-128 | for a link `…/instrumento/<id><?query or #fragment>` the id read back is exactly `<id>` |
| Scraper.ApiIdsOf | backend/app/services/scraper.py:70-79 | the ids read from one API answer are the `id` of each dict item that has one, plus each plain string item of a top-level list (not of a `results` member), in order |
| Scraper.ApiStrategy | backend/app/services/scraper.py:56-87 | the API endpoints are tried in order and the first answer with ids is returned |
| Scraper.ReadElement | backend/app/services/scraper.py:118-133 | one element adds the id of its `href`, then its `data-instrumento-id`, each only when non-empty and not yet collected; a read that raises stops it, keeping what was added before, and it says whether one raised |
| Scraper.ReadElements | backend/app/services/scraper.py:117-133 | the matched elements add the ids of their reads, in order, up to the first read that raises, and say whether one raised |
| Scraper.TrySelector | backend/app/services/scraper.py:116-138 | one selector adds the ids it read before it ended or raised; a raising `find_elements` adds nothing |
| Scraper.SelectorsRun | backend/app/services/scraper.py:115-138 | the selector loop never drops a candidate read before it, those of a selector that raised included |
| Scraper.TrySelectors | backend/app/services/scraper.py:115-138 | the ids after the selector loop on a loaded page are those of every candidate read until a selector that did not raise leaves some collected |
| Scraper.BrowserRun | backend/app/services/scraper.py:101-144 | the URL loop never drops a candidate read before it |
| Scraper.BrowserStrategy | backend/app/services/scraper.py:89-154 | a browser that fails to start yields nothing; otherwise the ids are those of every read on the loaded pages, in order, up to the selector that ends the loops, ids read before a raise included |
| Scraper.BrowserRunKeeps | backend/app/services/scraper.py:101-144 | every non-empty id read on the way, before a raise included, is among the browser's ids, which are unique and non-empty |
| Scraper.SelectorsRunNoRaise | backend/app/services/scraper.py:115-138 | when no selector raises, the selector loop yields the ids of the first selector that gives any |
| Scraper.BrowserRunNoRaise | backend/app/services/scraper.py:101-144 | when nothing raises, the browser yields the ids of the first page and selector pair that gives any, pages in order and selectors in order |
| Scraper.RaiseKeepsEarlierIds | backend/app/services/scraper.py:115-138 | a selector that reads `x` and then raises, followed by a selector that reads `y`, yields both `x` and `y` |
| Scraper.LinkCandidates | backend/app/services/scraper.py:177-184 | each page link yields exactly the candidate id its href carries |
| Scraper.AddEach | backend/app/services/scraper.py:177-203 | adding candidates one at a time gives the same ids as collecting all of them at once |
| Scraper.GatherPage | backend/app/services/scraper.py:167-203 | the ids read from one page are those of its links, `data-id` attributes and script matches, each once |
| Scraper.PageStrategy | backend/app/services/scraper.py:156-212 | the listing pages are tried in order and the first page that yields ids wins |
| Scraper.PagesFoundCorrect | backend/app/services/scraper.py:156-212 | the ids found from pages are unique and non-empty, and come from the first page that loaded and held ids |
| Scraper.ExtractInstrumentoIds | backend/app/services/scraper.py:41-221 | the result has no repetitions and holds exactly the ids of the first strategy that found any |
| Scraper.DiscoveredCorrect | backend/app/services/scraper.py:41-221 | the API answer wins when non-empty, the browser answer next, the page answer last; the browser and page answers never repeat an id or hold an empty one |
| Scraper.LinkAtCorrect | backend/app/services/scraper.py:361-371 | a link is found iff the element exists and has a non-empty href; an `http` href is kept, any other is appended to the base URL |
| Scraper.FirstHitCorrect | backend/app/services/scraper.py:373-395 | the first selector that gives a non-empty value decides; nothing only when no selector does |
| Scraper.MetadataOfCorrect | backend/app/services/scraper.py:249-300 | the title is always present (the first selector hit, else `Convenção <id>`), the type is never set, the other fields are non-empty when present and the document link is absolute or under the base URL |
| Scraper.ExtractMetadados | backend/app/services/scraper.py:223-304 | the three detail URLs are tried in order; no metadata iff none of them loads, otherwise the metadata of the first page that loaded |
| Scraper.DownloadCorrect | backend/app/services/scraper.py:306-342 | a download needs a response; the extension is `.html` iff the content type names html and not pdf, `.pdf` otherwise, and the file is `temp_downloads/<id><ext>` |

## Left out

- HTTP, HTML parsing and the Selenium browser are abstract: a page is what each CSS selector finds (the matched elements, or a raise), each attribute read an answer or a raise; a request is a function from URL to an optional answer; timeouts, headers, the driver's lifecycle and waiting are not modelled.
- PyPDF2, pdf2image and Tesseract are lists of page texts; `dateutil` parsing and `strftime` formatting are function parameters; "today" and "now" are parameters.
- Python's `hash()` used for temporary document ids is a parameter.
- Scraper.ExtractInstrumentoIds: `list(set(...))` has no defined order; the model keeps first-seen order and its contract promises only the set of ids and that none repeats.
- Relevance.InsertMissingLinks: the candidates come from `list(set(...))` (backend/app/tasks/collector.py:148 and backend/app/api/v1/endpoints/collector.py:39), which has no defined order; the model inserts the links in table order of the candidates, so the order of the new link rows is the model's, while the set of rows is the source's.
- Relevance.RowsShape: `user_ids` is a set (backend/app/tasks/collector.py:189-196, backend/app/api/v1/endpoints/collector.py:80-87); the model walks the owners in first-seen order, so "the k-th row for the k-th user" fixes an order Python does not promise.
- DissidioAlerts.CallStep: a failing call of `generate_dissidio_alert` is modelled as raising at its recipients query (backend/app/tasks/dissidio_alerts.py:130-147), before it writes; DissidioAlerts.SweepLoop and DissidioAlerts.CheckDissidioAlertsTask inherit this. A raise later in the call is not modelled: the per-user query (lines 159-164) or the final commit (line 185) can raise after the commit at line 171 has stored an updated row together with every row added for earlier users at lines 175-183, and those writes stay. With recipients u1 (a new row is added), u2 (an unread row with another message is rewritten and committed) and u3 (whose query raises), the database keeps u1's new row and u2's rewrite, while the model keeps nothing of that call.
- DissidioAlerts.UpsertAll: the recipients are a set (backend/app/tasks/dissidio_alerts.py:142-157); the model walks them in first-seen order, so the ids of the appended rows follow that order.
- Scraper.ApiAttempts: an answer that is not HTTP 200 with JSON, or whose decoding raises, is folded into "no answer"; its contract states only one attempt per URL (the meaning is in ApiStrategy and DiscoveredCorrect).
- The outer `try/except` blocks of `extract_instrumento_ids` and `extract_text` cannot be reached by anything the model represents and are not modelled separately.
- The Mediador client catches its own errors; the live-search endpoint's exception path is reachable in the model only through the outcome datatype `MediadorSearch.LiveOutcome`.
- HTML `decompose()` is modelled on a value tree (pruning `script` and `style`); comments and entities are outside the model.
- Regular expressions are written out as explicit scans.
- Lower: maps the ASCII and Latin-1 capitals only; Python's `lower()` and PostgreSQL's `ILIKE` also fold Greek, Cyrillic and other scripts, which the model leaves unchanged.
- Upper: covers ASCII and Latin-1 (with `ß` to `SS`, `ÿ` to `Ÿ`, `µ` to `Μ`); letters above U+00FF are left unchanged, because Unicode's case tables are outside the model.
- Digits: keeps `0`-`9` only, where `str.isdigit` also accepts other Unicode digits (superscripts such as `²`, fullwidth and Arabic-Indic digits), because Unicode's digit tables are outside the model; `"12345678000190²"` has 14 digits here and 15 in Python.
- ValidateCnpj: counts ASCII digits only, as Digits does, so a CNPJ with a superscript or in fullwidth digits is judged differently from the source.
- ValidateCnae: the same ASCII-only digit class as Digits.
- ValidateCompanyCreate: inherits the ASCII-only digit class of ValidateCnpj and ValidateCnae.
- RunLength: the regular-expression class `\d` is `0`-`9` here; Python's `\d` on a `str` matches every Unicode decimal digit.
- IdStart: the same ASCII-only `\d` as RunLength.
- SearchId: the same ASCII-only `\d` as RunLength.
- LinkIdCorrect: the id pattern's `\d` is ASCII-only, as for RunLength.
- FirstDate: the date pattern's `\d` is ASCII-only, as for RunLength.
- FirstUf: the word boundary `\b` is decided by `IsWordChar`, which knows the ASCII and Latin-1 word characters only; Python's `\w` also covers letters above U+00FF, so in `ŁSP` Python finds no uf and the model finds `SP`.
- Sorting.SortNewestFirst: PostgreSQL promises no order among rows with equal dates (or two missing ones); the model fixes table order among them, the same in every query. Convencoes.SearchFindsEveryMatch depends on that order being the same on every page request.
- Convencoes.SearchFindsEveryMatch: holds for the model's fixed tie order; in PostgreSQL, pages of separate requests may overlap or skip a row when two matches share a date, so the promise there holds only when the matches' dates are distinct.
- Config.CorsOriginsList: `parseJson` stands for `json.loads` on a setting that is a JSON list of strings; valid JSON of another shape (`3`, `"http://a"`), which the source returns as it parses, is not modelled.
- Path ids: which strings a `UUID(as_uuid=True)` column accepts is decided by the database driver and PostgreSQL; the model takes that reading as the parameter `uuidOf` (`Store.UuidReader`), and row ids stand for the UUIDs.
- A negative SQL `LIMIT` in the dashboard's recent-agreements query is a database error; the model answers it with HTTP 500.
- The local "hybrid" search filter ignores the `cnpj` argument, as the code does.
- A database rollback is modelled as discarding the writes of the current id. A date PostgreSQL refuses is modelled through `isoDay`; any other failure of a document insert, such as a value longer than its `VARCHAR` column, is the parameter `insertFails`. Exceptions after the first commit (association, notification) are not modelled.
- The fallback and emergency branches of the password truncation in `security.py` are modelled, and proved unreachable.
- JWT tokens, authentication dependencies, logging, `time.sleep`, file writes other than the download path, Celery and FastAPI wiring are left out; so are the endpoints that only enqueue the collection and the dissídio sweep (backend/app/api/v1/endpoints/collector.py:100-133 and 278-303).
- The frontend and the command-line scripts are not part of this model.

## Findings

| source | as written | input that shows it | evidently intended | confidence | as-written member | corrected member |
|---|---|---|---|---|---|---|
| backend/app/services/mediador_api.py:376-378 | any text containing `Ã` is re-encoded as Latin-1 and decoded as UTF-8 with errors ignored, also when the `Ã` is a genuine letter | `SÃO` (as in "SÃO PAULO") becomes `SO`; the parsers, modelled as written, title a link `SÃO PAULO` as `SO PAULO` and give the row `SÃO PAULO SP` the uf `SO` | repair only text that really is the mojibake of a UTF-8 string, and leave correct text alone | high (not executed) | MediadorApi.RepairAsWritten, MediadorApi.RepairAsWrittenLosesLetters, MediadorApi.RepairAsWrittenDropsTilde, MediadorApi.TitleLosesLetters, MediadorApi.RowLosesLetters | MediadorApi.Repair, MediadorApi.RepairUndoesMojibake |

=== FILE: collector_endpoint.dfy ===
/** `run_collection_task` of `backend/app/api/v1/endpoints/collector.py`:
    the collection loop behind `POST /collect`. Unlike the scheduled task
    it honours a limit, stores a record even without a document, fills in
    a title and a type, parses dates day-first, and counts errors. */
module CollectorEndpoint {
  import opened Common
  import opened Store
  import opened Intake

  /** `{"status": "success", "new_count": n, "error_count": e}`. */
  datatype CollectionResult = Success(newCount: nat, errorCount: nat)

  /** `if limit: instrumento_ids = instrumento_ids[:limit]`, with Python's
      slice of a negative bound dropping that many ids from the end. */
  function Limited(ids: seq<string>, limit: Option<int>): (r: seq<string>)
    ensures |r| <= |ids| && r == ids[..|r|]
    ensures limit.None? || limit.value == 0 ==> r == ids
    ensures limit.Some? && limit.value > 0 ==> |r| == Min(limit.value, |ids|)
    ensures limit.Some? && limit.value < 0 ==> |r| == (if |ids| + limit.value > 0 then |ids| + limit.value else 0)
  {
    if limit.None? || limit.value == 0 then ids
    else if limit.value > 0 then Take(ids, limit.value)
    else if |ids| + limit.value > 0 then ids[..|ids| + limit.value]
    else []
  }

  /** A date that is present is parsed day-first; one that fails to parse
      is stored as `None`. */
  function ParsedDate(src: Source, value: Option<string>): Option<int> {
    if Truthy(value) then src.parseDayFirst(value.value) else None
  }

  /** What the optional download yields: path, text and format, all `None`
      without a document URL or when the download fails. */
  function Fetched(src: Source, id: string, m: Metadata): (Option<string>, Option<string>, Option<Format>) {
    if !Truthy(m.documentoUrl) then (None, None, None)
    else match src.download(m.documentoUrl.value, id)
      case None => (None, None, None)
      case Some(download) =>
        var (texto, formato) := src.extractText(download.0, download.1);
        (Some(download.0), texto, formato)
  }

  /** "Convenção " followed by the id. */
  function DefaultTitle(id: string): string {
    "Convenção " + id
  }

  /** The `Convencao(...)` the endpoint builds. */
  function EndpointRecord(src: Source, id: string, m: Metadata, path: Option<string>,
                          texto: Option<string>, formato: Option<Format>): Convencao {
    Convencao(0, id,
      if Truthy(m.titulo) then m.titulo else Some(DefaultTitle(id)),
      if Truthy(m.tipo) then m.tipo else Some("CCT"),
      ParsedDate(src, m.dataPublicacao), ParsedDate(src, m.vigenciaInicio), ParsedDate(src, m.vigenciaFim),
      m.sindicatoEmpregador, m.sindicatoTrabalhador, m.municipio, m.uf, m.cnae,
      m.documentoUrl, path, CappedText(texto), formato,
      if Truthy(texto) then Processado else Processando, 0)
  }

  /** What one id not yet stored leads to. */
  datatype Outcome = NoMetadata | Raised | Record(doc: Convencao)

  function EndpointOutcome(src: Source, id: string): Outcome {
    match src.metadados(id)
    case None => NoMetadata
    case Some(m) =>
      var (path, texto, formato) := Fetched(src, id, m);
      if src.insertFails(id) then Raised
      else Record(EndpointRecord(src, id, m, path, texto, formato))
  }

  function EndpointBuilder(src: Source): string -> Option<Convencao> {
    id => if EndpointOutcome(src, id).Record? then Some(EndpointOutcome(src, id).doc) else None
  }

  lemma EndpointBuilderKeyed(src: Source)
    ensures Keyed(EndpointBuilder(src))
  {
    forall id | EndpointBuilder(src)(id).Some? ensures EndpointBuilder(src)(id).value.instrumentoId == id {
    }
  }

  /** The error counter after the ids: one per id that was not stored when
      its turn came and whose metadata was missing or whose insert raised. */
  function Errors(s: DbState, ids: seq<string>, src: Source, now: int): nat
    decreases |ids|
  {
    if ids == [] then 0
    else
      var prefix := ids[..|ids| - 1];
      var id := ids[|ids| - 1];
      Errors(s, prefix, src, now)
      + (if !HasInstrumento(Run(s, prefix, EndpointBuilder(src), now).documents, id) && !EndpointOutcome(src, id).Record? then 1 else 0)
  }

  /** The ids absent from `docs` whose processing fails, counted with
      repetitions: the error counter depends only on the table before the
      run. */
  function Failing(docs: seq<Convencao>, ids: seq<string>, src: Source): nat
    decreases |ids|
  {
    if ids == [] then 0
    else
      Failing(docs, ids[..|ids| - 1], src)
      + (if !HasInstrumento(docs, ids[|ids| - 1]) && !EndpointOutcome(src, ids[|ids| - 1]).Record? then 1 else 0)
  }

  /** An id that cannot be built is never stored by the run, so the error
      counter is the number of failing ids absent beforehand; each id
      counts as new or as an error at most once. */
  lemma {:induction false} ErrorsCount(s: DbState, ids: seq<string>, src: Source, now: int)
    ensures Errors(s, ids, src, now) == Failing(s.documents, ids, src)
    ensures Errors(s, ids, src, now) + (|Run(s, ids, EndpointBuilder(src), now).documents| - |s.documents|) <= |ids|
    decreases |ids|
  {
    EndpointBuilderKeyed(src);
    RunAppends(s, ids, EndpointBuilder(src), now);
    if ids != [] {
      var prefix := ids[..|ids| - 1];
      var id := ids[|ids| - 1];
      ErrorsCount(s, prefix, src, now);
      RunAppends(s, prefix, EndpointBuilder(src), now);
      var t := Run(s, prefix, EndpointBuilder(src), now);
      if !EndpointOutcome(src, id).Record? {
        if HasInstrumento(t.documents, id) {
          StoredAfterRun(s, prefix, EndpointBuilder(src), now, id);
        }
      }
    }
  }

  /** One more id of the run: one more step, and one more error when the
      id was absent and could not be stored. */
  lemma RunStepAt(s: DbState, ids: seq<string>, i: nat, src: Source, now: int)
    requires i < |ids|
    ensures Run(s, ids[..i + 1], EndpointBuilder(src), now)
      == Step(Run(s, ids[..i], EndpointBuilder(src), now), ids[i], EndpointBuilder(src), now)
    ensures Errors(s, ids[..i + 1], src, now) == Errors(s, ids[..i], src, now)
      + (if !HasInstrumento(Run(s, ids[..i], EndpointBuilder(src), now).documents, ids[i]) && !EndpointOutcome(src, ids[i]).Record? then 1 else 0)
  {
    assert ids[..i + 1][..i] == ids[..i];
  }

  /** `run_collection_task(limit, db)`. */
  method RunCollectionTask(db: Database, src: Source, limit: Option<int>, now: int) returns (r: CollectionResult)
    requires db.Valid()
    modifies db
    ensures db.State() == Run(old(db.State()), Limited(src.instrumentoIds, limit), EndpointBuilder(src), now)
    ensures r.newCount == |db.documents| - |old(db.documents)|
    ensures r.errorCount == Failing(old(db.documents), Limited(src.instrumentoIds, limit), src)
    ensures r.newCount + r.errorCount <= |Limited(src.instrumentoIds, limit)|
    ensures db.Valid()
  {
    var ids := src.instrumentoIds;
    if limit.Some? && limit.value != 0 {
      ids := Limited(ids, limit);
    }
    var newCount := 0;
    var errorCount := 0;
    EndpointBuilderKeyed(src);
    for i := 0 to |ids|
      invariant db.Valid()
      invariant db.State() == Run(old(db.State()), ids[..i], EndpointBuilder(src), now)
      invariant |old(db.documents)| <= |db.documents| && newCount == |db.documents| - |old(db.documents)|
      invariant errorCount == Errors(old(db.State()), ids[..i], src, now)
    {
      var instrumentoId := ids[i];
      RunStepAt(old(db.State()), ids, i, src, now);
      var existing := HasInstrumento(db.documents, instrumentoId);
      if existing {
        continue;
      }
      var metadados := src.metadados(instrumentoId);
      if metadados.None? {
        errorCount := errorCount + 1;
        continue;
      }
      var documentoPath: Option<string> := None;
      var textoExtraido: Option<string> := None;
      var formato: Option<Format> := None;
      if Truthy(metadados.value.documentoUrl) {
        var downloadResult := src.download(metadados.value.documentoUrl.value, instrumentoId);
        if downloadResult.Some? {
          var (filepath, fileExt) := downloadResult.value;
          var extracted := src.extractText(filepath, fileExt);
          textoExtraido, formato := extracted.0, extracted.1;
          documentoPath := Some(filepath);
        }
      }
      assert (documentoPath, textoExtraido, formato) == Fetched(src, instrumentoId, metadados.value);
      var convencao := EndpointRecord(src, instrumentoId, metadados.value, documentoPath, textoExtraido, formato);
      if src.insertFails(instrumentoId) {
        errorCount := errorCount + 1;
        continue;
      }
      assert EndpointOutcome(src, instrumentoId) == Record(convencao);
      AdmitDocument(db, Stamp(convencao, |db.documents|, now), now);
      newCount := newCount + 1;
    }
    assert ids[..|ids|] == ids;
    ErrorsCount(old(db.State()), ids, src, now);
    r := Success(newCount, errorCount);
  }

  /** Collecting again with the same answers stores nothing more. */
  lemma CollectionIdempotent(s: DbState, src: Source, limit: Option<int>, now: int)
    ensures var ids := Limited(src.instrumentoIds, limit);
      Run(Run(s, ids, EndpointBuilder(src), now), ids, EndpointBuilder(src), now) == Run(s, ids, EndpointBuilder(src), now)
  {
    EndpointBuilderKeyed(src);
    RunIdempotent(s, Limited(src.instrumentoIds, limit), EndpointBuilder(src), now);
  }

  /** Every record the endpoint builds has a title and a type, takes the
      given ones when non-empty, stores the capped text, and is PROCESSADO
      exactly when text was extracted, else PROCESSANDO; without a document
      URL there is no path, text or format. */
  lemma EndpointRecordRules(src: Source, id: string)
    requires EndpointOutcome(src, id).Record?
    ensures var doc := EndpointOutcome(src, id).doc;
      var m := src.metadados(id).value;
      var texto := Fetched(src, id, m).1;
      src.metadados(id).Some? && !src.insertFails(id) && doc.instrumentoId == id
      && Truthy(doc.titulo) && (Truthy(m.titulo) ==> doc.titulo == m.titulo) && (!Truthy(m.titulo) ==> doc.titulo == Some("Convenção " + id))
      && Truthy(doc.tipo) && (Truthy(m.tipo) ==> doc.tipo == m.tipo)
      && (doc.status == Processado <==> Truthy(texto)) && (doc.status == Processando <==> !Truthy(texto))
      && (doc.textoExtraido.Some? ==> |doc.textoExtraido.value| <= TextCap)
      && (!Truthy(m.documentoUrl) ==> doc.documentoPath.None? && doc.textoExtraido.None? && doc.formato.None?)
      && (Truthy(m.dataPublicacao) ==> doc.dataPublicacao == src.parseDayFirst(m.dataPublicacao.value))
  {
    var m := src.metadados(id).value;
    assert |"Convenção " + id| > 0;
  }
}

=== FILE: collector_task.dfy ===
/** `collect_convencoes_task` of `backend/app/tasks/collector.py`: every id
    the scraper lists is stored at most once, only with metadata, a
    document URL and a successful download, with type 'CCT' and status
    PROCESSADO or ERRO depending on whether text was extracted. */
module CollectorTask {
  import opened Common
  import opened Store
  import opened Intake

  /** The collection job's answer: `{"status": "success", "new_count": n}`. */
  datatype TaskResult = Success(newCount: nat)

  /** `metadados.get(key)` of a date, as the `Date` column stores it. */
  function StoredDate(src: Source, value: Option<string>): Option<int> {
    if value.Some? then src.isoDay(value.value) else None
  }

  /** The metadata's dates go into `Date` columns as they are: each is
      missing or a string PostgreSQL reads as a date; any other string makes
      the insert raise. */
  predicate DatesAccepted(src: Source, m: Metadata) {
    (m.dataPublicacao.Some? ==> src.isoDay(m.dataPublicacao.value).Some?)
    && (m.vigenciaInicio.Some? ==> src.isoDay(m.vigenciaInicio.value).Some?)
    && (m.vigenciaFim.Some? ==> src.isoDay(m.vigenciaFim.value).Some?)
  }

  /** The `Convencao(...)` the collection job builds for a downloaded document. */
  function TaskRecord(src: Source, id: string, m: Metadata, filepath: string,
                      texto: Option<string>, formato: Option<Format>): Convencao {
    Convencao(0, id, m.titulo, Some("CCT"),
      StoredDate(src, m.dataPublicacao), StoredDate(src, m.vigenciaInicio), StoredDate(src, m.vigenciaFim),
      m.sindicatoEmpregador, m.sindicatoTrabalhador, m.municipio, m.uf, m.cnae,
      m.documentoUrl, Some(filepath), CappedText(texto), formato,
      if Truthy(texto) then Processado else Erro, 0)
  }

  /** What one id not yet stored leads to: nothing without metadata, without
      a document URL, when the download fails or when the insert raises (a
      date PostgreSQL refuses, or another failure of the insert); otherwise
      the record. */
  function TaskBuild(src: Source, id: string): Option<Convencao> {
    var metadados := src.metadados(id);
    if metadados.None? || !Truthy(metadados.value.documentoUrl) then None
    else match src.download(metadados.value.documentoUrl.value, id)
      case None => None
      case Some(download) =>
        var (texto, formato) := src.extractText(download.0, download.1);
        if src.insertFails(id) || !DatesAccepted(src, metadados.value) then None
        else Some(TaskRecord(src, id, metadados.value, download.0, texto, formato))
  }

  function TaskBuilder(src: Source): string -> Option<Convencao> {
    id => TaskBuild(src, id)
  }

  /** The rules every record of the collection job follows: the key is the id, the
      type is 'CCT', a document URL and a path are present, every date sent
      was read as a date (none is silently dropped), the text is the capped
      extraction and the status says whether there was text. */
  lemma TaskRecordRules(src: Source, id: string)
    requires TaskBuild(src, id).Some?
    ensures var doc := TaskBuild(src, id).value;
      var m := src.metadados(id).value;
      var download := src.download(m.documentoUrl.value, id).value;
      var texto := src.extractText(download.0, download.1).0;
      src.metadados(id).Some? && Truthy(doc.documentoUrl) && doc.documentoPath == Some(download.0)
      && !src.insertFails(id) && DatesAccepted(src, m)
      && (doc.dataPublicacao.Some? <==> m.dataPublicacao.Some?) && (doc.vigenciaInicio.Some? <==> m.vigenciaInicio.Some?)
      && (doc.vigenciaFim.Some? <==> m.vigenciaFim.Some?)
      && doc.instrumentoId == id && doc.tipo == Some("CCT")
      && (doc.status == Processado <==> Truthy(texto)) && (doc.status == Erro <==> !Truthy(texto))
      && (doc.textoExtraido.Some? <==> Truthy(texto))
      && (doc.textoExtraido.Some? ==> |doc.textoExtraido.value| <= TextCap && doc.textoExtraido.value == texto.value[..|doc.textoExtraido.value|])
  {
  }

  lemma TaskBuilderKeyed(src: Source)
    ensures Keyed(TaskBuilder(src))
  {
    forall id | TaskBuilder(src)(id).Some? ensures TaskBuilder(src)(id).value.instrumentoId == id {
      assert TaskBuilder(src)(id) == TaskBuild(src, id);
    }
  }

  /** The collection job: the ids are processed in order and each new record counts
      once; afterwards the database is the reference run over the ids. */
  method CollectConvencoesTask(db: Database, src: Source, now: int) returns (r: TaskResult)
    requires db.Valid()
    modifies db
    ensures db.State() == Run(old(db.State()), src.instrumentoIds, TaskBuilder(src), now)
    ensures r.newCount == |db.documents| - |old(db.documents)|
    ensures db.Valid()
  {
    var ids := src.instrumentoIds;
    var newCount := 0;
    TaskBuilderKeyed(src);
    for i := 0 to |ids|
      invariant db.Valid()
      invariant db.State() == Run(old(db.State()), ids[..i], TaskBuilder(src), now)
      invariant |old(db.documents)| <= |db.documents| && newCount == |db.documents| - |old(db.documents)|
    {
      var instrumentoId := ids[i];
      assert ids[..i + 1][..i] == ids[..i];
      var existing := HasInstrumento(db.documents, instrumentoId);
      if existing {
        continue;
      }
      var metadados := src.metadados(instrumentoId);
      if metadados.None? || !Truthy(metadados.value.documentoUrl) {
        continue;
      }
      var downloadResult := src.download(metadados.value.documentoUrl.value, instrumentoId);
      if downloadResult.None? {
        continue;
      }
      var (filepath, fileExt) := downloadResult.value;
      var (textoExtraido, formato) := src.extractText(filepath, fileExt);
      var convencao := TaskRecord(src, instrumentoId, metadados.value, filepath, textoExtraido, formato);
      if src.insertFails(instrumentoId) || !DatesAccepted(src, metadados.value) {
        continue;
      }
      assert TaskBuilder(src)(instrumentoId) == Some(convencao);
      AdmitDocument(db, Stamp(convencao, |db.documents|, now), now);
      newCount := newCount + 1;
    }
    assert ids[..|ids|] == ids;
    r := Success(newCount);
  }

  /** Running the collection job a second time with the same answers stores nothing
      more and reports no new record. */
  lemma TaskIdempotent(s: DbState, src: Source, now: int)
    ensures Run(Run(s, src.instrumentoIds, TaskBuilder(src), now), src.instrumentoIds, TaskBuilder(src), now)
      == Run(s, src.instrumentoIds, TaskBuilder(src), now)
  {
    TaskBuilderKeyed(src);
    RunIdempotent(s, src.instrumentoIds, TaskBuilder(src), now);
  }

  /** Every record the collection job added follows its rules and belongs to
      a listed id. */
  lemma TaskAddsRecords(s: DbState, src: Source, now: int)
    ensures var r := Run(s, src.instrumentoIds, TaskBuilder(src), now);
      |s.documents| <= |r.documents| <= |s.documents| + |src.instrumentoIds|
      && r.documents[..|s.documents|] == s.documents
      && forall k :: |s.documents| <= k < |r.documents| ==>
        r.documents[k].instrumentoId in src.instrumentoIds && r.documents[k].id == k && r.documents[k].createdAt == now
        && r.documents[k].tipo == Some("CCT") && Truthy(r.documents[k].documentoUrl) && r.documents[k].documentoPath.Some?
        && (r.documents[k].status == Processado <==> r.documents[k].textoExtraido.Some?)
        && (r.documents[k].status == Erro <==> r.documents[k].textoExtraido.None?)
        && (r.documents[k].textoExtraido.Some? ==> |r.documents[k].textoExtraido.value| <= TextCap)
  {
    TaskBuilderKeyed(src);
    RunAppends(s, src.instrumentoIds, TaskBuilder(src), now);
    var r := Run(s, src.instrumentoIds, TaskBuilder(src), now);
    forall k | |s.documents| <= k < |r.documents|
      ensures r.documents[k].instrumentoId in src.instrumentoIds && r.documents[k].id == k && r.documents[k].createdAt == now
        && r.documents[k].tipo == Some("CCT") && Truthy(r.documents[k].documentoUrl) && r.documents[k].documentoPath.Some?
        && (r.documents[k].status == Processado <==> r.documents[k].textoExtraido.Some?)
        && (r.documents[k].status == Erro <==> r.documents[k].textoExtraido.None?)
        && (r.documents[k].textoExtraido.Some? ==> |r.documents[k].textoExtraido.value| <= TextCap)
    {
      var id := r.documents[k].instrumentoId;
      assert TaskBuilder(src)(id) == TaskBuild(src, id);
      TaskRecordRules(src, id);
    }
  }
}

=== FILE: common.dfy ===
/** Small value types shared by every module of the model. */
module Common {

  /** Python's `None` or a value. */
  datatype Option<+T> = None | Some(value: T) {
    function GetOr(default: T): T {
      if Some? then value else default
    }
  }

  /** What an HTTP endpoint answers: its body, or the status of the
      `HTTPException` it raises. */
  datatype Response<+T> = Ok(value: T) | HttpError(status: int)

  /** Python truthiness of an optional string: present and non-empty. */
  predicate Truthy(o: Option<string>) {
    o.Some? && o.value != ""
  }

  function Min(a: int, b: int): int {
    if a <= b then a else b
  }

  /** Python's `s[:n]` for `n >= 0`. */
  function Take<T>(s: seq<T>, n: nat): (r: seq<T>)
    ensures |r| == Min(n, |s|) && r == s[..|r|]
  {
    if n <= |s| then s[..n] else s
  }
}

=== FILE: companies.dfy ===
/** The company endpoints of `backend/app/api/v1/endpoints/companies.py`:
    create (with the per-user CNPJ check and the association of existing
    documents), list, get, update and delete, each restricted to the
    companies of the current user. */
module Companies {
  import opened Common
  import opened Store
  import opened Relevance
  import opened Schemas

  /** `list_companies`: the user's companies, in table order. */
  function ListCompanies(companies: seq<Company>, user: nat): (r: seq<Company>)
    ensures forall c :: c in r <==> c in companies && c.userId == user
  {
    if companies == [] then []
    else (if companies[0].userId == user then [companies[0]] else []) + ListCompanies(companies[1..], user)
  }

  /** The owner check shared by get, update and delete, once the path id is
      read as a UUID: the company with that id when it belongs to the user,
      else 404. */
  function OwnedCompany(companies: seq<Company>, user: nat, id: nat): (r: Response<Company>)
    ensures r.Ok? <==> Owns(companies, user, id)
    ensures r.Ok? ==> r.value in companies && r.value.id == id && r.value.userId == user
    ensures r.HttpError? ==> r.status == 404
  {
    match OwnedCompanyIndex(companies, id, user)
    case Some(i) => Ok(companies[i])
    case None => HttpError(404)
  }

  /** `get_company`: 500 when the path id is not a UUID, since comparing it
      with the `UUID` column raises; otherwise the user's company with that
      id, or 404. */
  function GetCompany(companies: seq<Company>, user: nat, companyId: string, uuidOf: UuidReader): (r: Response<Company>)
    ensures r == HttpError(500) <==> uuidOf(companyId).None?
    ensures r.Ok? <==> uuidOf(companyId).Some? && Owns(companies, user, uuidOf(companyId).value)
    ensures r.Ok? ==> r.value in companies && r.value.id == uuidOf(companyId).value && r.value.userId == user
    ensures r.HttpError? ==> r.status == 404 || r.status == 500
  {
    match uuidOf(companyId)
    case None => HttpError(500)
    case Some(id) => OwnedCompany(companies, user, id)
  }

  /** Some company of `user` already has this CNPJ. */
  predicate HasCnpj(companies: seq<Company>, user: nat, cnpj: string) {
    exists i :: 0 <= i < |companies| && companies[i].userId == user && companies[i].cnpj == cnpj
  }

  /** The row `Company(user_id=..., **company_data.dict())` builds. */
  function NewRow(id: nat, user: nat, data: CompanyInput): Company {
    Company(id, user, data.cnpj, data.razaoSocial, data.cnae, data.municipio, data.uf)
  }

  /** `create_company`: 422 for a body the validators reject, 400 when the
      user already registered the CNPJ, 500 when the commit fails because a
      value does not fit its column (nothing written in these cases);
      otherwise the company is added, as the table stores it, with a fresh
      id, and linked to every document matching its cnae or its municipio
      and uf. */
  method CreateCompany(db: Database, user: nat, body: CompanyInput) returns (r: Response<Company>)
    requires db.Valid()
    modifies db
    ensures ValidateCompanyCreate(body).Rejected? ==> r == HttpError(422) && db.State() == old(db.State())
    ensures ValidateCompanyCreate(body).Accepted? && HasCnpj(old(db.companies), user, ValidateCompanyCreate(body).value.cnpj) ==>
      r == HttpError(400) && db.State() == old(db.State())
    ensures r == HttpError(500) <==>
      ValidateCompanyCreate(body).Accepted? && !HasCnpj(old(db.companies), user, ValidateCompanyCreate(body).value.cnpj)
      && !CompanyFits(NewRow(old(db.nextCompanyId), user, ValidateCompanyCreate(body).value))
    ensures r == HttpError(500) ==> db.State() == old(db.State())
    ensures r.Ok? ==>
      var data := ValidateCompanyCreate(body).value;
      var c := r.value;
      ValidateCompanyCreate(body).Accepted? && !HasCnpj(old(db.companies), user, data.cnpj)
      && CompanyFits(NewRow(old(db.nextCompanyId), user, data))
      && c == StoredCompany(NewRow(old(db.nextCompanyId), user, data))
      && db.companies == old(db.companies) + [c] && db.nextCompanyId == old(db.nextCompanyId) + 1
      && db.links == AddMissing(old(db.links), CompanyLinks(c, old(db.documents)))
      && db.documents == old(db.documents) && db.notifications == old(db.notifications) && db.preferences == old(db.preferences)
      && OwnedCompany(db.companies, user, c.id) == Ok(c)
      && HasCnpj(db.companies, user, c.cnpj)
    ensures r.Ok? || r == HttpError(400) || r == HttpError(422) || r == HttpError(500)
    ensures db.Valid()
  {
    var checked := ValidateCompanyCreate(body);
    if checked.Rejected? {
      return HttpError(422);
    }
    var data := checked.value;
    var existing := HasCnpj(db.companies, user, data.cnpj);
    if existing {
      return HttpError(400);
    }
    var row := NewRow(db.nextCompanyId, user, data);
    if !CompanyFits(row) {
      return HttpError(500);
    }
    var newCompany := StoredCompany(row);
    NewCompanyKeepsWellFormed(db.companies, db.nextCompanyId, newCompany);
    db.companies := db.companies + [newCompany];
    db.nextCompanyId := db.nextCompanyId + 1;
    AssociateConvencoesToCompany(db, |db.companies| - 1);
    assert db.companies[|db.companies| - 1] == newCompany;
    assert HasCnpj(db.companies, user, newCompany.cnpj) by {
      assert db.companies[|db.companies| - 1].cnpj == newCompany.cnpj;
    }
    OnlyCompanyWithId(db.companies, |db.companies| - 1);
    r := Ok(newCompany);
  }

  /** The validators leave a CNPJ and a CNAE that always fit, so a creation
      fails at the commit only on razao_social, municipio or uf; a `uf` of
      three letters is refused, one padded with spaces is cut to two. */
  lemma CreateFailsOnFreeText(id: nat, user: nat, body: CompanyInput)
    ensures ValidateCompanyCreate(body).Accepted? ==>
      var row := NewRow(id, user, ValidateCompanyCreate(body).value);
      (CompanyFits(row) <==> FitsColumn(row.razaoSocial, RazaoSocialWidth) && FitsColumn(row.municipio, MunicipioWidth)
                               && FitsColumn(row.uf, UfWidth))
    ensures !FitsColumn(Some("SPX"), UfWidth)
    ensures FitsColumn(Some("SP  "), UfWidth) && AsColumn(Some("SP  "), UfWidth) == Some("SP")
  {
    assert "SPX"[2] == 'X';
    assert "SP  "[..2] == "SP";
  }

  /** A company numbered from the counter keeps the ids below the counter
      and distinct. */
  lemma NewCompanyKeepsWellFormed(companies: seq<Company>, next: nat, c: Company)
    requires CompaniesWellFormed(companies, next) && c.id == next && CompanyStored(c)
    ensures CompaniesWellFormed(companies + [c], next + 1)
  {
  }

  /** With unique ids, the owner check finds exactly the row holding the id. */
  lemma OnlyCompanyWithId(companies: seq<Company>, i: nat)
    requires CompanyIdsUnique(companies) && i < |companies|
    ensures OwnedCompany(companies, companies[i].userId, companies[i].id) == Ok(companies[i])
  {
    var c := companies[i];
    var found := OwnedCompanyIndex(companies, c.id, c.userId);
    assert found.Some?;
    assert found.value == i;
  }

  /** The fields a `CompanyUpdate` may carry. */
  datatype Field = RazaoSocial | Cnae | Municipio | Uf

  function FieldValue(c: Company, f: Field): Option<string> {
    match f
    case RazaoSocial => c.razaoSocial
    case Cnae => c.cnae
    case Municipio => c.municipio
    case Uf => c.uf
  }

  /** `setattr(company, key, value)` */
  function SetField(c: Company, f: Field, v: Option<string>): (r: Company)
    ensures FieldValue(r, f) == v
    ensures forall g :: g != f ==> FieldValue(r, g) == FieldValue(c, g)
    ensures r.id == c.id && r.userId == c.userId && r.cnpj == c.cnpj
  {
    match f
    case RazaoSocial => c.(razaoSocial := v)
    case Cnae => c.(cnae := v)
    case Municipio => c.(municipio := v)
    case Uf => c.(uf := v)
  }

  /** `company_data.dict(exclude_unset=True)`: the fields the request sent,
      each once, with the value sent (possibly null). */
  predicate FieldsDistinct(sent: seq<(Field, Option<string>)>) {
    forall i, j :: 0 <= i < j < |sent| ==> sent[i].0 != sent[j].0
  }

  /** The width of each updatable column. */
  function Width(f: Field): nat {
    match f
    case RazaoSocial => RazaoSocialWidth
    case Cnae => CnaeWidth
    case Municipio => MunicipioWidth
    case Uf => UfWidth
  }

  /** The value sent for `f`, if `f` was sent. */
  function SentValue(sent: seq<(Field, Option<string>)>, f: Field): Option<Option<string>> {
    if sent == [] then None
    else if sent[|sent| - 1].0 == f then Some(sent[|sent| - 1].1)
    else SentValue(sent[..|sent| - 1], f)
  }

  /** Field `f` after the update: the value sent, else the one held. */
  function NewValue(c: Company, sent: seq<(Field, Option<string>)>, f: Field): Option<string> {
    if SentValue(sent, f).Some? then SentValue(sent, f).value else FieldValue(c, f)
  }

  /** Every field after the update fits its column. */
  predicate UpdateFits(c: Company, sent: seq<(Field, Option<string>)>) {
    forall f :: FitsColumn(NewValue(c, sent, f), Width(f))
  }

  /** A row with a stored CNPJ fits exactly when each updatable field does. */
  lemma FitsByField(c: Company)
    requires |c.cnpj| <= CnpjWidth
    ensures CompanyFits(c) <==> forall f :: FitsColumn(FieldValue(c, f), Width(f))
  {
    if forall f :: FitsColumn(FieldValue(c, f), Width(f)) {
      assert FitsColumn(FieldValue(c, RazaoSocial), Width(RazaoSocial));
      assert FitsColumn(FieldValue(c, Cnae), Width(Cnae));
      assert FitsColumn(FieldValue(c, Municipio), Width(Municipio));
      assert FitsColumn(FieldValue(c, Uf), Width(Uf));
    }
  }

  /** The `setattr` loop: every field sent takes the value sent; every other
      field, and the id, owner and CNPJ, stay as they were. */
  method ApplyUpdate(c: Company, sent: seq<(Field, Option<string>)>) returns (updated: Company)
    ensures forall f :: FieldValue(updated, f) == NewValue(c, sent, f)
    ensures updated.id == c.id && updated.userId == c.userId && updated.cnpj == c.cnpj
  {
    updated := c;
    var i := 0;
    while i < |sent|
      invariant 0 <= i <= |sent|
      invariant forall f :: FieldValue(updated, f) == (if SentValue(sent[..i], f).Some? then SentValue(sent[..i], f).value else FieldValue(c, f))
      invariant updated.id == c.id && updated.userId == c.userId && updated.cnpj == c.cnpj
    {
      var (key, value) := sent[i];
      assert sent[..i + 1][..i] == sent[..i];
      updated := SetField(updated, key, value);
      i := i + 1;
    }
    assert sent[..i] == sent;
  }

  /** The value `company_data.<field>` reads: the one sent, else `None`. */
  function Attribute(sent: seq<(Field, Option<string>)>, f: Field): Option<string> {
    if SentValue(sent, f).Some? then SentValue(sent, f).value else None
  }

  /** `update_company`: 500, with nothing written, when the path id is not
      a UUID; 404 unless the company is the user's; 500, with nothing
      written, when a value sent does not fit its column; otherwise exactly
      the fields sent are replaced, without normalisation (but with the
      trailing spaces past the width cut, as the table stores them), and the
      documents are associated again only when the request carries a
      non-empty cnae or municipio. */
  method UpdateCompany(db: Database, user: nat, companyId: string, uuidOf: UuidReader, sent: seq<(Field, Option<string>)>)
    returns (r: Response<Company>)
    requires db.Valid()
    modifies db
    ensures uuidOf(companyId).None? ==> r == HttpError(500) && db.State() == old(db.State())
    ensures uuidOf(companyId).Some? ==> var id := uuidOf(companyId).value;
      !Owns(old(db.companies), user, id) ==> r == HttpError(404) && db.State() == old(db.State())
    ensures uuidOf(companyId).Some? ==> var id := uuidOf(companyId).value;
      Owns(old(db.companies), user, id) && !UpdateFits(old(db.companies[OwnedCompanyIndex(db.companies, id, user).value]), sent) ==>
      r == HttpError(500) && db.State() == old(db.State())
    ensures uuidOf(companyId).Some? ==> var id := uuidOf(companyId).value;
      Owns(old(db.companies), user, id) && UpdateFits(old(db.companies[OwnedCompanyIndex(db.companies, id, user).value]), sent) ==>
      var i := OwnedCompanyIndex(old(db.companies), id, user).value;
      r.Ok? && var c := r.value;
      c.id == id && c.userId == user && c.cnpj == old(db.companies[i]).cnpj
      && (forall f :: FieldValue(c, f) == AsColumn(NewValue(old(db.companies[i]), sent, f), Width(f)))
      && db.companies == old(db.companies)[i := c]
      && db.links == (if Truthy(Attribute(sent, Cnae)) || Truthy(Attribute(sent, Municipio))
                      then AddMissing(old(db.links), CompanyLinks(c, old(db.documents))) else old(db.links))
      && db.documents == old(db.documents) && db.notifications == old(db.notifications)
      && db.preferences == old(db.preferences) && db.nextCompanyId == old(db.nextCompanyId)
    ensures db.Valid()
  {
    var parsed := uuidOf(companyId);
    if parsed.None? {
      return HttpError(500);
    }
    var id := parsed.value;
    var found := OwnedCompanyIndex(db.companies, id, user);
    if found.None? {
      return HttpError(404);
    }
    r := UpdateOwned(db, found.value, sent);
  }

  /** The update of the owned row `i`: 500 and no write when a field does
      not fit its column, else the row as the table stores it, with the
      documents associated again when a truthy cnae or municipio was sent. */
  method UpdateOwned(db: Database, i: nat, sent: seq<(Field, Option<string>)>) returns (r: Response<Company>)
    requires db.Valid() && i < |db.companies|
    modifies db
    ensures !UpdateFits(old(db.companies[i]), sent) ==> r == HttpError(500) && db.State() == old(db.State())
    ensures UpdateFits(old(db.companies[i]), sent) ==>
      r.Ok? && var c := r.value;
      c.id == old(db.companies[i]).id && c.userId == old(db.companies[i]).userId && c.cnpj == old(db.companies[i]).cnpj
      && (forall f :: FieldValue(c, f) == AsColumn(NewValue(old(db.companies[i]), sent, f), Width(f)))
      && db.companies == old(db.companies)[i := c]
      && db.links == (if Truthy(Attribute(sent, Cnae)) || Truthy(Attribute(sent, Municipio))
                      then AddMissing(old(db.links), CompanyLinks(c, old(db.documents))) else old(db.links))
      && db.documents == old(db.documents) && db.notifications == old(db.notifications)
      && db.preferences == old(db.preferences) && db.nextCompanyId == old(db.nextCompanyId)
    ensures db.Valid()
  {
    var company := ApplyUpdate(db.companies[i], sent);
    FitsByField(company);
    if !CompanyFits(company) {
      return HttpError(500);
    }
    var stored := StoredCompany(company);
    SameIdsKeepWellFormed(db.companies, i, stored, db.nextCompanyId);
    db.companies := db.companies[i := stored];
    if Truthy(Attribute(sent, Cnae)) || Truthy(Attribute(sent, Municipio)) {
      AssociateConvencoesToCompany(db, i);
    }
    r := Ok(stored);
  }

  lemma SameIdsKeepWellFormed(companies: seq<Company>, i: nat, c: Company, next: nat)
    requires CompaniesWellFormed(companies, next) && i < |companies| && c.id == companies[i].id && CompanyStored(c)
    ensures CompaniesWellFormed(companies[i := c], next)
  {
  }

  /** An update never normalises: a CNAE sent with its punctuation does
      not fit `VARCHAR(7)`, so the update fails with 500, although creation
      would have stored its digits. */
  lemma UpdateRefusesFormatting(c: Company)
    ensures !UpdateFits(c, [(Cnae, Some("6201-5/01"))])
    ensures ValidateCnae(Some("6201-5/01")) == Accepted(Some("6201501"))
  {
    var sent := [(Cnae, Some("6201-5/01"))];
    assert SentValue(sent, Cnae) == Some(Some("6201-5/01"));
    assert "6201-5/01"[7] == '0';
    assert !FitsColumn(NewValue(c, sent, Cnae), Width(Cnae));
    FormattedCnae();
  }

  /** The links that survive the deletion of company `id`
      (`cascade="all, delete-orphan"`). */
  function LinksWithoutCompany(links: seq<Link>, id: nat): (r: seq<Link>)
    ensures forall l :: l in r <==> l in links && l.companyId != id
  {
    if links == [] then []
    else (if links[0].companyId != id then [links[0]] else []) + LinksWithoutCompany(links[1..], id)
  }

  /** Removing links keeps one link per pair and positive scores. */
  lemma {:induction false} LinksWithoutCompanyValid(links: seq<Link>, id: nat)
    requires LinksUnique(links) && LinkScoresPositive(links)
    ensures LinksUnique(LinksWithoutCompany(links, id)) && LinkScoresPositive(LinksWithoutCompany(links, id))
  {
    if links != [] {
      var rest := LinksWithoutCompany(links[1..], id);
      assert LinksUnique(links[1..]) by {
        forall i, j | 0 <= i < j < |links[1..]|
          ensures links[1..][i].convencaoId != links[1..][j].convencaoId || links[1..][i].companyId != links[1..][j].companyId
        {
          assert links[1..][i] == links[i + 1] && links[1..][j] == links[j + 1];
        }
      }
      LinksWithoutCompanyValid(links[1..], id);
      var r := LinksWithoutCompany(links, id);
      if links[0].companyId != id {
        assert r == [links[0]] + rest;
        forall j | 0 <= j < |rest| ensures links[0].convencaoId != rest[j].convencaoId || links[0].companyId != rest[j].companyId {
          assert rest[j] in links[1..];
          var k :| 0 <= k < |links[1..]| && links[1..][k] == rest[j];
          assert links[k + 1] == rest[j];
        }
        forall i | 0 <= i < |r| ensures r[i].score == 50 || r[i].score == 100 {
          if i > 0 {
            assert r[i] == rest[i - 1];
          }
        }
      }
    }
  }

  /** The table without row `i`. */
  function RemoveAt(companies: seq<Company>, i: nat): seq<Company>
    requires i < |companies|
  {
    companies[..i] + companies[i + 1..]
  }

  /** `delete_company`: 500, with nothing written, when the path id is not
      a UUID; 404 unless the company is the user's; otherwise the row and
      its links are removed and nothing else changes. Afterwards the owner
      check answers 404 for that id. */
  method DeleteCompany(db: Database, user: nat, companyId: string, uuidOf: UuidReader) returns (r: Response<()>)
    requires db.Valid()
    modifies db
    ensures uuidOf(companyId).None? ==> r == HttpError(500) && db.State() == old(db.State())
    ensures uuidOf(companyId).Some? ==> var id := uuidOf(companyId).value;
      !Owns(old(db.companies), user, id) ==> r == HttpError(404) && db.State() == old(db.State())
    ensures uuidOf(companyId).Some? ==> var id := uuidOf(companyId).value;
      Owns(old(db.companies), user, id) ==>
      r == Ok(())
      && db.companies == RemoveAt(old(db.companies), OwnedCompanyIndex(old(db.companies), id, user).value)
      && db.links == LinksWithoutCompany(old(db.links), id)
      && db.documents == old(db.documents) && db.notifications == old(db.notifications)
      && db.preferences == old(db.preferences) && db.nextCompanyId == old(db.nextCompanyId)
      && GetCompany(db.companies, user, companyId, uuidOf) == HttpError(404)
    ensures db.Valid()
  {
    var parsed := uuidOf(companyId);
    if parsed.None? {
      return HttpError(500);
    }
    var id := parsed.value;
    var found := OwnedCompanyIndex(db.companies, id, user);
    if found.None? {
      return HttpError(404);
    }
    var i := found.value;
    RemoveAtWellFormed(db.companies, i, db.nextCompanyId);
    LinksWithoutCompanyValid(db.links, id);
    db.companies := RemoveAt(db.companies, i);
    db.links := LinksWithoutCompany(db.links, id);
    r := Ok(());
  }

  /** Removing a row keeps the ids distinct and below the counter, and no
      remaining row has the removed id. */
  lemma RemoveAtWellFormed(companies: seq<Company>, i: nat, next: nat)
    requires CompaniesWellFormed(companies, next) && i < |companies|
    ensures CompaniesWellFormed(RemoveAt(companies, i), next)
    ensures forall k :: 0 <= k < |RemoveAt(companies, i)| ==> RemoveAt(companies, i)[k].id != companies[i].id
  {
    var r := RemoveAt(companies, i);
    assert forall k :: 0 <= k < |r| ==> r[k] == (if k < i then companies[k] else companies[k + 1]);
  }
}

=== FILE: config.dfy ===
/** `Settings.cors_origins_list` of `backend/app/core/config.py`.
    `json.loads` is a parameter: the list of strings it parses, or `None`
    where it raises `JSONDecodeError`. A setting that is valid JSON but not
    a list of strings (`3`, `"http://a"`) is returned by the source as the
    value it parses; that case is not part of this model. */
module Config {
  import opened Common
  import opened Text

  const DefaultOrigin: string := "http://localhost:3000"

  /** `[clean(o) for o in pieces if clean(o)]` */
  function NonBlank(pieces: seq<string>, clean: string -> string): (r: seq<string>)
    ensures |r| <= |pieces|
    ensures forall i :: 0 <= i < |r| ==> r[i] != ""
  {
    if pieces == [] then []
    else (if clean(pieces[0]) != "" then [clean(pieces[0])] else []) + NonBlank(pieces[1..], clean)
  }

  /** Every kept entry is a non-empty cleaned piece, and every piece that
      does not clean to "" is kept. */
  lemma {:induction false} NonBlankSound(pieces: seq<string>, clean: string -> string)
    ensures forall i :: 0 <= i < |NonBlank(pieces, clean)| ==>
      NonBlank(pieces, clean)[i] != "" && exists j :: 0 <= j < |pieces| && NonBlank(pieces, clean)[i] == clean(pieces[j])
    ensures forall j :: 0 <= j < |pieces| && clean(pieces[j]) != "" ==> clean(pieces[j]) in NonBlank(pieces, clean)
  {
    if pieces != [] {
      NonBlankSound(pieces[1..], clean);
      var rest := NonBlank(pieces[1..], clean);
      var head := clean(pieces[0]);
      var r := NonBlank(pieces, clean);
      var skip := if head != "" then 1 else 0;
      assert r == (if head != "" then [head] else []) + rest;
      forall i | 0 <= i < |r| ensures r[i] != "" && exists j :: 0 <= j < |pieces| && r[i] == clean(pieces[j]) {
        if i < skip {
          assert r[i] == clean(pieces[0]);
        } else {
          var k := i - skip;
          assert 0 <= k < |rest| && r[i] == rest[k];
          var j :| 0 <= j < |pieces[1..]| && rest[k] == clean(pieces[1..][j]);
          assert pieces[j + 1] == pieces[1..][j];
        }
      }
      forall j | 0 <= j < |pieces| && clean(pieces[j]) != "" ensures clean(pieces[j]) in r {
        if j > 0 {
          assert pieces[1..][j - 1] == pieces[j];
          assert clean(pieces[j]) in rest;
        }
      }
    }
  }

  /** `cors_origins_list`: the default origin for an empty setting, the
      parsed JSON when it parses (taken to be a list of strings), else the
      comma-separated entries. */
  function CorsOriginsList(corsOrigins: string, parseJson: string -> Option<seq<string>>): (r: seq<string>)
    ensures corsOrigins == "" ==> r == [DefaultOrigin]
    ensures corsOrigins != "" && parseJson(corsOrigins).Some? ==> r == parseJson(corsOrigins).value
  {
    if corsOrigins == "" then [DefaultOrigin]
    else match parseJson(corsOrigins)
      case Some(origins) => origins
      case None => NonBlank(SplitOn(corsOrigins, ","), Strip)
  }

  /** A stripped piece of a split on "," holds no comma. */
  lemma StrippedPieceHasNoComma(piece: string)
    requires forall k :: !OccursAt(piece, ",", k)
    ensures ',' !in Strip(piece)
  {
    var r := Strip(piece);
    StripIsSlice(piece);
    var i := |RStrip(piece)| - |r|;
    assert r == piece[i..i + |r|];
    forall j | 0 <= j < |r| ensures r[j] != ',' {
      assert r[j] == piece[i + j];
      NoCommaAt(piece, i + j);
    }
  }

  /** A string in which "," occurs nowhere has no comma at position `p`. */
  lemma NoCommaAt(piece: string, p: nat)
    requires p < |piece| && !OccursAt(piece, ",", p)
    ensures piece[p] != ','
  {
    assert piece[p..p + 1] == [piece[p]];
  }

  /** Without valid JSON, every origin is non-empty, carries no surrounding
      whitespace and no comma, and every non-blank entry of the setting is
      kept. */
  lemma FallbackOriginsClean(corsOrigins: string, parseJson: string -> Option<seq<string>>)
    requires corsOrigins != "" && parseJson(corsOrigins).None?
    ensures var r := CorsOriginsList(corsOrigins, parseJson);
      forall i :: 0 <= i < |r| ==> r[i] != "" && ',' !in r[i] && Strip(r[i]) == r[i]
    ensures var pieces := SplitOn(corsOrigins, ",");
      forall j :: 0 <= j < |pieces| && Strip(pieces[j]) != "" ==> Strip(pieces[j]) in CorsOriginsList(corsOrigins, parseJson)
  {
    var pieces := SplitOn(corsOrigins, ",");
    var r := CorsOriginsList(corsOrigins, parseJson);
    NonBlankSound(pieces, Strip);
    forall i | 0 <= i < |r| ensures r[i] != "" && ',' !in r[i] && Strip(r[i]) == r[i] {
      var j :| 0 <= j < |pieces| && r[i] == Strip(pieces[j]);
      StrippedPieceHasNoComma(pieces[j]);
      StripIdempotent(pieces[j]);
    }
  }

  /** A single origin that is not JSON is kept, stripped. */
  lemma SingleOrigin(corsOrigins: string, parseJson: string -> Option<seq<string>>)
    requires corsOrigins != "" && parseJson(corsOrigins).None?
    requires ',' !in corsOrigins && Strip(corsOrigins) != ""
    ensures CorsOriginsList(corsOrigins, parseJson) == [Strip(corsOrigins)]
  {
    NotContainsFirst(corsOrigins, ",");
    assert SplitOn(corsOrigins, ",") == [corsOrigins];
    assert [corsOrigins][1..] == [];
    assert NonBlank([corsOrigins], Strip) == [Strip(corsOrigins)] + NonBlank([], Strip);
  }
}

=== FILE: convencoes.dfy ===
/** The document endpoints of `backend/app/api/v1/endpoints/convencoes.py`:
    the filtered, paged search, one document with its access check, and the
    documents of one company. */
module Convencoes {
  import opened Common
  import opened Text
  import opened Store
  import opened Sorting
  import opened Dashboard

  /** The query parameters of `GET /convencoes/search`. */
  datatype SearchQuery = SearchQuery(
    q: Option<string>,
    cnpj: Option<string>,
    cnae: Option<string>,
    municipio: Option<string>,
    uf: Option<string>,
    keyword: Option<string>,
    page: int,
    pageSize: int)

  /** `page: int = Query(1, ge=1)` and `page_size: int = Query(20, ge=1, le=100)`. */
  predicate ValidPaging(query: SearchQuery) {
    query.page >= 1 && 1 <= query.pageSize <= 100
  }

  /** `OFFSET (page - 1) * page_size`. */
  function Offset(query: SearchQuery): nat
    requires ValidPaging(query)
  {
    (query.page - 1) * query.pageSize
  }

  /** `any([q, cnpj, cnae, municipio, uf, keyword])`. */
  predicate HasFilters(query: SearchQuery) {
    Truthy(query.q) || Truthy(query.cnpj) || Truthy(query.cnae) || Truthy(query.municipio) || Truthy(query.uf) || Truthy(query.keyword)
  }

  /** PostgreSQL's `LIKE`: `%` matches any run of characters, `_` any one
      character, and `\` (the default escape character) makes the next
      character literal; every other character matches itself. PostgreSQL
      rejects a pattern that ends in a lone `\`; the patterns built here all
      end in an unescaped or escaped `%`, never in a lone `\`, and such a
      pattern is taken to match nothing. */
  function LikeMatch(p: string, s: string): bool
    decreases |p| + |s|
  {
    if p == [] then s == []
    else if p[0] == '%' then LikeMatch(p[1..], s) || (s != [] && LikeMatch(p, s[1..]))
    else if p[0] == '_' then s != [] && LikeMatch(p[1..], s[1..])
    else if p[0] == '\\' then |p| >= 2 && s != [] && s[0] == p[1] && LikeMatch(p[2..], s[1..])
    else s != [] && s[0] == p[0] && LikeMatch(p[1..], s[1..])
  }

  /** `column.ilike(f"%{pattern}%")`: a non-null column matching the
      pattern between two `%`, both sides lower-cased. The `%`, `_` and `\`
      that the user's text carries keep their `LIKE` meaning. */
  predicate ILike(column: Option<string>, pattern: string) {
    column.Some? && LikeMatch(Lower("%" + pattern + "%"), Lower(column.value))
  }

  /** Text without `LIKE` wildcards or escapes. */
  predicate Literal(p: string) {
    forall i :: 0 <= i < |p| ==> p[i] != '%' && p[i] != '_' && p[i] != '\\'
  }

  /** `%` matches anything. */
  lemma {:induction false} LikeAnyRun(s: string)
    ensures LikeMatch("%", s)
    decreases |s|
  {
    if s != [] {
      LikeAnyRun(s[1..]);
    }
  }

  /** A literal pattern followed by `%` matches exactly the strings it
      starts. */
  lemma {:induction false} LikePrefix(p: string, s: string)
    requires Literal(p)
    ensures LikeMatch(p + "%", s) <==> |p| <= |s| && s[..|p|] == p
    decreases |p|
  {
    if p == [] {
      assert p + "%" == "%";
      LikeAnyRun(s);
    } else {
      var q := p + "%";
      assert q[0] == p[0] && q[1..] == p[1..] + "%";
      assert Literal(p[1..]) by {
        forall i | 0 <= i < |p[1..]| ensures p[1..][i] != '%' && p[1..][i] != '_' && p[1..][i] != '\\' {
          assert p[1..][i] == p[i + 1];
        }
      }
      if s != [] {
        LikePrefix(p[1..], s[1..]);
        if |p| <= |s| {
          assert s[..|p|] == [s[0]] + s[1..][..|p| - 1];
          assert p == [p[0]] + p[1..];
        }
      }
    }
  }

  /** A pattern opened by `%` matches where its rest matches some suffix. */
  lemma {:induction false} LikeSomewhere(q: string, s: string)
    ensures LikeMatch("%" + q, s) <==> exists k :: 0 <= k <= |s| && LikeMatch(q, s[k..])
    decreases |s|
  {
    var p := "%" + q;
    assert p[0] == '%' && p[1..] == q;
    assert s[0..] == s;
    if s != [] {
      LikeSomewhere(q, s[1..]);
      forall k | 1 <= k <= |s| ensures s[k..] == s[1..][k - 1..] {}
      if LikeMatch(p, s[1..]) {
        var k :| 0 <= k <= |s[1..]| && LikeMatch(q, s[1..][k..]);
        assert s[k + 1..] == s[1..][k..];
      }
    }
  }

  /** For text without wildcards, `%text%` matches exactly the strings that
      contain the text. */
  lemma LiteralMatchesContaining(p: string, s: string)
    requires Literal(p)
    ensures LikeMatch("%" + p + "%", s) <==> exists k :: OccursAt(s, p, k)
  {
    assert "%" + p + "%" == "%" + (p + "%");
    LikeSomewhere(p + "%", s);
    forall k | 0 <= k <= |s| ensures LikeMatch(p + "%", s[k..]) <==> OccursAt(s, p, k) {
      LikePrefix(p, s[k..]);
      if k + |p| <= |s| {
        assert s[k..][..|p|] == s[k..k + |p|];
      }
    }
  }

  /** Without wildcards in the user's text, the `ilike` filter is a
      case-insensitive substring test. */
  lemma ILikeLiteral(column: Option<string>, pattern: string)
    requires Literal(pattern)
    ensures ILike(column, pattern) <==> column.Some? && Contains(Lower(column.value), Lower(pattern))
  {
    var lp := Lower(pattern);
    assert Lower("%" + pattern + "%") == "%" + lp + "%";
    assert Literal(lp);
    if column.Some? {
      var s := Lower(column.value);
      LiteralMatchesContaining(lp, s);
      if Contains(s, lp) {
        assert OccursAt(s, lp, IndexOf(s, lp).value);
      }
    }
  }

  /** `_` in the user's text matches any one character: the city filter
      `S_o` selects "São Paulo", which does not contain the text `s_o`. */
  lemma WildcardInFilter()
    ensures ILike(Some("São Paulo"), "S_o")
    ensures !Contains(Lower("São Paulo"), Lower("S_o"))
  {
    LowerSaoPaulo();
    assert Lower("%" + "S_o" + "%") == "%s_o%";
    LikeSaoPaulo();
    assert Lower("S_o") == "s_o";
    NotContainingUnderscore();
  }

  lemma LowerSaoPaulo()
    ensures Lower("São Paulo") == "são paulo"
  {
  }

  lemma LikeSaoPaulo()
    ensures LikeMatch("%s_o%", "são paulo")
  {
    var s := "são paulo";
    LikeAnyRun(s[3..]);
    assert LikeMatch("o%", s[2..]) by {
      assert "o%"[1..] == "%" && s[2..][1..] == s[3..];
    }
    assert LikeMatch("_o%", s[1..]) by {
      assert "_o%"[1..] == "o%" && s[1..][1..] == s[2..];
    }
    assert LikeMatch("s_o%", s) by {
      assert "s_o%"[1..] == "_o%";
    }
    assert "%s_o%"[1..] == "s_o%";
  }

  lemma NotContainingUnderscore()
    ensures !Contains("são paulo", "s_o")
  {
    var s, sub := "são paulo", "s_o";
    forall k ensures !OccursAt(s, sub, k) {
      if 0 <= k && k + 3 <= |s| {
        assert s[k..k + 3][1] == s[k + 1] != '_';
      }
    }
  }

  /** Ids of the user's companies registered with `cnpj`, in table order. */
  function CompaniesWithCnpj(companies: seq<Company>, user: nat, cnpj: string): (r: seq<nat>)
    ensures forall id :: id in r ==> exists i :: 0 <= i < |companies| && companies[i].id == id && companies[i].userId == user && companies[i].cnpj == cnpj
    ensures forall i :: 0 <= i < |companies| && companies[i].userId == user && companies[i].cnpj == cnpj ==> companies[i].id in r
  {
    if companies == [] then []
    else
      var rest := CompaniesWithCnpj(companies[1..], user, cnpj);
      assert forall id :: id in rest ==> exists i :: 0 <= i < |companies| && companies[i].id == id && companies[i].userId == user && companies[i].cnpj == cnpj by {
        forall id | id in rest ensures exists i :: 0 <= i < |companies| && companies[i].id == id && companies[i].userId == user && companies[i].cnpj == cnpj {
          var i :| 0 <= i < |companies[1..]| && companies[1..][i].id == id && companies[1..][i].userId == user && companies[1..][i].cnpj == cnpj;
          assert companies[i + 1] == companies[1..][i];
        }
      }
      assert forall i :: 1 <= i < |companies| ==> companies[i] == companies[1..][i - 1];
      (if companies[0].userId == user && companies[0].cnpj == cnpj then [companies[0].id] else []) + rest
  }

  /** The restriction to the documents linked to the user's companies: only
      with companies, links and no filter. */
  function AssociationScope(s: DbState, user: nat, query: SearchQuery): Option<seq<nat>> {
    var companyIds := UserCompanyIds(s.companies, user);
    if companyIds != [] && LinkedDocIds(s.links, companyIds) != [] && !HasFilters(query)
    then Some(LinkedDocIds(s.links, companyIds)) else None
  }

  /** The restriction of the cnpj filter: the documents linked to the user's
      companies with that CNPJ. */
  function CnpjScope(s: DbState, user: nat, query: SearchQuery): Option<seq<nat>> {
    if Truthy(query.cnpj)
    then Some(LinkedDocIds(s.links, CompaniesWithCnpj(s.companies, user, CleanCnpj(query.cnpj.value))))
    else None
  }

  /** Every `query.filter(...)` of the search. */
  predicate Selected(d: Convencao, association: Option<seq<nat>>, byCnpj: Option<seq<nat>>, query: SearchQuery) {
    (association.Some? ==> d.id in association.value)
    && (byCnpj.Some? ==> d.id in byCnpj.value)
    && (Truthy(query.cnae) ==> d.cnae == query.cnae)
    && (Truthy(query.municipio) ==> ILike(d.municipio, query.municipio.value))
    && (Truthy(query.uf) ==> d.uf == Some(Upper(query.uf.value)))
    && (Truthy(query.keyword) ==> ILike(d.textoExtraido, query.keyword.value))
    && (Truthy(query.q) ==> ILike(d.titulo, query.q.value) || ILike(d.sindicatoEmpregador, query.q.value)
                            || ILike(d.sindicatoTrabalhador, query.q.value) || ILike(d.municipio, query.q.value))
  }

  function SelectedBy(association: Option<seq<nat>>, byCnpj: Option<seq<nat>>, query: SearchQuery): Convencao -> bool {
    d => Selected(d, association, byCnpj, query)
  }

  /** `search_convencoes`: 422 for paging outside the bounds; no result when
      a CNPJ is asked for that none of the user's companies has; otherwise
      the selected documents, latest publication first, one page. */
  function SearchConvencoes(s: DbState, user: nat, query: SearchQuery): (r: Response<seq<Convencao>>)
    ensures r.HttpError? <==> !ValidPaging(query)
    ensures r.HttpError? ==> r.status == 422
  {
    if !ValidPaging(query) then HttpError(422)
    else if Truthy(query.cnpj) && CompaniesWithCnpj(s.companies, user, CleanCnpj(query.cnpj.value)) == [] then Ok([])
    else Ok(Page(SortNewestFirst(Matches(s, user, query), PublicationKey), Offset(query), query.pageSize))
  }

  /** The documents the `WHERE` clause of a search selects, in table order. */
  function Matches(s: DbState, user: nat, query: SearchQuery): (r: seq<Convencao>)
    ensures forall d :: d in r <==> d in s.documents && Selected(d, AssociationScope(s, user, query), CnpjScope(s, user, query), query)
  {
    var p := SelectedBy(AssociationScope(s, user, query), CnpjScope(s, user, query), query);
    var r := Where(s.documents, p);
    assert forall d :: d in r <==> d in s.documents && p(d);
    r
  }

  /** A valid search answers page `page` of all the documents that pass
      its filters, ordered newest first: the ordered list is a permutation
      of the matches, and its `Offset(query) + k`-th element is the k-th of
      the page. The early answer `[]` for a CNPJ without company is that
      page too, as nothing then matches. */
  lemma SearchConvencoesPage(s: DbState, user: nat, query: SearchQuery)
    ensures ValidPaging(query) ==>
      var sorted := SortNewestFirst(Matches(s, user, query), PublicationKey);
      multiset(sorted) == multiset(Matches(s, user, query)) && NewestFirst(sorted, PublicationKey)
      && SearchConvencoes(s, user, query) == Ok(Page(sorted, Offset(query), query.pageSize))
  {
    var m := Matches(s, user, query);
    SortNewestFirstCorrect(m, PublicationKey);
    if ValidPaging(query) && Truthy(query.cnpj) && CompaniesWithCnpj(s.companies, user, CleanCnpj(query.cnpj.value)) == [] {
      LinkedDocIdsEmpty(s.links);
      assert CnpjScope(s, user, query) == Some([]);
      WhereNone(s.documents, SelectedBy(AssociationScope(s, user, query), CnpjScope(s, user, query), query));
      assert Page(SortNewestFirst(m, PublicationKey), Offset(query), query.pageSize) == [];
    }
  }

  /** The page number changes neither the filters nor the matches. */
  lemma MatchesIgnorePage(s: DbState, user: nat, query: SearchQuery, page: int)
    ensures Matches(s, user, query.(page := page)) == Matches(s, user, query)
  {
    var q := query.(page := page);
    assert AssociationScope(s, user, q) == AssociationScope(s, user, query);
    assert CnpjScope(s, user, q) == CnpjScope(s, user, query);
    WhereSame(s.documents, SelectedBy(AssociationScope(s, user, q), CnpjScope(s, user, q), q),
      SelectedBy(AssociationScope(s, user, query), CnpjScope(s, user, query), query));
  }

  /** What lies on the page of the ordered matches is in the answer. */
  lemma OnPage(s: DbState, user: nat, query: SearchQuery, d: Convencao)
    requires ValidPaging(query)
    requires d in Page(SortNewestFirst(Matches(s, user, query), PublicationKey), Offset(query), query.pageSize)
    ensures SearchConvencoes(s, user, query).Ok? && d in SearchConvencoes(s, user, query).value
  {
    SearchConvencoesPage(s, user, query);
  }

  /** Every match is on some page of the ordered matches. */
  lemma MatchOnSomePage(m: seq<Convencao>, d: Convencao, size: nat) returns (b: nat, offset: nat)
    requires d in m && size >= 1
    ensures offset == b * size && d in Page(SortNewestFirst(m, PublicationKey), offset, size)
  {
    var sorted := SortNewestFirst(m, PublicationKey);
    SortNewestFirstCorrect(m, PublicationKey);
    assert d in multiset(sorted);
    var j :| 0 <= j < |sorted| && sorted[j] == d;
    b, offset := PageOf(j, size);
    PageHolding(sorted, j, offset, size);
  }

  /** No match is lost: every document passing the filters is on some
      page of the search, when every request sorts ties the same way, as
      the model's sort does. */
  lemma SearchFindsEveryMatch(s: DbState, user: nat, query: SearchQuery, d: Convencao)
    requires ValidPaging(query) && d in Matches(s, user, query)
    ensures exists page :: (page >= 1 && SearchConvencoes(s, user, query.(page := page)).Ok?
                             && d in SearchConvencoes(s, user, query.(page := page)).value)
  {
    var below, offset := MatchOnSomePage(Matches(s, user, query), d, query.pageSize);
    var q := query.(page := below + 1);
    MatchesIgnorePage(s, user, query, below + 1);
    assert Offset(q) == offset;
    OnPage(s, user, q, d);
  }

  /** A search returns at most a page of stored documents, newest first,
      each one passing every `filter` of the query. */
  lemma SearchSelects(s: DbState, user: nat, query: SearchQuery)
    ensures SearchConvencoes(s, user, query).Ok? ==>
      |SearchConvencoes(s, user, query).value| <= query.pageSize
      && NewestFirst(SearchConvencoes(s, user, query).value, PublicationKey)
      && forall d :: d in SearchConvencoes(s, user, query).value ==>
        d in s.documents && Selected(d, AssociationScope(s, user, query), CnpjScope(s, user, query), query)
  {
    if SearchConvencoes(s, user, query).Ok? {
      SortedPage(Matches(s, user, query), PublicationKey, Offset(query), query.pageSize);
    }
  }

  /** Each document found matches every filter given: the exact CNAE, the
      state in capitals, the city, the text keyword and the free query
      searched in title, unions and city, all ignoring case. */
  lemma SearchConvencoesCorrect(s: DbState, user: nat, query: SearchQuery)
    ensures SearchConvencoes(s, user, query).Ok? ==>
      forall d :: d in SearchConvencoes(s, user, query).value ==>
        d in s.documents
        && (Truthy(query.cnae) ==> d.cnae == query.cnae)
        && (Truthy(query.uf) ==> d.uf == Some(Upper(query.uf.value)))
        && (Truthy(query.municipio) ==> ILike(d.municipio, query.municipio.value))
        && (Truthy(query.keyword) ==> ILike(d.textoExtraido, query.keyword.value))
        && (Truthy(query.q) ==> ILike(d.titulo, query.q.value) || ILike(d.sindicatoEmpregador, query.q.value)
                                || ILike(d.sindicatoTrabalhador, query.q.value) || ILike(d.municipio, query.q.value))
  {
    SearchSelects(s, user, query);
  }

  /** Without any filter, a user whose companies have linked documents sees
      only documents linked to one of those companies. */
  lemma SearchRestrictedToCompanies(s: DbState, user: nat, query: SearchQuery)
    requires !HasFilters(query) && LinkedDocIds(s.links, UserCompanyIds(s.companies, user)) != []
    ensures SearchConvencoes(s, user, query).Ok? ==>
      forall d :: d in SearchConvencoes(s, user, query).value ==> LinkedTo(s.links, UserCompanyIds(s.companies, user), d.id)
  {
    SearchSelects(s, user, query);
    LinkedDocIdsCorrect(s.links, UserCompanyIds(s.companies, user));
    if UserCompanyIds(s.companies, user) == [] {
      assert LinkedDocIds(s.links, []) == [] by {
        LinkedDocIdsEmpty(s.links);
      }
    }
  }

  /** No company, no linked document. */
  lemma {:induction false} LinkedDocIdsEmpty(links: seq<Link>)
    ensures LinkedDocIds(links, []) == []
    decreases |links|
  {
    if links != [] {
      LinkedDocIdsEmpty(links[..|links| - 1]);
    }
  }

  /** Document `d` is linked to a company of the user registered with
      `cnpj`. */
  predicate LinkedToCnpj(s: DbState, user: nat, cnpj: string, d: nat) {
    exists i, j :: 0 <= i < |s.links| && 0 <= j < |s.companies| && s.links[i].convencaoId == d
      && s.links[i].companyId == s.companies[j].id && s.companies[j].userId == user && s.companies[j].cnpj == cnpj
  }

  /** With a CNPJ, every document found is linked to a company of the user
      registered with that CNPJ, punctuation removed. */
  lemma SearchByCnpj(s: DbState, user: nat, query: SearchQuery)
    requires Truthy(query.cnpj)
    ensures SearchConvencoes(s, user, query).Ok? ==>
      forall d :: d in SearchConvencoes(s, user, query).value ==> LinkedToCnpj(s, user, CleanCnpj(query.cnpj.value), d.id)
  {
    SearchSelects(s, user, query);
    var ids := CompaniesWithCnpj(s.companies, user, CleanCnpj(query.cnpj.value));
    LinkedDocIdsCorrect(s.links, ids);
    if SearchConvencoes(s, user, query).Ok? {
      forall d | d in SearchConvencoes(s, user, query).value
        ensures LinkedToCnpj(s, user, CleanCnpj(query.cnpj.value), d.id)
      {
        assert d.id in LinkedDocIds(s.links, ids);
        var i :| 0 <= i < |s.links| && s.links[i].companyId in ids && s.links[i].convencaoId == d.id;
        var j :| 0 <= j < |s.companies| && s.companies[j].id == s.links[i].companyId && s.companies[j].userId == user
          && s.companies[j].cnpj == CleanCnpj(query.cnpj.value);
      }
    }
  }

  /** `get_convencao`: 500 when the path id is not a UUID; 404 for a
      missing document; 403 when the user has companies and none of them is
      linked to it; a user without companies sees every document. */
  function GetConvencao(s: DbState, user: nat, convencaoId: string, uuidOf: UuidReader): (r: Response<Convencao>)
    ensures r.Ok? ==>
      (uuidOf(convencaoId).Some? && uuidOf(convencaoId).value < |s.documents|
       && r.value == s.documents[uuidOf(convencaoId).value])
  {
    match uuidOf(convencaoId)
    case None => HttpError(500)
    case Some(id) =>
      var companyIds := UserCompanyIds(s.companies, user);
      if id >= |s.documents| then HttpError(404)
      else if companyIds != [] && !LinkedTo(s.links, companyIds, id) then HttpError(403)
      else Ok(s.documents[id])
  }

  /** The access rule in terms of ownership: a path id that is not a UUID
      answers 500; otherwise a stored document is returned exactly when the
      user owns no company or owns one linked to it, and refused with 403
      otherwise. */
  lemma GetConvencaoAccess(s: DbState, user: nat, convencaoId: string, uuidOf: UuidReader)
    ensures GetConvencao(s, user, convencaoId, uuidOf) == HttpError(500) <==> uuidOf(convencaoId).None?
    ensures uuidOf(convencaoId).Some? ==> var id := uuidOf(convencaoId).value; var r := GetConvencao(s, user, convencaoId, uuidOf);
      (r.HttpError? && id >= |s.documents| ==> r.status == 404)
      && (id < |s.documents| ==>
        (r.Ok? <==>
          (forall c :: 0 <= c < |s.companies| ==> s.companies[c].userId != user)
          || exists c :: 0 <= c < |s.companies| && s.companies[c].userId == user && HasLink(s.links, id, s.companies[c].id)))
      && (id < |s.documents| && !r.Ok? ==> r == HttpError(403))
  {
    var companyIds := UserCompanyIds(s.companies, user);
    var id := if uuidOf(convencaoId).Some? then uuidOf(convencaoId).value else 0;
    if uuidOf(convencaoId).Some? && id < |s.documents| {
      if companyIds == [] {
        forall c | 0 <= c < |s.companies| ensures s.companies[c].userId != user {
          assert !Owns(s.companies, user, s.companies[c].id);
        }
      } else {
        var some := companyIds[0];
        assert Owns(s.companies, user, some);
        if LinkedTo(s.links, companyIds, id) {
          var i :| 0 <= i < |s.links| && s.links[i].companyId in companyIds && s.links[i].convencaoId == id;
          assert Owns(s.companies, user, s.links[i].companyId);
          var c :| 0 <= c < |s.companies| && s.companies[c].id == s.links[i].companyId && s.companies[c].userId == user;
          assert HasLink(s.links, id, s.companies[c].id);
        } else {
          forall c | 0 <= c < |s.companies| && s.companies[c].userId == user ensures !HasLink(s.links, id, s.companies[c].id) {
            assert s.companies[c].id in companyIds by {
              assert Owns(s.companies, user, s.companies[c].id);
            }
          }
        }
      }
    }
  }

  /** `get_company_convencoes`: 500 when the path id is not a UUID; 404
      unless the company is the user's; otherwise the documents linked to
      it, latest publication first. */
  function GetCompanyConvencoes(s: DbState, user: nat, companyPath: string, uuidOf: UuidReader): Response<seq<Convencao>> {
    match uuidOf(companyPath)
    case None => HttpError(500)
    case Some(companyId) =>
      if !Owns(s.companies, user, companyId) then HttpError(404)
      else Ok(SortNewestFirst(Where(s.documents, IdIn(LinkedDocIds(s.links, [companyId]))), PublicationKey))
  }

  /** The company's documents are exactly the stored documents it is linked
      to, newest first; a path id that is not a UUID answers 500. */
  lemma GetCompanyConvencoesCorrect(s: DbState, user: nat, companyPath: string, uuidOf: UuidReader)
    ensures GetCompanyConvencoes(s, user, companyPath, uuidOf) == HttpError(500) <==> uuidOf(companyPath).None?
    ensures uuidOf(companyPath).Some? ==> var companyId := uuidOf(companyPath).value;
      var r := GetCompanyConvencoes(s, user, companyPath, uuidOf);
      (r.HttpError? <==> !Owns(s.companies, user, companyId))
      && (r.HttpError? ==> r.status == 404)
      && (r.Ok? ==>
        NewestFirst(r.value, PublicationKey)
        && forall d :: d in r.value <==> d in s.documents && HasLink(s.links, d.id, companyId))
  {
    var companyId := if uuidOf(companyPath).Some? then uuidOf(companyPath).value else 0;
    if uuidOf(companyPath).Some? && Owns(s.companies, user, companyId) {
      LinkedDocIdsCorrect(s.links, [companyId]);
      var linked := Where(s.documents, IdIn(LinkedDocIds(s.links, [companyId])));
      SortNewestFirstCorrect(linked, PublicationKey);
      var r := SortNewestFirst(linked, PublicationKey);
      forall d ensures d in r <==> d in s.documents && HasLink(s.links, d.id, companyId) {
        assert d in r <==> d in multiset(r);
        assert d in linked <==> d in multiset(linked);
        if HasLink(s.links, d.id, companyId) {
          var i :| 0 <= i < |s.links| && s.links[i].convencaoId == d.id && s.links[i].companyId == companyId;
          assert LinkedTo(s.links, [companyId], d.id);
        }
        if LinkedTo(s.links, [companyId], d.id) {
          var i :| 0 <= i < |s.links| && s.links[i].companyId in [companyId] && s.links[i].convencaoId == d.id;
          assert HasLink(s.links, d.id, companyId);
        }
      }
    }
  }
}

=== FILE: dashboard.dfy ===
/** The dashboard endpoints of `backend/app/api/v1/endpoints/dashboard.py`:
    the five counters of `/stats` and the documents of `/recent`. */
module Dashboard {
  import opened Common
  import opened Store
  import opened Sorting
  import opened Relevance
  import opened Notifications

  /** `timedelta(days=7)` in seconds. */
  const Week: int := 7 * 86400

  datatype Stats = Stats(
    totalCompanies: nat,
    totalConvencoes: nat,
    novasConvencoes: nat,
    unreadNotifications: nat,
    dissidioAlertsCount: nat)

  /** `SELECT DISTINCT convencao_id FROM convencao_empresas WHERE company_id
      IN ids`, each id once, in the order the links first reach it. */
  function LinkedDocIds(links: seq<Link>, ids: seq<nat>): seq<nat>
    decreases |links|
  {
    if links == [] then []
    else
      var rest := LinkedDocIds(links[..|links| - 1], ids);
      var l := links[|links| - 1];
      if l.companyId in ids && l.convencaoId !in rest then rest + [l.convencaoId] else rest
  }

  /** Some link joins document `d` to a company in `ids`. */
  predicate LinkedTo(links: seq<Link>, ids: seq<nat>, d: nat) {
    exists i :: 0 <= i < |links| && links[i].companyId in ids && links[i].convencaoId == d
  }

  /** The distinct ids are exactly the documents linked to the companies. */
  lemma {:induction false} LinkedDocIdsCorrect(links: seq<Link>, ids: seq<nat>)
    ensures Distinct(LinkedDocIds(links, ids))
    ensures forall d :: d in LinkedDocIds(links, ids) <==> LinkedTo(links, ids, d)
    decreases |links|
  {
    if links != [] {
      var prefix := links[..|links| - 1];
      LinkedDocIdsCorrect(prefix, ids);
      forall d ensures LinkedTo(links, ids, d) <==> LinkedTo(prefix, ids, d) || (links[|links| - 1].companyId in ids && links[|links| - 1].convencaoId == d) {
        if LinkedTo(links, ids, d) {
          var i :| 0 <= i < |links| && links[i].companyId in ids && links[i].convencaoId == d;
          if i < |prefix| {
            assert prefix[i] == links[i];
          }
        }
        if LinkedTo(prefix, ids, d) {
          var i :| 0 <= i < |prefix| && prefix[i].companyId in ids && prefix[i].convencaoId == d;
          assert links[i] == prefix[i];
        }
      }
    }
  }

  /** A document created in the last seven days: `created_at >= now - 7 days`. */
  function CreatedSince(docs: seq<Convencao>, cutoff: int): nat -> bool {
    (d: nat) => d < |docs| && docs[d].createdAt >= cutoff
  }

  function DissidioUnreadBy(user: nat): Notification -> bool {
    n => DissidioListed(n, user, Some(false))
  }

  /** `get_dashboard_stats` at time `now`. The count of new documents runs
      over the distinct linked ids, a document's id being its row. */
  function DashboardStats(s: DbState, user: nat, now: int): Stats {
    var companyIds := UserCompanyIds(s.companies, user);
    var convencaoIds := if companyIds == [] then [] else LinkedDocIds(s.links, companyIds);
    Stats(
      |companyIds|,
      |convencaoIds|,
      if companyIds == [] then 0 else |Where(convencaoIds, CreatedSince(s.documents, now - Week))|,
      |Where(s.notifications, UnreadBy(user))|,
      |Where(s.notifications, DissidioUnreadBy(user))|)
  }

  /** Selecting from a list without repetitions keeps it without
      repetitions. */
  lemma {:induction false} WhereDistinct(xs: seq<nat>, p: nat -> bool)
    requires Distinct(xs)
    ensures Distinct(Where(xs, p))
    decreases |xs|
  {
    if xs != [] {
      assert Distinct(xs[1..]) by {
        forall i, j | 0 <= i < j < |xs[1..]| ensures xs[1..][i] != xs[1..][j] {
          assert xs[1..][i] == xs[i + 1] && xs[1..][j] == xs[j + 1];
        }
      }
      WhereDistinct(xs[1..], p);
      assert xs[0] !in xs[1..] by {
        forall k | 0 <= k < |xs[1..]| ensures xs[1..][k] != xs[0] {
          assert xs[1..][k] == xs[k + 1];
        }
      }
    }
  }

  /** The elements of a list, as a set. */
  function Elements(xs: seq<nat>): set<nat> {
    set x | x in xs
  }

  lemma ElementsSnoc(init: seq<nat>, x: nat)
    ensures Elements(init + [x]) == Elements(init) + {x}
  {
    var xs := init + [x];
    forall y ensures y in Elements(xs) <==> y in Elements(init) + {x} {
      if y in xs {
        var k :| 0 <= k < |xs| && xs[k] == y;
        if k < |init| {
          assert init[k] == y;
        }
      }
      if y in init {
        var k :| 0 <= k < |init| && init[k] == y;
        assert xs[k] == y;
      }
    }
  }

  /** A list without repetitions is as long as the set of its elements. */
  lemma {:induction false} DistinctCard(xs: seq<nat>)
    requires Distinct(xs)
    ensures |Elements(xs)| == |xs|
    decreases |xs|
  {
    if xs != [] {
      var init := xs[..|xs| - 1];
      var last := xs[|xs| - 1];
      assert Distinct(init) by {
        forall i, j | 0 <= i < j < |init| ensures init[i] != init[j] {
          assert init[i] == xs[i] && init[j] == xs[j];
        }
      }
      DistinctCard(init);
      assert last !in init by {
        forall k | 0 <= k < |init| ensures init[k] != last {
          assert init[k] == xs[k];
        }
      }
      assert init + [last] == xs;
      ElementsSnoc(init, last);
      assert last !in Elements(init);
      assert |Elements(init) + {last}| == |Elements(init)| + 1;
    }
  }

  /** The counters mean what they say: the user's companies, the distinct
      documents linked to them (none without companies), of which the new
      ones are exactly those created in the last seven days; the unread
      notifications are exactly the user's unread rows, of which the unread
      expiration alerts, also counted row by row, are a part. */
  lemma DashboardStatsMeaning(s: DbState, user: nat, now: int)
    ensures var r := DashboardStats(s, user, now);
      var companyIds := UserCompanyIds(s.companies, user);
      (forall id :: id in companyIds <==> Owns(s.companies, user, id))
      && r.totalCompanies == |companyIds|
      && (companyIds == [] ==> r.totalConvencoes == 0 && r.novasConvencoes == 0)
      && (companyIds != [] ==>
            r.totalConvencoes == |LinkedDocIds(s.links, companyIds)|
            && Distinct(LinkedDocIds(s.links, companyIds))
            && forall d :: d in LinkedDocIds(s.links, companyIds) <==> LinkedTo(s.links, companyIds, d))
      && (companyIds != [] ==>
            r.novasConvencoes
            == |set d: nat | d < |s.documents| && s.documents[d].createdAt >= now - Week && LinkedTo(s.links, companyIds, d)|)
      && r.novasConvencoes <= r.totalConvencoes
      && r.unreadNotifications == |set k: nat | k < |s.notifications| && Unread(s.notifications[k], user)|
      && r.dissidioAlertsCount
         == |set k: nat | k < |s.notifications| && DissidioListed(s.notifications[k], user, Some(false))|
      && r.dissidioAlertsCount <= r.unreadNotifications
  {
    var companyIds := UserCompanyIds(s.companies, user);
    LinkedDocIdsCorrect(s.links, companyIds);
    WhereStronger(s.notifications, DissidioUnreadBy(user), UnreadBy(user));
    WhereCount(s.notifications, UnreadBy(user));
    assert Positions(s.notifications, UnreadBy(user))
      == (set k: nat | k < |s.notifications| && Unread(s.notifications[k], user));
    WhereCount(s.notifications, DissidioUnreadBy(user));
    assert Positions(s.notifications, DissidioUnreadBy(user))
      == (set k: nat | k < |s.notifications| && DissidioListed(s.notifications[k], user, Some(false)));
    if companyIds != [] {
      NovasMeaning(s, companyIds, now);
    }
  }

  /** The new documents counted are exactly the linked ones created since
      the cutoff. */
  lemma NovasMeaning(s: DbState, companyIds: seq<nat>, now: int)
    ensures |Where(LinkedDocIds(s.links, companyIds), CreatedSince(s.documents, now - Week))|
      == |set d: nat | d < |s.documents| && s.documents[d].createdAt >= now - Week && LinkedTo(s.links, companyIds, d)|
  {
    var linked := LinkedDocIds(s.links, companyIds);
    var novas := Where(linked, CreatedSince(s.documents, now - Week));
    LinkedDocIdsCorrect(s.links, companyIds);
    WhereDistinct(linked, CreatedSince(s.documents, now - Week));
    DistinctCard(novas);
    assert Elements(novas)
      == (set d: nat | d < |s.documents| && s.documents[d].createdAt >= now - Week && LinkedTo(s.links, companyIds, d));
  }

  function PublicationKey(d: Convencao): Option<int> {
    d.dataPublicacao
  }

  function IdIn(ids: seq<nat>): Convencao -> bool {
    (d: Convencao) => d.id in ids
  }

  /** `get_recent_convencoes`: nothing for a user without companies;
      otherwise the linked documents, latest publication first, at most
      `limit` of them; PostgreSQL refuses a negative `LIMIT`. */
  function RecentConvencoes(s: DbState, user: nat, limit: int): Response<seq<Convencao>> {
    var companyIds := UserCompanyIds(s.companies, user);
    if companyIds == [] then Ok([])
    else if limit < 0 then HttpError(500)
    else Ok(Take(SortNewestFirst(Where(s.documents, IdIn(LinkedDocIds(s.links, companyIds))), PublicationKey), limit))
  }

  /** Each recent document is linked to one of the user's companies; they
      come latest publication first (undated first), at most `limit`, and a
      linked document is left out only when `limit` documents published no
      earlier were returned. */
  lemma RecentConvencoesCorrect(s: DbState, user: nat, limit: int)
    ensures var r := RecentConvencoes(s, user, limit);
      var companyIds := UserCompanyIds(s.companies, user);
      (r.HttpError? <==> companyIds != [] && limit < 0)
      && (r.Ok? ==>
        |r.value| <= (if limit < 0 then 0 else limit)
        && NewestFirst(r.value, PublicationKey)
        && (forall d :: d in r.value ==> d in s.documents && LinkedTo(s.links, companyIds, d.id))
        && (forall d :: d in s.documents && LinkedTo(s.links, companyIds, d.id) && d !in r.value ==>
              |r.value| == limit && forall i :: 0 <= i < |r.value| ==> NotOlder(r.value[i].dataPublicacao, d.dataPublicacao)))
  {
    var companyIds := UserCompanyIds(s.companies, user);
    if companyIds != [] && limit >= 0 {
      LinkedDocIdsCorrect(s.links, companyIds);
      var linked := Where(s.documents, IdIn(LinkedDocIds(s.links, companyIds)));
      TopNewest(linked, PublicationKey, limit);
      var r := RecentConvencoes(s, user, limit).value;
      forall d | d in s.documents && LinkedTo(s.links, companyIds, d.id) && d !in r
        ensures |r| == limit && forall i :: 0 <= i < |r| ==> NotOlder(r[i].dataPublicacao, d.dataPublicacao)
      {
        assert d in linked;
        assert forall i :: 0 <= i < limit ==> NotOlder(PublicationKey(r[i]), PublicationKey(d));
      }
    }
  }
}

=== FILE: dissidio_alerts.dfy ===
/** The daily expiry ("dissídio") sweep of
    `backend/app/tasks/dissidio_alerts.py`: every processed document whose
    term ends within 90 days, or ended at most 180 days ago without a newer
    document for the same cnae, municipio and uf, produces one unread alert
    per recipient user, updated in place instead of duplicated. Today's date
    and `strftime('%d/%m/%Y')` are parameters. */
module DissidioAlerts {
  import opened Common
  import opened Text
  import opened Store
  import opened Relevance

  const Urgente7 := "VENCIMENTO_URGENTE_7"
  const Urgente15 := "VENCIMENTO_URGENTE_15"
  const Proximo30 := "VENCIMENTO_PROXIMO_30"
  const Proximo60 := "VENCIMENTO_PROXIMO_60"
  const Proximo90 := "VENCIMENTO_PROXIMO_90"
  const Vencido := "VENCIDO"

  /** `tipo_alerta` and `prioridade`. The priority is computed but never
      stored by `generate_dissidio_alert`. */
  datatype Tier = Tier(tipo: string, prioridade: string)

  /** Urgency rank of a tier type: 0 is the most urgent. */
  function Urgency(tipo: string): nat {
    if tipo == Urgente7 then 0 else if tipo == Urgente15 then 1
    else if tipo == Proximo30 then 2 else if tipo == Proximo60 then 3 else 4
  }

  /** The largest number of remaining days each tier covers. */
  function UpperBound(rank: nat): int {
    if rank == 0 then 7 else if rank == 1 then 15 else if rank == 2 then 30 else if rank == 3 then 60 else 90
  }

  /** The if/elif ladder: the most urgent tier whose bound `days` does not
      exceed, with its priority; nothing beyond 90 days. A term that has
      already ended (negative days) falls in the first tier. */
  function TierFor(days: int): (r: Option<Tier>)
    ensures r.None? <==> days > 90
    ensures r.Some? ==> days <= UpperBound(Urgency(r.value.tipo))
    ensures r.Some? && Urgency(r.value.tipo) > 0 ==> days > UpperBound(Urgency(r.value.tipo) - 1)
    ensures days <= 7 ==> r == Some(Tier(Urgente7, "URGENTE"))
    ensures 7 < days <= 15 ==> r == Some(Tier(Urgente15, "URGENTE"))
    ensures 15 < days <= 30 ==> r == Some(Tier(Proximo30, "ALTA"))
    ensures 30 < days <= 60 ==> r == Some(Tier(Proximo60, "MEDIA"))
    ensures 60 < days <= 90 ==> r == Some(Tier(Proximo90, "BAIXA"))
  {
    if days <= 7 then Some(Tier(Urgente7, "URGENTE"))
    else if days <= 15 then Some(Tier(Urgente15, "URGENTE"))
    else if days <= 30 then Some(Tier(Proximo30, "ALTA"))
    else if days <= 60 then Some(Tier(Proximo60, "MEDIA"))
    else if days <= 90 then Some(Tier(Proximo90, "BAIXA"))
    else None
  }

  /** Fewer remaining days never gives a less urgent tier. */
  lemma TierMonotone(d1: int, d2: int)
    requires d1 <= d2 && TierFor(d2).Some?
    ensures TierFor(d1).Some? && Urgency(TierFor(d1).value.tipo) <= Urgency(TierFor(d2).value.tipo)
  {
  }

  /** The boundaries are inclusive. */
  lemma TierBoundaries()
    ensures TierFor(7) == Some(Tier(Urgente7, "URGENTE")) && TierFor(8) == Some(Tier(Urgente15, "URGENTE"))
    ensures TierFor(15) == Some(Tier(Urgente15, "URGENTE")) && TierFor(16) == Some(Tier(Proximo30, "ALTA"))
    ensures TierFor(30) == Some(Tier(Proximo30, "ALTA")) && TierFor(31) == Some(Tier(Proximo60, "MEDIA"))
    ensures TierFor(60) == Some(Tier(Proximo60, "MEDIA")) && TierFor(61) == Some(Tier(Proximo90, "BAIXA"))
    ensures TierFor(90) == Some(Tier(Proximo90, "BAIXA")) && TierFor(91) == None
  {
  }

  // ---------------------------------------------------------------------
  // get_alert_message

  function TituloConv(doc: Convencao): string {
    if Truthy(doc.titulo) then doc.titulo.value else "Convenção Coletiva"
  }

  /** The end date as `dd/mm/YYYY`, or 'N/A' without one. */
  function DataVencimento(doc: Convencao, formatDate: int -> string): string {
    if doc.vigenciaFim.Some? then formatDate(doc.vigenciaFim.value) else "N/A"
  }

  function Abs(x: int): nat {
    if x < 0 then -x else x
  }

  /** The common opening of every message. */
  function Opening(doc: Convencao): string {
    "A convenção '" + TituloConv(doc) + "' "
  }

  /** The branch of `get_alert_message` a `tipo_alerta` selects. */
  datatype Kind = Urgent7 | Urgent15 | Soon30 | Soon60 | Soon90 | Expired | Other

  /** The tests of `get_alert_message`, in its order: a prefix, then a
      substring ('7', '30', '60'), or equality with 'VENCIDO'. */
  function KindOf(tipo: string): Kind {
    if StartsWith(tipo, "VENCIMENTO_URGENTE") then
      if Contains(tipo, "7") then Urgent7 else Urgent15
    else if StartsWith(tipo, "VENCIMENTO_PROXIMO") then
      if Contains(tipo, "30") then Soon30 else if Contains(tipo, "60") then Soon60 else Soon90
    else if tipo == Vencido then Expired
    else Other
  }

  function Title(k: Kind): string {
    match k
    case Urgent7 => "\U{26A0}\U{FE0F} URGENTE: Convenção vence em 7 dias"
    case Urgent15 => "\U{26A0}\U{FE0F} URGENTE: Convenção vence em 15 dias"
    case Soon30 => "\U{1F514} Convenção vence em 30 dias"
    case Soon60 => "\U{1F4C5} Convenção vence em 60 dias"
    case Soon90 => "\U{1F4CB} Convenção vence em 90 dias"
    case Expired => "\U{274C} Convenção vencida"
    case Other => "Alerta de convenção"
  }

  /** What follows the opening of the message. The urgent and expired
      texts print `abs(days)`, the others `days` as it is. */
  function Body(k: Kind, days: int, date: string): string {
    var d := " dias (" + date + "). ";
    match k
    case Urgent7 => "vence em " + NatToString(Abs(days)) + d + "É necessário iniciar a negociação para renovação."
    case Urgent15 => "vence em " + NatToString(Abs(days)) + d + "Prepare-se para iniciar a negociação."
    case Soon30 => "vence em " + IntToString(days) + d + "Considere iniciar o processo de renovação."
    case Soon60 => "vence em " + IntToString(days) + d + "Planeje a renovação."
    case Soon90 => "vence em " + IntToString(days) + d + "Fique atento ao prazo de renovação."
    case Expired => "venceu há " + NatToString(Abs(days)) + d + "Verifique se há nova negociação em andamento ou se é necessário renovar."
    case Other => "requer atenção."
  }

  /** `get_alert_message(tipo_alerta, convencao, dias_restantes)`: the
      (titulo, mensagem) pair. */
  function AlertMessage(tipo: string, doc: Convencao, days: int, formatDate: int -> string): (r: (string, string))
    ensures StartsWith(r.1, Opening(doc))
  {
    var k := KindOf(tipo);
    var rest := Body(k, days, DataVencimento(doc, formatDate));
    assert (Opening(doc) + rest)[..|Opening(doc)|] == Opening(doc);
    (Title(k), Opening(doc) + rest)
  }

  /** Each of the six alert types the sweep produces selects its own branch. */
  lemma KindsOfAlertTypes()
    ensures KindOf(Urgente7) == Urgent7 && KindOf(Urgente15) == Urgent15
    ensures KindOf(Proximo30) == Soon30 && KindOf(Proximo60) == Soon60 && KindOf(Proximo90) == Soon90
    ensures KindOf(Vencido) == Expired
  {
    UrgentKinds();
    Soon30Kind();
    Soon60Kind();
    Soon90Kind();
    assert !StartsWith(Vencido, "VENCIMENTO_URGENTE") && !StartsWith(Vencido, "VENCIMENTO_PROXIMO");
  }

  lemma UrgentKinds()
    ensures KindOf(Urgente7) == Urgent7 && KindOf(Urgente15) == Urgent15
  {
    assert StartsWith(Urgente7, "VENCIMENTO_URGENTE") && StartsWith(Urgente15, "VENCIMENTO_URGENTE");
    assert OccursAt(Urgente7, "7", 19);
    ContainsAt(Urgente7, "7", 19);
    assert '7' !in Urgente15;
    NotContainsFirst(Urgente15, "7");
  }

  lemma Soon30Kind()
    ensures KindOf(Proximo30) == Soon30
  {
    DiffersAt(Proximo30, "VENCIMENTO_URGENTE", 11);
    assert StartsWith(Proximo30, "VENCIMENTO_PROXIMO");
    assert OccursAt(Proximo30, "30", 19);
    ContainsAt(Proximo30, "30", 19);
  }

  lemma Soon60Kind()
    ensures KindOf(Proximo60) == Soon60
  {
    Soon60Prefix();
    Soon60Not30();
    Soon60Has60();
  }

  lemma Soon60Prefix()
    ensures StartsWith(Proximo60, "VENCIMENTO_PROXIMO") && !StartsWith(Proximo60, "VENCIMENTO_URGENTE")
  {
    DiffersAt(Proximo60, "VENCIMENTO_URGENTE", 11);
  }

  lemma Soon60Has60()
    ensures Contains(Proximo60, "60")
  {
    assert OccursAt(Proximo60, "60", 19);
    ContainsAt(Proximo60, "60", 19);
  }

  lemma Soon60Not30()
    ensures !Contains(Proximo60, "30")
  {
    assert '3' !in Proximo60;
    NotContainsFirst(Proximo60, "30");
  }

  lemma Soon90Kind()
    ensures KindOf(Proximo90) == Soon90
  {
    DiffersAt(Proximo90, "VENCIMENTO_URGENTE", 11);
    assert StartsWith(Proximo90, "VENCIMENTO_PROXIMO");
    assert '3' !in Proximo90 && '6' !in Proximo90;
    NotContainsFirst(Proximo90, "30");
    NotContainsFirst(Proximo90, "60");
  }

  /** Every alert message except the generic one shows the end date in
      parentheses. */
  lemma DateShown(tipo: string, doc: Convencao, days: int, formatDate: int -> string)
    requires KindOf(tipo) != Other
    ensures exists k :: OccursAt(AlertMessage(tipo, doc, days, formatDate).1, "(" + DataVencimento(doc, formatDate) + ")", k)
  {
    var date := DataVencimento(doc, formatDate);
    var x := "(" + date + ")";
    var body := Body(KindOf(tipo), days, date);
    var j := BodyShowsDate(KindOf(tipo), days, date);
    assert AlertMessage(tipo, doc, days, formatDate).1 == Opening(doc) + body;
    OccursAfter(Opening(doc), body, x, j);
  }

  lemma BodyShowsDate(k: Kind, days: int, date: string) returns (j: nat)
    requires k != Other
    ensures OccursAt(Body(k, days, date), "(" + date + ")", j)
  {
    var n := if k in {Soon30, Soon60, Soon90} then IntToString(days) else NatToString(Abs(days));
    var verb := if k == Expired then "venceu há " else "vence em ";
    var tail := match k
      case Urgent7 => "É necessário iniciar a negociação para renovação."
      case Urgent15 => "Prepare-se para iniciar a negociação."
      case Soon30 => "Considere iniciar o processo de renovação."
      case Soon60 => "Planeje a renovação."
      case Soon90 => "Fique atento ao prazo de renovação."
      case _ => "Verifique se há nova negociação em andamento ou se é necessário renovar.";
    assert Body(k, days, date) == verb + n + (" dias (" + date + "). ") + tail;
    j := SentenceShowsDate(verb, n, date, tail);
  }

  lemma SentenceShowsDate(verb: string, n: string, date: string, tail: string) returns (j: nat)
    ensures OccursAt(verb + n + (" dias (" + date + "). ") + tail, "(" + date + ")", j)
  {
    var x := "(" + date + ")";
    var pre := verb + n + " dias ";
    var s := verb + n + (" dias (" + date + "). ") + tail;
    assert s == pre + x + (". " + tail);
    j := |pre|;
    assert s[j..j + |x|] == x;
  }

  lemma ExpiredKind()
    ensures KindOf(Vencido) == Expired
  {
    assert !StartsWith(Vencido, "VENCIMENTO_URGENTE") && !StartsWith(Vencido, "VENCIMENTO_PROXIMO");
  }

  /** The expired text reports how many days ago the term ended, whatever
      the sign the caller passes. */
  lemma ExpiredShowsAbsoluteDays(doc: Convencao, days: int, formatDate: int -> string)
    ensures AlertMessage(Vencido, doc, days, formatDate) == AlertMessage(Vencido, doc, -days, formatDate)
  {
    ExpiredKind();
    assert Abs(days) == Abs(-days);
  }

  /** An unknown type gets the generic title and text. */
  lemma GenericForUnknownType(tipo: string, doc: Convencao, days: int, formatDate: int -> string)
    requires !StartsWith(tipo, "VENCIMENTO_URGENTE") && !StartsWith(tipo, "VENCIMENTO_PROXIMO") && tipo != Vencido
    ensures AlertMessage(tipo, doc, days, formatDate) == ("Alerta de convenção", Opening(doc) + "requer atenção.")
  {
  }

  // ---------------------------------------------------------------------
  // has_new_negotiation

  /** `other` is what the query of `has_new_negotiation` counts: a processed
      document with the same cnae, municipio and uf (NULL matching NULL, as
      SQLAlchemy turns `== None` into IS NULL), a strictly later publication
      date (a comparison with NULL is never true) and another id. */
  predicate IsSuccessor(doc: Convencao, other: Convencao) {
    other.cnae == doc.cnae && other.municipio == doc.municipio && other.uf == doc.uf
    && other.dataPublicacao.Some? && doc.dataPublicacao.Some?
    && other.dataPublicacao.value > doc.dataPublicacao.value
    && other.id != doc.id && other.status == Processado
  }

  /** The `.count()` of that query. */
  function CountSuccessors(doc: Convencao, docs: seq<Convencao>): (r: nat)
    ensures r <= |docs|
  {
    if docs == [] then 0
    else (if IsSuccessor(doc, docs[0]) then 1 else 0) + CountSuccessors(doc, docs[1..])
  }

  /** The count is positive exactly when some row is a successor. */
  lemma {:induction false} CountSuccessorsPositive(doc: Convencao, docs: seq<Convencao>)
    ensures CountSuccessors(doc, docs) > 0 <==> exists i :: 0 <= i < |docs| && IsSuccessor(doc, docs[i])
  {
    if docs != [] {
      CountSuccessorsPositive(doc, docs[1..]);
      assert forall i :: 1 <= i < |docs| ==> docs[i] == docs[1..][i - 1];
    }
  }

  /** `has_new_negotiation(convencao, db)`. */
  function HasNewNegotiation(doc: Convencao, docs: seq<Convencao>): bool {
    if !Truthy(doc.cnae) || !Truthy(doc.municipio) then false
    else CountSuccessors(doc, docs) > 0
  }

  /** A newer negotiation exists exactly when the document has a cnae and a
      municipio and a processed document with the same cnae, municipio and
      uf was published after it. */
  lemma HasNewNegotiationMeans(doc: Convencao, docs: seq<Convencao>)
    ensures HasNewNegotiation(doc, docs) <==>
      Truthy(doc.cnae) && Truthy(doc.municipio) && exists i :: 0 <= i < |docs| && IsSuccessor(doc, docs[i])
  {
    CountSuccessorsPositive(doc, docs);
  }

  // ---------------------------------------------------------------------
  // generate_dissidio_alert

  /** The fallback query: cnae, municipio AND uf all equal, NULL matching
      NULL. */
  predicate FallbackMatch(doc: Convencao, c: Company) {
    c.cnae == doc.cnae && c.municipio == doc.municipio && c.uf == doc.uf
  }

  /** The owners of the fallback companies, each once, in table order. */
  function FallbackOwners(doc: Convencao, companies: seq<Company>, acc: seq<nat>): seq<nat>
    decreases |companies|
  {
    if companies == [] then acc
    else
      var c := companies[0];
      FallbackOwners(doc, companies[1..], if FallbackMatch(doc, c) && c.userId !in acc then acc + [c.userId] else acc)
  }

  ghost predicate FallbackOwner(doc: Convencao, companies: seq<Company>, u: nat) {
    exists j :: 0 <= j < |companies| && FallbackMatch(doc, companies[j]) && companies[j].userId == u
  }

  lemma {:induction false} FallbackOwnersCorrect(doc: Convencao, companies: seq<Company>, acc: seq<nat>)
    requires Distinct(acc)
    ensures Distinct(FallbackOwners(doc, companies, acc))
    ensures forall u :: u in FallbackOwners(doc, companies, acc) <==> u in acc || FallbackOwner(doc, companies, u)
    decreases |companies|
  {
    if companies != [] {
      var c := companies[0];
      var next := if FallbackMatch(doc, c) && c.userId !in acc then acc + [c.userId] else acc;
      FallbackOwnersCorrect(doc, companies[1..], next);
      forall u ensures FallbackOwner(doc, companies, u) <==> FallbackOwner(doc, companies[1..], u) || (FallbackMatch(doc, c) && c.userId == u) {
        if FallbackOwner(doc, companies, u) {
          var j :| 0 <= j < |companies| && FallbackMatch(doc, companies[j]) && companies[j].userId == u;
          if j > 0 { assert companies[1..][j - 1] == companies[j]; }
        }
        if FallbackOwner(doc, companies[1..], u) {
          var j :| 0 <= j < |companies[1..]| && FallbackMatch(doc, companies[1..][j]) && companies[1..][j].userId == u;
          assert companies[j + 1] == companies[1..][j];
        }
      }
    }
  }

  predicate HasAssociations(docId: nat, links: seq<Link>) {
    exists i :: 0 <= i < |links| && links[i].convencaoId == docId
  }

  /** `user_ids`: the owners of the linked companies when the document has
      links, otherwise the owners of the fallback companies. */
  function Recipients(doc: Convencao, links: seq<Link>, companies: seq<Company>): seq<nat> {
    if HasAssociations(doc.id, links) then LinkedOwners(doc.id, links, companies)
    else FallbackOwners(doc, companies, [])
  }

  /** Recipients are distinct, and are exactly the linked owners, or the
      fallback owners when nothing is linked. The `if company.user_id` of
      the comprehensions tests a `UUID NOT NULL` column, always truthy, so
      no owner is dropped. */
  lemma RecipientsCorrect(doc: Convencao, links: seq<Link>, companies: seq<Company>)
    requires CompanyIdsUnique(companies)
    ensures Distinct(Recipients(doc, links, companies))
    ensures forall u :: u in Recipients(doc, links, companies) <==>
      (if HasAssociations(doc.id, links) then LinkedOwner(doc.id, links, companies, u) else FallbackOwner(doc, companies, u))
  {
    OwnersFromCorrect(doc.id, links, companies, []);
    FallbackOwnersCorrect(doc, companies, []);
  }

  /** An unread alert row for (user, document, type). */
  predicate UnreadFor(n: Notification, user: nat, conv: nat, tipo: string) {
    n.userId == user && n.convencaoId == Some(conv) && n.tipo == tipo && !n.lida
  }

  /** The `.first()` of the duplicate check. */
  function FindUnread(ns: seq<Notification>, user: nat, conv: nat, tipo: string): (r: Option<nat>)
    ensures r.Some? ==>
      r.value < |ns| && UnreadFor(ns[r.value], user, conv, tipo)
      && forall k :: 0 <= k < r.value ==> !UnreadFor(ns[k], user, conv, tipo)
    ensures r.None? ==> forall k :: 0 <= k < |ns| ==> !UnreadFor(ns[k], user, conv, tipo)
  {
    if ns == [] then None
    else if UnreadFor(ns[0], user, conv, tipo) then Some(0)
    else match FindUnread(ns[1..], user, conv, tipo)
      case None => None
      case Some(k) => Some(k + 1)
  }

  /** `after` keeps every row of `before` with its id, user, document, type,
      read flag and creation time; only titulo and mensagem may differ, and
      rows may be added after them. */
  predicate KeysKept(before: seq<Notification>, after: seq<Notification>) {
    |before| <= |after| && forall k :: 0 <= k < |before| ==> SameKey(before[k], after[k])
  }

  predicate SameKey(a: Notification, b: Notification) {
    a.id == b.id && a.userId == b.userId && a.convencaoId == b.convencaoId
    && a.tipo == b.tipo && a.lida == b.lida && a.createdAt == b.createdAt
  }

  /** One iteration of the loop over `user_ids`: an existing unread row gets
      the new titulo and mensagem only when its mensagem differs, and is not
      counted; otherwise one row is added and counted. */
  function UpsertOne(ns: seq<Notification>, user: nat, conv: nat, tipo: string, titulo: string, mensagem: string, now: int): (r: (seq<Notification>, nat))
    ensures |r.0| == |ns| + r.1
    ensures r.1 == 0 <==> FindUnread(ns, user, conv, tipo).Some?
    ensures KeysKept(ns, r.0)
    ensures forall k :: 0 <= k < |ns| && !UnreadFor(ns[k], user, conv, tipo) ==> r.0[k] == ns[k]
    ensures r.1 == 1 ==> r.0[|ns|] == Notification(|ns|, user, Some(conv), tipo, titulo, mensagem, false, now)
  {
    match FindUnread(ns, user, conv, tipo)
    case Some(i) =>
      (if ns[i].mensagem != mensagem then ns[i := ns[i].(mensagem := mensagem, titulo := titulo)] else ns, 0)
    case None =>
      (ns + [Notification(|ns|, user, Some(conv), tipo, titulo, mensagem, false, now)], 1)
  }

  /** The whole loop over `user_ids`: the count is the number of rows added,
      existing rows keep their keys, rows of other documents or types are
      untouched, and every added row is an unread row of this document and
      type whose id is its position. */
  function UpsertAll(ns: seq<Notification>, users: seq<nat>, conv: nat, tipo: string, titulo: string, mensagem: string, now: int): (r: (seq<Notification>, nat))
    ensures |r.0| == |ns| + r.1
    ensures KeysKept(ns, r.0)
    ensures forall k :: 0 <= k < |ns| && (ns[k].convencaoId != Some(conv) || ns[k].tipo != tipo) ==> r.0[k] == ns[k]
    ensures forall k :: |ns| <= k < |r.0| ==> r.0[k].id == k && r.0[k].convencaoId == Some(conv) && r.0[k].tipo == tipo && !r.0[k].lida
    decreases |users|
  {
    if users == [] then (ns, 0)
    else
      var p := UpsertAll(ns, users[..|users| - 1], conv, tipo, titulo, mensagem, now);
      var q := UpsertOne(p.0, users[|users| - 1], conv, tipo, titulo, mensagem, now);
      (q.0, p.1 + q.1)
  }

  /** The loop after `i + 1` users is the loop after `i` users, then one step. */
  lemma UpsertAllNext(ns: seq<Notification>, users: seq<nat>, i: nat, conv: nat, tipo: string, titulo: string, m: string, now: int)
    requires i < |users|
    ensures UpsertAll(ns, users[..i + 1], conv, tipo, titulo, m, now).0
      == UpsertOne(UpsertAll(ns, users[..i], conv, tipo, titulo, m, now).0, users[i], conv, tipo, titulo, m, now).0
    ensures UpsertAll(ns, users[..i + 1], conv, tipo, titulo, m, now).1
      == UpsertAll(ns, users[..i], conv, tipo, titulo, m, now).1 + UpsertOne(UpsertAll(ns, users[..i], conv, tipo, titulo, m, now).0, users[i], conv, tipo, titulo, m, now).1
  {
    assert users[..i + 1][..i] == users[..i];
  }

  /** One call of `generate_dissidio_alert`. */
  datatype Job = Job(doc: Convencao, tipo: string, days: int)

  /** What the sweep reads but does not write, and its parameters. */
  datatype Env = Env(links: seq<Link>, companies: seq<Company>, formatDate: int -> string, now: int)

  /** `generate_dissidio_alert(convencao, tipo_alerta, dias_restantes, ...)`:
      the notifications afterwards and the count it returns. */
  function ApplyAlert(ns: seq<Notification>, job: Job, env: Env): (r: (seq<Notification>, nat))
    ensures |r.0| == |ns| + r.1
    ensures KeysKept(ns, r.0)
    ensures forall k :: 0 <= k < |ns| && (ns[k].convencaoId != Some(job.doc.id) || ns[k].tipo != job.tipo) ==> r.0[k] == ns[k]
    ensures forall k :: |ns| <= k < |r.0| ==> r.0[k].id == k
  {
    var users := Recipients(job.doc, env.links, env.companies);
    if users == [] then (ns, 0)
    else
      var msg := AlertMessage(job.tipo, job.doc, job.days, env.formatDate);
      UpsertAll(ns, users, job.doc.id, job.tipo, msg.0, msg.1, env.now)
  }

  /** The sweep's calls in order; the count is `alertas_gerados`, the number
      of rows added. */
  function ApplyJobs(ns: seq<Notification>, jobs: seq<Job>, env: Env): (r: (seq<Notification>, nat))
    ensures |r.0| == |ns| + r.1
    ensures KeysKept(ns, r.0)
    ensures forall k :: |ns| <= k < |r.0| ==> r.0[k].id == k
    decreases |jobs|
  {
    if jobs == [] then (ns, 0)
    else
      var p := ApplyJobs(ns, jobs[..|jobs| - 1], env);
      var q := ApplyAlert(p.0, jobs[|jobs| - 1], env);
      (q.0, p.1 + q.1)
  }

  /** The user's unread row for (document, type) exists and carries `m`. */
  predicate SettledFor(ns: seq<Notification>, user: nat, conv: nat, tipo: string, m: string) {
    var f := FindUnread(ns, user, conv, tipo);
    f.Some? && ns[f.value].mensagem == m
  }

  /** The lookup is decided by the keys alone. */
  lemma FindUnreadKept(ns: seq<Notification>, r: seq<Notification>, user: nat, conv: nat, tipo: string)
    requires KeysKept(ns, r) && FindUnread(ns, user, conv, tipo).Some?
    ensures FindUnread(r, user, conv, tipo) == FindUnread(ns, user, conv, tipo)
  {
    var i := FindUnread(ns, user, conv, tipo).value;
    assert SameKey(ns[i], r[i]);
    forall k | 0 <= k < i ensures !UnreadFor(r[k], user, conv, tipo) {
      assert SameKey(ns[k], r[k]);
    }
    FindUnreadIs(r, user, conv, tipo, i);
  }

  /** The first unread row for the key is the one the lookup finds. */
  lemma FindUnreadIs(ns: seq<Notification>, user: nat, conv: nat, tipo: string, i: nat)
    requires i < |ns| && UnreadFor(ns[i], user, conv, tipo)
    requires forall k :: 0 <= k < i ==> !UnreadFor(ns[k], user, conv, tipo)
    ensures FindUnread(ns, user, conv, tipo) == Some(i)
  {
    var f := FindUnread(ns, user, conv, tipo);
    assert f.Some? && f.value <= i;
  }

  lemma SettledKept(ns: seq<Notification>, r: seq<Notification>, user: nat, conv: nat, tipo: string, m: string)
    requires KeysKept(ns, r) && SettledFor(ns, user, conv, tipo, m)
    requires forall k :: 0 <= k < |ns| && UnreadFor(ns[k], user, conv, tipo) ==> r[k] == ns[k]
    ensures SettledFor(r, user, conv, tipo, m)
  {
    FindUnreadKept(ns, r, user, conv, tipo);
  }

  /** After one upsert the user's unread row exists and holds the message. */
  lemma UpsertOneSettles(ns: seq<Notification>, user: nat, conv: nat, tipo: string, titulo: string, m: string, now: int)
    ensures SettledFor(UpsertOne(ns, user, conv, tipo, titulo, m, now).0, user, conv, tipo, m)
  {
    var r := UpsertOne(ns, user, conv, tipo, titulo, m, now).0;
    match FindUnread(ns, user, conv, tipo)
    case Some(i) =>
      FindUnreadKept(ns, r, user, conv, tipo);
    case None =>
      assert UnreadFor(r[|ns|], user, conv, tipo);
      assert FindUnread(r, user, conv, tipo) == Some(|ns|);
  }

  /** An upsert whose row already holds the message changes nothing. */
  lemma UpsertOneNoop(ns: seq<Notification>, user: nat, conv: nat, tipo: string, titulo: string, m: string, now: int)
    requires SettledFor(ns, user, conv, tipo, m)
    ensures UpsertOne(ns, user, conv, tipo, titulo, m, now) == (ns, 0)
  {
  }

  lemma {:induction false} UpsertAllSettles(ns: seq<Notification>, users: seq<nat>, conv: nat, tipo: string, titulo: string, m: string, now: int)
    requires Distinct(users)
    ensures forall u :: u in users ==> SettledFor(UpsertAll(ns, users, conv, tipo, titulo, m, now).0, u, conv, tipo, m)
    decreases |users|
  {
    if users != [] {
      var init := users[..|users| - 1];
      var last := users[|users| - 1];
      var ns1 := UpsertAll(ns, init, conv, tipo, titulo, m, now).0;
      var ns2 := UpsertOne(ns1, last, conv, tipo, titulo, m, now).0;
      assert Distinct(init);
      UpsertAllSettles(ns, init, conv, tipo, titulo, m, now);
      UpsertOneSettles(ns1, last, conv, tipo, titulo, m, now);
      forall u | u in users ensures SettledFor(ns2, u, conv, tipo, m) {
        if u != last {
          assert u in init by {
            var k :| 0 <= k < |users| && users[k] == u;
            assert init[k] == u;
          }
          SettledKept(ns1, ns2, u, conv, tipo, m);
        }
      }
    }
  }

  lemma {:induction false} UpsertAllNoop(ns: seq<Notification>, users: seq<nat>, conv: nat, tipo: string, titulo: string, m: string, now: int)
    requires forall u :: u in users ==> SettledFor(ns, u, conv, tipo, m)
    ensures UpsertAll(ns, users, conv, tipo, titulo, m, now) == (ns, 0)
    decreases |users|
  {
    if users != [] {
      var init := users[..|users| - 1];
      assert forall u :: u in init ==> u in users;
      UpsertAllNoop(ns, init, conv, tipo, titulo, m, now);
      UpsertOneNoop(ns, users[|users| - 1], conv, tipo, titulo, m, now);
    }
  }

  /** Every recipient of `job` has its unread row holding the job's message. */
  predicate JobSettled(ns: seq<Notification>, job: Job, env: Env) {
    var m := AlertMessage(job.tipo, job.doc, job.days, env.formatDate).1;
    forall u :: u in Recipients(job.doc, env.links, env.companies) ==> SettledFor(ns, u, job.doc.id, job.tipo, m)
  }

  lemma ApplyAlertSettles(ns: seq<Notification>, job: Job, env: Env)
    requires CompanyIdsUnique(env.companies)
    ensures JobSettled(ApplyAlert(ns, job, env).0, job, env)
  {
    var users := Recipients(job.doc, env.links, env.companies);
    RecipientsCorrect(job.doc, env.links, env.companies);
    var msg := AlertMessage(job.tipo, job.doc, job.days, env.formatDate);
    UpsertAllSettles(ns, users, job.doc.id, job.tipo, msg.0, msg.1, env.now);
  }

  lemma ApplyAlertNoop(ns: seq<Notification>, job: Job, env: Env)
    requires JobSettled(ns, job, env)
    ensures ApplyAlert(ns, job, env) == (ns, 0)
  {
    var users := Recipients(job.doc, env.links, env.companies);
    var msg := AlertMessage(job.tipo, job.doc, job.days, env.formatDate);
    UpsertAllNoop(ns, users, job.doc.id, job.tipo, msg.0, msg.1, env.now);
  }

  /** An alert for another document leaves a settled job settled. */
  lemma ApplyAlertKeepsSettled(ns: seq<Notification>, job: Job, other: Job, env: Env)
    requires other.doc.id != job.doc.id && JobSettled(ns, other, env)
    ensures JobSettled(ApplyAlert(ns, job, env).0, other, env)
  {
    var r := ApplyAlert(ns, job, env).0;
    var m := AlertMessage(other.tipo, other.doc, other.days, env.formatDate).1;
    forall u | u in Recipients(other.doc, env.links, env.companies) ensures SettledFor(r, u, other.doc.id, other.tipo, m) {
      SettledKept(ns, r, u, other.doc.id, other.tipo, m);
    }
  }

  predicate JobsDistinct(jobs: seq<Job>) {
    forall i, j :: 0 <= i < j < |jobs| ==> jobs[i].doc.id != jobs[j].doc.id
  }

  lemma {:induction false} ApplyJobsSettles(ns: seq<Notification>, jobs: seq<Job>, env: Env)
    requires JobsDistinct(jobs) && CompanyIdsUnique(env.companies)
    ensures forall i :: 0 <= i < |jobs| ==> JobSettled(ApplyJobs(ns, jobs, env).0, jobs[i], env)
    decreases |jobs|
  {
    if jobs != [] {
      var init := jobs[..|jobs| - 1];
      var last := jobs[|jobs| - 1];
      var ns1 := ApplyJobs(ns, init, env).0;
      ApplyJobsSettles(ns, init, env);
      ApplyAlertSettles(ns1, last, env);
      forall i | 0 <= i < |jobs| - 1 ensures JobSettled(ApplyJobs(ns, jobs, env).0, jobs[i], env) {
        assert init[i] == jobs[i];
        ApplyAlertKeepsSettled(ns1, last, jobs[i], env);
      }
    }
  }

  lemma {:induction false} ApplyJobsNoop(ns: seq<Notification>, jobs: seq<Job>, env: Env)
    requires forall i :: 0 <= i < |jobs| ==> JobSettled(ns, jobs[i], env)
    ensures ApplyJobs(ns, jobs, env) == (ns, 0)
    decreases |jobs|
  {
    if jobs != [] {
      var init := jobs[..|jobs| - 1];
      assert forall i :: 0 <= i < |init| ==> init[i] == jobs[i];
      ApplyJobsNoop(ns, init, env);
      ApplyAlertNoop(ns, jobs[|jobs| - 1], env);
    }
  }

  /** Running the same calls again adds nothing, changes nothing and counts
      zero: the duplicate check makes the sweep idempotent. */
  lemma ApplyJobsIdempotent(ns: seq<Notification>, jobs: seq<Job>, env: Env)
    requires JobsDistinct(jobs) && CompanyIdsUnique(env.companies)
    ensures ApplyJobs(ApplyJobs(ns, jobs, env).0, jobs, env) == (ApplyJobs(ns, jobs, env).0, 0)
  {
    ApplyJobsSettles(ns, jobs, env);
    ApplyJobsNoop(ApplyJobs(ns, jobs, env).0, jobs, env);
  }

  /** No two unread rows of type `tipo` share user and document. */
  ghost predicate UnreadUnique(ns: seq<Notification>, tipo: string) {
    forall i, j, u, c :: 0 <= i < j < |ns| && UnreadFor(ns[i], u, c, tipo) ==> !UnreadFor(ns[j], u, c, tipo)
  }

  lemma UpsertOneUnique(ns: seq<Notification>, user: nat, conv: nat, tipo: string, titulo: string, m: string, now: int, t: string)
    requires UnreadUnique(ns, t)
    ensures UnreadUnique(UpsertOne(ns, user, conv, tipo, titulo, m, now).0, t)
  {
    var r := UpsertOne(ns, user, conv, tipo, titulo, m, now).0;
    forall i, j, u, c | 0 <= i < j < |r| && UnreadFor(r[i], u, c, t) ensures !UnreadFor(r[j], u, c, t) {
      assert SameKey(ns[i], r[i]);
      if j < |ns| {
        assert SameKey(ns[j], r[j]);
      }
    }
  }

  lemma {:induction false} UpsertAllUnique(ns: seq<Notification>, users: seq<nat>, conv: nat, tipo: string, titulo: string, m: string, now: int, t: string)
    requires UnreadUnique(ns, t)
    ensures UnreadUnique(UpsertAll(ns, users, conv, tipo, titulo, m, now).0, t)
    decreases |users|
  {
    if users != [] {
      var init := users[..|users| - 1];
      UpsertAllUnique(ns, init, conv, tipo, titulo, m, now, t);
      UpsertOneUnique(UpsertAll(ns, init, conv, tipo, titulo, m, now).0, users[|users| - 1], conv, tipo, titulo, m, now, t);
    }
  }

  /** The sweep never creates a second unread row for the same user,
      document and type. */
  lemma {:induction false} ApplyJobsUnique(ns: seq<Notification>, jobs: seq<Job>, env: Env, t: string)
    requires UnreadUnique(ns, t)
    ensures UnreadUnique(ApplyJobs(ns, jobs, env).0, t)
    decreases |jobs|
  {
    if jobs != [] {
      var init := jobs[..|jobs| - 1];
      var job := jobs[|jobs| - 1];
      ApplyJobsUnique(ns, init, env, t);
      var ns1 := ApplyJobs(ns, init, env).0;
      var users := Recipients(job.doc, env.links, env.companies);
      if users != [] {
        var msg := AlertMessage(job.tipo, job.doc, job.days, env.formatDate);
        UpsertAllUnique(ns1, users, job.doc.id, job.tipo, msg.0, msg.1, env.now, t);
      }
    }
  }

  // ---------------------------------------------------------------------
  // check_dissidio_alerts_task

  predicate IdsIncreasing(docs: seq<Convencao>) {
    forall i, j :: 0 <= i < j < |docs| ==> docs[i].id < docs[j].id
  }

  /** The rows a `.filter(...).all()` query returns, in table order. */
  function Select(docs: seq<Convencao>, p: Convencao -> bool): (r: seq<Convencao>)
    ensures forall d :: d in r <==> d in docs && p(d)
  {
    if docs == [] then []
    else
      assert docs == [docs[0]] + docs[1..];
      (if p(docs[0]) then [docs[0]] else []) + Select(docs[1..], p)
  }

  /** The selected rows keep the table's increasing ids. */
  lemma {:induction false} SelectIncreasing(docs: seq<Convencao>, p: Convencao -> bool)
    requires IdsIncreasing(docs)
    ensures IdsIncreasing(Select(docs, p))
  {
    if docs != [] {
      var rest := Select(docs[1..], p);
      assert IdsIncreasing(docs[1..]);
      SelectIncreasing(docs[1..], p);
      if p(docs[0]) {
        forall d | d in rest ensures docs[0].id < d.id {
          var j :| 0 <= j < |docs[1..]| && docs[1..][j] == d;
          assert d == docs[j + 1];
        }
        IncreasingCons(docs[0], rest);
      } else {
        assert Select(docs, p) == [] + rest == rest;
      }
    }
  }

  /** A row in front of increasing rows, all with larger ids, keeps them increasing. */
  lemma IncreasingCons(d: Convencao, rest: seq<Convencao>)
    requires IdsIncreasing(rest)
    requires forall e :: e in rest ==> d.id < e.id
    ensures IdsIncreasing([d] + rest)
  {
    var r := [d] + rest;
    forall i, j | 0 <= i < j < |r| ensures r[i].id < r[j].id {
      assert r[j] == rest[j - 1];
      if i > 0 {
        assert r[i] == rest[i - 1];
      }
    }
  }

  /** `data_vigencia_fim >= hoje` and `status == 'PROCESSADO'`. */
  predicate IsActive(d: Convencao, today: int) {
    d.status == Processado && d.vigenciaFim.Some? && d.vigenciaFim.value >= today
  }

  /** `data_vigencia_fim < hoje` and `status == 'PROCESSADO'`. */
  predicate IsExpired(d: Convencao, today: int) {
    d.status == Processado && d.vigenciaFim.Some? && d.vigenciaFim.value < today
  }

  /** The tipo and days a loop body passes to `generate_dissidio_alert`. */
  datatype Call = Call(tipo: string, days: int)

  /** The body of the first loop for one document: the `if not fim` guard and
      the tier ladder. */
  function ActiveCall(doc: Convencao, today: int): Option<Call> {
    if doc.vigenciaFim.None? then None
    else match TierFor(doc.vigenciaFim.value - today)
      case None => None
      case Some(t) => Some(Call(t.tipo, doc.vigenciaFim.value - today))
  }

  /** The body of the second loop for one document: no newer negotiation and
      at most 180 days past the end. */
  function ExpiredCall(doc: Convencao, all: seq<Convencao>, today: int): Option<Call> {
    if doc.vigenciaFim.None? || HasNewNegotiation(doc, all) || today - doc.vigenciaFim.value > 180 then None
    else Some(Call(Vencido, -(today - doc.vigenciaFim.value)))
  }

  predicate HasJobFor(jobs: seq<Job>, d: Convencao) {
    exists j :: 0 <= j < |jobs| && jobs[j].doc == d
  }

  predicate JobIdsIncreasing(jobs: seq<Job>) {
    forall i, j :: 0 <= i < j < |jobs| ==> jobs[i].doc.id < jobs[j].doc.id
  }

  function JobFor(d: Convencao, c: Call): Job {
    Job(d, c.tipo, c.days)
  }

  /** The calls a loop over `docs` makes, in order, where `f` gives the
      call (if any) for one document. */
  function JobsOf(docs: seq<Convencao>, f: Convencao -> Option<Call>): (r: seq<Job>)
    ensures |r| <= |docs|
    decreases |docs|
  {
    if docs == [] then []
    else
      var last := docs[|docs| - 1];
      JobsOf(docs[..|docs| - 1], f) + (if f(last).Some? then [JobFor(last, f(last).value)] else [])
  }

  /** Every call is for a document of the loop, with what `f` gives it. */
  lemma {:induction false} JobsOfSound(docs: seq<Convencao>, f: Convencao -> Option<Call>)
    ensures forall j :: 0 <= j < |JobsOf(docs, f)| ==>
      JobsOf(docs, f)[j].doc in docs && f(JobsOf(docs, f)[j].doc) == Some(Call(JobsOf(docs, f)[j].tipo, JobsOf(docs, f)[j].days))
    decreases |docs|
  {
    if docs != [] {
      var init := docs[..|docs| - 1];
      JobsOfSound(init, f);
      var js := JobsOf(init, f);
      var r := JobsOf(docs, f);
      assert forall j :: 0 <= j < |js| ==> r[j] == js[j];
      assert forall d :: d in init ==> d in docs;
    }
  }

  /** A document gets a call exactly when `f` gives it one. */
  lemma {:induction false} JobsOfComplete(docs: seq<Convencao>, f: Convencao -> Option<Call>)
    ensures forall d :: HasJobFor(JobsOf(docs, f), d) <==> d in docs && f(d).Some?
    decreases |docs|
  {
    if docs != [] {
      var init := docs[..|docs| - 1];
      var last := docs[|docs| - 1];
      JobsOfComplete(init, f);
      var js := JobsOf(init, f);
      var r := JobsOf(docs, f);
      assert docs == init + [last];
      assert forall j :: 0 <= j < |js| ==> r[j] == js[j];
      forall d ensures HasJobFor(r, d) <==> HasJobFor(js, d) || (f(last).Some? && d == last) {
        if f(last).Some? && d == last {
          assert r[|js|].doc == d;
        }
        if HasJobFor(r, d) {
          var j :| 0 <= j < |r| && r[j].doc == d;
          if j < |js| { assert js[j].doc == d; }
        }
      }
    }
  }

  lemma {:induction false} JobsOfIncreasing(docs: seq<Convencao>, f: Convencao -> Option<Call>)
    requires IdsIncreasing(docs)
    ensures JobIdsIncreasing(JobsOf(docs, f))
    decreases |docs|
  {
    if docs != [] {
      var init := docs[..|docs| - 1];
      var last := docs[|docs| - 1];
      JobsOfIncreasing(init, f);
      JobsOfSound(init, f);
      var js := JobsOf(init, f);
      var r := JobsOf(docs, f);
      assert forall j :: 0 <= j < |js| ==> r[j] == js[j];
      assert forall d :: d in init ==> d.id < last.id;
    }
  }

  lemma {:induction false} JobsOfAppend(a: seq<Convencao>, b: seq<Convencao>, f: Convencao -> Option<Call>)
    ensures JobsOf(a + b, f) == JobsOf(a, f) + JobsOf(b, f)
    decreases |b|
  {
    if b == [] {
      assert a + b == a;
    } else {
      var init := b[..|b| - 1];
      assert (a + b)[..|a + b| - 1] == a + init;
      assert (a + b)[|a + b| - 1] == b[|b| - 1];
      JobsOfAppend(a, init, f);
    }
  }

  /** Every call the sweep makes, in order: the active documents' tiers,
      then the expired documents' VENCIDO alerts. */
  function SweepJobs(docs: seq<Convencao>, today: int): seq<Job> {
    JobsOf(Ativas(docs, today), ActiveCalls(today)) + JobsOf(Vencidas(docs, today), ExpiredCalls(docs, today))
  }

  /** `convencoes_ativas` */
  function Ativas(docs: seq<Convencao>, today: int): seq<Convencao> {
    Select(docs, d => IsActive(d, today))
  }

  /** `convencoes_vencidas` */
  function Vencidas(docs: seq<Convencao>, today: int): seq<Convencao> {
    Select(docs, d => IsExpired(d, today))
  }

  function ActiveCalls(today: int): Convencao -> Option<Call> {
    d => ActiveCall(d, today)
  }

  function ExpiredCalls(docs: seq<Convencao>, today: int): Convencao -> Option<Call> {
    d => ExpiredCall(d, docs, today)
  }

  /** A document is alerted when it is processed, its term ends within 90
      days or ended at most 180 days ago, and, once ended, no newer document
      for its cnae, municipio and uf exists. */
  predicate Alerted(d: Convencao, docs: seq<Convencao>, today: int) {
    d.status == Processado && d.vigenciaFim.Some?
    && -180 <= d.vigenciaFim.value - today <= 90
    && (d.vigenciaFim.value < today ==> !HasNewNegotiation(d, docs))
  }

  /** The call passes the remaining days (negative once ended) and the
      tier's type, or VENCIDO once ended. */
  predicate CallShape(d: Convencao, c: Call, today: int) {
    d.vigenciaFim == Some(today + c.days)
    && (if c.days >= 0 then TierFor(c.days).Some? && c.tipo == TierFor(c.days).value.tipo else c.tipo == Vencido)
  }

  /** For one document: one of the two loops calls `generate_dissidio_alert`
      exactly when the document is alerted, with the expected arguments. */
  lemma CallCorrect(d: Convencao, docs: seq<Convencao>, today: int)
    ensures (IsActive(d, today) && ActiveCall(d, today).Some?) || (IsExpired(d, today) && ExpiredCall(d, docs, today).Some?)
      <==> Alerted(d, docs, today)
    ensures IsActive(d, today) && ActiveCall(d, today).Some? ==> CallShape(d, ActiveCall(d, today).value, today)
    ensures IsExpired(d, today) && ExpiredCall(d, docs, today).Some? ==> CallShape(d, ExpiredCall(d, docs, today).value, today)
  {
  }

  /** Every call of the sweep is for an alerted document of the table, with
      the expected arguments. */
  lemma SweepJobsSound(docs: seq<Convencao>, today: int)
    ensures forall j :: 0 <= j < |SweepJobs(docs, today)| ==>
      var job := SweepJobs(docs, today)[j];
      job.doc in docs && Alerted(job.doc, docs, today) && CallShape(job.doc, Call(job.tipo, job.days), today)
  {
    var fa := ActiveCalls(today);
    var fe := ExpiredCalls(docs, today);
    var sa := Ativas(docs, today);
    var se := Vencidas(docs, today);
    var a := JobsOf(sa, fa);
    var e := JobsOf(se, fe);
    var r := SweepJobs(docs, today);
    JobsOfSound(sa, fa);
    JobsOfSound(se, fe);
    assert r == a + e;
    forall j | 0 <= j < |r|
      ensures r[j].doc in docs && Alerted(r[j].doc, docs, today) && CallShape(r[j].doc, Call(r[j].tipo, r[j].days), today)
    {
      CallCorrect(r[j].doc, docs, today);
      if j < |a| {
        assert r[j] == a[j] && a[j].doc in sa;
      } else {
        assert r[j] == e[j - |a|] && e[j - |a|].doc in se;
      }
    }
  }

  /** The sweep calls `generate_dissidio_alert` for exactly the alerted
      documents. */
  lemma SweepJobsComplete(docs: seq<Convencao>, today: int)
    ensures forall d :: HasJobFor(SweepJobs(docs, today), d) <==> d in docs && Alerted(d, docs, today)
  {
    var fa := ActiveCalls(today);
    var fe := ExpiredCalls(docs, today);
    var sa := Ativas(docs, today);
    var se := Vencidas(docs, today);
    var a := JobsOf(sa, fa);
    var e := JobsOf(se, fe);
    var r := SweepJobs(docs, today);
    JobsOfComplete(sa, fa);
    JobsOfComplete(se, fe);
    assert r == a + e;
    forall d ensures HasJobFor(r, d) <==> HasJobFor(a, d) || HasJobFor(e, d) {
      if HasJobFor(r, d) {
        var j :| 0 <= j < |r| && r[j].doc == d;
        if j < |a| { assert a[j].doc == d; }
        else { assert e[j - |a|].doc == d; }
      }
      if HasJobFor(a, d) {
        var j :| 0 <= j < |a| && a[j].doc == d;
        assert r[j] == a[j];
      }
      if HasJobFor(e, d) {
        var j :| 0 <= j < |e| && e[j].doc == d;
        assert r[|a| + j] == e[j];
      }
    }
    forall d ensures HasJobFor(r, d) <==> d in docs && Alerted(d, docs, today) {
      CallCorrect(d, docs, today);
    }
  }

  /** Different calls of one sweep are for different documents. */
  lemma SweepJobsDistinct(docs: seq<Convencao>, today: int)
    requires DocumentsWellFormed(docs)
    ensures JobsDistinct(SweepJobs(docs, today))
  {
    var fa := ActiveCalls(today);
    var fe := ExpiredCalls(docs, today);
    var sa := Ativas(docs, today);
    var se := Vencidas(docs, today);
    assert IdsIncreasing(docs);
    SelectIncreasing(docs, d => IsActive(d, today));
    SelectIncreasing(docs, d => IsExpired(d, today));
    JobsOfIncreasing(sa, fa);
    JobsOfIncreasing(se, fe);
    JobsOfSound(sa, fa);
    JobsOfSound(se, fe);
    var a := JobsOf(sa, fa);
    var e := JobsOf(se, fe);
    forall i, j | 0 <= i < |a| && 0 <= j < |e| ensures a[i].doc.id != e[j].doc.id {
      ActiveNotExpired(docs, today, a[i].doc, e[j].doc);
    }
    DistinctConcat(a, e);
  }

  /** An active and an expired row of a well-formed table have different ids. */
  lemma ActiveNotExpired(docs: seq<Convencao>, today: int, x: Convencao, y: Convencao)
    requires DocumentsWellFormed(docs)
    requires x in Ativas(docs, today) && y in Vencidas(docs, today)
    ensures x.id != y.id
  {
    var kx :| 0 <= kx < |docs| && docs[kx] == x;
    var ky :| 0 <= ky < |docs| && docs[ky] == y;
  }

  lemma DistinctConcat(a: seq<Job>, e: seq<Job>)
    requires JobIdsIncreasing(a) && JobIdsIncreasing(e)
    requires forall i, j :: 0 <= i < |a| && 0 <= j < |e| ==> a[i].doc.id != e[j].doc.id
    ensures JobsDistinct(a + e)
  {
    forall i, j | 0 <= i < j < |a + e| ensures (a + e)[i].doc.id != (a + e)[j].doc.id {
      if j < |a| {
        assert (a + e)[i] == a[i] && (a + e)[j] == a[j];
      } else if i >= |a| {
        assert (a + e)[i] == e[i - |a|] && (a + e)[j] == e[j - |a|];
      } else {
        assert (a + e)[i] == a[i] && (a + e)[j] == e[j - |a|];
      }
    }
  }

  /** A second sweep on the same day over unchanged documents, links and
      companies adds no row, changes no row and reports zero alerts. */
  lemma SweepIdempotent(ns: seq<Notification>, docs: seq<Convencao>, today: int, env: Env)
    requires DocumentsWellFormed(docs) && CompanyIdsUnique(env.companies)
    ensures var once := ApplyJobs(ns, SweepJobs(docs, today), env).0;
      ApplyJobs(once, SweepJobs(docs, today), env) == (once, 0)
  {
    SweepJobsDistinct(docs, today);
    ApplyJobsIdempotent(ns, SweepJobs(docs, today), env);
  }

  /** The rows after a run of the sweep keep ids equal to positions. */
  lemma IdsStayPositions(ns: seq<Notification>, r: seq<Notification>)
    requires NotificationIdsArePositions(ns) && KeysKept(ns, r)
    requires forall k :: |ns| <= k < |r| ==> r[k].id == k
    ensures NotificationIdsArePositions(r)
  {
    forall k | 0 <= k < |ns| ensures r[k].id == k {
      assert SameKey(ns[k], r[k]);
    }
  }

  /** One pass of the loop over `user_ids`: the duplicate check, then the
      in-place update or the new row. */
  method UpsertRow(db: Database, user: nat, conv: nat, tipo: string, titulo: string, mensagem: string, now: int)
    returns (added: nat)
    modifies db
    ensures db.notifications == UpsertOne(old(db.notifications), user, conv, tipo, titulo, mensagem, now).0
    ensures added == UpsertOne(old(db.notifications), user, conv, tipo, titulo, mensagem, now).1
    ensures OnlyNotificationsChanged(old(db.State()), db.State())
  {
    var existing := FindUnread(db.notifications, user, conv, tipo);
    match existing {
      case Some(k) =>
        if db.notifications[k].mensagem != mensagem {
          db.notifications := db.notifications[k := db.notifications[k].(mensagem := mensagem, titulo := titulo)];
        }
        added := 0;
      case None =>
        db.notifications := db.notifications + [Notification(|db.notifications|, user, Some(conv), tipo, titulo, mensagem, false, now)];
        added := 1;
    }
  }

  /** The loop over `user_ids`. */
  method UpsertUsers(db: Database, users: seq<nat>, conv: nat, tipo: string, titulo: string, mensagem: string, now: int)
    returns (count: nat)
    modifies db
    ensures db.notifications == UpsertAll(old(db.notifications), users, conv, tipo, titulo, mensagem, now).0
    ensures count == UpsertAll(old(db.notifications), users, conv, tipo, titulo, mensagem, now).1
    ensures OnlyNotificationsChanged(old(db.State()), db.State())
  {
    count := 0;
    var i := 0;
    while i < |users|
      invariant 0 <= i <= |users|
      invariant db.notifications == UpsertAll(old(db.notifications), users[..i], conv, tipo, titulo, mensagem, now).0
      invariant count == UpsertAll(old(db.notifications), users[..i], conv, tipo, titulo, mensagem, now).1
      invariant OnlyNotificationsChanged(old(db.State()), db.State())
    {
      var added := UpsertRow(db, users[i], conv, tipo, titulo, mensagem, now);
      count := count + added;
      UpsertAllNext(old(db.notifications), users, i, conv, tipo, titulo, mensagem, now);
      i := i + 1;
    }
    assert users[..i] == users;
  }

  /** `generate_dissidio_alert`: the recipients are queried, then each one's
      unread row is updated or a new row is added. */
  method GenerateDissidioAlert(db: Database, doc: Convencao, tipo: string, days: int, formatDate: int -> string, now: int)
    returns (count: nat)
    requires db.Valid()
    modifies db
    ensures db.notifications == ApplyAlert(old(db.notifications), Job(doc, tipo, days), Env(db.links, db.companies, formatDate, now)).0
    ensures count == ApplyAlert(old(db.notifications), Job(doc, tipo, days), Env(db.links, db.companies, formatDate, now)).1
    ensures OnlyNotificationsChanged(old(db.State()), db.State())
    ensures db.Valid()
  {
    var users := Recipients(doc, db.links, db.companies);
    if users == [] {
      return 0;
    }
    var msg := AlertMessage(tipo, doc, days, formatDate);
    ghost var before := db.notifications;
    count := UpsertUsers(db, users, doc.id, tipo, msg.0, msg.1, now);
    IdsStayPositions(before, db.notifications);
  }

  /** The sweep's return value: success with `alertas_gerados`, or the error
      status when an exception escaped. */
  datatype SweepResult = Success(alertasGerados: nat) | Failure

  /** How many calls the sweep completes when call number `failAt` (if any)
      raises. */
  function CallsMade(failAt: Option<nat>, total: nat): nat {
    if failAt.Some? && failAt.value < total then failAt.value else total
  }

  lemma JobsOfStep(docs: seq<Convencao>, i: nat, f: Convencao -> Option<Call>)
    requires i < |docs|
    ensures JobsOf(docs[..i + 1], f) == JobsOf(docs[..i], f) + (if f(docs[i]).Some? then [JobFor(docs[i], f(docs[i]).value)] else [])
  {
    assert docs[..i + 1][..i] == docs[..i];
  }

  /** The calls made before document `i` are a prefix of all the calls, and
      document `i`'s call, if any, comes right after them. */
  lemma JobsOfPrefix(docs: seq<Convencao>, i: nat, f: Convencao -> Option<Call>)
    requires i < |docs| && f(docs[i]).Some?
    ensures |JobsOf(docs[..i], f)| < |JobsOf(docs, f)|
    ensures JobsOf(docs, f)[..|JobsOf(docs[..i], f)|] == JobsOf(docs[..i], f)
  {
    JobsOfStep(docs, i, f);
    JobsOfAppend(docs[..i + 1], docs[i + 1..], f);
    assert docs[..i + 1] + docs[i + 1..] == docs;
  }

  lemma ApplyJobsSnoc(ns: seq<Notification>, jobs: seq<Job>, job: Job, env: Env)
    ensures ApplyJobs(ns, jobs + [job], env).0 == ApplyAlert(ApplyJobs(ns, jobs, env).0, job, env).0
    ensures ApplyJobs(ns, jobs + [job], env).1 == ApplyJobs(ns, jobs, env).1 + ApplyAlert(ApplyJobs(ns, jobs, env).0, job, env).1
  {
    var js := jobs + [job];
    assert js[..|js| - 1] == jobs;
    assert js[|js| - 1] == job;
  }

  /** One call of `generate_dissidio_alert` inside the sweep, after the
      calls `done`, adding its count to `alertas_gerados`. */
  method SweepCall(db: Database, ghost ns0: seq<Notification>, ghost done: seq<Job>, doc: Convencao, tipo: string, days: int,
                   formatDate: int -> string, now: int, alertas0: nat)
    returns (alertas: nat)
    requires db.Valid()
    requires db.notifications == ApplyJobs(ns0, done, Env(db.links, db.companies, formatDate, now)).0
    requires alertas0 == ApplyJobs(ns0, done, Env(db.links, db.companies, formatDate, now)).1
    modifies db
    ensures db.notifications == ApplyJobs(ns0, done + [Job(doc, tipo, days)], Env(db.links, db.companies, formatDate, now)).0
    ensures alertas == ApplyJobs(ns0, done + [Job(doc, tipo, days)], Env(db.links, db.companies, formatDate, now)).1
    ensures OnlyNotificationsChanged(old(db.State()), db.State())
    ensures db.Valid()
  {
    var count := GenerateDissidioAlert(db, doc, tipo, days, formatDate, now);
    ApplyJobsSnoc(ns0, done, Job(doc, tipo, days), Env(db.links, db.companies, formatDate, now));
    alertas := alertas0 + count;
  }

  /** One document's call, if any, as `JobsOf` lists it. */
  lemma JobsOfOne(doc: Convencao, f: Convencao -> Option<Call>)
    ensures JobsOf([doc], f) == if f(doc).Some? then [JobFor(doc, f(doc).value)] else []
  {
    assert [doc][..0] == [];
  }

  /** The calls of the first `i + 1` documents: those of the first `i`,
      then document `i`'s. */
  lemma JobsOfNext(docs: seq<Convencao>, i: nat, f: Convencao -> Option<Call>)
    requires i < |docs|
    ensures JobsOf(docs[..i + 1], f) == JobsOf(docs[..i], f) + JobsOf([docs[i]], f)
  {
    JobsOfStep(docs, i, f);
    JobsOfOne(docs[i], f);
  }

  lemma AppendAssoc(a: seq<Job>, b: seq<Job>, c: seq<Job>)
    ensures (a + b) + c == a + (b + c)
  {
  }

  /** When document `i`'s call is number `failAt`, the calls made are those
      before document `i`, a proper prefix of all the calls. */
  lemma SweepStopsAt(prior: seq<Job>, docs: seq<Convencao>, i: nat, f: Convencao -> Option<Call>, failAt: Option<nat>)
    requires i < |docs| && f(docs[i]).Some?
    requires failAt.Some? && failAt.value == |prior + JobsOf(docs[..i], f)|
    ensures CallsMade(failAt, |prior + JobsOf(docs, f)|) < |prior + JobsOf(docs, f)|
    ensures (prior + JobsOf(docs, f))[..CallsMade(failAt, |prior + JobsOf(docs, f)|)] == prior + JobsOf(docs[..i], f)
  {
    JobsOfPrefix(docs, i, f);
    assert (prior + JobsOf(docs, f))[..failAt.value] == prior + JobsOf(docs[..i], f);
  }

  /** When no call fails, every call is made. */
  lemma SweepRunsThrough(all: seq<Job>, failAt: Option<nat>)
    requires failAt.Some? ==> failAt.value >= |all|
    ensures CallsMade(failAt, |all|) == |all| && all[..CallsMade(failAt, |all|)] == all
  {
  }

  /** The loop body after its decision `call` for `doc`: nothing, or the
      call to `generate_dissidio_alert`, which raises when it is call
      number `failAt`. The raise modelled is one at the call's first
      query, before it writes anything. */
  method CallStep(db: Database, doc: Convencao, call: Option<Call>, formatDate: int -> string, now: int,
                  failAt: Option<nat>, ghost ns0: seq<Notification>, ghost done: seq<Job>, made0: nat, alertas0: nat)
    returns (made: nat, alertas: nat, failed: bool)
    requires db.Valid() && made0 == |done|
    requires db.notifications == ApplyJobs(ns0, done, Env(db.links, db.companies, formatDate, now)).0
    requires alertas0 == ApplyJobs(ns0, done, Env(db.links, db.companies, formatDate, now)).1
    modifies db
    ensures var next := done + (if call.Some? then [JobFor(doc, call.value)] else []);
      var env := Env(db.links, db.companies, formatDate, now);
      (failed <==> call.Some? && failAt.Some? && failAt.value == made0)
      && (failed ==> db.notifications == old(db.notifications))
      && (!failed ==> made == |next| && db.notifications == ApplyJobs(ns0, next, env).0 && alertas == ApplyJobs(ns0, next, env).1)
    ensures OnlyNotificationsChanged(old(db.State()), db.State())
    ensures db.Valid()
  {
    made, alertas, failed := made0, alertas0, false;
    if call.Some? {
      if failAt.Some? && failAt.value == made0 {
        failed := true;
      } else {
        alertas := SweepCall(db, ns0, done, doc, call.value.tipo, call.value.days, formatDate, now, alertas0);
        made := made0 + 1;
      }
    } else {
      assert done + [] == done;
    }
  }

  /** One of the sweep's two loops over the rows `docs` of its query, after
      the calls `prior`: for each row, `f` is the body's decision (the
      tier ladder of the first loop, `ActiveCall`, or the newer-negotiation
      and 180-day tests of the second, `ExpiredCall`), and a decided call
      goes to `generate_dissidio_alert` unless it is call number `failAt`,
      which raises before writing and ends the loop. */
  method SweepLoop(db: Database, docs: seq<Convencao>, f: Convencao -> Option<Call>, formatDate: int -> string, now: int,
                   failAt: Option<nat>, ghost ns0: seq<Notification>, ghost prior: seq<Job>, made0: nat, alertas0: nat)
    returns (alertas: nat, failed: bool)
    requires db.Valid() && made0 == |prior|
    requires db.notifications == ApplyJobs(ns0, prior, Env(db.links, db.companies, formatDate, now)).0
    requires alertas0 == ApplyJobs(ns0, prior, Env(db.links, db.companies, formatDate, now)).1
    requires failAt.Some? ==> failAt.value >= |prior|
    modifies db
    ensures var all := prior + JobsOf(docs, f);
      var env := Env(db.links, db.companies, formatDate, now);
      (failed <==> CallsMade(failAt, |all|) < |all|)
      && db.notifications == ApplyJobs(ns0, all[..CallsMade(failAt, |all|)], env).0
      && (!failed ==> alertas == ApplyJobs(ns0, all, env).1)
    ensures OnlyNotificationsChanged(old(db.State()), db.State())
    ensures db.Valid()
  {
    ghost var env := Env(db.links, db.companies, formatDate, now);
    ghost var before := db.State();
    ghost var done := prior;
    alertas := alertas0;
    var made := made0;
    var i := 0;
    assert prior + JobsOf(docs[..0], f) == prior;
    while i < |docs|
      invariant 0 <= i <= |docs|
      invariant done == prior + JobsOf(docs[..i], f) && made == |done|
      invariant db.notifications == ApplyJobs(ns0, done, env).0 && alertas == ApplyJobs(ns0, done, env).1
      invariant failAt.Some? ==> failAt.value >= made
      invariant OnlyNotificationsChanged(before, db.State()) && db.Valid()
    {
      var doc := docs[i];
      JobsOfNext(docs, i, f);
      JobsOfOne(doc, f);
      var made', alertas', failed' := CallStep(db, doc, f(doc), formatDate, now, failAt, ns0, done, made, alertas);
      if failed' {
        SweepStopsAt(prior, docs, i, f, failAt);
        return alertas, true;
      }
      AppendAssoc(prior, JobsOf(docs[..i], f), JobsOf([doc], f));
      done := done + JobsOf([doc], f);
      made, alertas := made', alertas';
      i := i + 1;
    }
    assert docs[..i] == docs;
    SweepRunsThrough(prior + JobsOf(docs, f), failAt);
    return alertas, false;
  }

  /** `check_dissidio_alerts_task`: the two queries and loops. The
      parameter `failAt` stands for the database raising at the first
      query of the call of that number: the calls before it stay committed,
      that call writes nothing, and the sweep reports the error. */
  method CheckDissidioAlertsTask(db: Database, today: int, formatDate: int -> string, now: int, failAt: Option<nat>)
    returns (r: SweepResult)
    requires db.Valid()
    modifies db
    ensures var jobs := SweepJobs(db.documents, today);
      var env := Env(db.links, db.companies, formatDate, now);
      var made := CallsMade(failAt, |jobs|);
      db.notifications == ApplyJobs(old(db.notifications), jobs[..made], env).0
      && (r.Success? <==> made == |jobs|)
      && (r.Success? ==> r.alertasGerados == ApplyJobs(old(db.notifications), jobs, env).1)
    ensures OnlyNotificationsChanged(old(db.State()), db.State())
    ensures db.Valid()
  {
    ghost var ns0 := db.notifications;
    ghost var activeJobs := JobsOf(Ativas(db.documents, today), ActiveCalls(today));
    ghost var expiredJobs := JobsOf(Vencidas(db.documents, today), ExpiredCalls(db.documents, today));
    var alertas, failed := SweepLoop(db, Ativas(db.documents, today), ActiveCalls(today), formatDate, now, failAt, ns0, [], 0, 0);
    assert [] + activeJobs == activeJobs;
    r := Failure;
    if failed {
      FailedInFirst(activeJobs, expiredJobs, failAt);
    } else {
      RanThroughFirst(activeJobs, failAt);
      var made := |JobsOf(Ativas(db.documents, today), ActiveCalls(today))|;
      alertas, failed := SweepLoop(db, Vencidas(db.documents, today), ExpiredCalls(db.documents, today), formatDate, now, failAt, ns0, activeJobs, made, alertas);
      if !failed {
        r := Success(alertas);
      }
    }
  }

  /** A call of the first loop that raises is also the first failing call
      of the whole sweep. */
  lemma FailedInFirst(a: seq<Job>, e: seq<Job>, failAt: Option<nat>)
    requires CallsMade(failAt, |a|) < |a|
    ensures CallsMade(failAt, |a + e|) == CallsMade(failAt, |a|) < |a + e|
    ensures (a + e)[..CallsMade(failAt, |a + e|)] == a[..CallsMade(failAt, |a|)]
  {
  }

  /** When the first loop made all its calls, the second starts after them. */
  lemma RanThroughFirst(a: seq<Job>, failAt: Option<nat>)
    requires CallsMade(failAt, |a|) == |a|
    ensures a[..CallsMade(failAt, |a|)] == a
    ensures failAt.Some? ==> failAt.value >= |a|
  {
  }
}

=== FILE: document_processor.dfy ===
/** Text extraction of `backend/app/services/document_processor.py`: the
    text of an HTML page without scripts and styles, whitespace collapsed;
    the text of a PDF, page by page, from its text layer or, failing that,
    from character recognition; and the choice between them by extension. */
module DocumentProcessor {
  import opened Common
  import opened Text
  import opened Store

  // ---------------------------------------------------------------------
  // Whitespace

  /** The characters of `s` that are not whitespace, in order. */
  function Visible(s: string): (r: string)
    ensures |r| <= |s|
  {
    if s == [] then "" else (if IsSpace(s[0]) then "" else [s[0]]) + Visible(s[1..])
  }

  predicate Blank(s: string) {
    forall k :: 0 <= k < |s| ==> IsSpace(s[k])
  }

  lemma {:induction false} VisibleAppend(a: string, b: string)
    ensures Visible(a + b) == Visible(a) + Visible(b)
    decreases |a|
  {
    if a != [] {
      assert (a + b)[0] == a[0] && (a + b)[1..] == a[1..] + b;
      VisibleAppend(a[1..], b);
    } else {
      assert a + b == b;
    }
  }

  /** A string has nothing visible exactly when it is all whitespace. */
  lemma {:induction false} VisibleEmpty(s: string)
    ensures Visible(s) == "" <==> Blank(s)
    decreases |s|
  {
    if s != [] {
      VisibleEmpty(s[1..]);
      assert Blank(s) <==> IsSpace(s[0]) && Blank(s[1..]) by {
        if IsSpace(s[0]) && Blank(s[1..]) {
          forall k | 0 <= k < |s| ensures IsSpace(s[k]) {
            if k > 0 { assert s[k] == s[1..][k - 1]; }
          }
        }
      }
    }
  }

  /** `s.strip()` is empty exactly when `s` is all whitespace. */
  lemma StripEmpty(s: string)
    ensures Strip(s) == "" <==> Blank(s)
  {
    StripIsSlice(s);
  }

  /** Stripping only drops whitespace. */
  lemma StripVisible(s: string)
    ensures Visible(Strip(s)) == Visible(s)
  {
    StripIsSlice(s);
    var r := Strip(s);
    var i := |RStrip(s)| - |r|;
    StrippedParts(s, r, i);
    VisibleAroundBlank(s[..i], r, s[i + |r|..]);
  }

  /** A stripped slice splits its string into leading whitespace, itself
      and trailing whitespace. */
  lemma StrippedParts(s: string, r: string, i: int)
    requires StrippedAt(s, r, i)
    ensures s == s[..i] + r + s[i + |r|..]
    ensures Blank(s[..i]) && Blank(s[i + |r|..])
  {
    var a, b := s[..i], s[i + |r|..];
    assert s == a + r + b;
    forall k | 0 <= k < |a| ensures IsSpace(a[k]) { assert a[k] == s[k]; }
    forall k | 0 <= k < |b| ensures IsSpace(b[k]) { assert b[k] == s[i + |r| + k]; }
  }

  /** Whitespace around a string shows nothing. */
  lemma VisibleAroundBlank(a: string, r: string, b: string)
    requires Blank(a) && Blank(b)
    ensures Visible(a + r + b) == Visible(r)
  {
    VisibleAppend(a + r, b);
    VisibleAppend(a, r);
    VisibleEmpty(a);
    VisibleEmpty(b);
  }

  lemma {:induction false} ConcatAppend(a: seq<string>, b: seq<string>)
    ensures Concat(a + b) == Concat(a) + Concat(b)
    decreases |a|
  {
    if a != [] {
      assert (a + b)[0] == a[0] && (a + b)[1..] == a[1..] + b;
      ConcatAppend(a[1..], b);
    } else {
      assert a + b == b;
    }
  }

  /** Joining with a separator of whitespace shows what concatenating
      shows. */
  lemma {:induction false} JoinVisible(ps: seq<string>, sep: string)
    requires Visible(sep) == ""
    ensures Visible(Join(ps, sep)) == Visible(Concat(ps))
    decreases |ps|
  {
    if |ps| == 1 {
      assert ps[1..] == [];
      assert Concat(ps) == ps[0] + Concat(ps[1..]) == ps[0];
    } else if |ps| > 1 {
      JoinVisible(ps[1..], sep);
      VisibleAppend(ps[0] + sep, Join(ps[1..], sep));
      VisibleAppend(ps[0], sep);
      VisibleAppend(ps[0], Concat(ps[1..]));
    }
  }

  /** Line breaks are whitespace, so dropping them changes nothing visible. */
  lemma {:induction false} WithoutLineBreaksVisible(s: string)
    ensures Visible(WithoutLineBreaks(s)) == Visible(s)
    decreases |s|
  {
    if s != [] {
      WithoutLineBreaksVisible(s[1..]);
      VisibleAppend(if IsLineBreak(s[0]) then "" else [s[0]], WithoutLineBreaks(s[1..]));
    }
  }

  // ---------------------------------------------------------------------
  // `_extract_from_html`

  /** A node of the parsed page. */
  datatype Node = TextNode(text: string) | Comment(text: string) | Element(name: string, children: seq<Node>)

  /** The tags whose elements are decomposed before the text is read. */
  predicate Decomposed(name: string) {
    name == "script" || name == "style"
  }

  /** The nodes left once every `script` and `style` element, with all it
      holds, is decomposed. */
  function Prune(ns: seq<Node>): seq<Node>
    decreases ns
  {
    if ns == [] then [] else PruneNode(ns[0]) + Prune(ns[1..])
  }

  function PruneNode(n: Node): seq<Node>
    decreases n
  {
    match n
    case Element(name, children) => if Decomposed(name) then [] else [Element(name, Prune(children))]
    case _ => [n]
  }

  /** No `script` or `style` element anywhere below. */
  predicate NoDecomposed(ns: seq<Node>)
    decreases ns
  {
    forall k :: 0 <= k < |ns| ==> NodeNoDecomposed(ns[k])
  }

  predicate NodeNoDecomposed(n: Node)
    decreases n
  {
    match n
    case Element(name, children) => !Decomposed(name) && NoDecomposed(children)
    case _ => true
  }

  lemma {:induction false} NoDecomposedAppend(a: seq<Node>, b: seq<Node>)
    requires NoDecomposed(a) && NoDecomposed(b)
    ensures NoDecomposed(a + b)
  {
    forall k | 0 <= k < |a + b| ensures NodeNoDecomposed((a + b)[k]) {
      if k >= |a| { assert (a + b)[k] == b[k - |a|]; }
    }
  }

  /** After the decomposition no `script` or `style` element is left, and a
      tree without them is left as it is, so decomposing twice is decomposing
      once. */
  lemma {:induction false} PruneCorrect(ns: seq<Node>)
    ensures NoDecomposed(Prune(ns))
    ensures NoDecomposed(ns) ==> Prune(ns) == ns
    decreases ns
  {
    if ns != [] {
      PruneNodeCorrect(ns[0]);
      PruneCorrect(ns[1..]);
      NoDecomposedAppend(PruneNode(ns[0]), Prune(ns[1..]));
      if NoDecomposed(ns) {
        assert NodeNoDecomposed(ns[0]);
        assert NoDecomposed(ns[1..]) by {
          forall k | 0 <= k < |ns[1..]| ensures NodeNoDecomposed(ns[1..][k]) {
            assert ns[1..][k] == ns[k + 1];
          }
        }
        assert ns == [ns[0]] + ns[1..];
      }
    }
  }

  lemma {:induction false} PruneNodeCorrect(n: Node)
    ensures NoDecomposed(PruneNode(n))
    ensures NodeNoDecomposed(n) ==> PruneNode(n) == [n]
    decreases n
  {
    if n.Element? && !Decomposed(n.name) {
      PruneCorrect(n.children);
    }
  }

  /** `soup.get_text()`: the text nodes, in document order; comments are
      not text. */
  function AllText(ns: seq<Node>): string
    decreases ns
  {
    if ns == [] then "" else NodeText(ns[0]) + AllText(ns[1..])
  }

  function NodeText(n: Node): string
    decreases n
  {
    match n
    case TextNode(t) => t
    case Comment(_) => ""
    case Element(_, children) => AllText(children)
  }

  /** The pieces of one line: split at every double space, each piece
      stripped, the empty ones dropped. */
  function Phrases(ps: seq<string>): seq<string>
    decreases |ps|
  {
    if ps == [] then []
    else (if Strip(ps[0]) == "" then [] else [Strip(ps[0])]) + Phrases(ps[1..])
  }

  /** The chunks of the text: the phrases of every stripped line. */
  function Chunks(lines: seq<string>): seq<string>
    decreases |lines|
  {
    if lines == [] then [] else Phrases(SplitOn(Strip(lines[0]), "  ")) + Chunks(lines[1..])
  }

  /** The whitespace cleanup: the chunks joined by single spaces. */
  function Collapse(text: string): string {
    Join(Chunks(Lines(text)), " ")
  }

  /** `_extract_from_html`; `None` is a page that could not be read or
      parsed. */
  function HtmlText(page: Option<seq<Node>>): Option<string> {
    match page
    case None => None
    case Some(ns) => Some(Collapse(AllText(Prune(ns))))
  }

  /** A chunk as the cleanup produces it. */
  predicate GoodChunk(c: string) {
    c != "" && !IsSpace(c[0]) && !IsSpace(c[|c| - 1]) && NoDoubleSpace(c) && NoLineBreak(c)
  }

  predicate NoDoubleSpace(s: string) {
    forall k :: 0 <= k < |s| - 1 ==> !(s[k] == ' ' && s[k + 1] == ' ')
  }

  /** A piece of a string split at `sep` consists of characters of it. */
  lemma {:induction false} JoinHolds(ps: seq<string>, sep: string, i: nat, j: nat)
    requires i < |ps| && j < |ps[i]|
    ensures ps[i][j] in Join(ps, sep)
    decreases |ps|
  {
    if |ps| > 1 {
      if i == 0 {
        assert Join(ps, sep)[j] == ps[0][j];
      } else {
        JoinHolds(ps[1..], sep, i - 1, j);
        var t := Join(ps[1..], sep);
        var k :| 0 <= k < |t| && t[k] == ps[i][j];
        assert Join(ps, sep)[|ps[0] + sep| + k] == t[k];
      }
    }
  }

  lemma SliceKeeps(s: string, r: string, i: nat)
    requires i + |r| <= |s| && r == s[i..i + |r|]
    ensures NoDoubleSpace(s) ==> NoDoubleSpace(r)
    ensures NoLineBreak(s) ==> NoLineBreak(r)
  {
    assert forall k :: 0 <= k < |r| ==> r[k] == s[i + k];
  }

  /** What stripping keeps of a piece: its absence of double spaces and of
      line breaks, and what it shows. */
  lemma StripKeeps(p: string)
    ensures NoDoubleSpace(p) ==> NoDoubleSpace(Strip(p))
    ensures NoLineBreak(p) ==> NoLineBreak(Strip(p))
    ensures Visible(Strip(p)) == Visible(p)
  {
    StripIsSlice(p);
    SliceKeeps(p, Strip(p), |RStrip(p)| - |Strip(p)|);
    StripVisible(p);
  }

  lemma {:induction false} PhrasesGood(ps: seq<string>)
    requires forall i :: 0 <= i < |ps| ==> NoDoubleSpace(ps[i]) && NoLineBreak(ps[i])
    ensures forall i :: 0 <= i < |Phrases(ps)| ==> GoodChunk(Phrases(ps)[i])
    decreases |ps|
  {
    if ps != [] {
      PhrasesGood(ps[1..]);
      StrippedGood(ps[0]);
      var head := if Strip(ps[0]) == "" then [] else [Strip(ps[0])];
      assert Phrases(ps) == head + Phrases(ps[1..]);
      GoodAppend(head, Phrases(ps[1..]));
    }
  }

  /** A piece without double spaces or line breaks strips to a good chunk
      unless nothing is left of it. */
  lemma StrippedGood(p: string)
    requires NoDoubleSpace(p) && NoLineBreak(p)
    ensures Strip(p) != "" ==> GoodChunk(Strip(p))
  {
    StripIsSlice(p);
    SliceKeeps(p, Strip(p), |RStrip(p)| - |Strip(p)|);
  }

  lemma {:induction false} PhrasesVisible(ps: seq<string>)
    ensures Visible(Concat(Phrases(ps))) == Visible(Concat(ps))
    decreases |ps|
  {
    if ps != [] {
      PhrasesVisible(ps[1..]);
      var p := ps[0];
      var head := if Strip(p) == "" then [] else [Strip(p)];
      ConcatAppend(head, Phrases(ps[1..]));
      StripVisible(p);
      VisibleAppend(Concat(head), Concat(Phrases(ps[1..])));
      VisibleAppend(p, Concat(ps[1..]));
      if head != [] {
        assert head[1..] == [];
        assert Concat(head) == Strip(p) + Concat(head[1..]) == Strip(p);
      } else {
        StripEmpty(p);
        VisibleEmpty(p);
      }
    }
  }

  /** The pieces of a line split at double spaces hold no double space and,
      like the line, no line break. */
  lemma SplitPiecesClean(line: string)
    requires NoLineBreak(line)
    ensures forall i :: 0 <= i < |SplitOn(line, "  ")| ==> NoDoubleSpace(SplitOn(line, "  ")[i]) && NoLineBreak(SplitOn(line, "  ")[i])
  {
    var ps := SplitOn(line, "  ");
    forall i | 0 <= i < |ps| ensures NoDoubleSpace(ps[i]) && NoLineBreak(ps[i]) {
      forall k | 0 <= k < |ps[i]| - 1 ensures !(ps[i][k] == ' ' && ps[i][k + 1] == ' ') {
        assert !OccursAt(ps[i], "  ", k);
        assert ps[i][k..k + 2] == [ps[i][k], ps[i][k + 1]];
      }
      forall j | 0 <= j < |ps[i]| ensures !IsLineBreak(ps[i][j]) {
        JoinHolds(ps, "  ", i, j);
      }
    }
  }

  lemma LineChunksGood(line: string)
    requires NoLineBreak(line)
    ensures forall i :: 0 <= i < |Phrases(SplitOn(Strip(line), "  "))| ==> GoodChunk(Phrases(SplitOn(Strip(line), "  "))[i])
  {
    StripKeeps(line);
    SplitPiecesClean(Strip(line));
    PhrasesGood(SplitOn(Strip(line), "  "));
  }

  lemma {:induction false} ChunksGood(lines: seq<string>)
    requires forall i :: 0 <= i < |lines| ==> NoLineBreak(lines[i])
    ensures forall i :: 0 <= i < |Chunks(lines)| ==> GoodChunk(Chunks(lines)[i])
    decreases |lines|
  {
    if lines != [] {
      var tail := lines[1..];
      assert forall i :: 0 <= i < |tail| ==> tail[i] == lines[i + 1];
      ChunksGood(tail);
      LineChunksGood(lines[0]);
      var head := Phrases(SplitOn(Strip(lines[0]), "  "));
      assert Chunks(lines) == head + Chunks(tail);
      GoodAppend(head, Chunks(tail));
    }
  }

  lemma GoodAppend(a: seq<string>, b: seq<string>)
    requires forall i :: 0 <= i < |a| ==> GoodChunk(a[i])
    requires forall i :: 0 <= i < |b| ==> GoodChunk(b[i])
    ensures forall i :: 0 <= i < |a + b| ==> GoodChunk((a + b)[i])
  {
    forall i | 0 <= i < |a + b| ensures GoodChunk((a + b)[i]) {
      if i >= |a| { assert (a + b)[i] == b[i - |a|]; }
    }
  }

  lemma LineChunksVisible(line: string)
    ensures Visible(Concat(Phrases(SplitOn(Strip(line), "  ")))) == Visible(line)
  {
    var ps := SplitOn(Strip(line), "  ");
    PhrasesVisible(ps);
    JoinVisible(ps, "  ");
    StripVisible(line);
  }

  lemma {:induction false} ChunksVisible(lines: seq<string>)
    ensures Visible(Concat(Chunks(lines))) == Visible(Concat(lines))
    decreases |lines|
  {
    if lines != [] {
      ChunksVisible(lines[1..]);
      var line := lines[0];
      var ps := SplitOn(Strip(line), "  ");
      LineChunksVisible(line);
      ConcatAppend(Phrases(ps), Chunks(lines[1..]));
      VisibleAppend(Concat(Phrases(ps)), Concat(Chunks(lines[1..])));
      VisibleAppend(line, Concat(lines[1..]));
    }
  }

  /** Good chunks joined by single spaces neither start nor end with
      whitespace and hold no double space and no line break. */
  lemma {:induction false} JoinChunks(cs: seq<string>)
    requires forall i :: 0 <= i < |cs| ==> GoodChunk(cs[i])
    ensures var r := Join(cs, " ");
      (r == "" || (!IsSpace(r[0]) && !IsSpace(r[|r| - 1]))) && NoDoubleSpace(r) && NoLineBreak(r)
    decreases |cs|
  {
    if |cs| > 1 {
      JoinChunks(cs[1..]);
      var c := cs[0];
      var t := Join(cs[1..], " ");
      assert GoodChunk(c) && GoodChunk(cs[1]);
      assert t != "" by { assert |t| >= |cs[1]|; }
      var r := c + " " + t;
      assert Join(cs, " ") == r;
      forall k | 0 <= k < |r| - 1 ensures !(r[k] == ' ' && r[k + 1] == ' ') {
        if k < |c| - 1 {
          assert r[k] == c[k] && r[k + 1] == c[k + 1];
        } else if k > |c| {
          assert r[k] == t[k - |c| - 1] && r[k + 1] == t[k - |c|];
        }
      }
      forall j | 0 <= j < |r| ensures !IsLineBreak(r[j]) {
        if j < |c| { assert r[j] == c[j]; }
        else if j > |c| { assert r[j] == t[j - |c| - 1]; }
      }
    }
  }

  /** The cleanup leaves no leading or trailing whitespace, no double space
      and no line break, and it only changes whitespace. */
  lemma CollapseCorrect(text: string)
    ensures var r := Collapse(text);
      (r == "" || (!IsSpace(r[0]) && !IsSpace(r[|r| - 1])))
      && NoDoubleSpace(r) && NoLineBreak(r)
      && Visible(r) == Visible(text)
  {
    var cs := Chunks(Lines(text));
    ChunksGood(Lines(text));
    JoinChunks(cs);
    CollapseVisible(text);
  }

  lemma CollapseVisible(text: string)
    ensures Visible(Collapse(text)) == Visible(text)
  {
    var lines := Lines(text);
    VisibleSpace(' ');
    JoinVisible(Chunks(lines), " ");
    ChunksVisible(lines);
    WithoutLineBreaksVisible(text);
  }

  /** `_extract_from_html`: no text only for a page that could not be read;
      otherwise the text is clean as above and shows exactly the characters
      the page's text nodes outside scripts and styles show. */
  lemma HtmlTextCorrect(page: Option<seq<Node>>)
    ensures page.None? <==> HtmlText(page).None?
    ensures HtmlText(page).Some? ==>
      var r := HtmlText(page).value;
      (r == "" || (!IsSpace(r[0]) && !IsSpace(r[|r| - 1])))
      && NoDoubleSpace(r) && NoLineBreak(r)
      && Visible(r) == Visible(AllText(Prune(page.value)))
  {
    if page.Some? {
      CollapseCorrect(AllText(Prune(page.value)));
    }
  }

  // ---------------------------------------------------------------------
  // `_extract_from_pdf_digital` and `_extract_from_pdf_scanned`

  /** The pages' texts, each followed by a line break; with `keepEmpty`
      false an empty page adds nothing. */
  function PagesText(pages: seq<string>, keepEmpty: bool): string
    decreases |pages|
  {
    if pages == [] then ""
    else
      var last := pages[|pages| - 1];
      PagesText(pages[..|pages| - 1], keepEmpty) + (if keepEmpty || last != "" then last + "\n" else "")
  }

  /** `text if text.strip() else None` */
  function NoneIfBlank(text: string): Option<string> {
    if Strip(text) == "" then None else Some(text)
  }

  lemma {:induction false} ConcatSnoc(ps: seq<string>, p: string)
    ensures Concat(ps + [p]) == Concat(ps) + p
    decreases |ps|
  {
    if ps != [] {
      assert (ps + [p])[1..] == ps[1..] + [p];
      ConcatSnoc(ps[1..], p);
    }
  }

  /** The text shows what the pages show; it ends with a line break unless
      it is empty. */
  lemma {:induction false} PagesTextVisible(pages: seq<string>, keepEmpty: bool)
    ensures Visible(PagesText(pages, keepEmpty)) == Visible(Concat(pages))
    ensures PagesText(pages, keepEmpty) == "" || PagesText(pages, keepEmpty)[|PagesText(pages, keepEmpty)| - 1] == '\n'
    decreases |pages|
  {
    if pages != [] {
      var init := pages[..|pages| - 1];
      var last := pages[|pages| - 1];
      PagesTextVisible(init, keepEmpty);
      assert pages == init + [last];
      ConcatSnoc(init, last);
      var add := if keepEmpty || last != "" then last + "\n" else "";
      assert PagesText(pages, keepEmpty) == PagesText(init, keepEmpty) + add;
      VisibleSnoc(PagesText(init, keepEmpty), Concat(init), last, add);
    }
  }

  /** Adding a page and its line break, or skipping an empty page, adds
      what the page shows. */
  lemma VisibleSnoc(text: string, whole: string, last: string, add: string)
    requires Visible(text) == Visible(whole)
    requires add == last + "\n" || (add == "" && last == "")
    ensures Visible(text + add) == Visible(whole + last)
  {
    VisibleAppend(text, add);
    VisibleAppend(whole, last);
    VisibleAdded(last, add);
  }

  lemma VisibleAdded(last: string, add: string)
    requires add == last + "\n" || (add == "" && last == "")
    ensures Visible(add) == Visible(last)
  {
    if add != "" {
      VisibleAppend(last, "\n");
      VisibleSpace('\n');
    }
  }

  lemma VisibleSpace(c: char)
    requires IsSpace(c)
    ensures Visible([c]) == ""
  {
    assert [c][1..] == [];
  }

  /** Nothing visible in the concatenation exactly when every page is
      blank. */
  lemma {:induction false} ConcatBlank(pages: seq<string>)
    ensures Visible(Concat(pages)) == "" <==> forall i :: 0 <= i < |pages| ==> Blank(pages[i])
    decreases |pages|
  {
    if pages != [] {
      ConcatBlank(pages[1..]);
      VisibleAppend(pages[0], Concat(pages[1..]));
      VisibleEmpty(pages[0]);
      if forall i :: 0 <= i < |pages[1..]| ==> Blank(pages[1..][i]) {
        forall i | 1 <= i < |pages| ensures Blank(pages[i]) {
          assert pages[i] == pages[1..][i - 1];
        }
      }
    }
  }

  /** An extraction gives no text exactly when every page is blank; a text
      it gives shows exactly what the pages show, is not blank and ends with
      a line break. */
  lemma PagesExtractionCorrect(pages: seq<string>, keepEmpty: bool)
    ensures var r := NoneIfBlank(PagesText(pages, keepEmpty));
      (r.None? <==> forall i :: 0 <= i < |pages| ==> Blank(pages[i]))
      && (r.Some? ==> Visible(r.value) == Visible(Concat(pages)) && Strip(r.value) != "" && r.value[|r.value| - 1] == '\n')
  {
    var text := PagesText(pages, keepEmpty);
    PagesTextVisible(pages, keepEmpty);
    ConcatBlank(pages);
    StripEmpty(text);
    VisibleEmpty(text);
    assert (Strip(text) == "") == (Visible(Concat(pages)) == "");
  }

  /** `_extract_from_pdf_digital`: `pages` is what the reader's pages give
      (`None` when the file cannot be opened or read); a page that gives no
      text is skipped. */
  method ExtractFromPdfDigital(pages: Option<seq<string>>) returns (r: Option<string>)
    ensures r == (if pages.None? then None else NoneIfBlank(PagesText(pages.value, false)))
  {
    if pages.None? {
      return None;
    }
    var text := "";
    var i := 0;
    while i < |pages.value|
      invariant 0 <= i <= |pages.value|
      invariant text == PagesText(pages.value[..i], false)
    {
      var pageText := pages.value[i];
      if pageText != "" {
        text := text + pageText + "\n";
      }
      assert pages.value[..i + 1][..i] == pages.value[..i];
      i := i + 1;
    }
    assert pages.value[..i] == pages.value;
    r := NoneIfBlank(text);
  }

  /** `_extract_from_pdf_scanned`: `pages` is what recognition reads on
      each page image (`None` when the conversion or recognition fails);
      every page adds its text and a line break, even an empty one. */
  method ExtractFromPdfScanned(pages: Option<seq<string>>) returns (r: Option<string>)
    ensures r == (if pages.None? then None else NoneIfBlank(PagesText(pages.value, true)))
  {
    if pages.None? {
      return None;
    }
    var text := "";
    var i := 0;
    while i < |pages.value|
      invariant 0 <= i <= |pages.value|
      invariant text == PagesText(pages.value[..i], true)
    {
      var pageText := pages.value[i];
      text := text + pageText + "\n";
      assert pages.value[..i + 1][..i] == pages.value[..i];
      i := i + 1;
    }
    assert pages.value[..i] == pages.value;
    r := NoneIfBlank(text);
  }

  // ---------------------------------------------------------------------
  // `extract_text`

  /** The document as the extractors would see it: the parsed HTML page,
      the text layer's pages and what recognition reads on each page image. */
  datatype Document = Document(html: Option<seq<Node>>, textLayer: Option<seq<string>>, scanned: Option<seq<string>>)

  /** `extract_text`: the text and the document type. A PDF is taken as
      digital only with more than 100 characters left once stripped. */
  method ExtractText(doc: Document, fileExt: string) returns (text: Option<string>, format: Format)
    ensures fileExt == ".html" ==> text == HtmlText(doc.html) && format == Html
    ensures fileExt == ".pdf" ==>
      var digital := if doc.textLayer.None? then None else NoneIfBlank(PagesText(doc.textLayer.value, false));
      if digital.Some? && |Strip(digital.value)| > 100 then text == digital && format == PdfDigital
      else (format == PdfEscaneado && text == (if doc.scanned.None? then None else NoneIfBlank(PagesText(doc.scanned.value, true))))
    ensures fileExt != ".html" && fileExt != ".pdf" ==> text == None && format == Unknown
    ensures format == PdfDigital ==> text.Some? && |Strip(text.value)| > 100
  {
    if fileExt == ".html" {
      return HtmlText(doc.html), Html;
    } else if fileExt == ".pdf" {
      var digital := ExtractFromPdfDigital(doc.textLayer);
      if digital.Some? && |Strip(digital.value)| > 100 {
        return digital, PdfDigital;
      }
      var scanned := ExtractFromPdfScanned(doc.scanned);
      return scanned, PdfEscaneado;
    } else {
      return None, Unknown;
    }
  }
}

=== FILE: intake.dfy ===
/** What the two collection loops (`collect_convencoes_task` in
    `backend/app/tasks/collector.py` and `run_collection_task` in
    `backend/app/api/v1/endpoints/collector.py`) share: the scraper and the
    text processor as a `Source` of answers, the 1,000,000-character text
    cap, and the effect of one stored record (insert, association with the
    matching companies, one notification per owner). A run over a list of
    ids is defined once, parameterised by the function that turns an id
    into the record to insert, or into nothing. */
module Intake {
  import opened Common
  import opened Store
  import opened Relevance

  /** `texto_extraido[:1000000]`. */
  const TextCap: nat := 1000000

  /** The dictionary `MediadorScraper.extract_metadados` returns; every
      key may be absent. */
  datatype Metadata = Metadata(
    titulo: Option<string>,
    tipo: Option<string>,
    dataPublicacao: Option<string>,
    vigenciaInicio: Option<string>,
    vigenciaFim: Option<string>,
    sindicatoEmpregador: Option<string>,
    sindicatoTrabalhador: Option<string>,
    municipio: Option<string>,
    uf: Option<string>,
    cnae: Option<string>,
    documentoUrl: Option<string>)

  /** The answers of the scraper, the processor and the database for one
      run. `metadados` is `None` where the scraper returns `None` or an
      empty dictionary; `download` is `None` where the download fails;
      `isoDay` is the day PostgreSQL's `Date` column reads from a date
      string, `None` for a string it refuses; `parseDayFirst` is
      `dateutil.parser.parse(s, dayfirst=True)`, `None` where it raises;
      `insertFails` holds for the ids whose insert or commit raises for any
      other reason (a value longer than its column, say), which rolls the
      session back. */
  datatype Source = Source(
    instrumentoIds: seq<string>,
    metadados: string -> Option<Metadata>,
    download: (string, string) -> Option<(string, string)>,
    extractText: (string, string) -> (Option<string>, Option<Format>),
    isoDay: string -> Option<int>,
    parseDayFirst: string -> Option<int>,
    insertFails: string -> bool)

  /** `texto_extraido[:1000000] if texto_extraido else None`: stored only
      when non-empty, as a prefix of at most a million characters, whole
      when it fits. */
  function CappedText(text: Option<string>): (r: Option<string>)
    ensures r.Some? <==> Truthy(text)
    ensures r.Some? ==> |r.value| <= TextCap && |r.value| <= |text.value| && r.value == text.value[..|r.value|]
    ensures r.Some? && |text.value| <= TextCap ==> r.value == text.value
  {
    if Truthy(text) then Some(Take(text.value, TextCap)) else None
  }

  /** The columns the database fills in on insert: the id (the next row
      position) and `created_at`. */
  function Stamp(doc: Convencao, id: nat, now: int): Convencao {
    doc.(id := id, createdAt := now)
  }

  /** Everything one stored record writes: the row, the links of
      `associate_convencao_to_companies` and the notifications of
      `generate_notifications`. */
  function Admit(s: DbState, doc: Convencao, now: int): DbState {
    var links := AddMissing(s.links, DocumentLinks(doc, s.companies));
    s.(documents := s.documents + [doc], links := links,
       notifications := s.notifications + NovaConvencaoRows(doc, LinkedOwners(doc.id, links, s.companies), |s.notifications|, now))
  }

  /** One id of a run: skipped when already stored or when `build` gives
      nothing, else admitted. */
  function Step(s: DbState, id: string, build: string -> Option<Convencao>, now: int): DbState {
    if HasInstrumento(s.documents, id) then s
    else match build(id)
      case None => s
      case Some(doc) => Admit(s, Stamp(doc, |s.documents|, now), now)
  }

  /** The ids processed in order. */
  function Run(s: DbState, ids: seq<string>, build: string -> Option<Convencao>, now: int): DbState
    decreases |ids|
  {
    if ids == [] then s
    else Step(Run(s, ids[..|ids| - 1], build, now), ids[|ids| - 1], build, now)
  }

  /** A builder that keeps the id it was given as `instrumento_id`. */
  ghost predicate Keyed(build: string -> Option<Convencao>) {
    forall id :: build(id).Some? ==> build(id).value.instrumentoId == id
  }

  /** A run only appends documents, at most one per id, each the stamped
      record its builder gave for one of the ids; companies, preferences
      and the company counter are untouched. */
  lemma {:induction false} RunAppends(s: DbState, ids: seq<string>, build: string -> Option<Convencao>, now: int)
    requires Keyed(build)
    ensures |s.documents| <= |Run(s, ids, build, now).documents| <= |s.documents| + |ids|
    ensures Run(s, ids, build, now).documents[..|s.documents|] == s.documents
    ensures forall k :: |s.documents| <= k < |Run(s, ids, build, now).documents| ==>
      var d := Run(s, ids, build, now).documents[k];
      d.instrumentoId in ids && build(d.instrumentoId).Some? && d == Stamp(build(d.instrumentoId).value, k, now)
    ensures Run(s, ids, build, now).companies == s.companies
    ensures Run(s, ids, build, now).preferences == s.preferences
    ensures Run(s, ids, build, now).nextCompanyId == s.nextCompanyId
    decreases |ids|
  {
    if ids != [] {
      var prefix := ids[..|ids| - 1];
      var id := ids[|ids| - 1];
      RunAppends(s, prefix, build, now);
      var t := Run(s, prefix, build, now);
      var r := Run(s, ids, build, now);
      assert r == Step(t, id, build, now);
      forall k | |s.documents| <= k < |r.documents|
        ensures r.documents[k].instrumentoId in ids && build(r.documents[k].instrumentoId).Some?
          && r.documents[k] == Stamp(build(r.documents[k].instrumentoId).value, k, now)
      {
        if k < |t.documents| {
          assert r.documents[k] == t.documents[k];
          assert t.documents[k].instrumentoId in prefix;
        } else {
          assert r.documents[k] == Stamp(build(id).value, k, now);
        }
      }
      assert r.documents[..|t.documents|] == t.documents;
      assert r.documents[..|s.documents|] == t.documents[..|s.documents|];
    }
  }

  /** After a run every id is stored, or its builder gives nothing. */
  lemma {:induction false} RunSettles(s: DbState, ids: seq<string>, build: string -> Option<Convencao>, now: int)
    requires Keyed(build)
    ensures forall k :: 0 <= k < |ids| ==> HasInstrumento(Run(s, ids, build, now).documents, ids[k]) || build(ids[k]).None?
    decreases |ids|
  {
    if ids != [] {
      var prefix := ids[..|ids| - 1];
      var id := ids[|ids| - 1];
      RunSettles(s, prefix, build, now);
      var t := Run(s, prefix, build, now);
      var r := Run(s, ids, build, now);
      assert r.documents[..|t.documents|] == t.documents && |t.documents| <= |r.documents|;
      forall k | 0 <= k < |ids| ensures HasInstrumento(r.documents, ids[k]) || build(ids[k]).None? {
        if k < |ids| - 1 {
          assert ids[k] == prefix[k];
          if HasInstrumento(t.documents, ids[k]) {
            var i :| 0 <= i < |t.documents| && t.documents[i].instrumentoId == ids[k];
            assert r.documents[i] == t.documents[i];
          }
        } else if !HasInstrumento(t.documents, id) && build(id).Some? {
          assert r.documents[|t.documents|].instrumentoId == id;
        }
      }
    }
  }

  /** A run over ids that are all stored or all unbuildable changes nothing. */
  lemma {:induction false} RunOverSettled(t: DbState, ids: seq<string>, build: string -> Option<Convencao>, now: int)
    requires forall k :: 0 <= k < |ids| ==> HasInstrumento(t.documents, ids[k]) || build(ids[k]).None?
    ensures Run(t, ids, build, now) == t
    decreases |ids|
  {
    if ids != [] {
      RunOverSettled(t, ids[..|ids| - 1], build, now);
      assert ids[|ids| - 1] == ids[|ids| - 1];
    }
  }

  /** Collecting the same ids again, with the same answers, writes nothing. */
  lemma RunIdempotent(s: DbState, ids: seq<string>, build: string -> Option<Convencao>, now: int)
    requires Keyed(build)
    ensures Run(Run(s, ids, build, now), ids, build, now) == Run(s, ids, build, now)
  {
    RunSettles(s, ids, build, now);
    RunOverSettled(Run(s, ids, build, now), ids, build, now);
  }

  /** A stored id that was absent before the run has a record to build. */
  lemma StoredAfterRun(s: DbState, ids: seq<string>, build: string -> Option<Convencao>, now: int, id: string)
    requires Keyed(build)
    requires HasInstrumento(Run(s, ids, build, now).documents, id)
    ensures HasInstrumento(s.documents, id) || (id in ids && build(id).Some?)
  {
    RunAppends(s, ids, build, now);
    var r := Run(s, ids, build, now);
    var i :| 0 <= i < |r.documents| && r.documents[i].instrumentoId == id;
    if i < |s.documents| {
      assert s.documents[i] == r.documents[..|s.documents|][i];
    }
  }

  /** Appending a record numbered from the table's length, under a new
      `instrumento_id`, keeps ids equal to positions and keys unique. */
  lemma AppendKeepsWellFormed(docs: seq<Convencao>, doc: Convencao)
    requires DocumentsWellFormed(docs) && doc.id == |docs| && !HasInstrumento(docs, doc.instrumentoId)
    ensures DocumentsWellFormed(docs + [doc])
  {
    var all := docs + [doc];
    forall i, j | 0 <= i < j < |all| ensures all[i].instrumentoId != all[j].instrumentoId {
      if j == |docs| {
        assert all[i] == docs[i];
      }
    }
  }

  /** `db.add(convencao); db.commit()`, then
      `associate_convencao_to_companies` and `generate_notifications`. */
  method AdmitDocument(db: Database, doc: Convencao, now: int)
    requires db.Valid() && doc.id == |db.documents| && !HasInstrumento(db.documents, doc.instrumentoId)
    modifies db
    ensures db.State() == Admit(old(db.State()), doc, now)
    ensures db.Valid()
  {
    AppendKeepsWellFormed(db.documents, doc);
    db.documents := db.documents + [doc];
    AssociateConvencaoToCompanies(db, doc.id);
    GenerateNotifications(db, doc.id, now);
  }
}

=== FILE: mediador_api.dfy ===
/** The live client of `backend/app/services/mediador_api.py`: the search
    parameters, the menu filter, the parsers of a result page (table
    rows, result blocks, links) and of a detail page. The site's answers,
    the HTML parser, `hash` and `dateutil` are parameters. */
module MediadorApi {
  import opened Common
  import opened Text
  import opened Utf8
  import opened Scan
  import opened Sorting

  // ---------------------------------------------------------------------
  // Search parameters

  /** `params` of `search_convencoes`: only the filters given, the state in
      capitals, the CNAE and the CNPJ without punctuation. */
  function SearchParams(municipio: Option<string>, uf: Option<string>, cnae: Option<string>, cnpj: Option<string>): (r: map<string, string>)
    ensures r.Keys <= {"municipio", "uf", "cnae", "cnpj"}
    ensures ("municipio" in r <==> Truthy(municipio)) && ("uf" in r <==> Truthy(uf))
    ensures ("cnae" in r <==> Truthy(cnae)) && ("cnpj" in r <==> Truthy(cnpj))
  {
    var p0: map<string, string> := map[];
    var p1 := if Truthy(municipio) then p0["municipio" := municipio.value] else p0;
    var p2 := if Truthy(uf) then p1["uf" := Upper(uf.value)] else p1;
    var p3 := if Truthy(cnae) then p2["cnae" := CleanCnae(cnae.value)] else p2;
    if Truthy(cnpj) then p3["cnpj" := CleanCnpj(cnpj.value)] else p3
  }

  /** The values sent are already normal: the city as given, the state
      unchanged by a second upper-casing and as long as the state given
      unless it holds a `ß`, the CNAE and CNPJ unchanged by cleaning. */
  lemma SearchParamsNormal(municipio: Option<string>, uf: Option<string>, cnae: Option<string>, cnpj: Option<string>)
    ensures var r := SearchParams(municipio, uf, cnae, cnpj);
      ("municipio" in r ==> r["municipio"] == municipio.value)
      && ("uf" in r ==> (Upper(r["uf"]) == r["uf"] && |uf.value| <= |r["uf"]| <= 2 * |uf.value|
                         && ((forall i :: 0 <= i < |uf.value| ==> uf.value[i] != '\U{DF}') ==> |r["uf"]| == |uf.value|)))
      && ("cnae" in r ==> CleanCnae(r["cnae"]) == r["cnae"])
      && ("cnpj" in r ==> CleanCnpj(r["cnpj"]) == r["cnpj"])
  {
    if Truthy(uf) {
      UpperIdempotent(uf.value);
    }
  }

  // ---------------------------------------------------------------------
  // The menu filter

  /** `exact_menu_matches` of `is_menu_item`. */
  const ExactMenuMatches: set<string> := {
    "solicitação de registro de instrumento coletivo",
    "solicitação de mediação",
    "continuar solicitação",
    "retificar solicitação",
    "acompanhar solicitação",
    "acompanhar mediação",
    "imprimir requerimento",
    "manual do usuário",
    "instrumentos coletivos registrados",
    "boas práticas trabalhistas"
  }

  /** `t[i..]` is `solicita[çc][ãa]o`. */
  predicate SolicitacaoAt(t: string, i: nat) {
    |t| == i + 11 && t[i..i + 8] == "solicita" && t[i + 8] in {'ç', 'c'} && t[i + 9] in {'ã', 'a'} && t[i + 10] == 'o'
  }

  /** `t[i..]` is `media[çc][ãa]o`. */
  predicate MediacaoAt(t: string, i: nat) {
    |t| == i + 8 && t[i..i + 5] == "media" && t[i + 5] in {'ç', 'c'} && t[i + 6] in {'ã', 'a'} && t[i + 7] == 'o'
  }

  /** The anchored `menu_patterns` of `is_menu_item`, on lower-case text. */
  predicate MenuPattern(t: string) {
    (StartsWith(t, "continuar ") && SolicitacaoAt(t, 10))
    || (StartsWith(t, "retificar ") && SolicitacaoAt(t, 10))
    || (StartsWith(t, "acompanhar ") && SolicitacaoAt(t, 11))
    || (StartsWith(t, "solicitar ") && MediacaoAt(t, 10))
    || t == "imprimir requerimento"
    || t == "manual do usuário"
  }

  /** `is_menu_item`: a known menu entry, one of the anchored patterns, or
      a short text with an action word. */
  predicate IsMenuItem(text: string) {
    if text == "" then false
    else
      var t := Strip(Lower(text));
      t in ExactMenuMatches || MenuPattern(t)
      || (|t| < 30 && (Contains(t, "continuar") || Contains(t, "retificar") || Contains(t, "acompanhar") || Contains(t, "imprimir")))
  }

  /** A text of thirty characters or more (once lower-cased and stripped) is
      a menu item only when it is one of the two long menu entries: every
      pattern and every other entry is shorter. */
  lemma LongMenuItems(text: string)
    requires |Strip(Lower(text))| >= 30
    ensures IsMenuItem(text) <==>
      Strip(Lower(text)) in {"solicitação de registro de instrumento coletivo", "instrumentos coletivos registrados"}
  {
    var t := Strip(Lower(text));
    MenuPatternShort(t);
    LongExactMatches(t);
  }

  lemma MenuPatternShort(t: string)
    ensures MenuPattern(t) ==> |t| <= 22
  {
  }

  lemma LongExactMatches(t: string)
    requires |t| >= 30
    ensures t in ExactMenuMatches <==>
      t in {"solicitação de registro de instrumento coletivo", "instrumentos coletivos registrados"}
  {
    assert |"solicitação de mediação"| < 30 && |"continuar solicitação"| < 30 && |"retificar solicitação"| < 30;
    assert |"acompanhar solicitação"| < 30 && |"acompanhar mediação"| < 30 && |"imprimir requerimento"| < 30;
    assert |"manual do usuário"| < 30 && |"boas práticas trabalhistas"| < 30;
  }

  // ---------------------------------------------------------------------
  // Patterns of the parsers

  /** The id of a link: `/(\d{4,})`, else `[=/:](\d{4,})`, else `(\d{4,})`. */
  function LinkId(href: string): Option<string> {
    var afterSlash := SearchId(href, {'/'}, false);
    if afterSlash.Some? then afterSlash
    else
      var afterMark := SearchId(href, {'=', '/', ':'}, false);
      if afterMark.Some? then afterMark else SearchId(href, {}, true)
  }

  /** A link has an id exactly when its target holds four digits in a
      row; the id is all digits and at least four long, and a run after a
      '/' is preferred to any other. */
  lemma LinkIdCorrect(href: string)
    ensures LinkId(href).None? <==> forall i :: 0 <= i <= |href| ==> RunLength(href, i) < 4
    ensures LinkId(href).Some? ==> |LinkId(href).value| >= 4 && AllDigits(LinkId(href).value)
    ensures IdStart(href, {'/'}, false).Some? ==> LinkId(href) == SearchId(href, {'/'}, false)
  {
    if LinkId(href).Some? {
      var i: nat;
      if IdStart(href, {'/'}, false).Some? {
        i := IdStart(href, {'/'}, false).value;
      } else if IdStart(href, {'=', '/', ':'}, false).Some? {
        i := IdStart(href, {'=', '/', ':'}, false).value;
      } else {
        i := IdStart(href, {}, true).value;
      }
      assert RunLength(href, i) >= 4;
    } else {
      forall i | 0 <= i <= |href| ensures RunLength(href, i) < 4 {
        assert !IdAt(href, i, {}, true);
      }
    }
  }

  /** A date `dd/mm/yyyy` (either separator `/` or `-`) starts at `i`. */
  predicate DateAt(t: string, i: nat) {
    i + 10 <= |t|
    && IsAsciiDigit(t[i]) && IsAsciiDigit(t[i + 1]) && t[i + 2] in {'/', '-'}
    && IsAsciiDigit(t[i + 3]) && IsAsciiDigit(t[i + 4]) && t[i + 5] in {'/', '-'}
    && IsAsciiDigit(t[i + 6]) && IsAsciiDigit(t[i + 7]) && IsAsciiDigit(t[i + 8]) && IsAsciiDigit(t[i + 9])
  }

  function DateOpens(t: string): nat -> bool {
    (i: nat) => DateAt(t, i)
  }

  /** `re.findall(r'(\d{2}[/-]\d{2}[/-]\d{4})', t)[0]`, if any. */
  function FirstDate(t: string): (r: Option<string>)
    ensures r.Some? ==> |r.value| == 10 && exists i :: 0 <= i && DateAt(t, i) && r.value == t[i..i + 10]
    ensures r.None? <==> forall i :: 0 <= i < |t| ==> !DateAt(t, i)
  {
    var p := DateOpens(t);
    assert forall i :: 0 <= i < |t| ==> p(i) == DateAt(t, i);
    match FirstAt(0, |t|, p)
    case None =>
      assert forall i :: 0 <= i < |t| ==> !p(i);
      None
    case Some(i) =>
      assert p(i);
      Some(t[i..i + 10])
  }

  /** `\w` for ASCII and Latin-1: letters, digits, '_' and the Latin-1
      letters and digit-like signs. */
  predicate IsWordChar(c: char) {
    ('a' <= c <= 'z') || ('A' <= c <= 'Z') || IsAsciiDigit(c) || c == '_'
    || c == '\U{AA}' || c == '\U{B2}' || c == '\U{B3}' || c == '\U{B5}' || c == '\U{B9}' || c == '\U{BA}'
    || ('\U{BC}' <= c <= '\U{BE}')
    || ('\U{C0}' <= c <= '\U{FF}' && c != '\U{D7}' && c != '\U{F7}')
  }

  /** Two capital ASCII letters standing as a word start at `i`. */
  predicate UfAt(t: string, i: nat) {
    i + 2 <= |t| && 'A' <= t[i] <= 'Z' && 'A' <= t[i + 1] <= 'Z'
    && (i == 0 || !IsWordChar(t[i - 1])) && (i + 2 == |t| || !IsWordChar(t[i + 2]))
  }

  function UfOpens(t: string): nat -> bool {
    (i: nat) => UfAt(t, i)
  }

  /** `re.findall(r'\b([A-Z]{2})\b', t)[0]`, if any. */
  function FirstUf(t: string): (r: Option<string>)
    ensures r.Some? ==> |r.value| == 2 && exists i :: (0 <= i && UfAt(t, i) && r.value == t[i..i + 2]
      && forall j :: 0 <= j < i ==> !UfAt(t, j))
    ensures r.None? <==> forall i :: 0 <= i < |t| ==> !UfAt(t, i)
  {
    var p := UfOpens(t);
    assert forall i :: 0 <= i < |t| ==> p(i) == UfAt(t, i);
    match FirstAt(0, |t|, p)
    case None =>
      assert forall i :: 0 <= i < |t| ==> !p(i);
      None
    case Some(i) =>
      assert p(i);
      Some(t[i..i + 2])
  }

  // ---------------------------------------------------------------------
  // Repair of mis-decoded text

  /** `b.decode('latin-1')`: one character per byte. */
  function Latin1Chars(b: seq<byte>): (r: string)
    ensures |r| == |b| && forall i :: 0 <= i < |b| ==> r[i] as int == b[i]
  {
    seq(|b|, i requires 0 <= i < |b| => b[i] as char)
  }

  /** UTF-8 text read as Latin-1: the mis-decoding the parsers try to undo. */
  function Mojibake(s: string): string {
    Latin1Chars(Encode(s))
  }

  /** `t.encode('latin-1', errors='ignore')`: characters above U+00FF are
      dropped. */
  function Latin1Ignore(t: string): (r: seq<byte>)
    ensures (forall i :: 0 <= i < |t| ==> t[i] as int < 256) ==> |r| == |t| && forall i :: 0 <= i < |t| ==> r[i] == t[i] as int
  {
    if t == [] then []
    else (if t[0] as int < 256 then [t[0] as int] else []) + Latin1Ignore(t[1..])
  }

  /** `t.encode('latin-1')`, `None` where Python raises. */
  function Latin1(t: string): (r: Option<seq<byte>>)
    ensures r.Some? ==> Latin1Chars(r.value) == t
  {
    if forall i :: 0 <= i < |t| ==> t[i] as int < 256 then Some(Latin1Ignore(t)) else None
  }

  /** The repair as the parsers write it, and as the model's parsers apply
      it: any text with an 'Ã' is encoded to Latin-1 and decoded as UTF-8,
      both ignoring errors; a text without one is left alone. */
  function RepairAsWritten(t: string): (r: string)
    ensures 'Ã' !in t ==> r == t
  {
    assert 'Ã' !in t ==> !Contains(t, "Ã§") && !Contains(t, "Ã£") by {
      if 'Ã' !in t {
        NotContainsFirst(t, "Ã§");
        NotContainsFirst(t, "Ã£");
      }
    }
    if Contains(t, "Ã§") || Contains(t, "Ã£") || 'Ã' in t then DecodeIgnore(Latin1Ignore(t)) else t
  }

  /** The repair as intended: a text with an 'Ã' is replaced only when it is
      exactly the Latin-1 reading of some UTF-8 text. The parsers do not use
      it; it states what `RepairAsWritten` should have been. */
  function Repair(t: string): (r: string)
    ensures r != t ==> Mojibake(r) == t
  {
    if 'Ã' !in t then t
    else match Latin1(t)
      case None => t
      case Some(b) =>
        match Decode(b)
        case None => t
        case Some(u) => u
  }

  /** `DecodeIgnore` inverts encoding, like strict decoding. */
  lemma {:induction false} DecodeIgnoreEncode(s: string)
    ensures DecodeIgnore(Encode(s)) == s
  {
    if s != [] {
      DecodeFirstOfEncoding(s[0], Encode(s[1..]));
      assert Encode(s)[Width(s[0])..] == Encode(s[1..]);
      DecodeIgnoreEncode(s[1..]);
      assert [s[0]] + s[1..] == s;
    }
  }

  lemma Latin1OfMojibake(s: string)
    ensures Latin1(Mojibake(s)) == Some(Encode(s))
    ensures Latin1Ignore(Mojibake(s)) == Encode(s)
  {
    var m := Mojibake(s);
    assert forall i :: 0 <= i < |m| ==> m[i] as int < 256;
    assert Latin1Ignore(m) == Encode(s);
  }

  /** Both repairs turn mis-decoded text with an 'Ã' back into the text. */
  lemma RepairUndoesMojibake(s: string)
    requires 'Ã' in Mojibake(s)
    ensures Repair(Mojibake(s)) == s
    ensures RepairAsWritten(Mojibake(s)) == s
  {
    Latin1OfMojibake(s);
    DecodeEncode(s);
    DecodeIgnoreEncode(s);
  }

  /** The repair as written drops letters of correct Portuguese text in
      capitals: "SÃO" becomes "SO". The intended repair leaves it alone. */
  lemma RepairAsWrittenLosesLetters()
    ensures RepairAsWritten("SÃO") == "SO"
    ensures Repair("SÃO") == "SÃO"
  {
    var b: seq<byte> := [0x53, 0xC3, 0x4F];
    assert Latin1Ignore("SÃO") == b;
    assert DecodeFirst(b) == Some(('S', 1));
    assert DecodeFirst(b[1..]).None? by {
      assert CodePoint(b[1..], 2) == 0x8F;
      assert EncodeChar(0x8F as char) == [0xC2, 0x8F];
    }
    assert DecodeFirst(b[2..]) == Some(('O', 1));
    assert DecodeIgnore(b[3..]) == [];
    assert Decode(b[1..]).None?;
  }

  /** Text made of ASCII characters only. */
  predicate IsAscii(t: string) {
    forall i :: 0 <= i < |t| ==> t[i] as int < 0x80
  }

  /** The bytes `encode('latin-1', errors='ignore')` gives for one character. */
  function Latin1Byte(c: char): seq<byte> {
    if c as int < 256 then [c as int] else []
  }

  lemma Latin1IgnoreCons(t: string)
    requires t != []
    ensures Latin1Ignore(t) == Latin1Byte(t[0]) + Latin1Ignore(t[1..])
  {
  }

  lemma {:induction false} Latin1IgnoreAppend(a: string, b: string)
    ensures Latin1Ignore(a + b) == Latin1Ignore(a) + Latin1Ignore(b)
  {
    if a == [] {
      assert a + b == b;
    } else {
      var c := a + b;
      assert c[0] == a[0] && c[1..] == a[1..] + b;
      Latin1IgnoreAppend(a[1..], b);
      calc {
        Latin1Ignore(c);
        { Latin1IgnoreCons(c); }
        Latin1Byte(a[0]) + Latin1Ignore(a[1..] + b);
        Latin1Byte(a[0]) + (Latin1Ignore(a[1..]) + Latin1Ignore(b));
        (Latin1Byte(a[0]) + Latin1Ignore(a[1..])) + Latin1Ignore(b);
        { Latin1IgnoreCons(a); }
        Latin1Ignore(a) + Latin1Ignore(b);
      }
    }
  }

  lemma AsciiDecodeFirst(b: seq<byte>)
    requires b != [] && b[0] < 0x80
    ensures DecodeFirst(b) == Some((b[0] as char, 1))
  {
    assert CodePoint(b, 1) == b[0];
    assert EncodeChar(b[0] as char) == [b[0]];
    assert b[..1] == [b[0]];
  }

  lemma DecodeIgnoreAscii(b: seq<byte>)
    requires b != [] && b[0] < 0x80
    ensures DecodeIgnore(b) == [b[0] as char] + DecodeIgnore(b[1..])
  {
    AsciiDecodeFirst(b);
  }

  /** ASCII bytes decode one character each, whatever follows them. */
  lemma {:induction false} DecodeIgnoreAsciiPrefix(p: seq<byte>, rest: seq<byte>)
    requires forall i :: 0 <= i < |p| ==> p[i] < 0x80
    ensures DecodeIgnore(p + rest) == Latin1Chars(p) + DecodeIgnore(rest)
  {
    if p == [] {
      assert p + rest == rest;
    } else {
      var b := p + rest;
      assert b[0] == p[0] && b[1..] == p[1..] + rest;
      DecodeIgnoreAsciiPrefix(p[1..], rest);
      calc {
        DecodeIgnore(b);
        { DecodeIgnoreAscii(b); }
        [p[0] as char] + DecodeIgnore(p[1..] + rest);
        [p[0] as char] + (Latin1Chars(p[1..]) + DecodeIgnore(rest));
        ([p[0] as char] + Latin1Chars(p[1..])) + DecodeIgnore(rest);
        { Latin1CharsCons(p); }
        Latin1Chars(p) + DecodeIgnore(rest);
      }
    }
  }

  lemma Latin1CharsCons(p: seq<byte>)
    requires p != []
    ensures Latin1Chars(p) == [p[0] as char] + Latin1Chars(p[1..])
  {
    var l := Latin1Chars(p);
    var r := [p[0] as char] + Latin1Chars(p[1..]);
    assert |l| == |r|;
    forall i | 0 <= i < |l| ensures l[i] == r[i] {
      if i > 0 {
        assert r[i] == Latin1Chars(p[1..])[i - 1];
      }
    }
  }

  /** The byte of 'Ã' starts no UTF-8 character when an ASCII byte or
      nothing follows it. */
  lemma LoneLeadByte(rest: seq<byte>)
    requires rest == [] || rest[0] < 0x80
    ensures DecodeFirst([0xC3] + rest).None?
  {
    var c: seq<byte> := [0xC3] + rest;
    if |c| >= 2 {
      var n := CodePoint(c, 2);
      assert n == 64 + rest[0];
      assert EncodeChar(n as char) != c[..2];
    }
  }

  /** ASCII text is its own Latin-1 encoding, byte for byte. */
  lemma Latin1IgnoreAscii(t: string)
    requires IsAscii(t)
    ensures forall i :: 0 <= i < |Latin1Ignore(t)| ==> Latin1Ignore(t)[i] < 0x80
    ensures Latin1Chars(Latin1Ignore(t)) == t
  {
  }

  lemma DecodeIgnoreDropsLone(bp: seq<byte>, bq: seq<byte>)
    requires forall i :: 0 <= i < |bp| ==> bp[i] < 0x80
    requires forall i :: 0 <= i < |bq| ==> bq[i] < 0x80
    ensures DecodeIgnore(bp + ([0xC3] + bq)) == Latin1Chars(bp) + Latin1Chars(bq)
  {
    var c: seq<byte> := [0xC3] + bq;
    DecodeIgnoreAsciiPrefix(bp, c);
    LoneLeadByte(bq);
    assert DecodeIgnore(c) == DecodeIgnore(c[1..]);
    assert c[1..] == bq;
    DecodeIgnoreAsciiPrefix(bq, []);
    assert bq + [] == bq;
  }

  /** The repair as written drops an 'Ã' that stands between ASCII text,
      as in "SÃO PAULO": the letter becomes the byte 0xC3, which starts no
      UTF-8 character before an ASCII byte and is ignored. */
  lemma RepairAsWrittenDropsTilde(p: string, q: string)
    requires IsAscii(p) && IsAscii(q)
    ensures RepairAsWritten(p + "Ã" + q) == p + q
  {
    var t := p + "Ã" + q;
    assert t == p + ("Ã" + q);
    assert t[|p|] == 'Ã';
    assert RepairAsWritten(t) == DecodeIgnore(Latin1Ignore(t));
    Latin1IgnoreAppend(p, "Ã" + q);
    Latin1IgnoreAppend("Ã", q);
    assert Latin1Ignore("Ã") == [0xC3];
    Latin1IgnoreAscii(p);
    Latin1IgnoreAscii(q);
    DecodeIgnoreDropsLone(Latin1Ignore(p), Latin1Ignore(q));
  }

  // ---------------------------------------------------------------------
  // A result page, as the parsers see it

  /** An `<a href>`: its target and its stripped text. */
  datatype Anchor = Anchor(href: string, text: string)

  /** A `<td>` or `<th>`: its stripped text and its links. */
  datatype Cell = Cell(text: string, anchors: seq<Anchor>)

  /** A `<div>` or `<li>` whose class names a result: its stripped text and
      its first link. */
  datatype Block = Block(text: string, link: Option<Anchor>)

  /** A `<div>`, `<section>` or `<main>` whose class names a result list:
      its class names and its links. */
  datatype Container = Container(classes: seq<string>, anchors: seq<Anchor>)

  /** What the parsers query: every table (its rows, header row included),
      the result blocks, the result containers, every link of the page, and
      the links inside the menu areas. */
  datatype ResultPage = ResultPage(
    tables: seq<seq<seq<Cell>>>,
    blocks: seq<Block>,
    containers: seq<Container>,
    anchors: seq<Anchor>,
    navAnchors: seq<Anchor>)

  /** One convention found on the site. A key the parser does not write is
      `None`. */
  datatype Found = Found(
    instrumentoId: string,
    titulo: string,
    dataPublicacao: Option<string>,
    municipio: Option<string>,
    uf: Option<string>,
    fonte: string,
    textoExtraido: Option<string>)

  const Fonte: string := "mediador_mte"

  /** `f"TEMP-{hash(s) % 1000000}"`, with `hash` given. */
  function TempId(hash: string -> int, s: string): (r: string)
    ensures StartsWith(r, "TEMP-")
  {
    "TEMP-" + NatToString(hash(s) % 1000000)
  }

  // ---------------------------------------------------------------------
  // `_parse_table_row`

  /** The first link of a cell whose target holds an id. */
  function CellLink(anchors: seq<Anchor>): (r: Option<Anchor>)
    ensures r.Some? ==> r.value in anchors && LinkId(r.value.href).Some?
  {
    if anchors == [] then None
    else if LinkId(anchors[0].href).Some? then Some(anchors[0])
    else CellLink(anchors[1..])
  }

  /** A cell has no link exactly when none of its links has an id. */
  lemma {:induction false} CellLinkNone(anchors: seq<Anchor>)
    ensures CellLink(anchors).None? <==> forall a :: a in anchors ==> LinkId(a.href).None?
  {
    if anchors != [] && LinkId(anchors[0].href).None? {
      CellLinkNone(anchors[1..]);
      assert anchors == [anchors[0]] + anchors[1..];
    }
  }

  /** The link the row parser keeps: the first link with an id in the LAST
      cell that has one, since its `break` leaves only the loop over the
      links of one cell. */
  function RowLink(cells: seq<Cell>): (r: Option<Anchor>)
    ensures r.Some? ==> LinkId(r.value.href).Some?
    decreases |cells|
  {
    if cells == [] then None
    else
      var last := CellLink(cells[|cells| - 1].anchors);
      if last.Some? then last else RowLink(cells[..|cells| - 1])
  }

  /** A row has no link exactly when no cell has a link with an id. */
  lemma {:induction false} RowLinkNone(cells: seq<Cell>)
    ensures RowLink(cells).None? <==> forall k :: 0 <= k < |cells| ==> CellLink(cells[k].anchors).None?
    decreases |cells|
  {
    if cells != [] {
      var n := |cells| - 1;
      var prefix := cells[..n];
      RowLinkNone(prefix);
      assert RowLink(cells) == if CellLink(cells[n].anchors).Some? then CellLink(cells[n].anchors) else RowLink(prefix);
      assert forall k :: 0 <= k < n ==> prefix[k] == cells[k];
    }
  }

  /** The row's link is a link of one of its cells. */
  lemma {:induction false} RowLinkIn(cells: seq<Cell>)
    requires RowLink(cells).Some?
    ensures exists k :: 0 <= k < |cells| && RowLink(cells).value in cells[k].anchors
    decreases |cells|
  {
    var n := |cells| - 1;
    if CellLink(cells[n].anchors).Some? {
      assert RowLink(cells).value in cells[n].anchors;
    } else {
      var prefix := cells[..n];
      RowLinkIn(prefix);
      var k :| 0 <= k < n && RowLink(prefix).value in prefix[k].anchors;
      assert prefix[k] == cells[k];
    }
  }

  function CellTexts(cells: seq<Cell>): (r: seq<string>)
    ensures |r| == |cells| && forall k :: 0 <= k < |cells| ==> r[k] == cells[k].text
  {
    seq(|cells|, k requires 0 <= k < |cells| => cells[k].text)
  }

  /** `texto_completo`: the cell texts joined by spaces, repaired. */
  function RowText(cells: seq<Cell>): string {
    RepairAsWritten(Join(CellTexts(cells), " "))
  }

  /** The id the row parser takes from its link. */
  function IdOf(link: Option<Anchor>): Option<string> {
    if link.Some? then LinkId(link.value.href) else None
  }

  /** The title the row parser takes from its link: the link's text, else
      the first 100 characters of the row, repaired. */
  function TitleOf(link: Option<Anchor>, full: string): Option<string> {
    if link.Some? then Some(RepairAsWritten(if link.value.text != "" then link.value.text else Take(full, 100))) else None
  }

  /** `parser.parse(dates[0], dayfirst=True)` on the first date of the row,
      with `parseDate` standing for `dateutil`; `None` where it raises. */
  function RowDate(full: string, parseDate: string -> Option<string>): Option<string> {
    var date := FirstDate(full);
    if date.Some? then parseDate(date.value) else None
  }

  /** A later cell's link replaces the link of the cells before it. */
  lemma RowLinkSnoc(cells: seq<Cell>, k: nat)
    requires k < |cells|
    ensures RowLink(cells[..k + 1])
      == if CellLink(cells[k].anchors).Some? then CellLink(cells[k].anchors) else RowLink(cells[..k])
  {
    assert cells[..k + 1][..k] == cells[..k];
  }

  /** `_parse_table_row` on the cells of one row. */
  function TableRow(cells: seq<Cell>, hash: string -> int, parseDate: string -> Option<string>): Option<Found> {
    var full := RowText(cells);
    var link := RowLink(cells);
    var id := IdOf(link);
    var titulo := TitleOf(link, full);
    if Truthy(id) || Truthy(titulo) then
      Some(Found(
        if Truthy(id) then id.value else TempId(hash, full),
        if Truthy(titulo) then titulo.value else Take(full, 200),
        RowDate(full, parseDate),
        None,
        FirstUf(full),
        Fonte,
        if |full| > 100 then Some(Take(full, 500)) else None))
    else None
  }

  /** A row gives a result exactly when one of its cells holds a link with
      an id; the id is then that link's, four digits or more, the title that
      link's text or the start of the row, and the state the first
      two-letter capital word of the row. */
  lemma TableRowCorrect(cells: seq<Cell>, hash: string -> int, parseDate: string -> Option<string>)
    ensures TableRow(cells, hash, parseDate).None? <==>
      forall k :: 0 <= k < |cells| ==> forall a :: a in cells[k].anchors ==> LinkId(a.href).None?
    ensures TableRow(cells, hash, parseDate).Some? ==>
      |TableRow(cells, hash, parseDate).value.instrumentoId| >= 4
      && AllDigits(TableRow(cells, hash, parseDate).value.instrumentoId)
      && exists k, a :: 0 <= k < |cells| && a in cells[k].anchors && LinkId(a.href) == Some(TableRow(cells, hash, parseDate).value.instrumentoId)
    ensures TableRow(cells, hash, parseDate).Some? ==>
      (TableRow(cells, hash, parseDate).value.uf.Some? ==> |TableRow(cells, hash, parseDate).value.uf.value| == 2)
      && (TableRow(cells, hash, parseDate).value.textoExtraido.Some? <==> |RowText(cells)| > 100)
      && TableRow(cells, hash, parseDate).value.fonte == Fonte
  {
    var link := RowLink(cells);
    RowLinkNone(cells);
    if link.Some? {
      RowLinkIn(cells);
      LinkIdCorrect(link.value.href);
      var k :| 0 <= k < |cells| && link.value in cells[k].anchors;
      assert LinkId(link.value.href) == Some(TableRow(cells, hash, parseDate).value.instrumentoId);
    } else {
      forall k | 0 <= k < |cells| ensures forall a :: a in cells[k].anchors ==> LinkId(a.href).None? {
        CellLinkNone(cells[k].anchors);
      }
    }
  }

  /** The inner loop of `_parse_table_row`: the first link of a cell whose
      target has an id. */
  method FindCellLink(anchors: seq<Anchor>) returns (link: Option<Anchor>)
    ensures link == CellLink(anchors)
  {
    link := None;
    var j := 0;
    while j < |anchors|
      invariant 0 <= j <= |anchors|
      invariant CellLink(anchors) == CellLink(anchors[j..])
    {
      var m := LinkId(anchors[j].href);
      if m.Some? {
        link := Some(anchors[j]);
        return;
      }
      assert anchors[j..] == [anchors[j]] + anchors[j + 1..];
      j := j + 1;
    }
  }

  /** `_parse_table_row`, its loops over the cells and their links. */
  method ParseTableRow(cells: seq<Cell>, hash: string -> int, parseDate: string -> Option<string>) returns (r: Option<Found>)
    ensures r == TableRow(cells, hash, parseDate)
  {
    var full := RowText(cells);
    var id: Option<string> := None;
    var titulo: Option<string> := None;
    var k := 0;
    while k < |cells|
      invariant 0 <= k <= |cells|
      invariant id == IdOf(RowLink(cells[..k])) && titulo == TitleOf(RowLink(cells[..k]), full)
    {
      var link := FindCellLink(cells[k].anchors);
      if link.Some? {
        id := IdOf(link);
        titulo := TitleOf(link, full);
      }
      RowLinkSnoc(cells, k);
      k := k + 1;
    }
    assert cells[..k] == cells;
    var uf := FirstUf(full);
    var date := RowDate(full, parseDate);
    if Truthy(id) || Truthy(titulo) {
      r := Some(Found(
        if Truthy(id) then id.value else TempId(hash, full),
        if Truthy(titulo) then titulo.value else Take(full, 200),
        date, None, uf, Fonte,
        if |full| > 100 then Some(Take(full, 500)) else None));
    } else {
      r := None;
    }
  }

  // ---------------------------------------------------------------------
  // `_parse_div_result` and `_parse_link_result`

  /** The anchored patterns `_parse_div_result` rejects, on lower-case text. */
  predicate DivMenuPattern(t: string) {
    t in {"continuar solicitação", "retificar solicitação", "acompanhar solicitação", "solicitar mediação"}
  }

  predicate HasActionWord(t: string) {
    Contains(t, "continuar") || Contains(t, "retificar") || Contains(t, "acompanhar")
  }

  /** `_parse_div_result`: a block of fewer than ten characters or one of
      the four menu entries gives nothing; a link whose target has an id
      after a '/' names the result; otherwise the text must be longer than
      twenty characters and hold no action word. */
  function DivResult(b: Block, hash: string -> int): Option<Found> {
    if |b.text| < 10 then None
    else
      var texto := RepairAsWritten(b.text);
      var lower := Strip(Lower(texto));
      if DivMenuPattern(lower) then None
      else
        var id := if b.link.Some? then SearchId(b.link.value.href, {'/'}, false) else None;
        var titulo :=
          if id.Some? then RepairAsWritten(if b.link.value.text != "" then b.link.value.text else Take(texto, 200))
          else Take(texto, 200);
        if Truthy(id) || (|texto| > 20 && !HasActionWord(lower)) then
          Some(Found(if Truthy(id) then id.value else TempId(hash, texto), titulo, None, None, None, Fonte, Some(Take(texto, 500))))
        else None
  }

  /** A block gives a result exactly when it is ten characters or longer,
      is not one of the four menu entries, and either its link carries an id
      after a '/' or its repaired text is longer than twenty characters
      without an action word; a result without a link id gets a temporary
      id, and keeps at most 500 characters of the text. */
  lemma DivResultCorrect(b: Block, hash: string -> int)
    ensures var texto := RepairAsWritten(b.text);
      var lower := Strip(Lower(texto));
      var linkId := if b.link.Some? then SearchId(b.link.value.href, {'/'}, false) else None;
      (DivResult(b, hash).Some? <==>
        |b.text| >= 10 && !DivMenuPattern(lower) && (linkId.Some? || (|texto| > 20 && !HasActionWord(lower))))
      && (DivResult(b, hash).Some? ==>
        (linkId.Some? ==> DivResult(b, hash).value.instrumentoId == linkId.value && AllDigits(linkId.value))
        && (linkId.None? ==> StartsWith(DivResult(b, hash).value.instrumentoId, "TEMP-"))
        && DivResult(b, hash).value.textoExtraido.Some?
        && |DivResult(b, hash).value.textoExtraido.value| <= 500)
  {
  }

  /** `_parse_link_result`: a link whose text is missing or shorter than five
      characters gives nothing. */
  function LinkResult(a: Anchor, hash: string -> int): Option<Found> {
    if a.text == "" || |a.text| < 5 then None
    else
      var id := LinkId(a.href);
      Some(Found(if id.Some? then id.value else TempId(hash, a.href), RepairAsWritten(a.text), None, None, None, Fonte, None))
  }

  /** A link gives a result exactly when its text has five characters or
      more; the id is the link's id when its target holds one, a temporary
      id otherwise. */
  lemma LinkResultCorrect(a: Anchor, hash: string -> int)
    ensures LinkResult(a, hash).Some? <==> |a.text| >= 5
    ensures LinkResult(a, hash).Some? && LinkId(a.href).Some? ==>
      LinkResult(a, hash).value.instrumentoId == LinkId(a.href).value && AllDigits(LinkId(a.href).value)
    ensures LinkResult(a, hash).Some? && LinkId(a.href).None? ==> StartsWith(LinkResult(a, hash).value.instrumentoId, "TEMP-")
    ensures LinkResult(a, hash).Some? && 'Ã' !in a.text ==> LinkResult(a, hash).value.titulo == a.text
    ensures LinkResult(a, hash).Some? && 'Ã' in a.text ==> LinkResult(a, hash).value.titulo == DecodeIgnore(Latin1Ignore(a.text))
  {
    LinkIdCorrect(a.href);
  }

  /** The pieces of "SÃO PAULO" and "SÃO PAULO SP" around their 'Ã'. */
  lemma SaoPauloPieces()
    ensures IsAscii("S") && IsAscii("O PAULO") && IsAscii("O PAULO SP")
  {
  }

  lemma SaoPauloJoins()
    ensures "S" + "Ã" + "O PAULO" == "SÃO PAULO" && "S" + "O PAULO" == "SO PAULO"
    ensures "S" + "Ã" + "O PAULO SP" == "SÃO PAULO SP" && "S" + "O PAULO SP" == "SO PAULO SP"
  {
  }

  /** What the repair as written does to a correct title: "SÃO PAULO"
      loses its 'Ã'. */
  lemma TitleLosesLetters(a: Anchor, hash: string -> int)
    requires a.text == "SÃO PAULO"
    ensures LinkResult(a, hash).Some? && LinkResult(a, hash).value.titulo == "SO PAULO"
  {
    SaoPauloPieces();
    SaoPauloJoins();
    RepairAsWrittenDropsTilde("S", "O PAULO");
  }

  /** What the repair as written does to a correct row: the first state
      found in "SÃO PAULO SP" is "SO". */
  lemma RowLosesLetters(cells: seq<Cell>, hash: string -> int, parseDate: string -> Option<string>)
    requires Join(CellTexts(cells), " ") == "SÃO PAULO SP"
    ensures RowText(cells) == "SO PAULO SP"
    ensures TableRow(cells, hash, parseDate).Some? ==> TableRow(cells, hash, parseDate).value.uf == Some("SO")
  {
    SaoPauloPieces();
    SaoPauloJoins();
    RepairAsWrittenDropsTilde("S", "O PAULO SP");
    var full: string := "SO PAULO SP";
    assert UfAt(full, 0) && full[..2] == "SO";
    FirstUfOpening(full);
    TableRowUf(cells, hash, parseDate);
  }

  lemma TableRowUf(cells: seq<Cell>, hash: string -> int, parseDate: string -> Option<string>)
    ensures TableRow(cells, hash, parseDate).Some? ==> TableRow(cells, hash, parseDate).value.uf == FirstUf(RowText(cells))
  {
  }

  /** A text that opens with a two-capital word has that word as its state. */
  lemma FirstUfOpening(t: string)
    requires UfAt(t, 0)
    ensures FirstUf(t) == Some(t[..2])
  {
  }

  // ---------------------------------------------------------------------
  // `_parse_search_results`

  /** `rows[1:]`: the rows after the header. */
  function Body(rows: seq<seq<Cell>>): seq<seq<Cell>> {
    if rows == [] then [] else rows[1..]
  }

  /** What one row contributes: rows of fewer than three cells are skipped. */
  function RowCandidate(row: seq<Cell>, hash: string -> int, parseDate: string -> Option<string>): Option<Found> {
    if |row| >= 3 then TableRow(row, hash, parseDate) else None
  }

  function RowCandidates(rows: seq<seq<Cell>>, hash: string -> int, parseDate: string -> Option<string>): (r: seq<Option<Found>>)
    ensures |r| == |rows| && forall k :: 0 <= k < |rows| ==> r[k] == RowCandidate(rows[k], hash, parseDate)
  {
    seq(|rows|, k requires 0 <= k < |rows| => RowCandidate(rows[k], hash, parseDate))
  }

  /** The rows the first strategy looks at, table after table: at most
      `2 * limit` rows after each header. */
  function TableCandidates(tables: seq<seq<seq<Cell>>>, limit: nat, hash: string -> int, parseDate: string -> Option<string>): seq<Option<Found>> {
    if tables == [] then []
    else RowCandidates(Take(Body(tables[0]), 2 * limit), hash, parseDate) + TableCandidates(tables[1..], limit, hash, parseDate)
  }

  function BlockCandidates(blocks: seq<Block>, hash: string -> int): (r: seq<Option<Found>>)
    ensures |r| == |blocks| && forall k :: 0 <= k < |blocks| ==> r[k] == DivResult(blocks[k], hash)
  {
    seq(|blocks|, k requires 0 <= k < |blocks| => DivResult(blocks[k], hash))
  }

  /** A container with one of the class names of a menu. */
  predicate IsMenuContainer(c: Container) {
    "menu" in c.classes || "nav" in c.classes || "navigation" in c.classes || "sidebar" in c.classes
  }

  function NotMenuContainer(): Container -> bool {
    (c: Container) => !IsMenuContainer(c)
  }

  function NotIn(nav: seq<Anchor>): Anchor -> bool {
    (a: Anchor) => a !in nav
  }

  /** The links of the containers, container after container. */
  function ContainerAnchors(cs: seq<Container>): seq<Anchor> {
    if cs == [] then [] else cs[0].anchors + ContainerAnchors(cs[1..])
  }

  /** `links_to_check`: the links of the result containers that are not
      menus, or, when there is none, every link outside the menu areas. */
  function LinksToCheck(page: ResultPage): seq<Anchor> {
    var containers := Where(page.containers, NotMenuContainer());
    if containers != [] then ContainerAnchors(containers)
    else Where(page.anchors, NotIn(page.navAnchors))
  }

  /** What one link contributes: a link whose text or target is a menu item
      is skipped before it is parsed. */
  function LinkCandidate(a: Anchor, hash: string -> int): Option<Found> {
    if IsMenuItem(a.text) || IsMenuItem(a.href) then None else LinkResult(a, hash)
  }

  function LinkCandidates(links: seq<Anchor>, hash: string -> int): (r: seq<Option<Found>>)
    ensures |r| == |links| && forall k :: 0 <= k < |links| ==> r[k] == LinkCandidate(links[k], hash)
  {
    seq(|links|, k requires 0 <= k < |links| => LinkCandidate(links[k], hash))
  }

  /** Some entry of `found` has the id. */
  predicate HasId(found: seq<Found>, id: string) {
    exists i :: 0 <= i < |found| && found[i].instrumentoId == id
  }

  /** Whether a strategy appends candidate `c` to the entries `acc`: a
      result whose title is not a menu item and, when the strategy checks
      for duplicates, whose id is new. */
  predicate Keeps(acc: seq<Found>, c: Option<Found>, dedup: bool) {
    c.Some? && !IsMenuItem(c.value.titulo) && (!dedup || !HasId(acc, c.value.instrumentoId))
  }

  /** One strategy's loop: candidates in order, appended while fewer than
      `limit` entries are collected. */
  function Collect(acc: seq<Found>, cands: seq<Option<Found>>, limit: nat, dedup: bool): seq<Found>
    decreases |cands|
  {
    if |acc| >= limit || cands == [] then acc
    else Collect(if Keeps(acc, cands[0], dedup) then acc + [cands[0].value] else acc, cands[1..], limit, dedup)
  }

  /** The results a strategy keeps, all of them. */
  function Kept(cands: seq<Option<Found>>): seq<Found> {
    if cands == [] then []
    else (if Keeps([], cands[0], false) then [cands[0].value] else []) + Kept(cands[1..])
  }

  /** A strategy only appends: what was collected stays in front, no more
      than `limit` entries are reached, every new entry is a non-menu
      candidate, and with duplicate checks a new entry's id differs from
      every entry before it. */
  lemma {:induction false} CollectAppends(acc: seq<Found>, cands: seq<Option<Found>>, limit: nat, dedup: bool)
    ensures |acc| <= |Collect(acc, cands, limit, dedup)|
    ensures Collect(acc, cands, limit, dedup)[..|acc|] == acc
    ensures |acc| <= limit ==> |Collect(acc, cands, limit, dedup)| <= limit
    ensures forall k :: |acc| <= k < |Collect(acc, cands, limit, dedup)| ==>
      Some(Collect(acc, cands, limit, dedup)[k]) in cands && !IsMenuItem(Collect(acc, cands, limit, dedup)[k].titulo)
    ensures dedup ==> forall i, j :: 0 <= i < j < |Collect(acc, cands, limit, dedup)| && |acc| <= j ==>
      Collect(acc, cands, limit, dedup)[i].instrumentoId != Collect(acc, cands, limit, dedup)[j].instrumentoId
    decreases |cands|
  {
    if !(|acc| >= limit || cands == []) {
      var next := if Keeps(acc, cands[0], dedup) then acc + [cands[0].value] else acc;
      CollectAppends(next, cands[1..], limit, dedup);
      var r := Collect(acc, cands, limit, dedup);
      assert r == Collect(next, cands[1..], limit, dedup);
      assert r[..|next|] == next;
      assert r[..|acc|] == next[..|acc|];
      forall k | |acc| <= k < |r| ensures Some(r[k]) in cands && !IsMenuItem(r[k].titulo) {
        if k < |next| {
          assert r[k] == next[k] == cands[0].value;
        } else {
          assert Some(r[k]) in cands[1..];
        }
      }
      if dedup {
        forall i, j | 0 <= i < j < |r| && |acc| <= j ensures r[i].instrumentoId != r[j].instrumentoId {
          if j < |next| {
            assert j == |acc| && r[j] == cands[0].value;
            assert r[i] == acc[i];
          }
        }
      }
    }
  }

  /** What a strategy collected stays in front. */
  lemma {:induction false} CollectPrefix(acc: seq<Found>, cands: seq<Option<Found>>, limit: nat, dedup: bool)
    ensures |acc| <= |Collect(acc, cands, limit, dedup)| && Collect(acc, cands, limit, dedup)[..|acc|] == acc
    decreases |cands|
  {
    if !(|acc| >= limit || cands == []) {
      var next := if Keeps(acc, cands[0], dedup) then acc + [cands[0].value] else acc;
      CollectPrefix(next, cands[1..], limit, dedup);
      assert Collect(acc, cands, limit, dedup)[..|acc|] == next[..|acc|];
    }
  }

  /** A strategy that stops short of `limit` has looked at every candidate:
      for each non-menu result, an entry with its id is collected. */
  lemma {:induction false} CollectCompleteIds(acc: seq<Found>, cands: seq<Option<Found>>, limit: nat, dedup: bool)
    requires |Collect(acc, cands, limit, dedup)| < limit
    ensures forall c :: c in cands && c.Some? && !IsMenuItem(c.value.titulo) ==>
      HasId(Collect(acc, cands, limit, dedup), c.value.instrumentoId)
    decreases |cands|
  {
    if cands != [] {
      var next := if Keeps(acc, cands[0], dedup) then acc + [cands[0].value] else acc;
      var r := Collect(acc, cands, limit, dedup);
      assert r == Collect(next, cands[1..], limit, dedup);
      CollectCompleteIds(next, cands[1..], limit, dedup);
      CollectPrefix(next, cands[1..], limit, dedup);
      forall c | c in cands && c.Some? && !IsMenuItem(c.value.titulo) ensures HasId(r, c.value.instrumentoId) {
        if c == cands[0] {
          if Keeps(acc, c, dedup) {
            assert r[|acc|] == next[|acc|];
          } else {
            var i :| 0 <= i < |acc| && acc[i].instrumentoId == c.value.instrumentoId;
            assert r[i] == next[i];
          }
        } else {
          assert c in cands[1..];
        }
      }
    }
  }

  /** Without duplicate checks, a strategy that stops short of `limit`
      collects every non-menu result. */
  lemma {:induction false} CollectCompleteAll(acc: seq<Found>, cands: seq<Option<Found>>, limit: nat)
    requires |Collect(acc, cands, limit, false)| < limit
    ensures forall c :: c in cands && c.Some? && !IsMenuItem(c.value.titulo) ==> c.value in Collect(acc, cands, limit, false)
    decreases |cands|
  {
    if cands != [] {
      var next := if Keeps(acc, cands[0], false) then acc + [cands[0].value] else acc;
      var r := Collect(acc, cands, limit, false);
      assert r == Collect(next, cands[1..], limit, false);
      CollectCompleteAll(next, cands[1..], limit);
      CollectPrefix(next, cands[1..], limit, false);
      forall c | c in cands && c.Some? && !IsMenuItem(c.value.titulo) ensures c.value in r {
        if c == cands[0] {
          assert r[|acc|] == next[|acc|];
        } else {
          assert c in cands[1..];
        }
      }
    }
  }

  /** Without duplicate checks a strategy is the first non-menu results, as
      many as fit under `limit`. */
  lemma {:induction false} CollectTakes(acc: seq<Found>, cands: seq<Option<Found>>, limit: nat)
    requires |acc| <= limit
    ensures Collect(acc, cands, limit, false) == acc + Take(Kept(cands), limit - |acc|)
    decreases |cands|
  {
    if cands != [] && |acc| < limit {
      var c := cands[0];
      assert Keeps(acc, c, false) == Keeps([], c, false);
      var x: seq<Found> := if Keeps(acc, c, false) then [c.value] else [];
      assert acc + x == if Keeps(acc, c, false) then acc + [c.value] else acc;
      assert Kept(cands) == x + Kept(cands[1..]);
      assert Collect(acc, cands, limit, false) == Collect(acc + x, cands[1..], limit, false);
      CollectTakes(acc + x, cands[1..], limit);
      AppendTake(acc, x, Kept(cands[1..]), limit);
    }
  }

  /** Moving at most one element from the front of a list to the end of the
      part already taken leaves what is taken up to `m` unchanged. */
  lemma AppendTake<T>(acc: seq<T>, x: seq<T>, rest: seq<T>, m: nat)
    requires |x| <= 1 && |acc| < m
    ensures (acc + x) + Take(rest, m - |acc + x|) == acc + Take(x + rest, m - |acc|)
  {
    if x == [] {
      assert acc + x == acc && x + rest == rest;
    } else {
      var t := Take(rest, m - |acc| - 1);
      assert x == [x[0]];
      TakeCons(x[0], rest, m - |acc|);
      assert (acc + x) + t == acc + (x + t);
    }
  }

  /** Taking `n >= 1` elements of a list starting with `x` takes `x` and then
      `n - 1` of the rest. */
  lemma TakeCons<T>(x: T, s: seq<T>, n: nat)
    requires n >= 1
    ensures Take([x] + s, n) == [x] + Take(s, n - 1)
  {
    if n - 1 <= |s| {
      assert ([x] + s)[..n] == [x] + s[..n - 1];
    }
  }

  /** `_parse_search_results` on a page: rows of the tables first, then the
      result blocks, then the links, each strategy running only while fewer
      than `limit` results are collected. */
  function SearchResults(page: ResultPage, limit: nat, hash: string -> int, parseDate: string -> Option<string>): seq<Found> {
    var fromTables := Collect([], TableCandidates(page.tables, limit, hash, parseDate), limit, false);
    var fromBlocks := Collect(fromTables, BlockCandidates(Take(page.blocks, 2 * limit), hash), limit, true);
    Collect(fromBlocks, LinkCandidates(LinksToCheck(page), hash), limit, true)
  }

  /** The result list is bounded by `limit` and holds no menu item. */
  lemma SearchResultsBounded(page: ResultPage, limit: nat, hash: string -> int, parseDate: string -> Option<string>)
    ensures |SearchResults(page, limit, hash, parseDate)| <= limit
    ensures forall x :: x in SearchResults(page, limit, hash, parseDate) ==> !IsMenuItem(x.titulo)
  {
    var t := Collect([], TableCandidates(page.tables, limit, hash, parseDate), limit, false);
    var bc := BlockCandidates(Take(page.blocks, 2 * limit), hash);
    var b := Collect(t, bc, limit, true);
    var r := Collect(b, LinkCandidates(LinksToCheck(page), hash), limit, true);
    CollectAppends([], TableCandidates(page.tables, limit, hash, parseDate), limit, false);
    CollectAppends(t, bc, limit, true);
    CollectAppends(b, LinkCandidates(LinksToCheck(page), hash), limit, true);
    forall x | x in r ensures !IsMenuItem(x.titulo) {
      var k :| 0 <= k < |r| && r[k] == x;
      if k < |t| {
        assert r[k] == b[k] == t[k];
      } else if k < |b| {
        assert r[k] == b[k];
      }
    }
  }

  /** A later strategy keeps what an earlier one collected in front, and
      adds nothing once `limit` entries are collected. */
  lemma LaterStrategies(t: seq<Found>, bc: seq<Option<Found>>, lc: seq<Option<Found>>, limit: nat)
    ensures var r := Collect(Collect(t, bc, limit, true), lc, limit, true);
      |t| <= |r| && r[..|t|] == t && (|t| >= limit ==> r == t)
  {
    var b := Collect(t, bc, limit, true);
    var r := Collect(b, lc, limit, true);
    CollectPrefix(t, bc, limit, true);
    CollectPrefix(b, lc, limit, true);
    assert r[..|b|][..|t|] == r[..|t|];
  }

  /** The result list starts with the first non-menu table rows; the
      blocks and the links are looked at only when those fall short of
      `limit`. */
  lemma SearchResultsTablesFirst(page: ResultPage, limit: nat, hash: string -> int, parseDate: string -> Option<string>)
    ensures var first := Take(Kept(TableCandidates(page.tables, limit, hash, parseDate)), limit);
      |first| <= |SearchResults(page, limit, hash, parseDate)|
      && SearchResults(page, limit, hash, parseDate)[..|first|] == first
      && (|first| == limit ==> SearchResults(page, limit, hash, parseDate) == first)
  {
    var tc := TableCandidates(page.tables, limit, hash, parseDate);
    var t := Collect([], tc, limit, false);
    CollectTakes([], tc, limit);
    assert t == Take(Kept(tc), limit) by {
      assert [] + Take(Kept(tc), limit) == Take(Kept(tc), limit);
    }
    LaterStrategies(t, BlockCandidates(Take(page.blocks, 2 * limit), hash), LinkCandidates(LinksToCheck(page), hash), limit);
  }

  /** The blocks and the links add only results whose id is not yet
      present. */
  lemma SearchResultsDistinct(page: ResultPage, limit: nat, hash: string -> int, parseDate: string -> Option<string>)
    ensures var r := SearchResults(page, limit, hash, parseDate);
      var first := Collect([], TableCandidates(page.tables, limit, hash, parseDate), limit, false);
      forall i, j :: 0 <= i < j < |r| && |first| <= j ==> r[i].instrumentoId != r[j].instrumentoId
  {
    var t := Collect([], TableCandidates(page.tables, limit, hash, parseDate), limit, false);
    var bc := BlockCandidates(Take(page.blocks, 2 * limit), hash);
    var b := Collect(t, bc, limit, true);
    var r := Collect(b, LinkCandidates(LinksToCheck(page), hash), limit, true);
    CollectAppends(t, bc, limit, true);
    CollectAppends(b, LinkCandidates(LinksToCheck(page), hash), limit, true);
    forall i, j | 0 <= i < j < |r| && |t| <= j ensures r[i].instrumentoId != r[j].instrumentoId {
      if j < |b| {
        assert r[i] == b[i] && r[j] == b[j];
      }
    }
  }

  /** A result list short of `limit` holds every non-menu table row, and for
      every non-menu block and link a result with the same id. */
  lemma SearchResultsComplete(page: ResultPage, limit: nat, hash: string -> int, parseDate: string -> Option<string>)
    requires |SearchResults(page, limit, hash, parseDate)| < limit
    ensures forall c :: c in TableCandidates(page.tables, limit, hash, parseDate) && c.Some? && !IsMenuItem(c.value.titulo) ==>
      c.value in SearchResults(page, limit, hash, parseDate)
    ensures forall c :: c in BlockCandidates(Take(page.blocks, 2 * limit), hash) && c.Some? && !IsMenuItem(c.value.titulo) ==>
      HasId(SearchResults(page, limit, hash, parseDate), c.value.instrumentoId)
    ensures forall c :: c in LinkCandidates(LinksToCheck(page), hash) && c.Some? && !IsMenuItem(c.value.titulo) ==>
      HasId(SearchResults(page, limit, hash, parseDate), c.value.instrumentoId)
  {
    var tc := TableCandidates(page.tables, limit, hash, parseDate);
    var t := Collect([], tc, limit, false);
    LaterStrategiesComplete(t, BlockCandidates(Take(page.blocks, 2 * limit), hash), LinkCandidates(LinksToCheck(page), hash), limit);
    CollectCompleteAll([], tc, limit);
  }

  /** The second and third strategies keep what came before them and, when
      they end short of `limit`, hold an entry with the id of each of their
      non-menu candidates. */
  lemma LaterStrategiesComplete(t: seq<Found>, bc: seq<Option<Found>>, lc: seq<Option<Found>>, limit: nat)
    requires |Collect(Collect(t, bc, limit, true), lc, limit, true)| < limit
    ensures var r := Collect(Collect(t, bc, limit, true), lc, limit, true);
      |t| < limit && (forall x :: x in t ==> x in r)
      && (forall c :: c in bc && c.Some? && !IsMenuItem(c.value.titulo) ==> HasId(r, c.value.instrumentoId))
      && (forall c :: c in lc && c.Some? && !IsMenuItem(c.value.titulo) ==> HasId(r, c.value.instrumentoId))
  {
    var b := Collect(t, bc, limit, true);
    var r := Collect(b, lc, limit, true);
    CollectPrefix(t, bc, limit, true);
    CollectPrefix(b, lc, limit, true);
    CollectCompleteIds(b, lc, limit, true);
    CollectCompleteIds(t, bc, limit, true);
    forall x | x in t ensures x in r {
      var k :| 0 <= k < |t| && t[k] == x;
      assert r[k] == b[k] == t[k];
    }
    forall c: Option<Found> | c in bc && c.Some? && !IsMenuItem(c.value.titulo) ensures HasId(r, c.value.instrumentoId) {
      var k :| 0 <= k < |b| && b[k].instrumentoId == c.value.instrumentoId;
      assert r[k] == b[k];
    }
  }

  /** One step of a strategy's loop, as `Collect` takes it: the candidate
      is appended when kept, and reaching `limit` ends the strategy. */
  lemma CollectStep(acc: seq<Found>, c: Option<Found>, rest: seq<Option<Found>>, limit: nat, dedup: bool)
    requires |acc| < limit
    ensures Collect(acc, [c] + rest, limit, dedup)
      == Collect(if Keeps(acc, c, dedup) then acc + [c.value] else acc, rest, limit, dedup)
    ensures Keeps(acc, c, dedup) && |acc| + 1 >= limit ==> Collect(acc, [c] + rest, limit, dedup) == acc + [c.value]
  {
    assert ([c] + rest)[1..] == rest;
  }

  /** `CollectStep` at position `k` of the candidates. */
  lemma CollectAdvance(r: seq<Found>, c: Option<Found>, cands: seq<Option<Found>>, k: nat, limit: nat, dedup: bool)
    requires k < |cands| && c == cands[k] && |r| < limit
    ensures Collect(r, cands[k..], limit, dedup)
      == Collect(if Keeps(r, c, dedup) then r + [c.value] else r, cands[k + 1..], limit, dedup)
    ensures Keeps(r, c, dedup) && |r| + 1 >= limit ==> Collect(r, cands[k..], limit, dedup) == r + [c.value]
  {
    assert cands[k..] == [c] + cands[k + 1..];
    CollectStep(r, c, cands[k + 1..], limit, dedup);
  }

  /** The first strategy's inner loop: the rows of one table, left when
      `limit` is reached. `rest` stands for the candidates of the tables
      after this one. */
  method CollectRows(acc: seq<Found>, rows: seq<seq<Cell>>, ghost rest: seq<Option<Found>>, limit: nat,
                     hash: string -> int, parseDate: string -> Option<string>) returns (r: seq<Found>, full: bool)
    requires |acc| < limit || rows == []
    ensures full ==> |r| >= limit && r == Collect(acc, RowCandidates(rows, hash, parseDate) + rest, limit, false)
    ensures !full ==> |r| < limit || r == acc
    ensures !full ==> Collect(r, rest, limit, false) == Collect(acc, RowCandidates(rows, hash, parseDate) + rest, limit, false)
  {
    ghost var cands := RowCandidates(rows, hash, parseDate);
    ghost var all := cands + rest;
    ghost var goal := Collect(acc, all, limit, false);
    r := acc;
    var k := 0;
    full := false;
    while k < |rows| && !full
      invariant 0 <= k <= |rows|
      invariant !full ==> (k < |rows| ==> |r| < limit) && (|r| < limit || r == acc)
      invariant !full ==> Collect(r, all[k..], limit, false) == goal
      invariant full ==> r == goal && |r| >= limit
    {
      var c: Option<Found> := None;
      if |rows[k]| >= 3 {
        c := ParseTableRow(rows[k], hash, parseDate);
      }
      assert c == cands[k] == all[k];
      CollectAdvance(r, c, all, k, limit, false);
      if Keeps(r, c, false) {
        r := r + [c.value];
        full := |r| >= limit;
      }
      k := k + 1;
    }
    if !full {
      assert all[k..] == rest;
    }
  }

  /** The first strategy's outer loop: the tables in order, at most
      `2 * limit` rows of each after the header, left when `limit` is
      reached. */
  method CollectTableRows(tables: seq<seq<seq<Cell>>>, limit: nat, hash: string -> int, parseDate: string -> Option<string>)
    returns (r: seq<Found>)
    ensures r == Collect([], TableCandidates(tables, limit, hash, parseDate), limit, false)
  {
    ghost var goal := Collect([], TableCandidates(tables, limit, hash, parseDate), limit, false);
    r := [];
    var t := 0;
    while t < |tables|
      invariant 0 <= t <= |tables|
      invariant |r| < limit || r == []
      invariant Collect(r, TableCandidates(tables[t..], limit, hash, parseDate), limit, false) == goal
    {
      var rows := Take(Body(tables[t]), 2 * limit);
      ghost var rest := TableCandidates(tables[t + 1..], limit, hash, parseDate);
      assert tables[t..][1..] == tables[t + 1..];
      assert TableCandidates(tables[t..], limit, hash, parseDate) == RowCandidates(rows, hash, parseDate) + rest;
      var full;
      r, full := CollectRows(r, rows, rest, limit, hash, parseDate);
      if full {
        break;
      }
      t := t + 1;
    }
  }

  /** The second strategy's loop over the result blocks, left at `limit`,
      skipping ids already collected. */
  method CollectBlocks(acc: seq<Found>, blocks: seq<Block>, limit: nat, hash: string -> int) returns (r: seq<Found>)
    requires |acc| < limit
    ensures r == Collect(acc, BlockCandidates(blocks, hash), limit, true)
  {
    ghost var cands := BlockCandidates(blocks, hash);
    ghost var goal := Collect(acc, cands, limit, true);
    r := acc;
    var k := 0;
    var full := false;
    while k < |blocks| && !full
      invariant 0 <= k <= |blocks|
      invariant !full ==> |r| < limit && Collect(r, cands[k..], limit, true) == goal
      invariant full ==> r == goal
    {
      var c := DivResult(blocks[k], hash);
      CollectAdvance(r, c, cands, k, limit, true);
      if Keeps(r, c, true) {
        r := r + [c.value];
        full := |r| >= limit;
      }
      k := k + 1;
    }
  }

  /** The third strategy's loop over the links to check: menu links are
      skipped before parsing, ids already collected after it. */
  method CollectLinks(acc: seq<Found>, links: seq<Anchor>, limit: nat, hash: string -> int) returns (r: seq<Found>)
    requires |acc| < limit
    ensures r == Collect(acc, LinkCandidates(links, hash), limit, true)
  {
    ghost var cands := LinkCandidates(links, hash);
    ghost var goal := Collect(acc, cands, limit, true);
    r := acc;
    var k := 0;
    var full := false;
    while k < |links| && !full
      invariant 0 <= k <= |links|
      invariant !full ==> |r| < limit && Collect(r, cands[k..], limit, true) == goal
      invariant full ==> r == goal
    {
      var link := links[k];
      var c: Option<Found> := None;
      if !IsMenuItem(link.text) && !IsMenuItem(link.href) {
        c := LinkResult(link, hash);
      }
      CollectAdvance(r, c, cands, k, limit, true);
      if Keeps(r, c, true) {
        r := r + [c.value];
        full := |r| >= limit;
      }
      k := k + 1;
    }
  }

  /** `_parse_search_results`: the three strategies in order, the last two
      only while fewer than `limit` results are collected. */
  method ParseSearchResults(page: ResultPage, limit: nat, hash: string -> int, parseDate: string -> Option<string>)
    returns (r: seq<Found>)
    ensures r == SearchResults(page, limit, hash, parseDate)
  {
    r := CollectTableRows(page.tables, limit, hash, parseDate);
    if |r| < limit {
      r := CollectBlocks(r, Take(page.blocks, 2 * limit), limit, hash);
    }
    if |r| < limit {
      r := CollectLinks(r, LinksToCheck(page), limit, hash);
    }
  }

  // ---------------------------------------------------------------------
  // `search_convencoes`

  /** The site as the client meets it: the result page its URL trial
      settles on for the query parameters (`None` when no search URL, no
      redirect and no link of the home page gives one), and the page an URL
      answers with status 200, if any. */
  datatype Site = Site(
    resultPage: map<string, string> -> Option<ResultPage>,
    detailPage: string -> Option<DetailPage>)

  /** `search_convencoes`: the parameters cleaned, the page the site gives
      for them parsed; no page, no results. */
  method SearchConvencoes(site: Site, municipio: Option<string>, uf: Option<string>, cnae: Option<string>, cnpj: Option<string>,
                          limit: nat, hash: string -> int, parseDate: string -> Option<string>)
    returns (r: seq<Found>)
    ensures |r| <= limit
    ensures site.resultPage(SearchParams(municipio, uf, cnae, cnpj)).None? ==> r == []
    ensures site.resultPage(SearchParams(municipio, uf, cnae, cnpj)).Some? ==>
      r == SearchResults(site.resultPage(SearchParams(municipio, uf, cnae, cnpj)).value, limit, hash, parseDate)
  {
    var params := SearchParams(municipio, uf, cnae, cnpj);
    var page := site.resultPage(params);
    if page.None? {
      return [];
    }
    r := ParseSearchResults(page.value, limit, hash, parseDate);
    SearchResultsBounded(page.value, limit, hash, parseDate);
  }

  // ---------------------------------------------------------------------
  // `get_convencao_details` and `_parse_detail_page`

  /** A `<label>`, `<span>` or `<div>` whose text names a field: its
      stripped text and the stripped text of its parent, if it has one. */
  datatype Label = Label(text: string, parentText: Option<string>)

  /** A detail page: the stripped text of its title heading, if any, its
      labels, and its whole text, pieces joined by spaces. */
  datatype DetailPage = DetailPage(title: Option<string>, labels: seq<Label>, text: string)

  /** The details of one convention. A key the parser does not write is
      `None`. */
  datatype Details = Details(
    instrumentoId: string,
    fonte: string,
    titulo: Option<string>,
    dataPublicacao: Option<string>,
    municipio: Option<string>,
    uf: Option<string>,
    cnae: Option<string>,
    sindicatoEmpregador: Option<string>,
    sindicatoTrabalhador: Option<string>,
    textoExtraido: Option<string>)

  datatype Field = DateField | MunicipioField | UfField | CnaeField | EmpregadorField | TrabalhadorField | NoField

  /** The field a label names, the first test of the `elif` chain that its
      lower-cased text passes. */
  function FieldOf(labelText: string): Field {
    var t := Lower(labelText);
    if Contains(t, "data") || Contains(t, "publicação") then DateField
    else if Contains(t, "município") then MunicipioField
    else if Contains(t, "uf") || Contains(t, "estado") then UfField
    else if Contains(t, "cnae") then CnaeField
    else if Contains(t, "sindicato") && Contains(t, "empregador") then EmpregadorField
    else if Contains(t, "sindicato") && Contains(t, "trabalhador") then TrabalhadorField
    else NoField
  }

  /** The value of a label: what follows the first ':' of its parent's
      text, stripped, or the whole text when there is no ':'. */
  function LabelValue(v: string): string {
    match IndexOf(v, ":")
    case None => v
    case Some(i) => Strip(v[i + 1..])
  }

  /** What a label writes into field `f`: nothing unless it has a parent
      and names `f`; a date only when `parseDate` accepts it; the state as
      two capitals; the CNAE without punctuation, seven characters. */
  function ValueFor(l: Label, f: Field, parseDate: string -> Option<string>): Option<string> {
    if l.parentText.None? || FieldOf(l.text) != f then None
    else
      var v := LabelValue(l.parentText.value);
      match f
      case DateField => parseDate(v)
      case UfField => Some(Upper(Take(v, 2)))
      case CnaeField => Some(Take(CleanCnae(v), 7))
      case _ => Some(v)
  }

  /** The value of the last element that `give` gives one. */
  function LastSome<T>(xs: seq<T>, give: T -> Option<string>): Option<string>
    decreases |xs|
  {
    if xs == [] then None
    else
      var v := give(xs[|xs| - 1]);
      if v.Some? then v else LastSome(xs[..|xs| - 1], give)
  }

  function Gives(f: Field, parseDate: string -> Option<string>): Label -> Option<string> {
    (l: Label) => ValueFor(l, f, parseDate)
  }

  /** The value of the last label that gives field `f` one. */
  function LastValue(labels: seq<Label>, f: Field, parseDate: string -> Option<string>): Option<string> {
    LastSome(labels, Gives(f, parseDate))
  }

  /** Reading one more label: it wins when it gives a value. */
  lemma LastValueSnoc(labels: seq<Label>, tag: Label, f: Field, parseDate: string -> Option<string>)
    ensures LastValue(labels + [tag], f, parseDate)
      == if ValueFor(tag, f, parseDate).Some? then ValueFor(tag, f, parseDate) else LastValue(labels, f, parseDate)
  {
    assert (labels + [tag])[..|labels|] == labels;
  }

  /** Nothing is found only when no element gives a value. */
  lemma {:induction false} LastSomeNone<T>(xs: seq<T>, give: T -> Option<string>)
    ensures LastSome(xs, give).None? <==> forall i :: 0 <= i < |xs| ==> give(xs[i]).None?
    decreases |xs|
  {
    if xs != [] {
      var n := |xs| - 1;
      var prefix := xs[..n];
      if give(xs[n]).None? {
        LastSomeNone(prefix, give);
        assert forall i :: 0 <= i < n ==> prefix[i] == xs[i];
      }
    }
  }

  /** Element `i` gives a value, and no later element gives one. */
  predicate LastGiver<T>(xs: seq<T>, give: T -> Option<string>, i: nat) {
    i < |xs| && give(xs[i]).Some? && forall j :: i < j < |xs| ==> give(xs[j]).None?
  }

  /** What is found is the value of the last element that gives one. */
  lemma {:induction false} LastSomeIsLast<T>(xs: seq<T>, give: T -> Option<string>)
    requires LastSome(xs, give).Some?
    ensures exists i: nat :: LastGiver(xs, give, i) && LastSome(xs, give) == give(xs[i])
    decreases |xs|
  {
    var n := |xs| - 1;
    var prefix := xs[..n];
    if give(xs[n]).Some? {
      assert LastGiver(xs, give, n);
    } else {
      LastSomeIsLast(prefix, give);
      var i: nat :| LastGiver(prefix, give, i) && LastSome(prefix, give) == give(prefix[i]);
      assert forall j :: 0 <= j < n ==> prefix[j] == xs[j];
      assert LastGiver(xs, give, i);
    }
  }

  /** The state is the upper case of at most two characters (so at most
      four characters, two unless one of them is `ß`) and is unchanged by a
      second upper-casing; the CNAE is at most seven characters without '-'
      or '/'. */
  lemma {:induction false} LastValueNormal(labels: seq<Label>, parseDate: string -> Option<string>)
    ensures LastValue(labels, UfField, parseDate).Some? ==>
      |LastValue(labels, UfField, parseDate).value| <= 4
      && Upper(LastValue(labels, UfField, parseDate).value) == LastValue(labels, UfField, parseDate).value
    ensures LastValue(labels, CnaeField, parseDate).Some? ==>
      |LastValue(labels, CnaeField, parseDate).value| <= 7
      && forall i :: 0 <= i < |LastValue(labels, CnaeField, parseDate).value| ==>
        LastValue(labels, CnaeField, parseDate).value[i] !in {'-', '/'}
    decreases |labels|
  {
    if labels != [] {
      var n := |labels| - 1;
      LastValueNormal(labels[..n], parseDate);
      var l := labels[n];
      if ValueFor(l, UfField, parseDate).Some? {
        UpperIdempotent(Take(LabelValue(l.parentText.value), 2));
      }
      if ValueFor(l, CnaeField, parseDate).Some? {
        var c := CleanCnae(LabelValue(l.parentText.value));
        assert forall i :: 0 <= i < |Take(c, 7)| ==> Take(c, 7)[i] == c[i];
      }
    }
  }

  /** `detalhes` as `_parse_detail_page` leaves it: each field holds the
      value of the last label that gives one, the text is kept only when
      longer than 100 characters, cut to 1,000,000. */
  predicate ParsedFrom(d: Details, page: DetailPage, id: string, parseDate: string -> Option<string>) {
    d.instrumentoId == id && d.fonte == Fonte && d.titulo == page.title
    && d.dataPublicacao == LastValue(page.labels, DateField, parseDate)
    && d.municipio == LastValue(page.labels, MunicipioField, parseDate)
    && d.uf == LastValue(page.labels, UfField, parseDate)
    && d.cnae == LastValue(page.labels, CnaeField, parseDate)
    && d.sindicatoEmpregador == LastValue(page.labels, EmpregadorField, parseDate)
    && d.sindicatoTrabalhador == LastValue(page.labels, TrabalhadorField, parseDate)
    && d.textoExtraido == (if |page.text| > 100 then Some(Take(page.text, 1000000)) else None)
  }

  /** The fields read from the first `n` labels. */
  predicate FieldsFrom(d: Details, labels: seq<Label>, parseDate: string -> Option<string>) {
    d.dataPublicacao == LastValue(labels, DateField, parseDate)
    && d.municipio == LastValue(labels, MunicipioField, parseDate)
    && d.uf == LastValue(labels, UfField, parseDate)
    && d.cnae == LastValue(labels, CnaeField, parseDate)
    && d.sindicatoEmpregador == LastValue(labels, EmpregadorField, parseDate)
    && d.sindicatoTrabalhador == LastValue(labels, TrabalhadorField, parseDate)
  }

  /** The entry of `detalhes` that field `f` names. */
  function Entry(d: Details, f: Field): Option<string> {
    match f
    case DateField => d.dataPublicacao
    case MunicipioField => d.municipio
    case UfField => d.uf
    case CnaeField => d.cnae
    case EmpregadorField => d.sindicatoEmpregador
    case TrabalhadorField => d.sindicatoTrabalhador
    case NoField => None
  }

  /** `detalhes[f] = v` when `v` is a value; the entries stay as they are
      otherwise. */
  function Put(d: Details, f: Field, v: Option<string>): (r: Details)
    ensures forall g :: g != NoField ==> Entry(r, g) == if g == f && v.Some? then v else Entry(d, g)
    ensures r.instrumentoId == d.instrumentoId && r.fonte == d.fonte && r.titulo == d.titulo && r.textoExtraido == d.textoExtraido
  {
    if v.None? then d
    else
      match f
      case DateField => d.(dataPublicacao := v)
      case MunicipioField => d.(municipio := v)
      case UfField => d.(uf := v)
      case CnaeField => d.(cnae := v)
      case EmpregadorField => d.(sindicatoEmpregador := v)
      case TrabalhadorField => d.(sindicatoTrabalhador := v)
      case NoField => d
  }

  /** One turn of the label loop: the entry the label names is overwritten
      when the label gives it a value, the others are kept. */
  lemma FieldsStep(before: Details, labels: seq<Label>, tag: Label, parseDate: string -> Option<string>)
    requires FieldsFrom(before, labels, parseDate)
    ensures FieldsFrom(Put(before, FieldOf(tag.text), ValueFor(tag, FieldOf(tag.text), parseDate)), labels + [tag], parseDate)
  {
    EntryStep(before, labels, tag, DateField, parseDate);
    EntryStep(before, labels, tag, MunicipioField, parseDate);
    EntryStep(before, labels, tag, UfField, parseDate);
    EntryStep(before, labels, tag, CnaeField, parseDate);
    EntryStep(before, labels, tag, EmpregadorField, parseDate);
    EntryStep(before, labels, tag, TrabalhadorField, parseDate);
  }

  /** `FieldsStep` for the one entry `g`. */
  lemma EntryStep(before: Details, labels: seq<Label>, tag: Label, g: Field, parseDate: string -> Option<string>)
    requires g != NoField && Entry(before, g) == LastValue(labels, g, parseDate)
    ensures Entry(Put(before, FieldOf(tag.text), ValueFor(tag, FieldOf(tag.text), parseDate)), g) == LastValue(labels + [tag], g, parseDate)
  {
    LastValueSnoc(labels, tag, g, parseDate);
  }

  /** One pass of the label loop: the field the label names takes the
      value beside it. */
  method ApplyLabel(d: Details, tag: Label, parseDate: string -> Option<string>) returns (r: Details)
    ensures r == Put(d, FieldOf(tag.text), ValueFor(tag, FieldOf(tag.text), parseDate))
  {
    r := d;
    if tag.parentText.Some? {
      var value := LabelValue(tag.parentText.value);
      match FieldOf(tag.text)
      case DateField =>
        var date := parseDate(value);
        if date.Some? {
          r := d.(dataPublicacao := date);
        }
      case MunicipioField =>
        r := d.(municipio := Some(value));
      case UfField =>
        r := d.(uf := Some(Upper(Take(value, 2))));
      case CnaeField =>
        r := d.(cnae := Some(Take(CleanCnae(value), 7)));
      case EmpregadorField =>
        r := d.(sindicatoEmpregador := Some(value));
      case TrabalhadorField =>
        r := d.(sindicatoTrabalhador := Some(value));
      case NoField =>
    }
  }

  /** `_parse_detail_page`, its loop over the labels. */
  method ParseDetailPage(page: DetailPage, id: string, parseDate: string -> Option<string>) returns (d: Details)
    ensures ParsedFrom(d, page, id, parseDate)
  {
    d := Details(id, Fonte, page.title, None, None, None, None, None, None, None);
    var labels := page.labels;
    var i := 0;
    while i < |labels|
      invariant 0 <= i <= |labels|
      invariant d.instrumentoId == id && d.fonte == Fonte && d.titulo == page.title && d.textoExtraido.None?
      invariant FieldsFrom(d, labels[..i], parseDate)
    {
      var tag := labels[i];
      assert labels[..i + 1] == labels[..i] + [tag];
      FieldsStep(d, labels[..i], tag, parseDate);
      d := ApplyLabel(d, tag, parseDate);
      i := i + 1;
    }
    assert labels[..i] == labels;
    d := d.(textoExtraido := if |page.text| > 100 then Some(Take(page.text, 1000000)) else None);
  }

  const BaseUrl: string := "https://www3.mte.gov.br/sistemas/mediador"

  /** The detail URLs `get_convencao_details` tries, in order. */
  function DetailUrls(id: string): seq<string> {
    [BaseUrl + "/ConvencaoColetiva/Detalhes/" + id, BaseUrl + "/instrumento/" + id, BaseUrl + "/ConvencaoColetiva/Visualizar/" + id]
  }

  /** `urls[k]` is the first URL that answers. */
  predicate AnswersFirst(site: Site, urls: seq<string>, k: nat) {
    k < |urls| && site.detailPage(urls[k]).Some? && forall j :: 0 <= j < k ==> site.detailPage(urls[j]).None?
  }

  /** `get_convencao_details`: the first detail URL that answers is parsed;
      none answering gives `None`. */
  method GetConvencaoDetails(site: Site, id: string, parseDate: string -> Option<string>) returns (r: Option<Details>)
    ensures r.None? <==> forall k :: 0 <= k < 3 ==> site.detailPage(DetailUrls(id)[k]).None?
    ensures r.Some? ==>
      exists k: nat :: AnswersFirst(site, DetailUrls(id), k) && ParsedFrom(r.value, site.detailPage(DetailUrls(id)[k]).value, id, parseDate)
  {
    var urls := DetailUrls(id);
    var k := 0;
    while k < |urls|
      invariant 0 <= k <= |urls|
      invariant forall j :: 0 <= j < k ==> site.detailPage(urls[j]).None?
    {
      var page := site.detailPage(urls[k]);
      if page.Some? {
        var d := ParseDetailPage(page.value, id, parseDate);
        return Some(d);
      }
      k := k + 1;
    }
    return None;
  }
}

=== FILE: mediador_search.dfy ===
/** The endpoints of `backend/app/api/v1/endpoints/mediador_search.py`: the
    live search, answered from the site alone, and the hybrid search, the
    stored documents of one page followed by the live results they do not
    already hold. */
module MediadorSearch {
  import opened Common
  import opened Text
  import opened Store
  import opened Sorting
  import opened Dashboard
  import opened Convencoes
  import opened MediadorApi

  // ---------------------------------------------------------------------
  // `search_convencoes_live`

  /** What the call into the client did: returned its results or raised. */
  datatype LiveOutcome = Returned(results: seq<Found>) | Raised(error: string)

  /** The body of the live answer; a key it does not write is `None`. */
  datatype LiveResponse = LiveResponse(
    total: nat,
    results: seq<Found>,
    source: string,
    message: Option<string>,
    suggestion: Option<string>,
    error: Option<string>)

  const LiveSource: string := "mediador_mte_live"
  const Suggestion: string := "use_local_or_hybrid"
  const NoResultsMessage: string :=
    "Nenhuma convenção encontrada na busca em tempo real. "
    + "O site do Mediador MTE pode requerer autenticação ou ter estrutura diferente. "
    + "Tente usar a busca no 'Banco Local' ou 'Híbrido'."

  /** The answer the live endpoint builds from what the client did: an
      exception becomes an empty answer carrying the error, not an error
      status. */
  function LiveAnswer(outcome: LiveOutcome): LiveResponse {
    match outcome
    case Returned(found) =>
      if |found| == 0 then LiveResponse(0, [], LiveSource, Some(NoResultsMessage), Some(Suggestion), None)
      else LiveResponse(|found|, found, LiveSource, None, None, None)
    case Raised(e) =>
      LiveResponse(0, [], LiveSource, None, None, Some(e))
        .(message := Some("Erro ao buscar no Mediador MTE: " + e + ". Tente usar a busca no banco local."))
  }

  /** The total counts the results, the source is always the live one, the
      suggestion to search the stored documents comes exactly with an empty
      result list, and an exception gives an empty list with its error. */
  lemma LiveAnswerCorrect(outcome: LiveOutcome)
    ensures LiveAnswer(outcome).total == |LiveAnswer(outcome).results|
    ensures LiveAnswer(outcome).source == LiveSource
    ensures outcome.Returned? ==> LiveAnswer(outcome).results == outcome.results && LiveAnswer(outcome).error.None?
    ensures outcome.Returned? ==> (LiveAnswer(outcome).suggestion == Some(Suggestion) <==> outcome.results == [])
    ensures outcome.Raised? ==> LiveAnswer(outcome).total == 0 && LiveAnswer(outcome).error == Some(outcome.error)
  {
  }

  /** `search_convencoes_live`: 422 for a limit outside 1..100; otherwise
      the client's results, at most `limit` of them, in the live answer. */
  method SearchLive(site: Site, municipio: Option<string>, uf: Option<string>, cnae: Option<string>, cnpj: Option<string>,
                    limit: int, hash: string -> int, parseDate: string -> Option<string>)
    returns (r: Response<LiveResponse>)
    ensures r.HttpError? <==> !(1 <= limit <= 100)
    ensures r.HttpError? ==> r.status == 422
    ensures r.Ok? ==> r.value.total == |r.value.results| <= limit && r.value.source == LiveSource
    ensures r.Ok? ==> r.value == LiveAnswer(Returned(LiveResults(site, municipio, uf, cnae, cnpj, limit, hash, parseDate)))
  {
    if !(1 <= limit <= 100) {
      return HttpError(422);
    }
    var found := MediadorApi.SearchConvencoes(site, municipio, uf, cnae, cnpj, limit, hash, parseDate);
    r := Ok(LiveAnswer(Returned(found)));
  }

  /** What the client returns for the filters, as `SearchConvencoes`
      computes it. */
  function LiveResults(site: Site, municipio: Option<string>, uf: Option<string>, cnae: Option<string>, cnpj: Option<string>,
                       limit: nat, hash: string -> int, parseDate: string -> Option<string>): seq<Found> {
    match site.resultPage(SearchParams(municipio, uf, cnae, cnpj))
    case None => []
    case Some(page) => SearchResults(page, limit, hash, parseDate)
  }

  // ---------------------------------------------------------------------
  // `search_convencoes_hybrid`

  datatype HybridQuery = HybridQuery(
    municipio: Option<string>,
    uf: Option<string>,
    cnae: Option<string>,
    cnpj: Option<string>,
    q: Option<string>,
    page: int,
    pageSize: int,
    useLive: bool)

  /** `page: int = Query(1, ge=1)`, `page_size: int = Query(20, ge=1, le=100)`. */
  predicate ValidHybrid(h: HybridQuery) {
    h.page >= 1 && 1 <= h.pageSize <= 100
  }

  /** `offset = (page - 1) * page_size`. */
  function HybridOffset(h: HybridQuery): nat
    requires ValidHybrid(h)
  {
    (h.page - 1) * h.pageSize
  }

  /** The filters on the stored documents. The CNPJ is not one of them. */
  predicate LocalSelected(d: Convencao, h: HybridQuery) {
    (Truthy(h.municipio) ==> ILike(d.municipio, h.municipio.value))
    && (Truthy(h.uf) ==> d.uf == Some(Upper(h.uf.value)))
    && (Truthy(h.cnae) ==> d.cnae == Some(Take(CleanCnae(h.cnae.value), 7)))
    && (Truthy(h.q) ==> ILike(d.titulo, h.q.value) || ILike(d.sindicatoEmpregador, h.q.value) || ILike(d.sindicatoTrabalhador, h.q.value))
  }

  function LocalSelectedBy(h: HybridQuery): Convencao -> bool {
    (d: Convencao) => LocalSelected(d, h)
  }

  /** The stored documents of the page: selected, latest publication first,
      `page_size` of them after `offset`. */
  function LocalPage(docs: seq<Convencao>, h: HybridQuery): seq<Convencao>
    requires ValidHybrid(h)
  {
    Page(SortNewestFirst(Where(docs, LocalSelectedBy(h)), PublicationKey), HybridOffset(h), h.pageSize)
  }

  /** An entry of the hybrid answer: a stored document or a live result. */
  datatype Entry = Local(doc: Convencao) | Live(found: Found)
  {
    function InstrumentoId(): string {
      match this
      case Local(d) => d.instrumentoId
      case Live(f) => f.instrumentoId
    }
  }

  function Locals(docs: seq<Convencao>): (r: seq<Entry>)
    ensures |r| == |docs| && forall k :: 0 <= k < |docs| ==> r[k] == Local(docs[k])
  {
    seq(|docs|, k requires 0 <= k < |docs| => Local(docs[k]))
  }

  function IdsOf(entries: seq<Entry>): set<string> {
    set k | 0 <= k < |entries| :: entries[k].InstrumentoId()
  }

  /** The live results the merge appends after ids `seen`: each one whose id
      is not yet present, which it then adds. */
  function NewLive(seen: set<string>, live: seq<Found>): seq<Entry>
    decreases |live|
  {
    if live == [] then []
    else if live[0].instrumentoId in seen then NewLive(seen, live[1..])
    else [Live(live[0])] + NewLive(seen + {live[0].instrumentoId}, live[1..])
  }

  /** The appended results are live results of the list, their ids new and
      pairwise distinct; a live result is left out only when its id is
      already present. */
  lemma NewLiveCorrect(seen: set<string>, live: seq<Found>)
    ensures forall e :: e in NewLive(seen, live) ==> e.Live? && e.found in live && e.InstrumentoId() !in seen
    ensures forall i, j :: 0 <= i < j < |NewLive(seen, live)| ==>
      NewLive(seen, live)[i].InstrumentoId() != NewLive(seen, live)[j].InstrumentoId()
    ensures forall f :: f in live ==> (f.instrumentoId in seen || f.instrumentoId in IdsOf(NewLive(seen, live)))
  {
    NewLiveSound(seen, live);
    NewLiveDistinct(seen, live);
    NewLiveComplete(seen, live);
  }

  lemma {:induction false} NewLiveSound(seen: set<string>, live: seq<Found>)
    ensures forall e :: e in NewLive(seen, live) ==> e.Live? && e.found in live && e.InstrumentoId() !in seen
    decreases |live|
  {
    if live != [] {
      var x := live[0];
      var seen' := if x.instrumentoId in seen then seen else seen + {x.instrumentoId};
      NewLiveSound(seen', live[1..]);
      assert live == [x] + live[1..];
      if x.instrumentoId !in seen {
        assert NewLive(seen, live) == [Live(x)] + NewLive(seen', live[1..]);
      }
    }
  }

  lemma {:induction false} NewLiveDistinct(seen: set<string>, live: seq<Found>)
    ensures forall i, j :: 0 <= i < j < |NewLive(seen, live)| ==>
      NewLive(seen, live)[i].InstrumentoId() != NewLive(seen, live)[j].InstrumentoId()
    decreases |live|
  {
    if live != [] {
      var x := live[0];
      if x.instrumentoId !in seen {
        var seen' := seen + {x.instrumentoId};
        NewLiveDistinct(seen', live[1..]);
        NewLiveSound(seen', live[1..]);
        var rest := NewLive(seen', live[1..]);
        var r := NewLive(seen, live);
        assert r == [Live(x)] + rest;
        forall i, j | 0 <= i < j < |r| ensures r[i].InstrumentoId() != r[j].InstrumentoId() {
          if i == 0 {
            assert r[j] == rest[j - 1];
            assert r[j] in rest;
          } else {
            assert r[i] == rest[i - 1] && r[j] == rest[j - 1];
          }
        }
      } else {
        NewLiveDistinct(seen, live[1..]);
      }
    }
  }

  lemma {:induction false} NewLiveComplete(seen: set<string>, live: seq<Found>)
    ensures forall f :: f in live ==> (f.instrumentoId in seen || f.instrumentoId in IdsOf(NewLive(seen, live)))
    decreases |live|
  {
    if live != [] {
      var x := live[0];
      var seen' := if x.instrumentoId in seen then seen else seen + {x.instrumentoId};
      NewLiveComplete(seen', live[1..]);
      var rest := NewLive(seen', live[1..]);
      var r := NewLive(seen, live);
      assert live == [x] + live[1..];
      if x.instrumentoId !in seen {
        assert r == [Live(x)] + rest;
        forall f | f in live ensures f.instrumentoId in seen || f.instrumentoId in IdsOf(r) {
          if f.instrumentoId !in seen {
            if f.instrumentoId == x.instrumentoId {
              assert r[0].InstrumentoId() == f.instrumentoId;
            } else {
              var k :| 0 <= k < |rest| && rest[k].InstrumentoId() == f.instrumentoId;
              assert r[k + 1] == rest[k];
            }
          }
        }
      }
    }
  }

  /** The entries of the hybrid search before the cut to one page. */
  function Merged(docs: seq<Convencao>, live: seq<Found>, h: HybridQuery): seq<Entry>
    requires ValidHybrid(h)
  {
    var local := Locals(LocalPage(docs, h));
    if h.useLive then local + NewLive(IdsOf(local), live) else local
  }

  datatype HybridResponse = HybridResponse(total: nat, page: int, pageSize: int, results: seq<Entry>, hasMore: bool)

  /** The merge loop of the hybrid search, with its set of present ids. */
  method MergeLive(local: seq<Entry>, live: seq<Found>) returns (results: seq<Entry>)
    ensures results == local + NewLive(IdsOf(local), live)
  {
    results := local;
    var existingIds := IdsOf(local);
    var k := 0;
    while k < |live|
      invariant 0 <= k <= |live|
      invariant results + NewLive(existingIds, live[k..]) == local + NewLive(IdsOf(local), live)
    {
      var liveConv := live[k];
      assert live[k..][1..] == live[k + 1..];
      if liveConv.instrumentoId !in existingIds {
        results := results + [Live(liveConv)];
        existingIds := existingIds + {liveConv.instrumentoId};
      }
      k := k + 1;
    }
  }

  /** `search_convencoes_hybrid`: 422 for paging outside the bounds;
      otherwise the stored page, then, when asked for, the live results for
      the same filters with `page_size` as their limit, cut to one page. */
  method SearchHybrid(docs: seq<Convencao>, site: Site, h: HybridQuery, hash: string -> int, parseDate: string -> Option<string>)
    returns (r: Response<HybridResponse>)
    ensures r.HttpError? <==> !ValidHybrid(h)
    ensures r.HttpError? ==> r.status == 422
    ensures r.Ok? ==>
      var merged := Merged(docs, LiveResults(site, h.municipio, h.uf, h.cnae, h.cnpj, h.pageSize, hash, parseDate), h);
      r.value == HybridResponse(|merged|, h.page, h.pageSize, Take(merged, h.pageSize), |merged| > h.pageSize)
  {
    if !ValidHybrid(h) {
      return HttpError(422);
    }
    var results := Locals(LocalPage(docs, h));
    if h.useLive {
      var live := MediadorApi.SearchConvencoes(site, h.municipio, h.uf, h.cnae, h.cnpj, h.pageSize, hash, parseDate);
      results := MergeLive(results, live);
    }
    r := Ok(HybridResponse(|results|, h.page, h.pageSize, Take(results, h.pageSize), |results| > h.pageSize));
  }

  /** The answer holds at most a page and there is more exactly when the
      merged list is longer than it; the stored documents come first,
      selected by every filter, latest publication first. */
  lemma HybridLocalFirst(docs: seq<Convencao>, live: seq<Found>, h: HybridQuery)
    requires ValidHybrid(h)
    ensures var merged := Merged(docs, live, h);
      |Take(merged, h.pageSize)| <= h.pageSize
      && (|merged| > h.pageSize <==> |Take(merged, h.pageSize)| < |merged|)
      && |LocalPage(docs, h)| <= h.pageSize
      && |LocalPage(docs, h)| <= |merged| && merged[..|LocalPage(docs, h)|] == Locals(LocalPage(docs, h))
      && NewestFirst(LocalPage(docs, h), PublicationKey)
      && (forall d :: d in LocalPage(docs, h) ==> d in docs && LocalSelected(d, h))
  {
    SortedPage(Where(docs, LocalSelectedBy(h)), PublicationKey, HybridOffset(h), h.pageSize);
  }

  /** After the entries `ls` come only live results, each with an id none
      of `ls` has and no other appended result shares; every live id ends
      up in the list. */
  lemma AppendLiveCorrect(ls: seq<Entry>, live: seq<Found>)
    ensures var merged := ls + NewLive(IdsOf(ls), live);
      (forall i :: |ls| <= i < |merged| ==> (merged[i].Live? && merged[i].found in live && merged[i].InstrumentoId() !in IdsOf(ls)))
      && (forall i, j :: |ls| <= i < j < |merged| ==> merged[i].InstrumentoId() != merged[j].InstrumentoId())
      && (forall f :: f in live ==> f.instrumentoId in IdsOf(merged))
  {
    var added := NewLive(IdsOf(ls), live);
    var merged := ls + added;
    var n := |ls|;
    NewLiveCorrect(IdsOf(ls), live);
    forall i | n <= i < |merged|
      ensures merged[i].Live? && merged[i].found in live && merged[i].InstrumentoId() !in IdsOf(ls)
    {
      assert merged[i] == added[i - n];
    }
    forall i, j | n <= i < j < |merged| ensures merged[i].InstrumentoId() != merged[j].InstrumentoId() {
      assert merged[i] == added[i - n] && merged[j] == added[j - n];
    }
    forall f | f in live ensures f.instrumentoId in IdsOf(merged) {
      if f.instrumentoId in IdsOf(ls) {
        var k :| 0 <= k < n && ls[k].InstrumentoId() == f.instrumentoId;
        assert merged[k] == ls[k];
      } else {
        var k :| 0 <= k < |added| && added[k].InstrumentoId() == f.instrumentoId;
        assert merged[n + k] == added[k];
      }
    }
  }

  /** In the hybrid answer, the same for the stored page: with live results
      asked for, no live id is lost; without, only the stored page. */
  lemma HybridLiveAdded(docs: seq<Convencao>, live: seq<Found>, h: HybridQuery)
    requires ValidHybrid(h)
    ensures var merged := Merged(docs, live, h);
      var ls := Locals(LocalPage(docs, h));
      (!h.useLive ==> merged == ls)
      && (h.useLive ==> merged == ls + NewLive(IdsOf(ls), live))
      && (forall i :: |ls| <= i < |merged| ==> (merged[i].Live? && merged[i].found in live && merged[i].InstrumentoId() !in IdsOf(ls)))
      && (forall i, j :: |ls| <= i < j < |merged| ==> merged[i].InstrumentoId() != merged[j].InstrumentoId())
      && (h.useLive ==> forall f :: f in live ==> f.instrumentoId in IdsOf(merged))
  {
    AppendLiveCorrect(Locals(LocalPage(docs, h)), live);
  }
}

=== FILE: notifications.dfy ===
/** The notification endpoints of
    `backend/app/api/v1/endpoints/notifications.py`: the two listings, marking
    one notification read, and reading or updating the user's preferences
    (creating the row with its defaults when missing). */
module Notifications {
  import opened Common
  import opened Store
  import opened Sorting
  import DissidioAlerts

  /** `.limit(50)` of both listings. */
  const ListLimit: nat := 50

  /** The six alert types of the expiration sweep. */
  const DissidioTypes: seq<string> := [DissidioAlerts.Proximo90, DissidioAlerts.Proximo60, DissidioAlerts.Proximo30,
                                       DissidioAlerts.Urgente15, DissidioAlerts.Urgente7, DissidioAlerts.Vencido]

  function CreatedKey(n: Notification): Option<int> {
    Some(n.createdAt)
  }

  /** The filter of `list_notifications`: the user's rows, with the given
      read state when `lida` is given, of the given type when `tipo` is
      non-empty. */
  predicate Listed(n: Notification, user: nat, lida: Option<bool>, tipo: Option<string>) {
    n.userId == user && (lida.Some? ==> n.lida == lida.value) && (Truthy(tipo) ==> n.tipo == tipo.value)
  }

  function ListedBy(user: nat, lida: Option<bool>, tipo: Option<string>): Notification -> bool {
    n => Listed(n, user, lida, tipo)
  }

  /** The filter of `list_dissidio_alerts`. */
  predicate DissidioListed(n: Notification, user: nat, lida: Option<bool>) {
    n.userId == user && n.tipo in DissidioTypes && (lida.Some? ==> n.lida == lida.value)
  }

  function DissidioListedBy(user: nat, lida: Option<bool>): Notification -> bool {
    n => DissidioListed(n, user, lida)
  }

  /** `list_notifications`: the 50 newest matching rows. */
  function ListNotifications(ns: seq<Notification>, user: nat, lida: Option<bool>, tipo: Option<string>): seq<Notification> {
    Take(SortNewestFirst(Where(ns, ListedBy(user, lida, tipo)), CreatedKey), ListLimit)
  }

  /** `list_dissidio_alerts`: the 50 newest alerts of the user. */
  function ListDissidioAlerts(ns: seq<Notification>, user: nat, lida: Option<bool>): seq<Notification> {
    Take(SortNewestFirst(Where(ns, DissidioListedBy(user, lida)), CreatedKey), ListLimit)
  }

  /** The listing returns only the user's matching rows, newest first, at
      most 50; a matching row is missing only when 50 rows at least as
      recent were returned. */
  lemma ListNotificationsCorrect(ns: seq<Notification>, user: nat, lida: Option<bool>, tipo: Option<string>)
    ensures var r := ListNotifications(ns, user, lida, tipo);
      |r| <= ListLimit
      && (forall i, j :: 0 <= i < j < |r| ==> r[i].createdAt >= r[j].createdAt)
      && (forall n :: n in r ==> n in ns && n.userId == user && (lida.Some? ==> n.lida == lida.value) && (Truthy(tipo) ==> n.tipo == tipo.value))
      && (forall n :: n in ns && Listed(n, user, lida, tipo) && n !in r ==>
            |r| == ListLimit && forall i :: 0 <= i < |r| ==> r[i].createdAt >= n.createdAt)
  {
    var matching := Where(ns, ListedBy(user, lida, tipo));
    TopNewest(matching, CreatedKey, ListLimit);
    var r := ListNotifications(ns, user, lida, tipo);
    assert forall i, j :: 0 <= i < j < |r| ==> NotOlder(CreatedKey(r[i]), CreatedKey(r[j]));
    forall n | n in ns && Listed(n, user, lida, tipo) && n !in r
      ensures |r| == ListLimit && forall i :: 0 <= i < |r| ==> r[i].createdAt >= n.createdAt
    {
      assert n in matching;
      assert forall i :: 0 <= i < ListLimit ==> NotOlder(CreatedKey(r[i]), CreatedKey(n));
    }
  }

  /** The alert listing returns only the user's expiration alerts, newest
      first, at most 50, and leaves one out only when 50 at least as recent
      were returned. */
  lemma ListDissidioAlertsCorrect(ns: seq<Notification>, user: nat, lida: Option<bool>)
    ensures var r := ListDissidioAlerts(ns, user, lida);
      |r| <= ListLimit
      && (forall i, j :: 0 <= i < j < |r| ==> r[i].createdAt >= r[j].createdAt)
      && (forall n :: n in r ==> n in ns && n.userId == user && n.tipo in DissidioTypes && (lida.Some? ==> n.lida == lida.value))
      && (forall n :: n in ns && DissidioListed(n, user, lida) && n !in r ==>
            |r| == ListLimit && forall i :: 0 <= i < |r| ==> r[i].createdAt >= n.createdAt)
  {
    var matching := Where(ns, DissidioListedBy(user, lida));
    TopNewest(matching, CreatedKey, ListLimit);
    var r := ListDissidioAlerts(ns, user, lida);
    assert forall i, j :: 0 <= i < j < |r| ==> NotOlder(CreatedKey(r[i]), CreatedKey(r[j]));
    forall n | n in ns && DissidioListed(n, user, lida) && n !in r
      ensures |r| == ListLimit && forall i :: 0 <= i < |r| ==> r[i].createdAt >= n.createdAt
    {
      assert n in matching;
      assert forall i :: 0 <= i < ListLimit ==> NotOlder(CreatedKey(r[i]), CreatedKey(n));
    }
  }

  /** An unread notification of `user`. */
  predicate Unread(n: Notification, user: nat) {
    n.userId == user && !n.lida
  }

  function UnreadBy(user: nat): Notification -> bool {
    n => Unread(n, user)
  }

  /** The notification with id `id` when it belongs to `user` (ids are
      row positions). */
  predicate OwnsNotification(ns: seq<Notification>, user: nat, id: nat) {
    id < |ns| && ns[id].userId == user
  }

  /** `mark_as_read`: 500, with nothing written, when the path id is not a
      UUID; 404 unless the notification is the user's; otherwise it is read
      and nothing else changes. */
  method MarkAsRead(db: Database, user: nat, notificationId: string, uuidOf: UuidReader) returns (r: Response<Notification>)
    requires db.Valid()
    modifies db
    ensures uuidOf(notificationId).None? ==> r == HttpError(500) && db.State() == old(db.State())
    ensures uuidOf(notificationId).Some? ==> var id := uuidOf(notificationId).value;
      !OwnsNotification(old(db.notifications), user, id) ==> r == HttpError(404) && db.State() == old(db.State())
    ensures uuidOf(notificationId).Some? ==> var id := uuidOf(notificationId).value;
      OwnsNotification(old(db.notifications), user, id) ==>
      r == Ok(old(db.notifications[id]).(lida := true))
      && db.notifications == old(db.notifications)[id := r.value]
      && OnlyNotificationsChanged(old(db.State()), db.State())
    ensures db.Valid()
  {
    var parsed := uuidOf(notificationId);
    if parsed.None? {
      return HttpError(500);
    }
    var id := parsed.value;
    if !(id < |db.notifications| && db.notifications[id].userId == user) {
      return HttpError(404);
    }
    var notification := db.notifications[id].(lida := true);
    db.notifications := db.notifications[id := notification];
    r := Ok(notification);
  }

  /** Marking a notification read lowers the user's unread count by one
      when it was unread and leaves it alone otherwise; marking it again
      changes nothing. */
  lemma MarkAsReadCount(ns: seq<Notification>, user: nat, id: nat)
    requires OwnsNotification(ns, user, id)
    ensures |Where(ns[id := ns[id].(lida := true)], UnreadBy(user))| == |Where(ns, UnreadBy(user))| - (if ns[id].lida then 0 else 1)
    ensures var once := ns[id := ns[id].(lida := true)]; once[id := once[id].(lida := true)] == once
  {
    WhereUpdate(ns, id, ns[id].(lida := true), UnreadBy(user));
  }

  /** The row `NotificationPreference(user_id=...)` gets from its column
      defaults. */
  function DefaultPreference(user: nat): Preference {
    Preference(user, Some(true), Some(true), Some("IMEDIATO"))
  }

  /** The object `NotificationPreference(user_id=...)` before it is
      flushed: no setting given. */
  function FreshPreference(user: nat): Preference {
    Preference(user, None, None, None)
  }

  /** The INSERT of a new row: a setting left null is omitted, so its
      column default applies. */
  function WithDefaults(p: Preference): (r: Preference)
    ensures r.userId == p.userId && r.emailEnabled.Some? && r.pushEnabled.Some? && r.frequencia.Some?
    ensures r.emailEnabled == (if p.emailEnabled.Some? then p.emailEnabled else Some(true))
    ensures r.pushEnabled == (if p.pushEnabled.Some? then p.pushEnabled else Some(true))
    ensures r.frequencia == (if p.frequencia.Some? then p.frequencia else Some("IMEDIATO"))
  {
    var d := DefaultPreference(p.userId);
    Preference(p.userId, if p.emailEnabled.Some? then p.emailEnabled else d.emailEnabled,
      if p.pushEnabled.Some? then p.pushEnabled else d.pushEnabled,
      if p.frequencia.Some? then p.frequencia else d.frequencia)
  }

  /** A row PostgreSQL accepts into `notification_preferences`: no null
      setting, and a `frequencia` that fits `VARCHAR(20)`. */
  predicate PreferenceFits(p: Preference) {
    p.emailEnabled.Some? && p.pushEnabled.Some? && p.frequencia.Some? && FitsVarchar(p.frequencia.value, FrequenciaWidth)
  }

  /** The row as the table then holds it. */
  function StoredPreference(p: Preference): (r: Preference)
    requires PreferenceFits(p)
    ensures PreferenceStored(r)
    ensures r.userId == p.userId && r.emailEnabled == p.emailEnabled && r.pushEnabled == p.pushEnabled
    ensures r.frequencia == Some(AsVarchar(p.frequencia.value, FrequenciaWidth))
    ensures PreferenceStored(p) ==> r == p
  {
    p.(frequencia := Some(AsVarchar(p.frequencia.value, FrequenciaWidth)))
  }

  /** The user's preferences row, if any. */
  function PreferenceIndex(ps: seq<Preference>, user: nat): (r: Option<nat>)
    ensures r.Some? ==> r.value < |ps| && ps[r.value].userId == user
    ensures r.None? ==> forall i :: 0 <= i < |ps| ==> ps[i].userId != user
  {
    if ps == [] then None
    else if ps[0].userId == user then Some(0)
    else match PreferenceIndex(ps[1..], user)
      case None => None
      case Some(k) => Some(k + 1)
  }

  lemma AppendKeepsUnique(ps: seq<Preference>, p: Preference)
    requires PreferencesUnique(ps) && forall i :: 0 <= i < |ps| ==> ps[i].userId != p.userId
    ensures PreferencesUnique(ps + [p])
  {
    var all := ps + [p];
    forall i, j | 0 <= i < j < |all| ensures all[i].userId != all[j].userId {
      if j == |ps| {
        assert all[i] == ps[i];
      }
    }
  }

  /** `get_preferences`: the user's row, created with the defaults when
      missing; the user then has exactly one row. */
  method GetPreferences(db: Database, user: nat) returns (prefs: Preference)
    requires db.Valid()
    modifies db
    ensures PreferenceIndex(old(db.preferences), user).Some? ==>
      prefs == old(db.preferences)[PreferenceIndex(old(db.preferences), user).value] && db.State() == old(db.State())
    ensures PreferenceIndex(old(db.preferences), user).None? ==>
      prefs == DefaultPreference(user) && db.preferences == old(db.preferences) + [prefs]
      && db.documents == old(db.documents) && db.companies == old(db.companies) && db.links == old(db.links)
      && db.notifications == old(db.notifications) && db.nextCompanyId == old(db.nextCompanyId)
    ensures prefs.userId == user && PreferenceIndex(db.preferences, user).Some?
    ensures db.preferences[PreferenceIndex(db.preferences, user).value] == prefs
    ensures db.Valid()
  {
    var found := PreferenceIndex(db.preferences, user);
    if found.Some? {
      prefs := db.preferences[found.value];
      return;
    }
    prefs := DefaultPreference(user);
    AppendKeepsUnique(db.preferences, prefs);
    db.preferences := db.preferences + [prefs];
    PreferenceFound(db.preferences, |db.preferences| - 1);
  }

  /** With one row per user, the lookup finds the row holding the user. */
  lemma PreferenceFound(ps: seq<Preference>, i: nat)
    requires PreferencesUnique(ps) && i < |ps|
    ensures PreferenceIndex(ps, ps[i].userId) == Some(i)
  {
    var found := PreferenceIndex(ps, ps[i].userId);
    assert found.Some?;
  }

  /** One key of `preferences.dict(exclude_unset=True)` with the value sent
      (possibly null). */
  datatype PreferenceValue = EmailEnabled(email: Option<bool>) | PushEnabled(push: Option<bool>) | Frequencia(frequencia: Option<string>)

  /** `setattr(prefs, key, value)`. */
  function SetPreference(p: Preference, v: PreferenceValue): (r: Preference)
    ensures r.userId == p.userId
  {
    match v
    case EmailEnabled(e) => p.(emailEnabled := e)
    case PushEnabled(b) => p.(pushEnabled := b)
    case Frequencia(f) => p.(frequencia := f)
  }

  datatype Column = Email | Push | Freq

  function ColumnOf(v: PreferenceValue): Column {
    match v
    case EmailEnabled(_) => Email
    case PushEnabled(_) => Push
    case Frequencia(_) => Freq
  }

  /** The last value sent for column `c`, if any. */
  function LastFor(sent: seq<PreferenceValue>, c: Column): (r: Option<PreferenceValue>)
    ensures r.Some? ==> ColumnOf(r.value) == c && r.value in sent
    ensures r.None? ==> forall k :: 0 <= k < |sent| ==> ColumnOf(sent[k]) != c
    decreases |sent|
  {
    if sent == [] then None
    else if ColumnOf(sent[|sent| - 1]) == c then Some(sent[|sent| - 1])
    else LastFor(sent[..|sent| - 1], c)
  }

  /** The row after the `setattr` of each value sent, in order. */
  function Applied(p: Preference, sent: seq<PreferenceValue>): (r: Preference)
    ensures r.userId == p.userId
    ensures r.emailEnabled == (if LastFor(sent, Email).Some? then LastFor(sent, Email).value.email else p.emailEnabled)
    ensures r.pushEnabled == (if LastFor(sent, Push).Some? then LastFor(sent, Push).value.push else p.pushEnabled)
    ensures r.frequencia == (if LastFor(sent, Freq).Some? then LastFor(sent, Freq).value.frequencia else p.frequencia)
    decreases |sent|
  {
    if sent == [] then p else SetPreference(Applied(p, sent[..|sent| - 1]), sent[|sent| - 1])
  }

  /** The row `update_preferences` commits: the user's row with every value
      sent, or, for a user without a row, a new row with the values sent and
      the defaults for the settings left null. */
  function RowToCommit(ps: seq<Preference>, user: nat, sent: seq<PreferenceValue>): (r: Preference)
    ensures r.userId == user
  {
    match PreferenceIndex(ps, user)
    case Some(i) => Applied(ps[i], sent)
    case None => WithDefaults(Applied(FreshPreference(user), sent))
  }

  /** `update_preferences`: 500, with nothing written, when the commit fails
      (a null setting on an existing row, or a `frequencia` that does not fit
      `VARCHAR(20)`); otherwise the committed row replaces the user's row or
      is added as the user's only row. */
  method UpdatePreferences(db: Database, user: nat, sent: seq<PreferenceValue>) returns (r: Response<Preference>)
    requires db.Valid()
    modifies db
    ensures var row := RowToCommit(old(db.preferences), user, sent);
      !PreferenceFits(row) ==> r == HttpError(500) && db.State() == old(db.State())
    ensures var row := RowToCommit(old(db.preferences), user, sent);
      var found := PreferenceIndex(old(db.preferences), user);
      PreferenceFits(row) ==>
        r == Ok(StoredPreference(row))
        && db.preferences == (if found.Some? then old(db.preferences)[found.value := r.value] else old(db.preferences) + [r.value])
    ensures db.documents == old(db.documents) && db.companies == old(db.companies) && db.links == old(db.links)
      && db.notifications == old(db.notifications) && db.nextCompanyId == old(db.nextCompanyId)
    ensures r.Ok? ==> PreferenceIndex(db.preferences, user).Some? && db.preferences[PreferenceIndex(db.preferences, user).value] == r.value
    ensures db.Valid()
  {
    var found := PreferenceIndex(db.preferences, user);
    var base := if found.Some? then db.preferences[found.value] else FreshPreference(user);
    var p := base;
    var k := 0;
    while k < |sent|
      invariant 0 <= k <= |sent|
      invariant p == Applied(base, sent[..k])
    {
      assert sent[..k + 1][..k] == sent[..k];
      p := SetPreference(p, sent[k]);
      k := k + 1;
    }
    assert sent[..k] == sent;
    var row := if found.Some? then p else WithDefaults(p);
    if !PreferenceFits(row) {
      return HttpError(500);
    }
    var prefs := StoredPreference(row);
    if found.Some? {
      var i := found.value;
      db.preferences := db.preferences[i := prefs];
      assert PreferencesUnique(db.preferences) by {
        forall a, b | 0 <= a < b < |db.preferences| ensures db.preferences[a].userId != db.preferences[b].userId {
          assert db.preferences[a].userId == old(db.preferences)[a].userId;
          assert db.preferences[b].userId == old(db.preferences)[b].userId;
        }
      }
      PreferenceFound(db.preferences, i);
    } else {
      AppendKeepsUnique(db.preferences, prefs);
      db.preferences := db.preferences + [prefs];
      PreferenceFound(db.preferences, |db.preferences| - 1);
    }
    r := Ok(prefs);
  }

  /** A null setting fails the commit on an existing row, but on a new row
      leaves the default in place; a `frequencia` of 21 letters never
      fits. */
  lemma NullSettings(p: Preference, user: nat)
    ensures !PreferenceFits(Applied(p, [EmailEnabled(None)]))
    ensures WithDefaults(Applied(FreshPreference(user), [EmailEnabled(None)])) == DefaultPreference(user)
    ensures !PreferenceFits(Applied(p, [Frequencia(Some("QUINZENALMENTE_MENSAL"))]))
  {
    assert "QUINZENALMENTE_MENSAL"[20] == 'L';
  }

  /** Sending nothing to a user with a row commits that row unchanged. */
  lemma EmptyUpdateKeepsRow(ps: seq<Preference>, user: nat)
    requires PreferencesStored(ps) && PreferenceIndex(ps, user).Some?
    ensures PreferenceFits(RowToCommit(ps, user, []))
    ensures StoredPreference(RowToCommit(ps, user, [])) == ps[PreferenceIndex(ps, user).value]
  {
  }

  /** Sending the same values twice gives the same row as sending them
      once, and sending nothing changes nothing. */
  lemma UpdateIdempotent(p: Preference, sent: seq<PreferenceValue>)
    ensures Applied(p, []) == p
    ensures Applied(Applied(p, sent), sent) == Applied(p, sent)
  {
  }
}

=== FILE: relevance.dfy ===
/** Matching documents to companies, as `backend/app/tasks/collector.py`
    does it (`associate_convencao_to_companies`, `calculate_relevancia_score`,
    `generate_notifications`). The same logic is repeated in the collector
    endpoint and, from the company side, in the companies endpoint; those
    modules are proved to agree with this one. */
module Relevance {
  import opened Common
  import opened Store

  /** `calculate_relevancia_score`: 50 for an equal cnae plus 50 for an equal
      municipio and uf, compared with Python `==` (two missing values are
      equal). */
  function Score(doc: Convencao, c: Company): (r: int)
    ensures r == 0 || r == 50 || r == 100
    ensures r == 100 <==> doc.cnae == c.cnae && doc.municipio == c.municipio && doc.uf == c.uf
    ensures r == 0 <==> doc.cnae != c.cnae && (doc.municipio != c.municipio || doc.uf != c.uf)
  {
    var byCnae := if doc.cnae == c.cnae then 50 else 0;
    var byPlace := if doc.municipio == c.municipio && doc.uf == c.uf then 50 else 0;
    byCnae + byPlace
  }

  /** A company the document's two candidate queries return: same cnae when
      the document has one, or same municipio and uf when it has both. */
  predicate CompanyCandidate(doc: Convencao, c: Company) {
    (Truthy(doc.cnae) && c.cnae == doc.cnae)
    || (Truthy(doc.municipio) && Truthy(doc.uf) && c.municipio == doc.municipio && c.uf == doc.uf)
  }

  /** A document the company's two candidate queries return
      (`associate_convencoes_to_company`). */
  predicate DocumentCandidate(c: Company, doc: Convencao) {
    (Truthy(c.cnae) && doc.cnae == c.cnae)
    || (Truthy(c.municipio) && Truthy(c.uf) && doc.municipio == c.municipio && doc.uf == c.uf)
  }

  /** Searching from either side finds the same pairs, and every candidate
      pair scores at least 50. */
  lemma CandidatesAgree(doc: Convencao, c: Company)
    ensures CompanyCandidate(doc, c) <==> DocumentCandidate(c, doc)
    ensures CompanyCandidate(doc, c) ==> Score(doc, c) >= 50
  {
  }

  /** The links `associate_convencao_to_companies` tries to create, one per
      candidate company, in table order. */
  function DocumentLinks(doc: Convencao, companies: seq<Company>): (r: seq<Link>)
    ensures forall k :: 0 <= k < |r| ==> r[k].convencaoId == doc.id && (r[k].score == 50 || r[k].score == 100)
    ensures forall i :: 0 <= i < |companies| && CompanyCandidate(doc, companies[i]) ==>
      exists k :: 0 <= k < |r| && r[k].companyId == companies[i].id
  {
    if companies == [] then []
    else
      var c := companies[0];
      var rest := DocumentLinks(doc, companies[1..]);
      var r := if CompanyCandidate(doc, c) then [Link(doc.id, c.id, Score(doc, c))] + rest else rest;
      assert forall i :: 0 <= i < |companies| && CompanyCandidate(doc, companies[i]) ==>
        exists k :: 0 <= k < |r| && r[k].companyId == companies[i].id by {
        forall i | 0 <= i < |companies| && CompanyCandidate(doc, companies[i])
          ensures exists k :: 0 <= k < |r| && r[k].companyId == companies[i].id
        {
          if i == 0 {
            assert r[0].companyId == c.id;
          } else {
            assert companies[i] == companies[1..][i - 1];
            var k :| 0 <= k < |rest| && rest[k].companyId == companies[i].id;
            assert r[|r| - |rest| + k] == rest[k];
          }
        }
      }
      r
  }

  /** The links `associate_convencoes_to_company` tries to create, one per
      candidate document, in table order. */
  function CompanyLinks(c: Company, docs: seq<Convencao>): (r: seq<Link>)
    ensures forall k :: 0 <= k < |r| ==> r[k].companyId == c.id && (r[k].score == 50 || r[k].score == 100)
    ensures forall i :: 0 <= i < |docs| && DocumentCandidate(c, docs[i]) ==>
      exists k :: 0 <= k < |r| && r[k].convencaoId == docs[i].id
  {
    if docs == [] then []
    else
      var d := docs[0];
      var rest := CompanyLinks(c, docs[1..]);
      var r := if DocumentCandidate(c, d) then [Link(d.id, c.id, Score(d, c))] + rest else rest;
      assert forall i :: 0 <= i < |docs| && DocumentCandidate(c, docs[i]) ==>
        exists k :: 0 <= k < |r| && r[k].convencaoId == docs[i].id by {
        forall i | 0 <= i < |docs| && DocumentCandidate(c, docs[i])
          ensures exists k :: 0 <= k < |r| && r[k].convencaoId == docs[i].id
        {
          if i == 0 {
            assert r[0].convencaoId == d.id;
          } else {
            assert docs[i] == docs[1..][i - 1];
            var k :| 0 <= k < |rest| && rest[k].convencaoId == docs[i].id;
            assert r[|r| - |rest| + k] == rest[k];
          }
        }
      }
      r
  }

  /** Every link of a document comes from a candidate company and carries
      that pair's score: nothing else is proposed. */
  lemma {:induction false} DocumentLinksSound(doc: Convencao, companies: seq<Company>)
    ensures forall l :: l in DocumentLinks(doc, companies) ==>
      exists i :: 0 <= i < |companies| && CompanyCandidate(doc, companies[i])
        && l == Link(doc.id, companies[i].id, Score(doc, companies[i]))
    decreases |companies|
  {
    if companies != [] {
      var rest := DocumentLinks(doc, companies[1..]);
      DocumentLinksSound(doc, companies[1..]);
      forall l | l in DocumentLinks(doc, companies)
        ensures exists i :: 0 <= i < |companies| && CompanyCandidate(doc, companies[i])
                             && l == Link(doc.id, companies[i].id, Score(doc, companies[i]))
      {
        if l in rest {
          var i :| 0 <= i < |companies[1..]| && CompanyCandidate(doc, companies[1..][i])
            && l == Link(doc.id, companies[1..][i].id, Score(doc, companies[1..][i]));
          assert companies[1..][i] == companies[i + 1];
        } else {
          assert CompanyCandidate(doc, companies[0]);
          assert l == Link(doc.id, companies[0].id, Score(doc, companies[0]));
        }
      }
    }
  }

  /** Every link of a company comes from a candidate document and carries
      that pair's score. */
  lemma {:induction false} CompanyLinksSound(c: Company, docs: seq<Convencao>)
    ensures forall l :: l in CompanyLinks(c, docs) ==>
      exists i :: 0 <= i < |docs| && DocumentCandidate(c, docs[i])
        && l == Link(docs[i].id, c.id, Score(docs[i], c))
    decreases |docs|
  {
    if docs != [] {
      var rest := CompanyLinks(c, docs[1..]);
      CompanyLinksSound(c, docs[1..]);
      forall l | l in CompanyLinks(c, docs)
        ensures exists i :: 0 <= i < |docs| && DocumentCandidate(c, docs[i])
                             && l == Link(docs[i].id, c.id, Score(docs[i], c))
      {
        if l in rest {
          var i :| 0 <= i < |docs[1..]| && DocumentCandidate(c, docs[1..][i])
            && l == Link(docs[1..][i].id, c.id, Score(docs[1..][i], c));
          assert docs[1..][i] == docs[i + 1];
        } else {
          assert DocumentCandidate(c, docs[0]);
          assert l == Link(docs[0].id, c.id, Score(docs[0], c));
        }
      }
    }
  }

  /** The loop `if not existing: db.add(association)`: each pending link is
      appended unless a link for its pair is already in the table, counting
      those appended earlier in the same loop. */
  function AddMissing(links: seq<Link>, pending: seq<Link>): seq<Link>
    decreases |pending|
  {
    if pending == [] then links
    else
      var p := pending[0];
      AddMissing(if HasLink(links, p.convencaoId, p.companyId) then links else links + [p], pending[1..])
  }

  /** The table only grows, by pending links, never gains a second link for
      a pair, keeps only positive scores, and afterwards holds a link for
      every pending pair. */
  lemma {:induction false} AddMissingSound(links: seq<Link>, pending: seq<Link>)
    ensures |links| <= |AddMissing(links, pending)| && AddMissing(links, pending)[..|links|] == links
    ensures forall k :: |links| <= k < |AddMissing(links, pending)| ==> AddMissing(links, pending)[k] in pending
    ensures LinksUnique(links) ==> LinksUnique(AddMissing(links, pending))
    ensures forall p :: p in pending ==> HasLink(AddMissing(links, pending), p.convencaoId, p.companyId)
    decreases |pending|
  {
    if pending != [] {
      var p := pending[0];
      var next := if HasLink(links, p.convencaoId, p.companyId) then links else links + [p];
      AddMissingSound(next, pending[1..]);
      var r := AddMissing(next, pending[1..]);
      assert r[..|next|] == next;
      assert r[..|links|] == next[..|links|];
      if LinksUnique(links) && !HasLink(links, p.convencaoId, p.companyId) {
        assert LinksUnique(next) by {
          forall i, j | 0 <= i < j < |next| ensures next[i].convencaoId != next[j].convencaoId || next[i].companyId != next[j].companyId {
            if j == |links| {
              assert next[i] == links[i];
            }
          }
        }
      }
      assert HasLink(next, p.convencaoId, p.companyId) by {
        if !HasLink(links, p.convencaoId, p.companyId) {
          assert next[|links|] == p;
        }
      }
      HasLinkGrows(next, r, p.convencaoId, p.companyId);
    }
  }

  lemma HasLinkGrows(a: seq<Link>, b: seq<Link>, conv: nat, comp: nat)
    requires |a| <= |b| && b[..|a|] == a
    requires HasLink(a, conv, comp)
    ensures HasLink(b, conv, comp)
  {
    var i :| 0 <= i < |a| && a[i].convencaoId == conv && a[i].companyId == comp;
    assert b[i] == a[i];
  }

  /** When every pending pair is already linked, nothing is added. */
  lemma {:induction false} AddMissingNoop(links: seq<Link>, pending: seq<Link>)
    requires forall p :: p in pending ==> HasLink(links, p.convencaoId, p.companyId)
    ensures AddMissing(links, pending) == links
    decreases |pending|
  {
    if pending != [] {
      AddMissingNoop(links, pending[1..]);
    }
  }

  /** Associating twice adds nothing the second time. */
  lemma AddMissingIdempotent(links: seq<Link>, pending: seq<Link>)
    ensures AddMissing(AddMissing(links, pending), pending) == AddMissing(links, pending)
  {
    AddMissingSound(links, pending);
    AddMissingNoop(AddMissing(links, pending), pending);
  }

  /** Appending links that all score 50 or 100 keeps every score positive. */
  lemma AddMissingScores(links: seq<Link>, pending: seq<Link>)
    requires LinkScoresPositive(links)
    requires forall k :: 0 <= k < |pending| ==> pending[k].score == 50 || pending[k].score == 100
    ensures LinkScoresPositive(AddMissing(links, pending))
  {
    AddMissingSound(links, pending);
    var r := AddMissing(links, pending);
    forall i | 0 <= i < |r| ensures r[i].score == 50 || r[i].score == 100 {
      if i < |links| {
        assert r[i] == r[..|links|][i];
      } else {
        assert r[i] in pending;
      }
    }
  }

  /** The insertion loop itself: one existence check and at most one
      `db.add` per pending link. */
  method InsertMissingLinks(db: Database, pending: seq<Link>)
    modifies db
    ensures db.State() == old(db.State()).(links := AddMissing(old(db.links), pending))
  {
    var i := 0;
    while i < |pending|
      invariant 0 <= i <= |pending|
      invariant db.State() == old(db.State()).(links := db.links)
      invariant AddMissing(db.links, pending[i..]) == AddMissing(old(db.links), pending)
    {
      var p := pending[i];
      var existing := exists k :: 0 <= k < |db.links| && db.links[k].convencaoId == p.convencaoId && db.links[k].companyId == p.companyId;
      assert pending[i..][1..] == pending[i + 1..];
      if !existing {
        db.links := db.links + [p];
      }
      i := i + 1;
    }
  }

  /** `associate_convencao_to_companies(convencao, db)`: links the document to
      every candidate company not yet linked to it; the table keeps one link
      per pair and positive scores. */
  method AssociateConvencaoToCompanies(db: Database, docId: nat)
    requires db.Valid() && docId < |db.documents|
    modifies db
    ensures db.State() == old(db.State()).(links := AddMissing(old(db.links), DocumentLinks(old(db.documents[docId]), old(db.companies))))
    ensures db.Valid()
  {
    var pending := DocumentLinks(db.documents[docId], db.companies);
    AddMissingSound(db.links, pending);
    AddMissingScores(db.links, pending);
    InsertMissingLinks(db, pending);
  }

  /** `associate_convencoes_to_company(company, db)`: the same from the
      company's side. */
  method AssociateConvencoesToCompany(db: Database, companyIndex: nat)
    requires db.Valid() && companyIndex < |db.companies|
    modifies db
    ensures db.State() == old(db.State()).(links := AddMissing(old(db.links), CompanyLinks(old(db.companies[companyIndex]), old(db.documents))))
    ensures db.Valid()
  {
    var pending := CompanyLinks(db.companies[companyIndex], db.documents);
    AddMissingSound(db.links, pending);
    AddMissingScores(db.links, pending);
    InsertMissingLinks(db, pending);
  }

  /** `u` owns a company that is linked to document `docId`. */
  ghost predicate LinkedOwner(docId: nat, links: seq<Link>, companies: seq<Company>, u: nat) {
    exists i, j :: 0 <= i < |links| && 0 <= j < |companies| && links[i].convencaoId == docId
      && companies[j].id == links[i].companyId && companies[j].userId == u
  }

  predicate Distinct(s: seq<nat>) {
    forall i, j :: 0 <= i < j < |s| ==> s[i] != s[j]
  }

  /** The set `user_ids` built from the document's links, in the order the
      links first reach each user. */
  function OwnersFrom(docId: nat, links: seq<Link>, companies: seq<Company>, acc: seq<nat>): seq<nat>
    decreases |links|
  {
    if links == [] then acc
    else
      var l := links[0];
      var next := match CompanyIndex(companies, l.companyId)
        case Some(j) => if l.convencaoId == docId && companies[j].userId !in acc then acc + [companies[j].userId] else acc
        case None => acc;
      OwnersFrom(docId, links[1..], companies, next)
  }

  function LinkedOwners(docId: nat, links: seq<Link>, companies: seq<Company>): seq<nat> {
    OwnersFrom(docId, links, companies, [])
  }

  lemma {:induction false} OwnersFromCorrect(docId: nat, links: seq<Link>, companies: seq<Company>, acc: seq<nat>)
    requires Distinct(acc)
    requires CompanyIdsUnique(companies)
    ensures Distinct(OwnersFrom(docId, links, companies, acc))
    ensures forall u :: u in OwnersFrom(docId, links, companies, acc) <==> u in acc || LinkedOwner(docId, links, companies, u)
    decreases |links|
  {
    if links != [] {
      var l := links[0];
      var next := match CompanyIndex(companies, l.companyId)
        case Some(j) => if l.convencaoId == docId && companies[j].userId !in acc then acc + [companies[j].userId] else acc
        case None => acc;
      OwnersFromCorrect(docId, links[1..], companies, next);
      forall u ensures u in OwnersFrom(docId, links, companies, acc) <==> u in acc || LinkedOwner(docId, links, companies, u) {
        if LinkedOwner(docId, links, companies, u) && u !in acc {
          var i, j :| 0 <= i < |links| && 0 <= j < |companies| && links[i].convencaoId == docId
            && companies[j].id == links[i].companyId && companies[j].userId == u;
          if i > 0 {
            assert links[1..][i - 1] == links[i];
            assert LinkedOwner(docId, links[1..], companies, u);
          } else {
            var k := CompanyIndex(companies, l.companyId).value;
            assert k == j;
          }
        }
        if LinkedOwner(docId, links[1..], companies, u) {
          var i, j :| 0 <= i < |links[1..]| && 0 <= j < |companies| && links[1..][i].convencaoId == docId
            && companies[j].id == links[1..][i].companyId && companies[j].userId == u;
          assert links[i + 1] == links[1..][i];
        }
      }
    }
  }

  const NovaConvencao: string := "NOVA_CONVENCAO"

  /** The row `generate_notifications` adds for one user. */
  function NovaConvencaoRow(doc: Convencao, user: nat, id: nat, now: int): Notification {
    Notification(id, user, Some(doc.id), NovaConvencao,
      "Nova convenção: " + (if Truthy(doc.titulo) then doc.titulo.value else "Sem título"),
      "Uma nova convenção coletiva foi publicada e pode ser aplicável às suas empresas.",
      false, now)
  }

  function NovaConvencaoRows(doc: Convencao, users: seq<nat>, firstId: nat, now: int): seq<Notification> {
    seq(|users|, k requires 0 <= k < |users| => NovaConvencaoRow(doc, users[k], firstId + k, now))
  }

  /** Appended rows numbered from the table's length keep ids equal to
      positions. */
  lemma RowsArePositions(ns: seq<Notification>, doc: Convencao, users: seq<nat>, now: int)
    requires NotificationIdsArePositions(ns)
    ensures NotificationIdsArePositions(ns + NovaConvencaoRows(doc, users, |ns|, now))
  {
    var all := ns + NovaConvencaoRows(doc, users, |ns|, now);
    assert forall i :: |ns| <= i < |all| ==> all[i] == NovaConvencaoRow(doc, users[i - |ns|], i, now);
  }

  lemma RowsShape(doc: Convencao, users: seq<nat>, firstId: nat, now: int)
    ensures var rows := NovaConvencaoRows(doc, users, firstId, now);
      |rows| == |users|
      && forall k :: 0 <= k < |rows| ==>
        rows[k].userId == users[k] && rows[k].tipo == NovaConvencao && rows[k].convencaoId == Some(doc.id) && !rows[k].lida
  {
    var rows := NovaConvencaoRows(doc, users, firstId, now);
    forall k | 0 <= k < |rows|
      ensures rows[k].userId == users[k] && rows[k].tipo == NovaConvencao && rows[k].convencaoId == Some(doc.id) && !rows[k].lida
    {
      assert rows[k] == NovaConvencaoRow(doc, users[k], firstId + k, now);
    }
  }

  /** `generate_notifications` writes exactly one unread NOVA_CONVENCAO row per
      distinct owner of a company linked to the document, and none for anybody
      else. */
  lemma OneNotificationPerOwner(doc: Convencao, links: seq<Link>, companies: seq<Company>, firstId: nat, now: int)
    requires CompanyIdsUnique(companies)
    ensures var rows := NovaConvencaoRows(doc, LinkedOwners(doc.id, links, companies), firstId, now);
      (forall u :: (exists k :: 0 <= k < |rows| && rows[k].userId == u) <==> LinkedOwner(doc.id, links, companies, u))
      && (forall k1, k2 :: 0 <= k1 < k2 < |rows| ==> rows[k1].userId != rows[k2].userId)
      && (forall k :: 0 <= k < |rows| ==> rows[k].tipo == NovaConvencao && rows[k].convencaoId == Some(doc.id) && !rows[k].lida)
  {
    var owners := LinkedOwners(doc.id, links, companies);
    OwnersFromCorrect(doc.id, links, companies, []);
    var rows := NovaConvencaoRows(doc, owners, firstId, now);
    RowsShape(doc, owners, firstId, now);
    assert forall k1, k2 :: 0 <= k1 < k2 < |rows| ==> rows[k1].userId != rows[k2].userId by {
      forall k1, k2 | 0 <= k1 < k2 < |rows| ensures rows[k1].userId != rows[k2].userId {
        assert owners[k1] != owners[k2];
      }
    }
    forall u ensures (exists k :: 0 <= k < |rows| && rows[k].userId == u) <==> u in owners {
      if u in owners {
        var k :| 0 <= k < |owners| && owners[k] == u;
        assert rows[k].userId == u;
      }
    }
  }

  /** The first loop of `generate_notifications`: the owners of the
      companies linked to `docId`, each once, in the order first met. */
  method CollectOwners(links: seq<Link>, companies: seq<Company>, docId: nat) returns (userIds: seq<nat>)
    ensures userIds == LinkedOwners(docId, links, companies)
  {
    userIds := [];
    var i := 0;
    while i < |links|
      invariant 0 <= i <= |links|
      invariant OwnersFrom(docId, links[i..], companies, userIds) == LinkedOwners(docId, links, companies)
    {
      var assoc := links[i];
      assert links[i..][1..] == links[i + 1..];
      var found := CompanyIndex(companies, assoc.companyId);
      if found.Some? && assoc.convencaoId == docId && companies[found.value].userId !in userIds {
        userIds := userIds + [companies[found.value].userId];
      }
      i := i + 1;
    }
  }

  /** `generate_notifications(convencao, db)`: collects the owners of the
      linked companies, then adds one notification per owner. */
  method GenerateNotifications(db: Database, docId: nat, now: int)
    requires db.Valid() && docId < |db.documents|
    modifies db
    ensures db.notifications == old(db.notifications)
      + NovaConvencaoRows(old(db.documents[docId]), LinkedOwners(docId, old(db.links), old(db.companies)), |old(db.notifications)|, now)
    ensures OnlyNotificationsChanged(old(db.State()), db.State())
    ensures db.Valid()
  {
    var doc := db.documents[docId];
    var userIds := CollectOwners(db.links, db.companies, docId);
    var base := |db.notifications|;
    ghost var rows := NovaConvencaoRows(doc, userIds, base, now);
    var k := 0;
    while k < |userIds|
      invariant 0 <= k <= |userIds|
      invariant db.notifications == old(db.notifications) + rows[..k]
      invariant OnlyNotificationsChanged(old(db.State()), db.State())
    {
      var notification := NovaConvencaoRow(doc, userIds[k], base + k, now);
      assert rows[..k + 1] == rows[..k] + [notification];
      db.notifications := db.notifications + [notification];
      k := k + 1;
    }
    assert rows[..k] == rows;
    RowsArePositions(old(db.notifications), doc, userIds, now);
  }
}

=== FILE: scan.dfy ===
/** Leftmost matching, the part of Python's `re.search` and `re.findall`
    the parsers rely on: a pattern is a predicate on start positions. */
module Scan {
  import opened Common
  import opened Text

  /** The first position in `from..n` where `p` holds. */
  function FirstAt(from: nat, n: nat, p: nat -> bool): (r: Option<nat>)
    ensures r.Some? ==> from <= r.value < n && p(r.value)
    ensures r.Some? ==> forall k :: from <= k < r.value ==> !p(k)
    ensures r.None? ==> forall k :: from <= k < n ==> !p(k)
    decreases n - from
  {
    if from >= n then None
    else if p(from) then Some(from)
    else FirstAt(from + 1, n, p)
  }

  /** The number of ASCII digits from position `i` on: `\d+`, greedy. */
  function RunLength(s: string, i: nat): (r: nat)
    requires i <= |s|
    ensures i + r <= |s|
    ensures forall k :: i <= k < i + r ==> IsAsciiDigit(s[k])
    ensures i + r == |s| || !IsAsciiDigit(s[i + r])
    decreases |s| - i
  {
    if i < |s| && IsAsciiDigit(s[i]) then 1 + RunLength(s, i + 1) else 0
  }

  /** At least four digits start at `i`, right after a character of
      `marks` unless `anywhere`. */
  predicate IdAt(s: string, i: nat, marks: set<char>, anywhere: bool) {
    i <= |s| && RunLength(s, i) >= 4 && (anywhere || (0 < i && s[i - 1] in marks))
  }

  function IdOpens(s: string, marks: set<char>, anywhere: bool): nat -> bool {
    (i: nat) => IdAt(s, i, marks, anywhere)
  }

  /** Where the leftmost match of `[marks](\d{4,})` (of `(\d{4,})` when
      `anywhere`) puts its group; nothing when there is no match. */
  function IdStart(s: string, marks: set<char>, anywhere: bool): (r: Option<nat>)
    ensures r.Some? ==> r.value <= |s| && IdAt(s, r.value, marks, anywhere)
    ensures r.Some? ==> forall k :: 0 <= k < r.value ==> !IdAt(s, k, marks, anywhere)
    ensures r.None? ==> forall k :: 0 <= k <= |s| ==> !IdAt(s, k, marks, anywhere)
  {
    var p := IdOpens(s, marks, anywhere);
    var r := FirstAt(0, |s| + 1, p);
    assert forall k :: 0 <= k <= |s| ==> p(k) == IdAt(s, k, marks, anywhere);
    r
  }

  /** `re.search(r'[marks](\d{4,})', s).group(1)`: the whole digit run, four
      digits or more, at the leftmost place it can start. */
  function SearchId(s: string, marks: set<char>, anywhere: bool): (r: Option<string>)
    ensures r.None? <==> IdStart(s, marks, anywhere).None?
    ensures r.Some? ==> |r.value| >= 4 && AllDigits(r.value)
  {
    match IdStart(s, marks, anywhere)
    case None => None
    case Some(i) => Some(s[i..i + RunLength(s, i)])
  }
}

=== FILE: schemas.dfy ===
/** The request validators of `backend/app/schemas/company.py`
    (`CompanyCreate`) and `backend/app/schemas/user.py` (`UserCreate`). */
module Schemas {
  import opened Common
  import opened Text
  import opened Utf8
  import Security

  /** A pydantic validator's outcome: the value it returns, or the message
      of the `ValueError` it raises (the request is then answered with 422). */
  datatype Checked<T> = Accepted(value: T) | Rejected(message: string)

  const CnpjLength: nat := 14
  const CnaeLength: nat := 7
  const MinPasswordChars: nat := 8

  /** `validate_cnpj`: formatting is removed and exactly 14 digits must remain. */
  function ValidateCnpj(v: string): (r: Checked<string>)
    ensures r.Accepted? <==> |Digits(v)| == CnpjLength
    ensures r.Accepted? ==> AllDigits(r.value) && |r.value| == CnpjLength && r.value == Digits(v)
  {
    var cnpj := Digits(v);
    if |cnpj| != CnpjLength then Rejected("CNPJ deve ter 14 dígitos") else Accepted(cnpj)
  }

  /** `validate_cnae`: a missing or empty CNAE passes unchanged; any other
      value is reduced to its digits, of which there must be exactly 7. */
  function ValidateCnae(v: Option<string>): (r: Checked<Option<string>>)
    ensures !Truthy(v) ==> r == Accepted(v)
    ensures Truthy(v) ==> (r.Accepted? <==> |Digits(v.value)| == CnaeLength)
    ensures Truthy(v) && r.Accepted? ==> r.value == Some(Digits(v.value)) && AllDigits(r.value.value)
  {
    if Truthy(v) then
      var cnae := Digits(v.value);
      if |cnae| != CnaeLength then Rejected("CNAE deve ter 7 dígitos") else Accepted(Some(cnae))
    else Accepted(v)
  }

  lemma DigitsIdempotent(s: string)
    ensures Digits(Digits(s)) == Digits(s)
  {
  }

  /** Formatting never changes the verdict, and a value the validator
      returned validates to itself. */
  lemma CnpjNormalForm(v: string)
    ensures ValidateCnpj(Digits(v)) == ValidateCnpj(v)
    ensures ValidateCnpj(v).Accepted? ==> ValidateCnpj(ValidateCnpj(v).value) == ValidateCnpj(v)
  {
    DigitsIdempotent(v);
  }

  lemma CnaeNormalForm(v: Option<string>)
    ensures ValidateCnae(v).Accepted? ==> ValidateCnae(ValidateCnae(v).value) == ValidateCnae(v)
  {
    if Truthy(v) {
      DigitsIdempotent(v.value);
    }
  }

  /** A CNAE written with its usual punctuation is accepted as its digits. */
  lemma FormattedCnae()
    ensures ValidateCnae(Some("6201-5/01")) == Accepted(Some("6201501"))
  {
    DigitsOfFormattedCnae();
  }

  lemma DigitsOfFormattedCnae()
    ensures Digits("6201-5/01") == "6201501"
  {
    var sep := "-5/";
    assert "6201-5/01" == "6201" + sep + "01";
    DigitsAppend("6201" + sep, "01");
    DigitsAppend("6201", sep);
    DigitsOfSeparators();
    assert AllDigits("6201") && AllDigits("01");
    assert "6201" + "5" + "01" == "6201501";
  }

  lemma DigitsOfSeparators()
    ensures Digits("-5/") == "5"
  {
    var sep := "-5/";
    assert sep[1..] == "5/" && sep[1..][1..] == "/";
    assert Digits("/") == "";
  }

  /** `validate_password`: at least 8 characters and at most 72 bytes of
      UTF-8; an accepted password is returned unchanged. */
  function ValidatePassword(v: string): (r: Checked<string>)
    ensures r.Accepted? <==> MinPasswordChars <= |v| && |Encode(v)| <= Security.BcryptLimit
    ensures r.Accepted? ==> r.value == v
  {
    if |v| < MinPasswordChars then Rejected("Senha deve ter no mínimo 8 caracteres")
    else if |Encode(v)| > Security.BcryptLimit then Rejected("Senha muito longa (máximo 72 bytes). Use uma senha mais curta.")
    else Accepted(v)
  }

  /** An accepted password reaches bcrypt whole: the hashing code never
      truncates it. */
  lemma AcceptedPasswordUntruncated(v: string)
    requires ValidatePassword(v).Accepted?
    ensures Security.Truncated(v) == v && Security.BcryptInput(v) == Encode(v)
  {
  }

  lemma {:induction false} EncodeRepeated(c: char, n: nat)
    ensures |Encode(seq(n, _ => c))| == n * Width(c)
  {
    if n > 0 {
      var s := seq(n, _ => c);
      assert s[1..] == seq(n - 1, _ => c);
      EncodeRepeated(c, n - 1);
    }
  }

  /** The byte bound counts bytes, not characters: nineteen four-byte
      characters are rejected although nineteen is within 8..72. */
  lemma MultiByteCharactersCountPerByte()
    ensures ValidatePassword(seq(19, _ => '\U{1D11E}')).Rejected?
  {
    EncodeRepeated('\U{1D11E}', 19);
  }

  /** A `CompanyCreate` body as sent. */
  datatype CompanyInput = CompanyInput(
    cnpj: string,
    razaoSocial: Option<string>,
    cnae: Option<string>,
    municipio: Option<string>,
    uf: Option<string>)

  /** `CompanyCreate(**body)`: both validators run; the body is rejected
      when either rejects, else carries the normalised cnpj and cnae. */
  function ValidateCompanyCreate(body: CompanyInput): (r: Checked<CompanyInput>)
    ensures r.Accepted? <==> ValidateCnpj(body.cnpj).Accepted? && ValidateCnae(body.cnae).Accepted?
    ensures r.Accepted? ==> r.value == body.(cnpj := ValidateCnpj(body.cnpj).value, cnae := ValidateCnae(body.cnae).value)
  {
    match (ValidateCnpj(body.cnpj), ValidateCnae(body.cnae))
    case (Accepted(cnpj), Accepted(cnae)) => Accepted(body.(cnpj := cnpj, cnae := cnae))
    case (Rejected(m), _) => Rejected(m)
    case (_, Rejected(m)) => Rejected(m)
  }
}

=== FILE: scraper.dfy ===
/** The scraper of `backend/app/services/scraper.py`: discovery of
    instrument ids by three strategies tried in order (a JSON API, a
    browser-rendered search page, plain HTML pages), the metadata of one
    instrument from its detail page, and the name of a downloaded file.
    Pages, the browser and the network are parameters: what each URL or
    selector gives back. */
module Scraper {
  import opened Common
  import opened Text
  import opened Intake

  predicate Unique(s: seq<string>) {
    forall i, j :: 0 <= i < j < |s| ==> s[i] != s[j]
  }

  // ---------------------------------------------------------------------
  // Collecting ids

  /** `if x and x not in ids: ids.append(x)` */
  function AddNew(ids: seq<string>, x: string): seq<string> {
    if x != "" && x !in ids then ids + [x] else ids
  }

  /** The ids a run of `AddNew` over `cands` collects from nothing. */
  function Gather(cands: seq<string>): seq<string>
    decreases |cands|
  {
    if cands == [] then [] else AddNew(Gather(cands[..|cands| - 1]), cands[|cands| - 1])
  }

  /** Every non-empty candidate is collected, once; nothing else is. */
  lemma {:induction false} GatherCorrect(cands: seq<string>)
    ensures Unique(Gather(cands))
    ensures forall x :: x in Gather(cands) <==> x in cands && x != ""
    decreases |cands|
  {
    if cands != [] {
      var init := cands[..|cands| - 1];
      GatherCorrect(init);
      assert cands == init + [cands[|cands| - 1]];
    }
  }

  /** `list(set(xs))`, its elements in the order they first occur. */
  function Dedup(xs: seq<string>): seq<string>
    decreases |xs|
  {
    if xs == [] then []
    else
      var d := Dedup(xs[..|xs| - 1]);
      if xs[|xs| - 1] in d then d else d + [xs[|xs| - 1]]
  }

  /** The deduplicated list holds each element once, and a list without
      repeats is left as it is. */
  lemma {:induction false} DedupCorrect(xs: seq<string>)
    ensures Unique(Dedup(xs))
    ensures forall x :: x in Dedup(xs) <==> x in xs
    ensures Unique(xs) ==> Dedup(xs) == xs
    decreases |xs|
  {
    if xs != [] {
      var init := xs[..|xs| - 1];
      DedupCorrect(init);
      assert xs == init + [xs[|xs| - 1]];
      if Unique(xs) {
        assert Unique(init);
        assert xs[|xs| - 1] !in init;
      }
    }
  }

  /** The first attempt that gives any id, or nothing. */
  function FirstNonEmpty(attempts: seq<seq<string>>): seq<string>
    decreases |attempts|
  {
    if attempts == [] then []
    else if attempts[0] != [] then attempts[0]
    else FirstNonEmpty(attempts[1..])
  }

  /** Nothing exactly when every attempt gives nothing; otherwise the ids of
      an attempt all of whose predecessors gave nothing. */
  lemma {:induction false} FirstNonEmptyCorrect(attempts: seq<seq<string>>)
    ensures FirstNonEmpty(attempts) == [] <==> forall k :: 0 <= k < |attempts| ==> attempts[k] == []
    ensures FirstNonEmpty(attempts) != [] ==>
      exists k :: 0 <= k < |attempts| && FirstNonEmpty(attempts) == attempts[k] && forall j :: 0 <= j < k ==> attempts[j] == []
    decreases |attempts|
  {
    if attempts != [] && attempts[0] == [] {
      var rest := attempts[1..];
      FirstNonEmptyCorrect(rest);
      assert forall k :: 1 <= k < |attempts| ==> attempts[k] == rest[k - 1];
      if FirstNonEmpty(rest) != [] {
        var k :| 0 <= k < |rest| && FirstNonEmpty(rest) == rest[k] && forall j :: 0 <= j < k ==> rest[j] == [];
        assert FirstNonEmpty(attempts) == attempts[k + 1];
        assert forall j :: 0 <= j < k + 1 ==> attempts[j] == [] by {
          forall j | 0 <= j < k + 1 ensures attempts[j] == [] {
            if j > 0 { assert attempts[j] == rest[j - 1]; }
          }
        }
      }
    }
  }

  lemma {:induction false} FirstNonEmptyAppend(xs: seq<seq<string>>, ys: seq<seq<string>>)
    ensures FirstNonEmpty(xs + ys) == if FirstNonEmpty(xs) != [] then FirstNonEmpty(xs) else FirstNonEmpty(ys)
    decreases |xs|
  {
    if xs == [] {
      assert xs + ys == ys;
    } else {
      assert (xs + ys)[0] == xs[0] && (xs + ys)[1..] == xs[1..] + ys;
      FirstNonEmptyAppend(xs[1..], ys);
    }
  }

  // ---------------------------------------------------------------------
  // Ids in hrefs

  /** `parts.index(seg)`, if `seg` is one of the parts. */
  function IndexOfPart(parts: seq<string>, seg: string): (r: Option<nat>)
    ensures r.Some? ==> r.value < |parts| && parts[r.value] == seg && forall k :: 0 <= k < r.value ==> parts[k] != seg
    ensures r.None? <==> seg !in parts
    decreases |parts|
  {
    if parts == [] then None
    else if parts[0] == seg then Some(0)
    else
      var r := IndexOfPart(parts[1..], seg);
      assert forall k :: 1 <= k < |parts| ==> parts[k] == parts[1..][k - 1];
      if r.None? then None else Some(r.value + 1)
  }

  /** `s.split(sep)[0]` */
  function Before(s: string, sep: string): string
    requires |sep| > 0
  {
    SplitOn(s, sep)[0]
  }

  /** What comes before the first occurrence of a one-character separator:
      all of `s` when it has none. */
  lemma BeforeFirst(s: string, c: char)
    ensures c !in s ==> Before(s, [c]) == s
    ensures forall i :: 0 <= i < |s| && s[i] == c && c !in s[..i] ==> Before(s, [c]) == s[..i]
  {
    forall k ensures OccursAt(s, [c], k) <==> 0 <= k < |s| && s[k] == c {
      if 0 <= k < |s| { assert s[k..k + 1] == [s[k]]; }
    }
    forall i | 0 <= i < |s| && s[i] == c && c !in s[..i] ensures Before(s, [c]) == s[..i] {
      assert forall k :: 0 <= k < i ==> s[..i][k] == s[k];
    }
  }

  lemma BeforeHasNo(s: string, c: char)
    ensures c !in Before(s, [c]) && Before(s, [c]) == s[..|Before(s, [c])|]
    ensures |Before(s, [c])| == |s| || s[|Before(s, [c])|] == c
  {
    var r := SplitOn(s, [c]);
    if |r| == 1 {
      assert Join(r, [c]) == r[0];
    } else {
      assert Join(r, [c]) == r[0] + [c] + Join(r[1..], [c]);
    }
    forall k | 0 <= k < |r[0]| ensures r[0][k] != c {
      assert !OccursAt(r[0], [c], k);
      assert r[0][k..k + 1] == [r[0][k]];
    }
  }

  /** The id in an href: the part after the first part that is exactly
      `instrumento`, cut at `?` and then at `#`. */
  function HrefId(href: string): Option<string> {
    var parts := SplitOn(href, "/");
    match IndexOfPart(parts, "instrumento")
    case None => None
    case Some(idx) => if idx + 1 < |parts| then Some(Before(Before(parts[idx + 1], "?"), "#")) else None
  }

  /** Cutting at `?` and then at `#` leaves a prefix with neither. */
  lemma CutClean(p: string)
    ensures var id := Before(Before(p, "?"), "#");
      id == p[..|id|] && '?' !in id && '#' !in id
  {
    var q := Before(p, "?");
    BeforeHasNo(p, '?');
    BeforeHasNo(q, '#');
    var id := Before(q, "#");
    assert id == q[..|id|];
    assert forall j :: 0 <= j < |id| ==> id[j] == q[j];
  }

  /** No part of a string split at `/` holds a `/`. */
  lemma PartNoSlash(s: string, k: nat)
    requires k < |SplitOn(s, "/")|
    ensures '/' !in SplitOn(s, "/")[k]
  {
    var p := SplitOn(s, "/")[k];
    forall j | 0 <= j < |p| ensures p[j] != '/' {
      assert !OccursAt(p, "/", j);
      assert p[j..j + 1] == [p[j]];
    }
  }

  /** An id comes from the part after the first `instrumento` part, a
      prefix of it without `/`, `?` or `#`. */
  lemma HrefIdCorrect(href: string)
    ensures HrefId(href).Some? ==> '/' !in HrefId(href).value && '?' !in HrefId(href).value && '#' !in HrefId(href).value
    ensures HrefId(href).Some? ==>
      exists k :: 0 <= k < |SplitOn(href, "/")| - 1 && SplitOn(href, "/")[k] == "instrumento" && "instrumento" !in SplitOn(href, "/")[..k]
        && HrefId(href).value == SplitOn(href, "/")[k + 1][..|HrefId(href).value|]
  {
    var parts := SplitOn(href, "/");
    var idx := IndexOfPart(parts, "instrumento");
    if idx.Some? && idx.value + 1 < |parts| {
      var k := idx.value;
      var p := parts[k + 1];
      var id := Before(Before(p, "?"), "#");
      assert HrefId(href) == Some(id);
      CutClean(p);
      PartNoSlash(href, k + 1);
      assert forall j :: 0 <= j < |id| ==> id[j] == p[j];
      assert "instrumento" !in parts[..k] by {
        forall j | 0 <= j < k ensures parts[..k][j] != "instrumento" { assert parts[..k][j] == parts[j]; }
      }
    }
  }

  /** Splitting at a character that none of the pieces holds gives the
      pieces back. */
  lemma {:induction false} SplitJoin(ps: seq<string>, c: char)
    requires |ps| >= 1
    requires forall i :: 0 <= i < |ps| ==> c !in ps[i]
    ensures SplitOn(Join(ps, [c]), [c]) == ps
    decreases |ps|
  {
    var s := Join(ps, [c]);
    forall k ensures OccursAt(s, [c], k) <==> 0 <= k < |s| && s[k] == c {
      if 0 <= k < |s| { assert s[k..k + 1] == [s[k]]; }
    }
    if |ps| == 1 {
      assert c !in s;
    } else {
      var p := ps[0];
      var rest := Join(ps[1..], [c]);
      assert s == p + [c] + rest;
      assert s[|p|] == c;
      assert forall k :: 0 <= k < |p| ==> s[k] == p[k];
      var i := IndexOf(s, [c]);
      assert i == Some(|p|);
      assert s[|p| + 1..] == rest;
      SplitJoin(ps[1..], c);
    }
  }

  /** The part before the first `c`, found at `i`. */
  lemma BeforeAt(s: string, c: char, i: nat)
    requires i <= |s| && c !in s[..i] && (i == |s| || s[i] == c)
    ensures Before(s, [c]) == s[..i]
  {
    BeforeHasNo(s, c);
  }

  /** An id followed by nothing, a query or a fragment is cut back to the
      id. */
  lemma CutId(id: string, tail: string)
    requires '?' !in id && '#' !in id
    requires tail == "" || tail[0] == '?' || tail[0] == '#'
    ensures Before(Before(id + tail, "?"), "#") == id
  {
    var p := id + tail;
    assert p[..|id|] == id;
    if tail == "" {
      assert p == id;
      BeforeAt(id, '?', |id|);
      BeforeAt(id, '#', |id|);
    } else if tail[0] == '?' {
      BeforeAt(p, '?', |id|);
      BeforeAt(id, '#', |id|);
    } else {
      var q := Before(p, "?");
      BeforeHasNo(p, '?');
      assert |q| > |id|;
      assert q[..|id|] == id && q[|id|] == '#';
      BeforeAt(q, '#', |id|);
    }
  }

  /** `seg` is found right after a prefix that does not hold it. */
  lemma IndexAfter(prefix: seq<string>, seg: string, rest: seq<string>)
    requires seg !in prefix
    ensures IndexOfPart(prefix + [seg] + rest, seg) == Some(|prefix|)
  {
    var ps := prefix + [seg] + rest;
    assert ps[|prefix|] == seg;
    assert forall k :: 0 <= k < |prefix| ==> ps[k] == prefix[k];
  }

  lemma SlashFree(prefix: seq<string>, last: string)
    requires forall i :: 0 <= i < |prefix| ==> '/' !in prefix[i]
    requires '/' !in last
    ensures forall i :: 0 <= i < |prefix + ["instrumento", last]| ==> '/' !in (prefix + ["instrumento", last])[i]
  {
    var ps := prefix + ["instrumento", last];
    forall i | 0 <= i < |ps| ensures '/' !in ps[i] {
      if i < |prefix| { assert ps[i] == prefix[i]; }
      else if i == |prefix| { assert ps[i] == "instrumento"; }
      else { assert ps[i] == last; }
    }
  }

  /** The parts of an href made of `prefix`, `instrumento` and a last part:
      `instrumento` is found right after the prefix. */
  lemma InstrumentoAfter(prefix: seq<string>, last: string)
    requires forall i :: 0 <= i < |prefix| ==> '/' !in prefix[i] && prefix[i] != "instrumento"
    requires '/' !in last
    ensures var parts := SplitOn(Join(prefix + ["instrumento", last], "/"), "/");
      |parts| == |prefix| + 2 && IndexOfPart(parts, "instrumento") == Some(|prefix|) && parts[|prefix| + 1] == last
  {
    var ps := prefix + ["instrumento", last];
    SlashFree(prefix, last);
    SplitJoin(ps, '/');
    assert "instrumento" !in prefix;
    assert ps == prefix + ["instrumento"] + [last];
    IndexAfter(prefix, "instrumento", [last]);
  }

  /** The href of an instrument page gives its id back: parts without `/`,
      none of them `instrumento`, then `instrumento`, then the id, and
      after the id only a query or a fragment. */
  lemma HrefIdRoundTrip(prefix: seq<string>, id: string, tail: string)
    requires forall i :: 0 <= i < |prefix| ==> '/' !in prefix[i] && prefix[i] != "instrumento"
    requires '/' !in id && '?' !in id && '#' !in id
    requires '/' !in tail && (tail == "" || tail[0] == '?' || tail[0] == '#')
    ensures HrefId(Join(prefix + ["instrumento", id + tail], "/")) == Some(id)
  {
    assert '/' !in id + tail;
    InstrumentoAfter(prefix, id + tail);
    CutId(id, tail);
  }

  // ---------------------------------------------------------------------
  // Strategy 1: the JSON API

  datatype ApiItem = DictItem(id: Option<string>) | StrItem(s: string) | OtherItem

  /** A decoded body: a list, a dict with `results`, or anything else. */
  datatype ApiData = ListData(items: seq<ApiItem>) | ResultsData(items: seq<ApiItem>) | OtherData

  /** `str(item['id'])` of a dict with an id; a string item itself, but only
      in a list body. */
  function ItemIds(items: seq<ApiItem>, stringsCount: bool): seq<string>
    decreases |items|
  {
    if items == [] then []
    else
      var item := items[|items| - 1];
      ItemIds(items[..|items| - 1], stringsCount)
        + (match item
           case DictItem(Some(id)) => [id]
           case StrItem(s) => if stringsCount then [s] else []
           case _ => [])
  }

  function ApiIds(data: ApiData): seq<string> {
    match data
    case ListData(items) => ItemIds(items, true)
    case ResultsData(items) => ItemIds(items, false)
    case OtherData => []
  }

  function ApiUrls(baseUrl: string): seq<string> {
    [baseUrl + "/api/instrumentos", baseUrl + "/api/convencoes", baseUrl + "/api/v1/instrumentos"]
  }

  /** What each API URL gives; a URL not answering 200 with JSON gives
      nothing. */
  function ApiAttempts(api: string -> Option<ApiData>, urls: seq<string>): (r: seq<seq<string>>)
    ensures |r| == |urls|
  {
    seq(|urls|, k requires 0 <= k < |urls| => if api(urls[k]).Some? then ApiIds(api(urls[k]).value) else [])
  }

  /** The items of one decoded body appended to the (empty) id list. */
  method ApiIdsOf(data: ApiData) returns (ids: seq<string>)
    ensures ids == ApiIds(data)
  {
    ids := [];
    if data.OtherData? {
      return;
    }
    var items := data.items;
    var i := 0;
    while i < |items|
      invariant 0 <= i <= |items|
      invariant ids == ItemIds(items[..i], data.ListData?)
    {
      var item := items[i];
      assert items[..i + 1][..i] == items[..i];
      match item {
        case DictItem(id) =>
          if id.Some? {
            ids := ids + [id.value];
          }
        case StrItem(s) =>
          if data.ListData? {
            ids := ids + [s];
          }
        case OtherItem =>
      }
      i := i + 1;
    }
    assert items[..i] == items;
  }

  /** Strategy 1: the ids of the first API URL that gives any. */
  method ApiStrategy(api: string -> Option<ApiData>, urls: seq<string>) returns (ids: seq<string>)
    ensures ids == FirstNonEmpty(ApiAttempts(api, urls))
  {
    ghost var attempts := ApiAttempts(api, urls);
    ids := [];
    var i := 0;
    while i < |urls|
      invariant 0 <= i <= |urls|
      invariant ids == [] && FirstNonEmpty(attempts[i..]) == FirstNonEmpty(attempts)
    {
      assert attempts[i..][0] == attempts[i] && attempts[i..][1..] == attempts[i + 1..];
      var data := api(urls[i]);
      if data.Some? {
        ids := ApiIdsOf(data.value);
        if ids != [] {
          return;
        }
      }
      i := i + 1;
    }
  }

  // ---------------------------------------------------------------------
  // Strategy 2: the browser

  /** One `get_attribute` call: the value it returns (`None` for an absent
      attribute), or a raise. */
  datatype Attribute = Value(value: Option<string>) | Raises

  /** An element a selector finds: its `href` and `data-instrumento-id`
      attributes, read in that order. */
  datatype WebElement = WebElement(href: Attribute, dataId: Attribute)

  /** The browser: whether it starts, which URLs load, and what
      `find_elements` gives for a selector on a loaded URL (the elements,
      or nothing when it raises). */
  datatype Browser = Browser(starts: bool, loads: string -> bool, find: (string, string) -> Option<seq<WebElement>>)

  function BrowserUrls(baseUrl: string): seq<string> {
    [baseUrl + "/busca", baseUrl + "/pesquisa", baseUrl + "/instrumentos", baseUrl + "/convencoes"]
  }

  const BrowserSelectors: seq<string> := [
    "a[href*='/instrumento/']", "a[href*='instrumento']", ".instrumento-link", ".convencao-link", "[data-instrumento-id]"]

  /** The id an `href` contributes ("" for none). */
  function HrefCandidate(href: Option<string>): string {
    if Truthy(href) then HrefId(href.value).GetOr("") else ""
  }

  /** The candidates the reads of one element give, one per read, up to
      the first that raises ("" where a read gives no id). */
  function ElementRead(e: WebElement): seq<string> {
    match e.href
    case Raises => []
    case Value(href) => [HrefCandidate(href)] + (if e.dataId.Raises? then [] else [e.dataId.value.GetOr("")])
  }

  /** One of the element's attribute reads raises. */
  predicate ElementRaises(e: WebElement) {
    e.href.Raises? || e.dataId.Raises?
  }

  /** The candidates the reads of the elements from the `i`-th on give,
      element after element, up to the first read that raises. */
  function ReadsFrom(elements: seq<WebElement>, i: nat): seq<string>
    decreases |elements| - i
  {
    if i >= |elements| then []
    else ElementRead(elements[i]) + (if ElementRaises(elements[i]) then [] else ReadsFrom(elements, i + 1))
  }

  /** One of the attribute reads from the `i`-th element on raises. */
  predicate RaisesFrom(elements: seq<WebElement>, i: nat)
    decreases |elements| - i
  {
    i < |elements| && (ElementRaises(elements[i]) || RaisesFrom(elements, i + 1))
  }

  /** The candidates one selector reads before it ends or raises. */
  function SelectorReads(found: Option<seq<WebElement>>): seq<string> {
    if found.Some? then ReadsFrom(found.value, 0) else []
  }

  /** `find_elements` or one of the attribute reads raises. */
  predicate SelectorRaises(found: Option<seq<WebElement>>) {
    found.None? || RaisesFrom(found.value, 0)
  }

  /** The selector loop on a loaded URL, after the candidates `done`: the
      candidates read when it ends. A selector that raises keeps what it
      read and hands on to the next one (`except: continue`); one that does
      not ends the loop once an id has been collected. Nothing read is
      dropped. */
  function SelectorsRun(b: Browser, url: string, selectors: seq<string>, done: seq<string>): (r: seq<string>)
    ensures done <= r
    decreases |selectors|
  {
    if selectors == [] then done
    else
      var found := b.find(url, selectors[0]);
      var read := done + SelectorReads(found);
      if !SelectorRaises(found) && Gather(read) != [] then read
      else SelectorsRun(b, url, selectors[1..], read)
  }

  /** The URL loop: a URL that does not load is skipped; after one that
      does, the loop ends once an id has been collected. Nothing read is
      dropped. */
  function BrowserRun(b: Browser, urls: seq<string>, selectors: seq<string>, done: seq<string>): (r: seq<string>)
    ensures done <= r
    decreases |urls|
  {
    if urls == [] then done
    else if !b.loads(urls[0]) then BrowserRun(b, urls[1..], selectors, done)
    else
      var read := SelectorsRun(b, urls[0], selectors, done);
      if Gather(read) != [] then read else BrowserRun(b, urls[1..], selectors, read)
  }

  lemma GatherSnoc(done: seq<string>, x: string)
    ensures Gather(done + [x]) == AddNew(Gather(done), x)
  {
    assert (done + [x])[..|done|] == done;
  }

  /** One element's ids appended to `ids`: its `href`, then its data
      attribute, stopping at a read that raises. */
  method ReadElement(ids: seq<string>, element: WebElement, ghost read: seq<string>) returns (ids': seq<string>, raised: bool)
    requires ids == Gather(read)
    ensures ids' == Gather(read + ElementRead(element))
    ensures raised == ElementRaises(element)
  {
    ids' := ids;
    match element.href {
      case Raises =>
        assert read + [] == read;
        return ids', true;
      case Value(href) =>
        var hrefId := HrefCandidate(href);
        GatherSnoc(read, hrefId);
        if hrefId != "" && hrefId !in ids' {
          ids' := ids' + [hrefId];
        }
        match element.dataId {
          case Raises =>
            assert [hrefId] + [] == [hrefId];
            return ids', true;
          case Value(dataId) =>
            GatherSnoc(read + [hrefId], dataId.GetOr(""));
            if Truthy(dataId) && dataId.value !in ids' {
              ids' := ids' + [dataId.value];
            }
            assert read + ([hrefId] + [dataId.GetOr("")]) == read + [hrefId] + [dataId.GetOr("")];
            raised := false;
        }
    }
  }

  /** One turn of the element loop: when the reads so far and those from
      element `i` on make up all the reads, so do the reads up to element
      `i` and those after it, unless element `i` raises, which ends the
      reads. */
  lemma ReadsNext(done: seq<string>, elements: seq<WebElement>, i: nat, read: seq<string>)
    requires i < |elements|
    requires done + ReadsFrom(elements, 0) == read + ReadsFrom(elements, i)
    requires RaisesFrom(elements, 0) == RaisesFrom(elements, i)
    ensures ElementRaises(elements[i]) ==> done + ReadsFrom(elements, 0) == read + ElementRead(elements[i]) && RaisesFrom(elements, 0)
    ensures !ElementRaises(elements[i]) ==>
      done + ReadsFrom(elements, 0) == (read + ElementRead(elements[i])) + ReadsFrom(elements, i + 1)
      && RaisesFrom(elements, 0) == RaisesFrom(elements, i + 1)
  {
    var here := ElementRead(elements[i]);
    if ElementRaises(elements[i]) {
      assert ReadsFrom(elements, i) == here + [];
      assert here + [] == here;
    } else {
      var rest := ReadsFrom(elements, i + 1);
      assert ReadsFrom(elements, i) == here + rest;
      assert read + (here + rest) == (read + here) + rest;
    }
  }

  /** The elements of one selector, their ids appended to `ids`, up to the
      first attribute read that raises; `raised` says whether one did. */
  method ReadElements(ids: seq<string>, elements: seq<WebElement>, ghost done: seq<string>) returns (ids': seq<string>, raised: bool)
    requires ids == Gather(done)
    ensures ids' == Gather(done + ReadsFrom(elements, 0))
    ensures raised == RaisesFrom(elements, 0)
  {
    ids' := ids;
    ghost var read := done;
    var i := 0;
    while i < |elements|
      invariant 0 <= i <= |elements|
      invariant ids' == Gather(read)
      invariant done + ReadsFrom(elements, 0) == read + ReadsFrom(elements, i)
      invariant RaisesFrom(elements, 0) == RaisesFrom(elements, i)
    {
      ReadsNext(done, elements, i, read);
      ids', raised := ReadElement(ids', elements[i], read);
      if raised {
        return;
      }
      read := read + ElementRead(elements[i]);
      i := i + 1;
    }
    assert read + [] == read;
    raised := false;
  }

  /** One selector on a loaded URL, its ids appended to `ids`; `raised`
      says whether `find_elements` or a read raised. */
  method TrySelector(b: Browser, url: string, selector: string, ids: seq<string>, ghost read: seq<string>)
    returns (ids': seq<string>, raised: bool)
    requires ids == Gather(read)
    ensures ids' == Gather(read + SelectorReads(b.find(url, selector)))
    ensures raised == SelectorRaises(b.find(url, selector))
  {
    var found := b.find(url, selector);
    if found.Some? {
      ids', raised := ReadElements(ids, found.value, read);
    } else {
      assert read + [] == read;
      ids', raised := ids, true;
    }
  }

  /** One turn of the selector loop, after `read`. */
  lemma SelectorsStep(b: Browser, url: string, selectors: seq<string>, j: nat, read: seq<string>)
    requires j < |selectors|
    ensures var found := b.find(url, selectors[j]);
      SelectorsRun(b, url, selectors[j..], read)
      == if !SelectorRaises(found) && Gather(read + SelectorReads(found)) != [] then read + SelectorReads(found)
         else SelectorsRun(b, url, selectors[j + 1..], read + SelectorReads(found))
  {
    assert selectors[j..][0] == selectors[j] && selectors[j..][1..] == selectors[j + 1..];
  }

  /** The selector loop on a loaded URL, its ids appended to `ids`:
      `read` is what it read, as `SelectorsRun` says. */
  method TrySelectors(b: Browser, url: string, selectors: seq<string>, ids: seq<string>, ghost done: seq<string>)
    returns (ids': seq<string>, ghost read: seq<string>)
    requires ids == Gather(done)
    ensures read == SelectorsRun(b, url, selectors, done)
    ensures ids' == Gather(SelectorsRun(b, url, selectors, done))
  {
    ids' := ids;
    read := done;
    assert selectors[0..] == selectors;
    var j := 0;
    while j < |selectors|
      invariant 0 <= j <= |selectors|
      invariant ids' == Gather(read) && SelectorsRun(b, url, selectors[j..], read) == SelectorsRun(b, url, selectors, done)
    {
      SelectorsStep(b, url, selectors, j, read);
      var raised;
      ids', raised := TrySelector(b, url, selectors[j], ids', read);
      read := read + SelectorReads(b.find(url, selectors[j]));
      if !raised && ids' != [] {
        return;
      }
      j := j + 1;
    }
  }

  /** Strategy 2: the ids read on the loaded URLs, selector after selector,
      until a selector that does not raise leaves some collected; nothing
      when the browser does not start. */
  method BrowserStrategy(b: Browser, urls: seq<string>, selectors: seq<string>) returns (ids: seq<string>)
    ensures ids == if b.starts then Gather(BrowserRun(b, urls, selectors, [])) else []
  {
    ids := [];
    if !b.starts {
      return;
    }
    ghost var goal := BrowserRun(b, urls, selectors, []);
    ghost var done: seq<string> := [];
    var i := 0;
    while i < |urls|
      invariant 0 <= i <= |urls|
      invariant ids == Gather(done) && BrowserRun(b, urls[i..], selectors, done) == goal
    {
      var url := urls[i];
      assert urls[i..][0] == url && urls[i..][1..] == urls[i + 1..];
      if b.loads(url) {
        ids, done := TrySelectors(b, url, selectors, ids, done);
        if ids != [] {
          return;
        }
      }
      i := i + 1;
    }
  }

  /** The attempts without raises: what each selector gives on each loaded
      URL, in the order they are tried. */
  function SelectorAttempts(b: Browser, url: string, selectors: seq<string>): (r: seq<seq<string>>)
    ensures |r| == |selectors|
  {
    seq(|selectors|, k requires 0 <= k < |selectors| => Gather(SelectorReads(b.find(url, selectors[k]))))
  }

  function BrowserAttempts(b: Browser, urls: seq<string>, selectors: seq<string>): seq<seq<string>>
    decreases |urls|
  {
    if urls == [] then []
    else (if b.loads(urls[0]) then SelectorAttempts(b, urls[0], selectors) else []) + BrowserAttempts(b, urls[1..], selectors)
  }

  /** No `find_elements` and no attribute read raises. */
  predicate NoneRaise(b: Browser, urls: seq<string>, selectors: seq<string>) {
    forall i, k :: 0 <= i < |urls| && 0 <= k < |selectors| ==> !SelectorRaises(b.find(urls[i], selectors[k]))
  }

  /** Candidates read after blank ones collect what they collect alone. */
  lemma {:induction false} GatherAfterBlank(done: seq<string>, xs: seq<string>)
    requires Gather(done) == []
    ensures Gather(done + xs) == Gather(xs)
    decreases |xs|
  {
    if xs == [] {
      assert done + xs == done;
    } else {
      var init := xs[..|xs| - 1];
      GatherAfterBlank(done, init);
      assert (done + xs)[..|done + xs| - 1] == done + init;
    }
  }

  /** Without raises, the selector loop collects the ids of the first
      selector that gives any. */
  lemma {:induction false} SelectorsRunNoRaise(b: Browser, url: string, selectors: seq<string>, done: seq<string>)
    requires Gather(done) == []
    requires forall k :: 0 <= k < |selectors| ==> !SelectorRaises(b.find(url, selectors[k]))
    ensures Gather(SelectorsRun(b, url, selectors, done)) == FirstNonEmpty(SelectorAttempts(b, url, selectors))
    decreases |selectors|
  {
    if selectors != [] {
      var found := b.find(url, selectors[0]);
      var read := done + SelectorReads(found);
      GatherAfterBlank(done, SelectorReads(found));
      var attempts := SelectorAttempts(b, url, selectors);
      assert attempts[0] == Gather(read);
      if Gather(read) == [] {
        assert attempts[1..] == SelectorAttempts(b, url, selectors[1..]);
        assert forall k :: 0 <= k < |selectors[1..]| ==> selectors[1..][k] == selectors[k + 1];
        SelectorsRunNoRaise(b, url, selectors[1..], read);
      }
    }
  }

  /** Without raises, the browser collects the ids of the first URL and
      selector pair that gives any: the URL loop and the selector loop
      each stop at their first hit. */
  lemma {:induction false} BrowserRunNoRaise(b: Browser, urls: seq<string>, selectors: seq<string>, done: seq<string>)
    requires Gather(done) == []
    requires NoneRaise(b, urls, selectors)
    ensures Gather(BrowserRun(b, urls, selectors, done)) == FirstNonEmpty(BrowserAttempts(b, urls, selectors))
    decreases |urls|
  {
    if urls != [] {
      var head := if b.loads(urls[0]) then SelectorAttempts(b, urls[0], selectors) else [];
      var rest := BrowserAttempts(b, urls[1..], selectors);
      FirstNonEmptyAppend(head, rest);
      assert NoneRaise(b, urls[1..], selectors) by {
        forall i, k | 0 <= i < |urls[1..]| && 0 <= k < |selectors|
          ensures !SelectorRaises(b.find(urls[1..][i], selectors[k]))
        {
          assert urls[1..][i] == urls[i + 1];
        }
      }
      if !b.loads(urls[0]) {
        BrowserRunNoRaise(b, urls[1..], selectors, done);
      } else {
        var read := SelectorsRun(b, urls[0], selectors, done);
        assert forall k :: 0 <= k < |selectors| ==> !SelectorRaises(b.find(urls[0], selectors[k]));
        SelectorsRunNoRaise(b, urls[0], selectors, done);
        if Gather(read) == [] {
          BrowserRunNoRaise(b, urls[1..], selectors, read);
        }
      }
    }
  }

  lemma GatherBlankPairs(x: string, y: string)
    requires x != "" && y != "" && x != y
    ensures Gather(["", x] + ["", y]) == [x, y]
  {
    assert ["", x] + ["", y] == ["", x, ""] + [y];
    assert Gather([""]) == [] by {
      assert [""][..0] == [];
    }
    assert [""] + [x] == ["", x];
    GatherSnoc([""], x);
    assert ["", x] + [""] == ["", x, ""];
    GatherSnoc(["", x], "");
    GatherSnoc(["", x, ""], y);
  }

  /** A selector that raises after some reads keeps the ids it read, and
      the next selector adds its own: reads of `x` then a raise, then a
      selector reading `y`, collect both. */
  lemma RaiseKeepsEarlierIds(b: Browser, url: string, s1: string, s2: string, x: string, y: string)
    requires b.loads(url)
    requires b.find(url, s1) == Some([WebElement(Value(None), Value(Some(x))), WebElement(Raises, Raises)])
    requires b.find(url, s2) == Some([WebElement(Value(None), Value(Some(y)))])
    requires x != "" && y != "" && x != y
    ensures Gather(BrowserRun(b, [url], [s1, s2], [])) == [x, y]
  {
    var first := [WebElement(Value(None), Value(Some(x))), WebElement(Raises, Raises)];
    assert ReadsFrom(first, 1) == [];
    assert ReadsFrom(first, 0) == ["", x];
    assert RaisesFrom(first, 0);
    var second := [WebElement(Value(None), Value(Some(y)))];
    assert ReadsFrom(second, 0) == ["", y];
    assert !RaisesFrom(second, 0);
    var read := ["", x] + ["", y];
    GatherBlankPairs(x, y);
    assert [s1, s2][1..] == [s2];
    assert SelectorsRun(b, url, [s2], [] + ["", x]) == read;
  }

  // ---------------------------------------------------------------------
  // Strategy 3: plain HTML pages

  /** A page as the strategy reads it: the `href` of every link, the
      `data-id` of every element with one, and the numbers the two script
      patterns match. */
  datatype HtmlPage = HtmlPage(hrefs: seq<string>, dataIds: seq<string>, scriptMatches: seq<string>)

  function PageUrls(baseUrl: string): seq<string> {
    [baseUrl + "/busca", baseUrl + "/pesquisa", baseUrl + "/instrumentos", baseUrl + "/convencoes", baseUrl + "/"]
  }

  /** `'/instrumento/' in href or 'instrumento' in href.lower()` */
  predicate MentionsInstrumento(href: string) {
    Contains(href, "/instrumento/") || Contains(Lower(href), "instrumento")
  }

  /** The id a link contributes ("" for none). */
  function LinkCandidate(href: string): string {
    if MentionsInstrumento(href) then HrefId(href).GetOr("") else ""
  }

  function LinkCandidates(hrefs: seq<string>): (r: seq<string>)
    ensures |r| == |hrefs| && forall k :: 0 <= k < |hrefs| ==> r[k] == LinkCandidate(hrefs[k])
  {
    seq(|hrefs|, k requires 0 <= k < |hrefs| => LinkCandidate(hrefs[k]))
  }

  function PageCandidates(page: HtmlPage): seq<string> {
    LinkCandidates(page.hrefs) + page.dataIds + page.scriptMatches
  }

  /** What each URL answering 200 gives. */
  function PageAttempts(pages: string -> Option<HtmlPage>, urls: seq<string>): (r: seq<seq<string>>)
    ensures |r| == |urls|
  {
    seq(|urls|, k requires 0 <= k < |urls| => if pages(urls[k]).Some? then Gather(PageCandidates(pages(urls[k]).value)) else [])
  }

  /** `if x and x not in ids: ids.append(x)` over `xs`, after `done`. */
  method AddEach(ids: seq<string>, xs: seq<string>, ghost done: seq<string>) returns (ids': seq<string>)
    requires ids == Gather(done)
    ensures ids' == Gather(done + xs)
  {
    ids' := ids;
    var i := 0;
    assert done + xs[..0] == done;
    while i < |xs|
      invariant 0 <= i <= |xs|
      invariant ids' == Gather(done + xs[..i])
    {
      assert (done + xs[..i + 1])[..|done| + i] == done + xs[..i];
      assert (done + xs[..i + 1])[|done| + i] == xs[i];
      var x := xs[i];
      if x != "" && x !in ids' {
        ids' := ids' + [x];
      }
      i := i + 1;
    }
    assert xs[..i] == xs;
  }

  /** The links, then the data attributes, then the script matches of one
      page, appended to the (empty) list. */
  method GatherPage(page: HtmlPage) returns (ids: seq<string>)
    ensures ids == Gather(PageCandidates(page))
  {
    ids := [];
    var i := 0;
    while i < |page.hrefs|
      invariant 0 <= i <= |page.hrefs|
      invariant ids == Gather(LinkCandidates(page.hrefs[..i]))
    {
      var href := page.hrefs[i];
      ghost var cands := LinkCandidates(page.hrefs[..i + 1]);
      assert cands[..i] == LinkCandidates(page.hrefs[..i]) && cands[i] == LinkCandidate(href);
      if MentionsInstrumento(href) {
        var instrumentoId := HrefId(href);
        if instrumentoId.Some? && instrumentoId.value != "" && instrumentoId.value !in ids {
          ids := ids + [instrumentoId.value];
        }
      }
      i := i + 1;
    }
    assert page.hrefs[..i] == page.hrefs;
    ids := AddEach(ids, page.dataIds, LinkCandidates(page.hrefs));
    ids := AddEach(ids, page.scriptMatches, LinkCandidates(page.hrefs) + page.dataIds);
  }

  /** Strategy 3: the ids of the first page that gives any. */
  method PageStrategy(pages: string -> Option<HtmlPage>, urls: seq<string>) returns (ids: seq<string>)
    ensures ids == FirstNonEmpty(PageAttempts(pages, urls))
  {
    ghost var attempts := PageAttempts(pages, urls);
    ids := [];
    var i := 0;
    while i < |urls|
      invariant 0 <= i <= |urls|
      invariant ids == [] && FirstNonEmpty(attempts[i..]) == FirstNonEmpty(attempts)
    {
      assert attempts[i..][0] == attempts[i] && attempts[i..][1..] == attempts[i + 1..];
      var page := pages(urls[i]);
      if page.Some? {
        ids := GatherPage(page.value);
        if ids != [] {
          return;
        }
      }
      i := i + 1;
    }
  }

  // ---------------------------------------------------------------------
  // `extract_instrumento_ids`

  /** Everything the discovery can reach. */
  datatype Site = Site(api: string -> Option<ApiData>, browser: Browser, pages: string -> Option<HtmlPage>)

  function ApiFound(site: Site, baseUrl: string): seq<string> {
    FirstNonEmpty(ApiAttempts(site.api, ApiUrls(baseUrl)))
  }

  function BrowserFound(site: Site, baseUrl: string): seq<string> {
    if site.browser.starts then Gather(BrowserRun(site.browser, BrowserUrls(baseUrl), BrowserSelectors, [])) else []
  }

  function PagesFound(site: Site, baseUrl: string): seq<string> {
    FirstNonEmpty(PageAttempts(site.pages, PageUrls(baseUrl)))
  }

  /** The ids of the first strategy that finds any. */
  function Discovered(site: Site, baseUrl: string): seq<string> {
    if ApiFound(site, baseUrl) != [] then ApiFound(site, baseUrl)
    else if BrowserFound(site, baseUrl) != [] then BrowserFound(site, baseUrl)
    else PagesFound(site, baseUrl)
  }

  /** `extract_instrumento_ids`: each discovered id once. */
  method ExtractInstrumentoIds(site: Site, baseUrl: string) returns (r: seq<string>)
    ensures Unique(r)
    ensures forall x :: x in r <==> x in Discovered(site, baseUrl)
  {
    var ids := ApiStrategy(site.api, ApiUrls(baseUrl));
    if ids != [] {
      DedupCorrect(ids);
      return Dedup(ids);
    }
    ids := BrowserStrategy(site.browser, BrowserUrls(baseUrl), BrowserSelectors);
    if ids == [] {
      ids := PageStrategy(site.pages, PageUrls(baseUrl));
    }
    DedupCorrect(ids);
    r := Dedup(ids);
  }

  /** The pages give the ids of the first page that has any, every earlier
      page that answered having none, each id non-empty and once. */
  lemma PagesFoundCorrect(pages: string -> Option<HtmlPage>, urls: seq<string>)
    ensures Unique(FirstNonEmpty(PageAttempts(pages, urls))) && "" !in FirstNonEmpty(PageAttempts(pages, urls))
    ensures FirstNonEmpty(PageAttempts(pages, urls)) != [] ==>
      exists k :: 0 <= k < |urls| && pages(urls[k]).Some?
        && FirstNonEmpty(PageAttempts(pages, urls)) == Gather(PageCandidates(pages(urls[k]).value))
        && forall j :: 0 <= j < k ==> pages(urls[j]).None? || Gather(PageCandidates(pages(urls[j]).value)) == []
  {
    var pa := PageAttempts(pages, urls);
    FirstNonEmptyCorrect(pa);
    if FirstNonEmpty(pa) != [] {
      var k :| 0 <= k < |pa| && FirstNonEmpty(pa) == pa[k] && forall j :: 0 <= j < k ==> pa[j] == [];
      assert pages(urls[k]).Some? && pa[k] == Gather(PageCandidates(pages(urls[k]).value));
      GatherCorrect(PageCandidates(pages(urls[k]).value));
      forall j | 0 <= j < k ensures pages(urls[j]).None? || Gather(PageCandidates(pages(urls[j]).value)) == [] {
        assert pa[j] == [];
      }
    }
  }

  /** The browser and the pages are used only when the earlier strategies
      found nothing, and the ids they find are non-empty and distinct. */
  lemma DiscoveredCorrect(site: Site, baseUrl: string)
    ensures ApiFound(site, baseUrl) != [] ==> Discovered(site, baseUrl) == ApiFound(site, baseUrl)
    ensures ApiFound(site, baseUrl) == [] && BrowserFound(site, baseUrl) != [] ==> Discovered(site, baseUrl) == BrowserFound(site, baseUrl)
    ensures ApiFound(site, baseUrl) == [] && BrowserFound(site, baseUrl) == [] ==> Discovered(site, baseUrl) == PagesFound(site, baseUrl)
    ensures ApiFound(site, baseUrl) == [] ==> Unique(Discovered(site, baseUrl)) && "" !in Discovered(site, baseUrl)
  {
    if ApiFound(site, baseUrl) == [] {
      if BrowserFound(site, baseUrl) != [] {
        BrowserRunKeeps(site.browser, BrowserUrls(baseUrl), BrowserSelectors, []);
      } else {
        PagesFoundCorrect(site.pages, PageUrls(baseUrl));
      }
    }
  }

  /** The browser keeps every id it reads, those read before a raise
      included, each once and none empty. */
  lemma BrowserRunKeeps(b: Browser, urls: seq<string>, selectors: seq<string>, done: seq<string>)
    ensures Unique(Gather(BrowserRun(b, urls, selectors, done))) && "" !in Gather(BrowserRun(b, urls, selectors, done))
    ensures forall x :: x in done && x != "" ==> x in Gather(BrowserRun(b, urls, selectors, done))
  {
    var r := BrowserRun(b, urls, selectors, done);
    GatherCorrect(r);
    assert forall x :: x in done ==> x in r by {
      forall x | x in done ensures x in r {
        var k :| 0 <= k < |done| && done[k] == x;
        assert r[k] == x;
      }
    }
  }

  // ---------------------------------------------------------------------
  // `extract_metadados`

  /** What `soup.select_one(selector)` finds: its text, stripped, and its
      `href`. */
  datatype Found = Found(text: string, href: Option<string>)

  /** A detail page, by what each selector finds on it. */
  datatype DetailPage = DetailPage(selectOne: string -> Option<Found>)

  /** `_extract_text` */
  function TextAt(page: DetailPage, selector: string): Option<string> {
    match page.selectOne(selector)
    case None => None
    case Some(e) => Some(e.text)
  }

  /** `_extract_date`: a non-empty text parsed day first (`parseDate` gives
      the ISO date, or nothing where the parse fails). */
  function DateAt(page: DetailPage, selector: string, parseDate: string -> Option<string>): Option<string> {
    var text := TextAt(page, selector);
    if Truthy(text) then parseDate(text.value) else None
  }

  /** `_extract_link`: an href starting with `http` as it is, any other one
      after the base URL. */
  function LinkAt(page: DetailPage, selector: string, baseUrl: string): Option<string> {
    match page.selectOne(selector)
    case None => None
    case Some(e) =>
      if !Truthy(e.href) then None
      else if StartsWith(e.href.value, "http") then e.href
      else Some(baseUrl + e.href.value)
  }

  /** An absolute href is kept; a relative one is resolved against the base
      URL, which it then follows. */
  lemma LinkAtCorrect(page: DetailPage, selector: string, baseUrl: string)
    ensures var r := LinkAt(page, selector, baseUrl);
      var e := page.selectOne(selector);
      (r.Some? <==> e.Some? && Truthy(e.value.href))
      && (r.Some? && StartsWith(e.value.href.value, "http") ==> r == e.value.href)
      && (r.Some? && !StartsWith(e.value.href.value, "http") ==>
            StartsWith(r.value, baseUrl) && r.value[|baseUrl|..] == e.value.href.value)
  {
    var r := LinkAt(page, selector, baseUrl);
    if r.Some? && !StartsWith(page.selectOne(selector).value.href.value, "http") {
      assert r.value[..|baseUrl|] == baseUrl;
    }
  }

  /** `_extract_*_multiple`: the first selector whose probe gives a
      non-empty value. */
  function FirstHit(selectors: seq<string>, probe: string -> Option<string>): Option<string>
    decreases |selectors|
  {
    if selectors == [] then None
    else if Truthy(probe(selectors[0])) then probe(selectors[0])
    else FirstHit(selectors[1..], probe)
  }

  /** Nothing exactly when no selector gives a non-empty value; otherwise
      the value of the first one that does. */
  lemma {:induction false} FirstHitCorrect(selectors: seq<string>, probe: string -> Option<string>)
    ensures FirstHit(selectors, probe).None? <==> forall k :: 0 <= k < |selectors| ==> !Truthy(probe(selectors[k]))
    ensures FirstHit(selectors, probe).Some? ==>
      exists k :: 0 <= k < |selectors| && Truthy(probe(selectors[k])) && FirstHit(selectors, probe) == probe(selectors[k])
        && forall j :: 0 <= j < k ==> !Truthy(probe(selectors[j]))
    decreases |selectors|
  {
    if selectors != [] && !Truthy(probe(selectors[0])) {
      var rest := selectors[1..];
      FirstHitCorrect(rest, probe);
      assert forall k :: 1 <= k < |selectors| ==> selectors[k] == rest[k - 1];
      if FirstHit(rest, probe).Some? {
        var k :| 0 <= k < |rest| && Truthy(probe(rest[k])) && FirstHit(rest, probe) == probe(rest[k])
          && forall j :: 0 <= j < k ==> !Truthy(probe(rest[j]));
        assert selectors[k + 1] == rest[k];
        assert forall j :: 0 <= j < k + 1 ==> !Truthy(probe(selectors[j])) by {
          forall j | 0 <= j < k + 1 ensures !Truthy(probe(selectors[j])) {
            if j > 0 { assert selectors[j] == rest[j - 1]; }
          }
        }
      }
    }
  }

  function TextProbe(page: DetailPage): string -> Option<string> {
    s => TextAt(page, s)
  }

  function DateProbe(page: DetailPage, parseDate: string -> Option<string>): string -> Option<string> {
    s => DateAt(page, s, parseDate)
  }

  function LinkProbe(page: DetailPage, baseUrl: string): string -> Option<string> {
    s => LinkAt(page, s, baseUrl)
  }

  const TituloSelectors: seq<string> := ["h1.titulo", "h1", ".titulo", ".title", "[class*=\"titulo\"]", "[class*=\"title\"]"]
  const DataPublicacaoSelectors: seq<string> := [
    "span.data-publicacao", ".data-publicacao", "[class*=\"data-publicacao\"]", "span.data", ".data-publicacao", "time[datetime]"]
  const VigenciaInicioSelectors: seq<string> := [
    "span.vigencia-inicio", ".vigencia-inicio", "[class*=\"vigencia-inicio\"]", "span.vigencia", ".inicio"]
  const VigenciaFimSelectors: seq<string> := ["span.vigencia-fim", ".vigencia-fim", "[class*=\"vigencia-fim\"]", "span.fim", ".fim"]
  const EmpregadorSelectors: seq<string> := [
    "div.sindicato-empregador", ".sindicato-empregador", "[class*=\"sindicato-empregador\"]", "[class*=\"empregador\"]"]
  const TrabalhadorSelectors: seq<string> := [
    "div.sindicato-trabalhador", ".sindicato-trabalhador", "[class*=\"sindicato-trabalhador\"]", "[class*=\"trabalhador\"]"]
  const MunicipioSelectors: seq<string> := ["span.municipio", ".municipio", "[class*=\"municipio\"]", "span.cidade", ".cidade"]
  const UfSelectors: seq<string> := ["span.uf", ".uf", "[class*=\"uf\"]", "span.estado", ".estado"]
  const CnaeSelectors: seq<string> := ["span.cnae", ".cnae", "[class*=\"cnae\"]"]
  const DocumentoSelectors: seq<string> := ["a.download-documento", "a[href*=\".pdf\"]", "a[href*=\"download\"]", "a.baixar", ".download-link"]

  /** The metadata dictionary built from a detail page; it has no type. */
  function MetadataOf(page: DetailPage, id: string, baseUrl: string, parseDate: string -> Option<string>): Metadata {
    var titulo := FirstHit(TituloSelectors, TextProbe(page));
    Metadata(
      Some(if titulo.Some? then titulo.value else "Convenção " + id),
      None,
      FirstHit(DataPublicacaoSelectors, DateProbe(page, parseDate)),
      FirstHit(VigenciaInicioSelectors, DateProbe(page, parseDate)),
      FirstHit(VigenciaFimSelectors, DateProbe(page, parseDate)),
      FirstHit(EmpregadorSelectors, TextProbe(page)),
      FirstHit(TrabalhadorSelectors, TextProbe(page)),
      FirstHit(MunicipioSelectors, TextProbe(page)),
      FirstHit(UfSelectors, TextProbe(page)),
      FirstHit(CnaeSelectors, TextProbe(page)),
      FirstHit(DocumentoSelectors, LinkProbe(page, baseUrl)))
  }

  /** A title is always there and never empty: the first non-empty title on
      the page or the default naming the id; every other field present is
      non-empty; a document URL is absolute or follows the base URL. */
  lemma MetadataOfCorrect(page: DetailPage, id: string, baseUrl: string, parseDate: string -> Option<string>)
    ensures var m := MetadataOf(page, id, baseUrl, parseDate);
      Truthy(m.titulo) && m.tipo.None?
      && (m.titulo.value != "Convenção " + id ==> exists k :: 0 <= k < |TituloSelectors| && TextAt(page, TituloSelectors[k]) == m.titulo)
      && (m.municipio.Some? ==> m.municipio.value != "") && (m.uf.Some? ==> m.uf.value != "")
      && (m.cnae.Some? ==> m.cnae.value != "") && (m.dataPublicacao.Some? ==> m.dataPublicacao.value != "")
      && (m.documentoUrl.Some? ==> StartsWith(m.documentoUrl.value, "http") || StartsWith(m.documentoUrl.value, baseUrl))
  {
    FirstHitCorrect(TituloSelectors, TextProbe(page));
    FirstHitCorrect(MunicipioSelectors, TextProbe(page));
    FirstHitCorrect(UfSelectors, TextProbe(page));
    FirstHitCorrect(CnaeSelectors, TextProbe(page));
    FirstHitCorrect(DataPublicacaoSelectors, DateProbe(page, parseDate));
    FirstHitCorrect(DocumentoSelectors, LinkProbe(page, baseUrl));
    var m := MetadataOf(page, id, baseUrl, parseDate);
    if m.documentoUrl.Some? {
      var k :| 0 <= k < |DocumentoSelectors| && Truthy(LinkProbe(page, baseUrl)(DocumentoSelectors[k]))
        && m.documentoUrl == LinkProbe(page, baseUrl)(DocumentoSelectors[k]);
      LinkAtCorrect(page, DocumentoSelectors[k], baseUrl);
    }
  }

  function DetailUrls(baseUrl: string, id: string): seq<string> {
    [baseUrl + "/instrumento/" + id, baseUrl + "/convencao/" + id, baseUrl + "/detalhes/" + id]
  }

  /** `extract_metadados`: the metadata of the first detail URL answering
      200, or nothing when none does. */
  method ExtractMetadados(fetch: string -> Option<DetailPage>, id: string, baseUrl: string, parseDate: string -> Option<string>)
    returns (r: Option<Metadata>)
    ensures var urls := DetailUrls(baseUrl, id);
      (r.None? <==> forall k :: 0 <= k < 3 ==> fetch(urls[k]).None?)
      && (r.Some? ==>
            exists k :: 0 <= k < 3 && fetch(urls[k]).Some? && (forall j :: 0 <= j < k ==> fetch(urls[j]).None?) && r.value == MetadataOf(fetch(urls[k]).value, id, baseUrl, parseDate))
  {
    var urls := DetailUrls(baseUrl, id);
    var page: Option<DetailPage> := None;
    var i := 0;
    while i < |urls|
      invariant 0 <= i <= |urls|
      invariant forall j :: 0 <= j < i ==> fetch(urls[j]).None?
    {
      page := fetch(urls[i]);
      if page.Some? {
        return Some(MetadataOf(page.value, id, baseUrl, parseDate));
      }
      i := i + 1;
    }
    return None;
  }

  // ---------------------------------------------------------------------
  // `download_documento`

  /** The file extension the content type calls for; `.pdf` by default. */
  function ExtensionFor(contentType: Option<string>): string {
    var ct := Lower(contentType.GetOr(""));
    if Contains(ct, "pdf") then ".pdf"
    else if Contains(ct, "html") then ".html"
    else ".pdf"
  }

  function DownloadPath(id: string, ext: string): string {
    "temp_downloads/" + id + ext
  }

  /** `download_documento`: `fetch` gives the content type of a successful
      answer (`None` for a failed request or an error status, `Some(None)`
      without the header); `writeFails` says whether saving fails. */
  function Download(fetch: string -> Option<Option<string>>, writeFails: string -> bool, url: string, id: string): Option<(string, string)> {
    match fetch(url)
    case None => None
    case Some(contentType) =>
      var ext := ExtensionFor(contentType);
      if writeFails(DownloadPath(id, ext)) then None else Some((DownloadPath(id, ext), ext))
  }

  /** A download is saved as `temp_downloads/<id><ext>`; the extension is
      `.html` exactly when the content type mentions html but not pdf, and
      `.pdf` otherwise. */
  lemma DownloadCorrect(fetch: string -> Option<Option<string>>, writeFails: string -> bool, url: string, id: string)
    ensures var r := Download(fetch, writeFails, url, id);
      (r.Some? ==> fetch(url).Some?)
      && (r.Some? ==>
        var ct := Lower(fetch(url).value.GetOr(""));
        (r.value.1 == ".html" <==> !Contains(ct, "pdf") && Contains(ct, "html"))
        && (r.value.1 == ".pdf" <==> Contains(ct, "pdf") || !Contains(ct, "html"))
        && StartsWith(r.value.0, "temp_downloads/") && r.value.0 == "temp_downloads/" + id + r.value.1)
  {
    var r := Download(fetch, writeFails, url, id);
    if r.Some? {
      assert r.value.0[..|"temp_downloads/"|] == "temp_downloads/";
    }
  }
}

=== FILE: security.dfy ===
/** The 72-byte limit of bcrypt, as `backend/app/core/security.py` enforces
    it in `get_password_hash` and `verify_password`. bcrypt (with its salt)
    and the passlib fallback are parameters: a function from the bytes to
    the hash or the verdict, `None` where the library raises. */
module Security {
  import opened Common
  import opened Utf8

  const BcryptLimit: nat := 72

  /** `max_attempts` of the decoding loop. */
  const MaxAttempts: nat := 10

  /** The character counts of the fallback truncations. */
  const FallbackChars: nat := 50
  const ExtremeChars: nat := 25

  /** The password bcrypt is given: unchanged when its encoding fits in 72
      bytes, else its longest character prefix that fits. */
  function Truncated(password: string): string {
    if |Encode(password)| <= BcryptLimit then password else Truncate(password, BcryptLimit)
  }

  function BcryptInput(password: string): seq<byte> {
    Encode(Truncated(password))
  }

  /** What reaches bcrypt never exceeds 72 bytes, is the encoding of a
      character prefix of the password, is the whole password when that
      fits, and stops only where one more character would not fit. */
  lemma TruncatedIsLongestFittingPrefix(password: string)
    ensures |BcryptInput(password)| <= BcryptLimit
    ensures var t := Truncated(password); |t| <= |password| && password[..|t|] == t
    ensures |Encode(password)| <= BcryptLimit ==> Truncated(password) == password
    ensures var t := Truncated(password); |t| < |password| ==> |Encode(password[..|t| + 1])| > BcryptLimit
    ensures Decode(BcryptInput(password)) == Some(Truncated(password))
  {
    TruncateFits(password, BcryptLimit);
    DecodeEncode(Truncated(password));
  }

  /** Whatever follows the first 72 bytes is ignored: a password whose
      encoding is exactly 72 bytes long reaches bcrypt identically however
      it is extended. */
  lemma ExtensionIgnored(password: string, extra: string)
    requires |Encode(password)| == BcryptLimit
    ensures BcryptInput(password + extra) == BcryptInput(password)
  {
    if extra != [] {
      EncodeAppend(password, extra);
      CharsWithinFull(password, extra, BcryptLimit);
      assert (password + extra)[..|password|] == password;
    } else {
      assert password + extra == password;
    }
  }

  lemma {:induction false} CharsWithinFull(p: string, x: string, n: nat)
    requires |Encode(p)| == n
    ensures CharsWithin(p + x, n) == |p|
  {
    if p == [] {
      assert p + x == x;
    } else {
      assert (p + x)[0] == p[0] && (p + x)[1..] == p[1..] + x;
      CharsWithinFull(p[1..], x, n - Width(p[0]));
    }
  }

  /** The loop that drops trailing bytes of `password_bytes[:72]` until they
      decode, at most ten times. It always succeeds, after at most three
      drops, with the longest character prefix that fits. */
  method DecodeTruncated(password: string) returns (decoded: Option<string>, attempts: nat)
    requires |Encode(password)| > BcryptLimit
    ensures decoded == Some(Truncate(password, BcryptLimit))
    ensures |Encode(decoded.value)| <= BcryptLimit
    ensures attempts <= 3
  {
    var passwordBytes := Encode(password)[..BcryptLimit];
    ghost var fit := |Encode(Truncate(password, BcryptLimit))|;
    TruncateGap(password, BcryptLimit);
    decoded := None;
    var tempBytes := passwordBytes;
    attempts := 0;
    while |tempBytes| > 0 && attempts < MaxAttempts
      invariant attempts <= BcryptLimit - fit
      invariant tempBytes == Encode(password)[..BcryptLimit - attempts]
      invariant decoded == None
      decreases |tempBytes|
    {
      AttemptOutcome(password, BcryptLimit - attempts);
      var d := Decode(tempBytes);
      if d.Some? {
        decoded := d;
        break;
      }
      tempBytes := tempBytes[..|tempBytes| - 1];
      attempts := attempts + 1;
    }
  }

  /** Decoding the first `m` bytes of an over-long password, for `m` from
      72 down to the length that fits, succeeds only at that length, with
      the longest character prefix that fits. */
  lemma AttemptOutcome(password: string, m: nat)
    requires |Encode(password)| > BcryptLimit
    requires |Encode(Truncate(password, BcryptLimit))| <= m <= BcryptLimit
    ensures Decode(Encode(password)[..m]).Some? ==> m == |Encode(Truncate(password, BcryptLimit))|
    ensures m == |Encode(Truncate(password, BcryptLimit))| ==> Decode(Encode(password)[..m]) == Some(Truncate(password, BcryptLimit))
  {
    if m > |Encode(Truncate(password, BcryptLimit))| {
      NoLongerDecodes(password, BcryptLimit, m);
    } else {
      TruncateDecodes(password, BcryptLimit);
    }
  }

  /** `while len(password.encode('utf-8')) > 72 and len(password) > 0:
      password = password[:-1]`: the longest character prefix that fits. */
  method DropTrailingChars(p: string) returns (q: string)
    ensures q == Truncate(p, BcryptLimit)
    ensures |Encode(q)| <= BcryptLimit
  {
    var k := CharsWithin(p, BcryptLimit);
    TruncateFits(p, BcryptLimit);
    q := p;
    while |Encode(q)| > BcryptLimit && |q| > 0
      invariant k <= |q| <= |p| && q == p[..|q|]
      decreases |q|
    {
      q := q[..|q| - 1];
      assert q == p[..|q|];
    }
    if k + 1 < |q| {
      EncodeGrows(p, k + 1, |q|);
    }
  }

  /** Everything `get_password_hash` does before calling bcrypt: the
      password it hashes and the bytes it passes to `hashpw`. */
  method PrepareForHash(password: string) returns (prepared: string, passwordBytes: seq<byte>)
    ensures prepared == Truncated(password)
    ensures passwordBytes == BcryptInput(password)
  {
    prepared := password;
    passwordBytes := Encode(prepared);
    if |passwordBytes| > BcryptLimit {
      var decoded, _ := DecodeTruncated(prepared);
      if decoded.Some? {
        prepared := decoded.value;
        if |Encode(prepared)| > BcryptLimit {
          prepared := DropTrailingChars(prepared);
        }
      } else {
        prepared := DropTrailingChars(Take(password, FallbackChars));
      }
    }
    if |Encode(prepared)| > BcryptLimit {
      prepared := DecodeIgnore(Take(Encode(prepared), BcryptLimit));
    }
    if |Encode(prepared)| > BcryptLimit {
      prepared := Take(prepared, ExtremeChars);
    }
    passwordBytes := Encode(prepared);
    if |passwordBytes| > BcryptLimit {
      passwordBytes := Take(passwordBytes, BcryptLimit);
    }
  }

  /** `get_password_hash`: bcrypt's hash of the prepared bytes; when bcrypt
      raises, passlib's hash of the prepared password if passlib is in use,
      else the exception (`None`). */
  method GetPasswordHash(password: string, hashpw: seq<byte> -> Option<string>,
                         passlibHash: Option<string -> Option<string>>) returns (r: Option<string>)
    ensures hashpw(BcryptInput(password)).Some? ==> r == hashpw(BcryptInput(password))
    ensures hashpw(BcryptInput(password)).None? && passlibHash.Some? ==> r == passlibHash.value(Truncated(password))
    ensures hashpw(BcryptInput(password)).None? && passlibHash.None? ==> r.None?
  {
    var prepared, passwordBytes := PrepareForHash(password);
    var hashed := hashpw(passwordBytes);
    if hashed.Some? {
      r := hashed;
    } else if passlibHash.Some? {
      r := passlibHash.value(prepared);
    } else {
      r := None;
    }
  }

  /** `verify_password`: the same truncation, then bcrypt's verdict on the
      prepared bytes; when bcrypt raises, passlib's verdict if passlib is in
      use, and `False` in place of any further exception. */
  method VerifyPassword(plainPassword: string, hashedPassword: string,
                        checkpw: (seq<byte>, seq<byte>) -> Option<bool>,
                        passlibVerify: Option<(string, string) -> Option<bool>>) returns (ok: bool)
    ensures var verdict := checkpw(BcryptInput(plainPassword), Encode(hashedPassword));
      (verdict.Some? ==> ok == verdict.value)
      && (verdict.None? && passlibVerify.Some? ==> ok == passlibVerify.value(Truncated(plainPassword), hashedPassword).GetOr(false))
      && (verdict.None? && passlibVerify.None? ==> !ok)
  {
    var plain := plainPassword;
    var passwordBytes := Encode(plain);
    if |passwordBytes| > BcryptLimit {
      var decoded, _ := DecodeTruncated(plain);
      if decoded.Some? {
        plain := decoded.value;
      } else {
        plain := DropTrailingChars(Take(plain, FallbackChars));
      }
      var finalCheck := Encode(plain);
      if |finalCheck| > BcryptLimit {
        plain := DecodeIgnore(Take(finalCheck, BcryptLimit));
      }
    }
    passwordBytes := Encode(plain);
    if |passwordBytes| > BcryptLimit {
      passwordBytes := Take(passwordBytes, BcryptLimit);
    }
    var result := checkpw(passwordBytes, Encode(hashedPassword));
    if result.Some? {
      ok := result.value;
    } else if passlibVerify.Some? {
      ok := passlibVerify.value(plain, hashedPassword).GetOr(false);
    } else {
      ok := false;
    }
  }
}

=== FILE: sorting.dfy ===
/** The `WHERE`, `ORDER BY <date> DESC` and `OFFSET`/`LIMIT` clauses the API
    queries use. PostgreSQL places NULL first in a descending order. It
    promises no order among rows with the same key; the model keeps them in
    table order, the same order in every query. */
module Sorting {
  import opened Common

  /** `a` may come before `b` in a descending order with NULLs first. */
  predicate NotOlder(a: Option<int>, b: Option<int>) {
    a.None? || (b.Some? && a.value >= b.value)
  }

  predicate NewestFirst<T>(s: seq<T>, key: T -> Option<int>) {
    forall i, j :: 0 <= i < j < |s| ==> NotOlder(key(s[i]), key(s[j]))
  }

  /** Puts `x` in front of the first element it is not older than. */
  function Insert<T>(x: T, s: seq<T>, key: T -> Option<int>): seq<T> {
    if s == [] || NotOlder(key(x), key(s[0])) then [x] + s
    else [s[0]] + Insert(x, s[1..], key)
  }

  /** The rows of `s` ordered newest first; equal keys in table order, one
      of the orders PostgreSQL may choose. */
  function SortNewestFirst<T>(s: seq<T>, key: T -> Option<int>): seq<T> {
    if s == [] then [] else Insert(s[0], SortNewestFirst(s[1..], key), key)
  }

  lemma {:induction false} InsertPermutes<T>(x: T, s: seq<T>, key: T -> Option<int>)
    ensures multiset(Insert(x, s, key)) == multiset([x] + s)
  {
    if !(s == [] || NotOlder(key(x), key(s[0]))) {
      InsertPermutes(x, s[1..], key);
      assert s == [s[0]] + s[1..];
    }
  }

  /** A key no newer than `b` stays so after an insertion of such a key. */
  lemma {:induction false} InsertBound<T>(b: Option<int>, x: T, s: seq<T>, key: T -> Option<int>)
    requires NotOlder(b, key(x))
    requires forall i :: 0 <= i < |s| ==> NotOlder(b, key(s[i]))
    ensures forall j :: 0 <= j < |Insert(x, s, key)| ==> NotOlder(b, key(Insert(x, s, key)[j]))
  {
    if !(s == [] || NotOlder(key(x), key(s[0]))) {
      InsertBound(b, x, s[1..], key);
    }
  }

  lemma {:induction false} InsertSorted<T>(x: T, s: seq<T>, key: T -> Option<int>)
    requires NewestFirst(s, key)
    ensures NewestFirst(Insert(x, s, key), key)
  {
    if s == [] || NotOlder(key(x), key(s[0])) {
      forall i, j | 0 <= i < j < |[x] + s| ensures NotOlder(key(([x] + s)[i]), key(([x] + s)[j])) {
        if i == 0 && j > 1 {
          assert NotOlder(key(s[0]), key(s[j - 1]));
        }
      }
    } else {
      var t := s[1..];
      assert NewestFirst(t, key) by {
        forall i, j | 0 <= i < j < |t| ensures NotOlder(key(t[i]), key(t[j])) {
          assert t[i] == s[i + 1] && t[j] == s[j + 1];
        }
      }
      InsertSorted(x, t, key);
      assert forall i :: 0 <= i < |t| ==> NotOlder(key(s[0]), key(t[i])) by {
        forall i | 0 <= i < |t| ensures NotOlder(key(s[0]), key(t[i])) {
          assert t[i] == s[i + 1];
        }
      }
      InsertBound(key(s[0]), x, t, key);
      var r := Insert(x, s, key);
      assert r == [s[0]] + Insert(x, t, key);
    }
  }

  /** The order is newest first and is a permutation of the rows. */
  lemma {:induction false} SortNewestFirstCorrect<T>(s: seq<T>, key: T -> Option<int>)
    ensures NewestFirst(SortNewestFirst(s, key), key)
    ensures multiset(SortNewestFirst(s, key)) == multiset(s)
  {
    if s != [] {
      SortNewestFirstCorrect(s[1..], key);
      InsertPermutes(s[0], SortNewestFirst(s[1..], key), key);
      InsertSorted(s[0], SortNewestFirst(s[1..], key), key);
      assert s == [s[0]] + s[1..];
    }
  }

  /** `OFFSET offset LIMIT size`. */
  function Page<T>(s: seq<T>, offset: nat, size: nat): (r: seq<T>)
    ensures |r| == Min(size, |s| - Min(offset, |s|))
    ensures forall k :: 0 <= k < |r| ==> r[k] == s[offset + k]
  {
    var start := Min(offset, |s|);
    Take(s[start..], size)
  }

  /** Row `j` lies on page `b` (counted from 0) of pages of `size` rows,
      the page starting at row `offset`. */
  lemma {:induction false} PageOf(j: nat, size: nat) returns (b: nat, offset: nat)
    requires size >= 1
    ensures offset == b * size && offset <= j < offset + size
    decreases j
  {
    if j < size {
      b, offset := 0, 0;
    } else {
      var c, before := PageOf(j - size, size);
      b, offset := c + 1, before + size;
      assert b * size == c * size + size;
    }
  }

  /** The page starting at most `size` rows before row `j` holds it. */
  lemma PageHolding<T>(s: seq<T>, j: nat, offset: nat, size: nat)
    requires j < |s| && offset <= j < offset + size
    ensures s[j] in Page(s, offset, size)
  {
    assert Page(s, offset, size)[j - offset] == s[j];
  }

  /** `ORDER BY key DESC LIMIT n`: the rows returned are rows of `s`, newest
      first, as many as `n` allows; a row left out was left out because `n`
      rows came back, none of them older than it. */
  lemma TopNewest<T>(s: seq<T>, key: T -> Option<int>, n: nat)
    ensures NewestFirst(Take(SortNewestFirst(s, key), n), key)
    ensures |Take(SortNewestFirst(s, key), n)| == Min(n, |s|)
    ensures forall x :: x in Take(SortNewestFirst(s, key), n) ==> x in s
    ensures forall y :: y in s && y !in Take(SortNewestFirst(s, key), n) ==>
      |Take(SortNewestFirst(s, key), n)| == n
      && forall i :: 0 <= i < n ==> NotOlder(key(Take(SortNewestFirst(s, key), n)[i]), key(y))
  {
    var sorted := SortNewestFirst(s, key);
    SortNewestFirstCorrect(s, key);
    assert |sorted| == |multiset(sorted)| == |multiset(s)| == |s|;
    assert forall x :: x in sorted <==> x in s by {
      forall x ensures x in sorted <==> x in s {
        assert x in sorted <==> x in multiset(sorted);
        assert x in s <==> x in multiset(s);
      }
    }
    var r := Take(sorted, n);
    forall y | y in s && y !in r
      ensures |r| == n && forall i :: 0 <= i < n ==> NotOlder(key(r[i]), key(y))
    {
      var j :| 0 <= j < |sorted| && sorted[j] == y;
      forall i | 0 <= i < n ensures NotOlder(key(r[i]), key(y)) {
        assert r[i] == sorted[i];
      }
    }
  }

  /** `ORDER BY key DESC OFFSET offset LIMIT size`: at most `size` rows of
      `s`, newest first; with `offset` rows skipped, a page is full unless
      it is the last one. */
  lemma SortedPage<T>(s: seq<T>, key: T -> Option<int>, offset: nat, size: nat)
    ensures NewestFirst(Page(SortNewestFirst(s, key), offset, size), key)
    ensures |Page(SortNewestFirst(s, key), offset, size)| == Min(size, |s| - Min(offset, |s|))
    ensures forall x :: x in Page(SortNewestFirst(s, key), offset, size) ==> x in s
  {
    var sorted := SortNewestFirst(s, key);
    SortNewestFirstCorrect(s, key);
    assert |sorted| == |multiset(sorted)| == |multiset(s)| == |s|;
    var r := Page(sorted, offset, size);
    forall i, j | 0 <= i < j < |r| ensures NotOlder(key(r[i]), key(r[j])) {
      assert r[i] == sorted[offset + i] && r[j] == sorted[offset + j];
    }
    forall x | x in r ensures x in s {
      var k :| 0 <= k < |r| && r[k] == x;
      assert sorted[offset + k] == x;
      assert x in multiset(sorted);
    }
  }

  /** `WHERE p`: the rows satisfying `p`, in table order. */
  function Where<T(!new)>(s: seq<T>, p: T -> bool): (r: seq<T>)
    ensures |r| <= |s|
    ensures forall x :: x in r <==> x in s && p(x)
  {
    if s == [] then []
    else (if p(s[0]) then [s[0]] else []) + Where(s[1..], p)
  }

  /** A row added at the end is selected after the others, when it meets
      the condition. */
  lemma {:induction false} WhereSnoc<T(!new)>(s: seq<T>, x: T, p: T -> bool)
    ensures Where(s + [x], p) == Where(s, p) + (if p(x) then [x] else [])
    decreases |s|
  {
    if s == [] {
      assert [] + [x] == [x];
      assert [x][1..] == [];
    } else {
      assert (s + [x])[0] == s[0] && (s + [x])[1..] == s[1..] + [x];
      WhereSnoc(s[1..], x, p);
    }
  }

  /** The positions whose row meets `p`. */
  function Positions<T>(s: seq<T>, p: T -> bool): set<nat> {
    set k: nat | k < |s| && p(s[k])
  }

  /** A row added at the end adds its position when it meets `p`. */
  lemma PositionsSnoc<T>(init: seq<T>, x: T, p: T -> bool)
    ensures Positions(init + [x], p) == Positions(init, p) + (if p(x) then {|init|} else {})
  {
    var s := init + [x];
    forall k: nat ensures k in Positions(s, p) <==> k in Positions(init, p) + (if p(x) then {|init|} else {}) {
      if k < |init| {
        assert s[k] == init[k];
      }
    }
  }

  /** `COUNT(*) ... WHERE p`: as many rows are selected as there are
      positions whose row meets `p`. */
  lemma {:induction false} WhereCount<T(!new)>(s: seq<T>, p: T -> bool)
    ensures |Where(s, p)| == |Positions(s, p)|
    decreases |s|
  {
    if s != [] {
      var init := s[..|s| - 1];
      var last := s[|s| - 1];
      assert init + [last] == s;
      WhereSnoc(init, last, p);
      WhereCount(init, p);
      PositionsSnoc(init, last, p);
      if p(last) {
        assert |init| !in Positions(init, p);
        assert |Positions(init, p) + {|init|}| == |Positions(init, p)| + 1;
      } else {
        assert Positions(init, p) + {} == Positions(init, p);
      }
    }
  }

  /** A condition no row meets selects nothing. */
  lemma {:induction false} WhereNone<T(!new)>(s: seq<T>, p: T -> bool)
    requires forall x :: x in s ==> !p(x)
    ensures Where(s, p) == []
  {
    if s != [] {
      WhereNone(s[1..], p);
    }
  }

  /** Conditions that agree on every row select the same rows. */
  lemma {:induction false} WhereSame<T(!new)>(s: seq<T>, p: T -> bool, q: T -> bool)
    requires forall x :: p(x) == q(x)
    ensures Where(s, p) == Where(s, q)
  {
    if s != [] {
      WhereSame(s[1..], p, q);
    }
  }

  /** A stronger condition selects no more rows. */
  lemma {:induction false} WhereStronger<T(!new)>(s: seq<T>, p: T -> bool, q: T -> bool)
    requires forall x :: p(x) ==> q(x)
    ensures |Where(s, p)| <= |Where(s, q)|
  {
    if s != [] {
      WhereStronger(s[1..], p, q);
    }
  }

  /** Replacing one row changes the count by what the old and the new row
      contribute. */
  lemma {:induction false} WhereUpdate<T(!new)>(s: seq<T>, i: nat, y: T, p: T -> bool)
    requires i < |s|
    ensures |Where(s[i := y], p)| == |Where(s, p)| - (if p(s[i]) then 1 else 0) + (if p(y) then 1 else 0)
  {
    if i > 0 {
      assert s[i := y][1..] == s[1..][i - 1 := y];
      WhereUpdate(s[1..], i - 1, y, p);
    } else {
      assert s[i := y][1..] == s[1..];
    }
  }
}

=== FILE: store.dfy ===
/** The tables the backend reads and writes through its SQLAlchemy session:
    `convencoes`, `companies`, `convencao_empresas`, `notifications` and
    `notification_preferences`. Dates are day numbers, timestamps are
    seconds; a document's and a notification's id is its row position
    (neither table loses rows in this system), a company's id comes from a
    counter (companies can be deleted). */
module Store {
  import opened Common

  datatype Status = Processando | Processado | Erro

  /** `formato_documento`: what `DocumentProcessor.extract_text` reports. */
  datatype Format = Html | PdfDigital | PdfEscaneado | Unknown

  datatype Convencao = Convencao(
    id: nat,
    instrumentoId: string,
    titulo: Option<string>,
    tipo: Option<string>,
    dataPublicacao: Option<int>,
    vigenciaInicio: Option<int>,
    vigenciaFim: Option<int>,
    sindicatoEmpregador: Option<string>,
    sindicatoTrabalhador: Option<string>,
    municipio: Option<string>,
    uf: Option<string>,
    cnae: Option<string>,
    documentoUrl: Option<string>,
    documentoPath: Option<string>,
    textoExtraido: Option<string>,
    formato: Option<Format>,
    status: Status,
    createdAt: int)

  datatype Company = Company(
    id: nat,
    userId: nat,
    cnpj: string,
    razaoSocial: Option<string>,
    cnae: Option<string>,
    municipio: Option<string>,
    uf: Option<string>)

  /** A `convencao_empresas` row. */
  datatype Link = Link(convencaoId: nat, companyId: nat, score: int)

  datatype Notification = Notification(
    id: nat,
    userId: nat,
    convencaoId: Option<nat>,
    tipo: string,
    titulo: string,
    mensagem: string,
    lida: bool,
    createdAt: int)

  datatype Preference = Preference(
    userId: nat,
    emailEnabled: Option<bool>,
    pushEnabled: Option<bool>,
    frequencia: Option<string>)

  /** Every table at one moment. */
  datatype DbState = DbState(
    documents: seq<Convencao>,
    companies: seq<Company>,
    links: seq<Link>,
    notifications: seq<Notification>,
    preferences: seq<Preference>,
    nextCompanyId: nat)
  {
    predicate Valid() {
      DocumentsWellFormed(documents) && CompaniesWellFormed(companies, nextCompanyId)
      && LinksUnique(links) && LinkScoresPositive(links)
      && NotificationIdsArePositions(notifications) && PreferencesUnique(preferences)
      && PreferencesStored(preferences)
    }
  }

  /** Every table of `after` but `notifications` is as in `before`. */
  predicate OnlyNotificationsChanged(before: DbState, after: DbState) {
    after.documents == before.documents && after.companies == before.companies && after.links == before.links
    && after.preferences == before.preferences && after.nextCompanyId == before.nextCompanyId
  }

  /** Ids are row positions and `instrumento_id` is UNIQUE. */
  predicate DocumentsWellFormed(docs: seq<Convencao>) {
    (forall i :: 0 <= i < |docs| ==> docs[i].id == i)
    && (forall i, j :: 0 <= i < j < |docs| ==> docs[i].instrumentoId != docs[j].instrumentoId)
  }

  predicate CompaniesWellFormed(companies: seq<Company>, next: nat) {
    (forall i :: 0 <= i < |companies| ==> companies[i].id < next && CompanyStored(companies[i]))
    && CompanyIdsUnique(companies)
  }

  /** PostgreSQL's rule for a string assigned to a `VARCHAR(n)` column: a
      longer string is refused unless every character past `n` is a
      space. */
  predicate FitsVarchar(v: string, n: nat) {
    forall i :: n <= i < |v| ==> v[i] == ' '
  }

  /** What the column then holds: the string cut to `n` characters, which
      drops only spaces. */
  function AsVarchar(v: string, n: nat): (r: string)
    requires FitsVarchar(v, n)
    ensures |r| == Min(|v|, n) && r <= v
    ensures forall i :: |r| <= i < |v| ==> v[i] == ' '
  {
    if |v| <= n then v else v[..n]
  }

  /** A stored value fits again and is stored unchanged. */
  lemma AsVarcharIdempotent(v: string, n: nat)
    requires FitsVarchar(v, n)
    ensures FitsVarchar(AsVarchar(v, n), n) && AsVarchar(AsVarchar(v, n), n) == AsVarchar(v, n)
  {
  }

  /** A nullable `VARCHAR(n)` column accepts NULL and fitting strings. */
  predicate FitsColumn(v: Option<string>, n: nat) {
    v.Some? ==> FitsVarchar(v.value, n)
  }

  function AsColumn(v: Option<string>, n: nat): (r: Option<string>)
    requires FitsColumn(v, n)
    ensures r.Some? <==> v.Some?
    ensures r.Some? ==> r.value == AsVarchar(v.value, n)
  {
    if v.None? then None else Some(AsVarchar(v.value, n))
  }

  /** The widths of `companies` in `001_initial_migration.py`. */
  const CnpjWidth: nat := 14
  const RazaoSocialWidth: nat := 255
  const CnaeWidth: nat := 7
  const MunicipioWidth: nat := 100
  const UfWidth: nat := 2

  /** A row PostgreSQL accepts into `companies`. */
  predicate CompanyFits(c: Company) {
    FitsVarchar(c.cnpj, CnpjWidth) && FitsColumn(c.razaoSocial, RazaoSocialWidth) && FitsColumn(c.cnae, CnaeWidth)
    && FitsColumn(c.municipio, MunicipioWidth) && FitsColumn(c.uf, UfWidth)
  }

  /** A row as `companies` holds it: every string within its width. */
  predicate CompanyStored(c: Company) {
    |c.cnpj| <= CnpjWidth
    && (c.razaoSocial.Some? ==> |c.razaoSocial.value| <= RazaoSocialWidth)
    && (c.cnae.Some? ==> |c.cnae.value| <= CnaeWidth)
    && (c.municipio.Some? ==> |c.municipio.value| <= MunicipioWidth)
    && (c.uf.Some? ==> |c.uf.value| <= UfWidth)
  }

  /** The row the insert or update leaves, as `db.refresh` reads it back:
      the same row with the trailing spaces past each width cut off. A row
      already stored is kept as it is. */
  function StoredCompany(c: Company): (r: Company)
    requires CompanyFits(c)
    ensures CompanyStored(r) && r.id == c.id && r.userId == c.userId
    ensures CompanyStored(c) ==> r == c
  {
    Company(c.id, c.userId, AsVarchar(c.cnpj, CnpjWidth), AsColumn(c.razaoSocial, RazaoSocialWidth),
      AsColumn(c.cnae, CnaeWidth), AsColumn(c.municipio, MunicipioWidth), AsColumn(c.uf, UfWidth))
  }

  /** The primary key of `companies`. */
  predicate CompanyIdsUnique(companies: seq<Company>) {
    forall i, j :: 0 <= i < j < |companies| ==> companies[i].id != companies[j].id
  }

  /** At most one link per (convencao, company) pair. */
  predicate LinksUnique(links: seq<Link>) {
    forall i, j :: 0 <= i < j < |links| ==>
      links[i].convencaoId != links[j].convencaoId || links[i].companyId != links[j].companyId
  }

  /** Every stored relevance score is 50 or 100. */
  predicate LinkScoresPositive(links: seq<Link>) {
    forall i :: 0 <= i < |links| ==> links[i].score == 50 || links[i].score == 100
  }

  predicate NotificationIdsArePositions(ns: seq<Notification>) {
    forall i :: 0 <= i < |ns| ==> ns[i].id == i
  }

  /** `frequencia` is `VARCHAR(20)`. */
  const FrequenciaWidth: nat := 20

  /** A row as `notification_preferences` holds it: its three settings are
      `NOT NULL` and `frequencia` is within its width. */
  predicate PreferenceStored(p: Preference) {
    p.emailEnabled.Some? && p.pushEnabled.Some? && p.frequencia.Some? && |p.frequencia.value| <= FrequenciaWidth
  }

  predicate PreferencesStored(ps: seq<Preference>) {
    forall i :: 0 <= i < |ps| ==> PreferenceStored(ps[i])
  }

  /** `notification_preferences.user_id` is UNIQUE. */
  predicate PreferencesUnique(ps: seq<Preference>) {
    forall i, j :: 0 <= i < j < |ps| ==> ps[i].userId != ps[j].userId
  }

  predicate HasLink(links: seq<Link>, convencaoId: nat, companyId: nat) {
    exists i :: 0 <= i < |links| && links[i].convencaoId == convencaoId && links[i].companyId == companyId
  }

  predicate HasInstrumento(docs: seq<Convencao>, instrumentoId: string) {
    exists i :: 0 <= i < |docs| && docs[i].instrumentoId == instrumentoId
  }

  /** The row of the company with id `id`, if there is one. */
  function CompanyIndex(companies: seq<Company>, id: nat): (r: Option<nat>)
    ensures r.Some? ==> r.value < |companies| && companies[r.value].id == id
    ensures r.None? ==> forall i :: 0 <= i < |companies| ==> companies[i].id != id
  {
    if companies == [] then None
    else if companies[0].id == id then Some(0)
    else match CompanyIndex(companies[1..], id)
      case None => None
      case Some(k) => Some(k + 1)
  }

  /** `db.query(Company).filter(Company.id == id, Company.user_id == user).first()`. */
  function OwnedCompanyIndex(companies: seq<Company>, id: nat, user: nat): (r: Option<nat>)
    ensures r.Some? ==> r.value < |companies| && companies[r.value].id == id && companies[r.value].userId == user
    ensures r.None? ==> forall i :: 0 <= i < |companies| ==> !(companies[i].id == id && companies[i].userId == user)
  {
    if companies == [] then None
    else if companies[0].id == id && companies[0].userId == user then Some(0)
    else match OwnedCompanyIndex(companies[1..], id, user)
      case None => None
      case Some(k) => Some(k + 1)
  }

  /** Some row of `companies` has id `id` and belongs to `user`. */
  predicate Owns(companies: seq<Company>, user: nat, id: nat) {
    exists i :: 0 <= i < |companies| && companies[i].id == id && companies[i].userId == user
  }

  /** How a path parameter reaches a `UUID(as_uuid=True)` column: the row id
      the text denotes, or `None` when the text is not a UUID, in which case
      the query raises and the request answers 500. Which spellings count as
      a UUID (hyphens, braces, letter case) is decided by the database driver
      and PostgreSQL, so the reading is a parameter; row ids stand for the
      UUIDs. */
  type UuidReader = string -> Option<nat>

  /** Ids of the companies `user` owns, in table order. */
  function UserCompanyIds(companies: seq<Company>, user: nat): (r: seq<nat>)
    ensures forall id :: id in r <==> Owns(companies, user, id)
  {
    if companies == [] then []
    else
      var rest := UserCompanyIds(companies[1..], user);
      assert forall id :: Owns(companies[1..], user, id) ==> Owns(companies, user, id) by {
        forall id | Owns(companies[1..], user, id) ensures Owns(companies, user, id) {
          var i :| 0 <= i < |companies[1..]| && companies[1..][i].id == id && companies[1..][i].userId == user;
          assert companies[i + 1] == companies[1..][i];
        }
      }
      assert forall id :: Owns(companies, user, id) ==> Owns(companies[1..], user, id) || (companies[0].id == id && companies[0].userId == user) by {
        forall id | Owns(companies, user, id) ensures Owns(companies[1..], user, id) || (companies[0].id == id && companies[0].userId == user) {
          var i :| 0 <= i < |companies| && companies[i].id == id && companies[i].userId == user;
          if i > 0 { assert companies[1..][i - 1] == companies[i]; }
        }
      }
      (if companies[0].userId == user then [companies[0].id] else []) + rest
  }

  /** The session: one field per table, updated in place by the
      operations of the other modules. */
  class Database {
    var documents: seq<Convencao>
    var companies: seq<Company>
    var links: seq<Link>
    var notifications: seq<Notification>
    var preferences: seq<Preference>
    var nextCompanyId: nat

    constructor ()
      ensures State() == DbState([], [], [], [], [], 0) && Valid()
    {
      documents, companies, links, notifications, preferences, nextCompanyId := [], [], [], [], [], 0;
    }

    function State(): DbState
      reads this
    {
      DbState(documents, companies, links, notifications, preferences, nextCompanyId)
    }

    predicate Valid()
      reads this
    {
      State().Valid()
    }
  }
}

=== FILE: text.dfy ===
/** The Python `str` operations the backend relies on, over `seq<char>`:
    `strip`, `split`, `splitlines`, `lower`/`upper`, `in`, `startswith`,
    `join`, digit filtering and character removal. */
module Text {
  import opened Common

  /** `str.isspace()`: the characters Python treats as whitespace. */
  predicate IsSpace(c: char) {
    c == ' ' || ('\t' <= c <= '\r') || ('\U{1C}' <= c <= '\U{1F}') || c == '\U{85}'
    || c == '\U{A0}' || c == '\U{1680}' || ('\U{2000}' <= c <= '\U{200A}')
    || c == '\U{2028}' || c == '\U{2029}' || c == '\U{202F}' || c == '\U{205F}'
    || c == '\U{3000}'
  }

  /** The characters at which `str.splitlines()` breaks a line. */
  predicate IsLineBreak(c: char) {
    ('\n' <= c <= '\r') || ('\U{1C}' <= c <= '\U{1E}') || c == '\U{85}'
    || c == '\U{2028}' || c == '\U{2029}'
  }

  predicate IsAsciiDigit(c: char) {
    '0' <= c <= '9'
  }

  predicate AllDigits(s: string) {
    forall i :: 0 <= i < |s| ==> IsAsciiDigit(s[i])
  }

  /** `"".join(filter(str.isdigit, s))`, for ASCII digits. */
  function Digits(s: string): (r: string)
    ensures |r| <= |s|
    ensures AllDigits(r)
    ensures AllDigits(s) ==> r == s
  {
    if s == [] then []
    else (if IsAsciiDigit(s[0]) then [s[0]] else []) + Digits(s[1..])
  }

  /** Filtering digits works piece by piece. */
  lemma {:induction false} DigitsAppend(a: string, b: string)
    ensures Digits(a + b) == Digits(a) + Digits(b)
    decreases |a|
  {
    if a != [] {
      assert (a + b)[0] == a[0] && (a + b)[1..] == a[1..] + b;
      DigitsAppend(a[1..], b);
    } else {
      assert a + b == b;
    }
  }

  /** Every digit of `s` is kept, in its place among the others: the
      filtered string is the digits before position `i`, then `s[i]` when
      it is a digit, then the digits after it. */
  lemma DigitsKeeps(s: string, i: nat)
    requires i < |s|
    ensures Digits(s) == Digits(s[..i]) + (if IsAsciiDigit(s[i]) then [s[i]] else []) + Digits(s[i + 1..])
  {
    var before, rest, after := s[..i], s[i..], s[i + 1..];
    var kept := if IsAsciiDigit(s[i]) then [s[i]] else [];
    assert s == before + rest;
    DigitsAppend(before, rest);
    assert rest[0] == s[i] && rest[1..] == after;
    assert Digits(rest) == kept + Digits(after);
    AppendAssoc(Digits(before), kept, Digits(after));
  }

  lemma AppendAssoc(a: string, b: string, c: string)
    ensures a + (b + c) == a + b + c
  {
  }

  /** `s.replace(c1, '').replace(c2, '')...`: every character of `cs` removed,
      the others kept in order. */
  function RemoveChars(s: string, cs: set<char>): (r: string)
    ensures |r| <= |s|
    ensures forall i :: 0 <= i < |r| ==> r[i] !in cs
    ensures (forall i :: 0 <= i < |s| ==> s[i] !in cs) ==> r == s
  {
    if s == [] then []
    else (if s[0] in cs then [] else [s[0]]) + RemoveChars(s[1..], cs)
  }

  /** A formatted CNPJ ("12.345.678/0001-90") without its punctuation. */
  function CleanCnpj(cnpj: string): string {
    RemoveChars(cnpj, {'.', '/', '-'})
  }

  /** A formatted CNAE ("6201-5/01") without its punctuation. */
  function CleanCnae(cnae: string): string {
    RemoveChars(cnae, {'-', '/'})
  }

  /** `str.lower()` on one character, for ASCII and Latin-1: the capitals
      `A`-`Z` and `À`-`Þ` (but `×`) move 32 code points down. */
  function LowerChar(c: char): char {
    if 'A' <= c <= 'Z' || ('\U{C0}' <= c <= '\U{DE}' && c != '\U{D7}') then (c as int + 32) as char else c
  }

  /** The one-character part of `str.upper()` on ASCII and Latin-1: `a`-`z`
      and `à`-`þ` (but `÷`) move 32 code points up. */
  function UpperChar(c: char): char {
    if 'a' <= c <= 'z' || ('\U{E0}' <= c <= '\U{FE}' && c != '\U{F7}') then (c as int - 32) as char else c
  }

  /** `c.upper()` for ASCII and Latin-1: three letters leave the one-character
      mapping, `ß` becoming `SS`, `ÿ` becoming `Ÿ` (U+0178) and `µ` becoming
      the Greek capital mu (U+039C). */
  function UpperOf(c: char): string {
    if c == '\U{DF}' then "SS"
    else if c == '\U{FF}' then "\U{178}"
    else if c == '\U{B5}' then "\U{39C}"
    else [UpperChar(c)]
  }

  /** `s.lower()`: one character for one. */
  function Lower(s: string): (r: string)
    ensures |r| == |s|
    ensures forall i :: 0 <= i < |s| ==> r[i] == LowerChar(s[i])
  {
    seq(|s|, i requires 0 <= i < |s| => LowerChar(s[i]))
  }

  /** `s.upper()`: each character's upper case in order; only `ß` doubles,
      so the length grows by one per `ß`. */
  function Upper(s: string): (r: string)
    ensures |s| <= |r| <= 2 * |s|
    ensures (forall i :: 0 <= i < |s| ==> s[i] != '\U{DF}') ==> |r| == |s|
    decreases |s|
  {
    if s == [] then [] else UpperOf(s[0]) + Upper(s[1..])
  }

  /** Upper-casing works piece by piece. */
  lemma {:induction false} UpperAppend(a: string, b: string)
    ensures Upper(a + b) == Upper(a) + Upper(b)
    decreases |a|
  {
    if a == [] {
      assert a + b == b;
    } else {
      assert (a + b)[0] == a[0] && (a + b)[1..] == a[1..] + b;
      UpperAppend(a[1..], b);
    }
  }

  /** The upper case of a character is its own upper case. */
  lemma UpperOfFixed(c: char)
    ensures Upper(UpperOf(c)) == UpperOf(c)
  {
    var u := UpperOf(c);
    if c == '\U{DF}' {
      assert u == ['S'] + ['S'];
      UpperAppend(['S'], ['S']);
      assert Upper(['S']) == UpperOf('S') + Upper([]);
    } else {
      assert |u| == 1 && u[1..] == [];
      assert Upper(u) == UpperOf(u[0]) + Upper([]);
    }
  }

  /** Upper-casing is idempotent. */
  lemma {:induction false} UpperIdempotent(s: string)
    ensures Upper(Upper(s)) == Upper(s)
    decreases |s|
  {
    if s != [] {
      UpperAppend(UpperOf(s[0]), Upper(s[1..]));
      UpperOfFixed(s[0]);
      UpperIdempotent(s[1..]);
    }
  }

  /** `s.rstrip()` */
  function RStrip(s: string): (r: string)
    ensures |r| <= |s| && r == s[..|r|]
    ensures r == [] || !IsSpace(r[|r| - 1])
    ensures forall k :: |r| <= k < |s| ==> IsSpace(s[k])
  {
    if |s| > 0 && IsSpace(s[|s| - 1]) then RStrip(s[..|s| - 1]) else s
  }

  /** `s.lstrip()` */
  function LStrip(s: string): (r: string)
    ensures |r| <= |s| && r == s[|s| - |r|..]
    ensures r == [] || !IsSpace(r[0])
    ensures forall k :: 0 <= k < |s| - |r| ==> IsSpace(s[k])
  {
    if |s| > 0 && IsSpace(s[0]) then LStrip(s[1..]) else s
  }

  /** `s.strip()`: it neither starts nor ends with whitespace. */
  function Strip(s: string): (r: string)
    ensures r == [] || (!IsSpace(r[0]) && !IsSpace(r[|r| - 1]))
  {
    LStrip(RStrip(s))
  }

  /** The stripped string is the slice of `s` left after dropping the
      leading and trailing whitespace. */
  lemma StripIsSlice(s: string)
    ensures StrippedAt(s, Strip(s), |RStrip(s)| - |Strip(s)|)
  {
    var t := RStrip(s);
    var r := LStrip(t);
    var i := |t| - |r|;
    assert i + |r| == |t|;
    assert r == t[i..];
    assert t[i..] == s[i..|t|] by {
      assert t == s[..|t|];
    }
    forall k | 0 <= k < i ensures IsSpace(s[k]) {
      assert IsSpace(t[k]);
      assert s[k] == t[k];
    }
    forall k | |t| <= k < |s| ensures IsSpace(s[k]) {
    }
  }

  /** `r` is `s[i..i+|r|]` and everything around it in `s` is whitespace. */
  ghost predicate StrippedAt(s: string, r: string, i: int) {
    0 <= i <= i + |r| <= |s| && r == s[i..i + |r|]
    && (forall k :: 0 <= k < i ==> IsSpace(s[k]))
    && (forall k :: i + |r| <= k < |s| ==> IsSpace(s[k]))
  }

  /** `sub` occurs in `s` at position `k`. */
  ghost predicate OccursAt(s: string, sub: string, k: int) {
    0 <= k && k + |sub| <= |s| && s[k..k + |sub|] == sub
  }

  function StartsWith(s: string, p: string): bool {
    |p| <= |s| && s[..|p|] == p
  }

  lemma DiffersAt(s: string, p: string, k: nat)
    requires k < |p| && k < |s| && s[k] != p[k]
    ensures !StartsWith(s, p)
  {
  }

  /** `s.find(sub)`: the first position where `sub` occurs, if any. */
  function IndexOf(s: string, sub: string): (r: Option<nat>)
    ensures r.Some? ==> OccursAt(s, sub, r.value) && forall k :: 0 <= k < r.value ==> !OccursAt(s, sub, k)
    ensures r.None? ==> forall k :: !OccursAt(s, sub, k)
    decreases |s|
  {
    if StartsWith(s, sub) then Some(0)
    else if s == [] then None
    else
      var rest := IndexOf(s[1..], sub);
      assert forall k :: 1 <= k && OccursAt(s, sub, k) ==> OccursAt(s[1..], sub, k - 1) by {
        forall k | 1 <= k && OccursAt(s, sub, k) ensures OccursAt(s[1..], sub, k - 1) {
          assert s[1..][k - 1..k - 1 + |sub|] == s[k..k + |sub|];
        }
      }
      if rest.None? then None
      else
        assert OccursAt(s, sub, rest.value + 1) by {
          assert s[1..][rest.value..rest.value + |sub|] == s[rest.value + 1..rest.value + 1 + |sub|];
        }
        Some(rest.value + 1)
  }

  /** Python's `sub in s`. */
  function Contains(s: string, sub: string): bool {
    IndexOf(s, sub).Some?
  }

  /** A string without the first character of `sub` does not contain it. */
  lemma NotContainsFirst(s: string, sub: string)
    requires |sub| > 0 && sub[0] !in s
    ensures !Contains(s, sub)
  {
  }

  /** An occurrence in a prefix of `s` is one in `s`. */
  lemma OccursInPrefix(s: string, n: nat, sub: string, k: int)
    requires n <= |s| && OccursAt(s[..n], sub, k)
    ensures OccursAt(s, sub, k)
  {
    forall j | 0 <= j < |sub| ensures s[k..k + |sub|][j] == sub[j] {
      assert s[k..k + |sub|][j] == s[k + j] == s[..n][k + j] == s[..n][k..k + |sub|][j];
    }
  }

  /** An occurrence stays one, shifted, after a prefix is put in front. */
  lemma OccursAfter(p: string, s: string, sub: string, k: int)
    requires OccursAt(s, sub, k)
    ensures OccursAt(p + s, sub, |p| + k)
  {
    assert (p + s)[|p| + k..|p| + k + |sub|] == s[k..k + |sub|];
  }

  lemma ContainsAt(s: string, sub: string, k: int)
    requires OccursAt(s, sub, k)
    ensures Contains(s, sub)
  {
  }

  /** `sep.join(pieces)` */
  function Join(pieces: seq<string>, sep: string): string {
    if |pieces| == 0 then ""
    else if |pieces| == 1 then pieces[0]
    else pieces[0] + sep + Join(pieces[1..], sep)
  }

  /** `s.split(sep)` for a non-empty separator (Python raises on an empty
      one): joining the pieces back with `sep` gives `s`, and no piece
      contains `sep`. */
  function SplitOn(s: string, sep: string): (r: seq<string>)
    requires |sep| > 0
    ensures |r| >= 1
    ensures Join(r, sep) == s
    ensures forall i, k :: 0 <= i < |r| ==> !OccursAt(r[i], sep, k)
    decreases |s|
  {
    match IndexOf(s, sep)
    case None => [s]
    case Some(i) =>
      var rest := SplitOn(s[i + |sep|..], sep);
      assert forall k :: OccursAt(s[..i], sep, k) ==> OccursAt(s, sep, k) by {
        forall k | OccursAt(s[..i], sep, k) ensures OccursAt(s, sep, k) {
          OccursInPrefix(s, i, sep, k);
        }
      }
      assert s == s[..i] + sep + s[i + |sep|..];
      [s[..i]] + rest
  }

  /** The lines of `s`, split at every line-break character. This differs
      from `str.splitlines()` only in empty lines (after a final break and
      between the two characters of "\r\n"), which every caller drops. */
  function Lines(s: string): (r: seq<string>)
    ensures |r| >= 1
    ensures forall i :: 0 <= i < |r| ==> NoLineBreak(r[i])
    ensures Concat(r) == WithoutLineBreaks(s)
  {
    if s == [] then [""]
    else if IsLineBreak(s[0]) then [""] + Lines(s[1..])
    else
      var rest := Lines(s[1..]);
      var r := [[s[0]] + rest[0]] + rest[1..];
      assert Concat(rest) == rest[0] + Concat(rest[1..]);
      assert r[1..] == rest[1..];
      assert forall i :: 1 <= i < |r| ==> r[i] == rest[i];
      r
  }

  predicate NoLineBreak(s: string) {
    forall j :: 0 <= j < |s| ==> !IsLineBreak(s[j])
  }

  function Concat(ps: seq<string>): string {
    if ps == [] then "" else ps[0] + Concat(ps[1..])
  }

  function WithoutLineBreaks(s: string): string {
    if s == [] then ""
    else (if IsLineBreak(s[0]) then "" else [s[0]]) + WithoutLineBreaks(s[1..])
  }

  /** `str(n)` for a natural number. */
  function NatToString(n: nat): (r: string)
    ensures |r| >= 1 && AllDigits(r)
  {
    if n < 10 then [DigitChar(n)] else NatToString(n / 10) + [DigitChar(n % 10)]
  }

  function DigitChar(d: nat): (c: char)
    requires d < 10
    ensures IsAsciiDigit(c)
  {
    ('0' as int + d) as char
  }

  /** `int(s)` for a string of ASCII digits. */
  function ParseNat(s: string): nat
    requires AllDigits(s)
  {
    if s == [] then 0 else ParseNat(s[..|s| - 1]) * 10 + (s[|s| - 1] as int - '0' as int)
  }

  /** `str(n)` for any integer. */
  function IntToString(n: int): string {
    if n < 0 then "-" + NatToString(-n) else NatToString(n)
  }

  /** `int(str(n)) == n`: the rendering of a count in a message is exact. */
  lemma {:induction false} NatToStringRoundTrip(n: nat)
    ensures ParseNat(NatToString(n)) == n
  {
    if n >= 10 {
      var p := NatToString(n / 10);
      NatToStringRoundTrip(n / 10);
      assert (p + [DigitChar(n % 10)])[..|p|] == p;
    }
  }

  /** Lowering is idempotent, so comparing lowered strings is insensitive
      to a second lowering. */
  lemma LowerIdempotent(s: string)
    ensures Lower(Lower(s)) == Lower(s)
  {
  }

  /** Stripping is idempotent. */
  lemma {:induction false} StripIdempotent(s: string)
    ensures Strip(Strip(s)) == Strip(s)
  {
    var r := Strip(s);
    StripNoEdgeSpace(r);
  }

  lemma StripNoEdgeSpace(r: string)
    requires r == [] || (!IsSpace(r[0]) && !IsSpace(r[|r| - 1]))
    ensures Strip(r) == r
  {
    assert RStrip(r) == r;
    assert LStrip(r) == r;
  }
}

=== FILE: utf8.dfy ===
/** Python's `str.encode('utf-8')` and strict `bytes.decode('utf-8')`.
    A Dafny `char` is a Unicode scalar value, so every string encodes. */
module Utf8 {
  import opened Common

  type byte = b: int | 0 <= b < 256

  /** How many bytes UTF-8 spends on `c`. */
  function Width(c: char): nat {
    var n := c as int;
    if n < 0x80 then 1 else if n < 0x800 then 2 else if n < 0x10000 then 3 else 4
  }

  /** The shortest encoding of one scalar value. */
  function EncodeChar(c: char): (r: seq<byte>)
    ensures |r| == Width(c)
  {
    var n := c as int;
    if n < 0x80 then [n]
    else if n < 0x800 then [0xC0 + n / 64, 0x80 + n % 64]
    else if n < 0x10000 then [0xE0 + n / 4096, 0x80 + (n / 64) % 64, 0x80 + n % 64]
    else [0xF0 + n / 262144, 0x80 + (n / 4096) % 64, 0x80 + (n / 64) % 64, 0x80 + n % 64]
  }

  /** `s.encode('utf-8')` */
  function Encode(s: string): (r: seq<byte>)
    ensures |r| >= |s|
  {
    if s == [] then [] else EncodeChar(s[0]) + Encode(s[1..])
  }

  /** The width a leading byte announces; 0 for a continuation byte or a
      byte that never starts a character. */
  function LeadWidth(b: byte): nat {
    if b < 0x80 then 1 else if b < 0xC0 then 0 else if b < 0xE0 then 2 else if b < 0xF0 then 3 else if b < 0xF8 then 4 else 0
  }

  /** The number the payload bits of `b[..w]` spell. */
  function CodePoint(b: seq<byte>, w: nat): int
    requires 1 <= w <= 4 && w <= |b|
  {
    var b0 := b[0] as int;
    if w == 1 then b0
    else if w == 2 then (b0 - 0xC0) * 64 + (b[1] as int - 0x80)
    else if w == 3 then (b0 - 0xE0) * 4096 + (b[1] as int - 0x80) * 64 + (b[2] as int - 0x80)
    else (b0 - 0xF0) * 262144 + (b[1] as int - 0x80) * 4096 + (b[2] as int - 0x80) * 64 + (b[3] as int - 0x80)
  }

  predicate IsScalar(n: int) {
    0 <= n < 0xD800 || 0xE000 <= n < 0x110000
  }

  /** The first character of `b` and its width, when `b` starts with the
      shortest encoding of a scalar value: the strict decoder rejects
      stray continuation bytes, truncated sequences, overlong forms,
      surrogates and values above U+10FFFF. */
  function DecodeFirst(b: seq<byte>): (r: Option<(char, nat)>)
    ensures r.Some? ==> 1 <= r.value.1 <= |b| && EncodeChar(r.value.0) == b[..r.value.1]
  {
    if b == [] then None
    else
      var w := LeadWidth(b[0]);
      if w == 0 || |b| < w then None
      else
        var n := CodePoint(b, w);
        if IsScalar(n) && EncodeChar(n as char) == b[..w] then Some((n as char, w)) else None
  }

  /** `b.decode('utf-8')`, `None` where Python raises `UnicodeDecodeError`. */
  function Decode(b: seq<byte>): (r: Option<string>)
    ensures r.Some? ==> Encode(r.value) == b
    decreases |b|
  {
    if b == [] then Some([])
    else match DecodeFirst(b)
      case None => None
      case Some((c, w)) =>
        match Decode(b[w..])
        case None => None
        case Some(rest) =>
          DecodeStep(b, c, w, rest);
          Some([c] + rest)
  }

  /** A first character and the decoding of the bytes after it encode back
      to the whole. */
  lemma DecodeStep(b: seq<byte>, c: char, w: nat, rest: string)
    requires w <= |b| && EncodeChar(c) == b[..w] && Encode(rest) == b[w..]
    ensures Encode([c] + rest) == b
  {
    EncodeCons(c, rest);
    assert b == b[..w] + b[w..];
  }

  lemma EncodeCons(c: char, rest: string)
    ensures Encode([c] + rest) == EncodeChar(c) + Encode(rest)
  {
    assert ([c] + rest)[1..] == rest;
  }

  /** `b.decode('utf-8', errors='ignore')`: bytes that start no valid
      character are dropped one at a time. */
  function DecodeIgnore(b: seq<byte>): string
    decreases |b|
  {
    if b == [] then []
    else match DecodeFirst(b)
      case None => DecodeIgnore(b[1..])
      case Some((c, w)) => [c] + DecodeIgnore(b[w..])
  }

  lemma LeadWidthOfEncoding(c: char)
    ensures LeadWidth(EncodeChar(c)[0]) == Width(c)
  {
  }

  /** The payload bits of an encoding spell the character back. */
  lemma CodePointOfEncoding(c: char, rest: seq<byte>)
    ensures CodePoint(EncodeChar(c) + rest, Width(c)) == c as int
  {
    var n := c as int;
    var b := EncodeChar(c) + rest;
    if 0x800 <= n < 0x10000 {
      assert b[0] as int == 0xE0 + n / 4096 && b[1] as int == 0x80 + (n / 64) % 64 && b[2] as int == 0x80 + n % 64;
      ThreeByteValue(n);
    } else if 0x10000 <= n {
      assert b[0] as int == 0xF0 + n / 262144 && b[1] as int == 0x80 + (n / 4096) % 64;
      assert b[2] as int == 0x80 + (n / 64) % 64 && b[3] as int == 0x80 + n % 64;
      FourByteValue(n);
    }
  }

  lemma DivMod64Unique(x: int, q: int, r: int)
    requires x == q * 64 + r && 0 <= r < 64
    ensures x / 64 == q && x % 64 == r
  {
  }

  lemma DivMod4096Unique(x: int, q: int, r: int)
    requires x == q * 4096 + r && 0 <= r < 4096
    ensures x / 4096 == q && x % 4096 == r
  {
  }

  lemma ThreeByteValue(n: int)
    requires 0 <= n
    ensures (n / 4096) * 4096 + ((n / 64) % 64) * 64 + n % 64 == n
  {
    var q, m := n / 4096, n % 4096;
    var h, l := m / 64, m % 64;
    assert n == (q * 64 + h) * 64 + l;
    DivMod64Unique(n, q * 64 + h, l);
    DivMod64Unique(q * 64 + h, q, h);
  }

  lemma FourByteValue(n: int)
    requires 0 <= n
    ensures (n / 262144) * 262144 + ((n / 4096) % 64) * 4096 + ((n / 64) % 64) * 64 + n % 64 == n
  {
    var q, m := n / 262144, n % 262144;
    var t, r := m / 4096, m % 4096;
    var h, l := r / 64, r % 64;
    assert n == ((q * 64 + t) * 64 + h) * 64 + l;
    DivMod64Unique(n, (q * 64 + t) * 64 + h, l);
    DivMod64Unique((q * 64 + t) * 64 + h, q * 64 + t, h);
    DivMod64Unique(q * 64 + t, q, t);
    assert n == (q * 64 + t) * 4096 + r;
    DivMod4096Unique(n, q * 64 + t, r);
  }

  /** Decoding the encoding of a character gives the character back. */
  lemma DecodeFirstOfEncoding(c: char, rest: seq<byte>)
    ensures DecodeFirst(EncodeChar(c) + rest) == Some((c, Width(c)))
  {
    var b := EncodeChar(c) + rest;
    LeadWidthOfEncoding(c);
    CodePointOfEncoding(c, rest);
    assert b[..Width(c)] == EncodeChar(c);
  }

  /** Two characters with the same encoding are the same character. */
  lemma EncodeCharInjective(c: char, d: char)
    requires EncodeChar(c) == EncodeChar(d)
    ensures c == d
  {
    DecodeFirstOfEncoding(c, []);
    DecodeFirstOfEncoding(d, []);
  }

  /** Strict decoding inverts encoding. */
  lemma {:induction false} DecodeEncode(s: string)
    ensures Decode(Encode(s)) == Some(s)
  {
    if s != [] {
      var b := Encode(s);
      DecodeFirstOfEncoding(s[0], Encode(s[1..]));
      assert b[Width(s[0])..] == Encode(s[1..]);
      DecodeEncode(s[1..]);
      assert [s[0]] + s[1..] == s;
    }
  }

  lemma {:induction false} EncodeAppend(a: string, b: string)
    ensures Encode(a + b) == Encode(a) + Encode(b)
  {
    if a != [] {
      var ab := a + b;
      assert ab[0] == a[0] && ab[1..] == a[1..] + b;
      EncodeAppend(a[1..], b);
      assert Encode(ab) == EncodeChar(a[0]) + Encode(a[1..] + b);
      assert Encode(a) == EncodeChar(a[0]) + Encode(a[1..]);
      assert EncodeChar(a[0]) + (Encode(a[1..]) + Encode(b)) == (EncodeChar(a[0]) + Encode(a[1..])) + Encode(b);
    } else {
      assert a + b == b;
    }
  }

  /** Encoding is prefix-free: an encoding that begins another one comes
      from a character prefix. */
  lemma {:induction false} EncodePrefix(s: string, p: string)
    requires |Encode(s)| <= |Encode(p)| && Encode(p)[..|Encode(s)|] == Encode(s)
    ensures |s| <= |p| && p[..|s|] == s
  {
    if s != [] {
      var w := Width(s[0]);
      assert p != [];
      assert EncodeChar(s[0])[0] == Encode(s)[0] == Encode(p)[0] == EncodeChar(p[0])[0];
      LeadWidthOfEncoding(s[0]);
      LeadWidthOfEncoding(p[0]);
      assert EncodeChar(s[0]) == Encode(s)[..w] == Encode(p)[..w] == EncodeChar(p[0]);
      EncodeCharInjective(s[0], p[0]);
      assert Encode(s)[w..] == Encode(s[1..]);
      assert Encode(p)[w..] == Encode(p[1..]);
      assert Encode(p[1..])[..|Encode(s[1..])|] == Encode(s[1..]);
      EncodePrefix(s[1..], p[1..]);
      assert p[..|s|] == [p[0]] + p[1..][..|s| - 1];
      assert s == [s[0]] + s[1..];
    }
  }

  /** The encoding of a character prefix is a byte prefix of the encoding. */
  lemma PrefixEncoding(p: string, k: nat)
    requires k <= |p|
    ensures |Encode(p[..k])| <= |Encode(p)| && Encode(p)[..|Encode(p[..k])|] == Encode(p[..k])
  {
    assert p == p[..k] + p[k..];
    EncodeAppend(p[..k], p[k..]);
  }

  /** The number of leading characters of `p` that fit in `n` bytes. */
  function CharsWithin(p: string, n: nat): (k: nat)
    ensures k <= |p|
  {
    if p == [] || Width(p[0]) > n then 0 else 1 + CharsWithin(p[1..], n - Width(p[0]))
  }

  /** The longest character prefix of `p` whose encoding fits in `n` bytes. */
  function Truncate(p: string, n: nat): string {
    p[..CharsWithin(p, n)]
  }

  /** `Truncate(p, n)` fits, is a prefix of `p`, and adding the next
      character would not fit. */
  lemma {:induction false} TruncateFits(p: string, n: nat)
    ensures |Encode(p[..CharsWithin(p, n)])| <= n
    ensures CharsWithin(p, n) < |p| ==> |Encode(p[..CharsWithin(p, n) + 1])| > n
  {
    var k := CharsWithin(p, n);
    if p != [] && Width(p[0]) <= n {
      var q := p[1..];
      TruncateFits(q, n - Width(p[0]));
      assert k - 1 == CharsWithin(q, n - Width(p[0]));
      assert p[..k] == [p[0]] + q[..k - 1];
      EncodeCons(p[0], q[..k - 1]);
      if k < |p| {
        assert p[..k + 1] == [p[0]] + q[..k];
        EncodeCons(p[0], q[..k]);
      }
    } else if p != [] {
      assert p[..1] == [p[0]] + [];
      EncodeCons(p[0], []);
    }
  }

  /** Longer character prefixes have longer encodings. */
  lemma EncodeGrows(p: string, i: nat, j: nat)
    requires i < j <= |p|
    ensures |Encode(p[..i])| < |Encode(p[..j])|
  {
    assert p[..j] == p[..i] + p[i..j];
    EncodeAppend(p[..i], p[i..j]);
  }

  /** A byte prefix of an encoding that is longer than the encoding of
      `Truncate(p, n)` but still within `n` bytes does not decode. */
  lemma NoLongerDecodes(p: string, n: nat, m: nat)
    requires m <= |Encode(p)| && |Encode(Truncate(p, n))| < m <= n
    ensures Decode(Encode(p)[..m]) == None
  {
    var k := CharsWithin(p, n);
    TruncateFits(p, n);
    var d := Decode(Encode(p)[..m]);
    if d.Some? {
      var s := d.value;
      EncodePrefix(s, p);
      if |s| <= k {
        if |s| < k { EncodeGrows(p, |s|, k); }
      } else {
        if k + 1 < |s| { EncodeGrows(p, k + 1, |s|); }
      }
    }
  }

  /** `Truncate(p, n)` decodes from the matching byte prefix. */
  lemma TruncateDecodes(p: string, n: nat)
    ensures var t := Truncate(p, n);
      |Encode(t)| <= |Encode(p)| && Decode(Encode(p)[..|Encode(t)|]) == Some(t)
  {
    var k := CharsWithin(p, n);
    PrefixEncoding(p, k);
    DecodeEncode(p[..k]);
  }

  /** No more than three bytes separate `n` from the end of the encoding of
      `Truncate(p, n)` when `p` does not fit in `n` bytes. */
  lemma TruncateGap(p: string, n: nat)
    requires |Encode(p)| > n
    ensures n - 3 <= |Encode(Truncate(p, n))| <= n
  {
    var k := CharsWithin(p, n);
    TruncateFits(p, n);
    WholeFits(p, n);
    assert p[..k + 1] == p[..k] + [p[k]];
    EncodeAppend(p[..k], [p[k]]);
  }

  /** When every character fits, the whole encoding does. */
  lemma WholeFits(p: string, n: nat)
    ensures CharsWithin(p, n) == |p| ==> |Encode(p)| <= n
  {
    TruncateFits(p, n);
    assert p[..|p|] == p;
  }
}
